=== FILE: README.md ===
# Speed Scrabble in Dafny

This project models the logic core of a speed-scrabble game. Each player is dealt letter
tiles. The player lays them on a board as a crossword, asks for one more tile at a time,
and submits the board to be scored. The repository holds several generations of the same
engine, and the model follows each of them.

- **Placement engine in the browser** (`public/js/grid.js`, `js/grid.js`,
  `public/js/game_manager.js`, `public/js/tile.js`, the vector helpers of
  `public/js/utils.js` and `js/utils.js`).
  - The board is a column-major matrix of optional tile handles, `tiles[x][y]`.
  - Each tile's record keeps its `position`, its `grid` and its `valid` flag.
  - The tray is a one-row grid or a dense list.
  - Module `JsGrid` holds the value-level operations, whose results are new grids and
    records. Module `JsGridProps` holds what is proved about them.
  - Class `JsGridClass.Grid` updates its matrix in place with those functions as
    specification. So do `JsTray.Tray`, `JsTiles.TileStore` and
    `JsGameManager.GameManager`.
  - The invariant proved throughout is *agreement*: every occupied cell holds a tile whose
    record names that cell and that grid.
- **Placement engine in WebAssembly** (`wasm/grid.go`, `wasm/game.go`,
  `wasm/highlight.go`, `wasm/input.go`, `wasm/handle.go`, `wasm/vec.go`).
  - The board is a row-major `Grid[y][x]` of tile indices, and the tray is a growable row.
  - Every tile records its zone and index. `WasmZones.Valid` states that cells and
    records agree in both directions.
  - `WasmZones`, `WasmActions` and `WasmInput` define each operation as a function on the
    whole client state, with its effect proved.
  - The class `WasmManager.GameManager` holds the global `mgr` and updates its fields in
    place. Every method is proved equal to its function.
- **Board scoring.**
  - The connected-component search, word reading, scoring and served-letter comparison of
    `game/board.go` are modelled in `VecSets`, `Words`, `Scores`, `GameBoard`,
    `GameScoring` and `GameScoreBoard`.
  - Those of `board.go` are modelled in `MainBoard`.
  - The grid variant of `server.go` is modelled in `ServerBoard`.
  - The dictionary is a `set<string>` parameter.
- **Dealing and rounds.**
  - The letter deck and per-game counter of `server.go` are in `ServerTiles` and
    `ServerGame`.
  - The client's counter and `maxScore` of `game.go` are in `Dealing`.
  - The round state machine of `game/game.go` and the client of `game/client.go` are in
    `Rounds`: one method per message case, plus a `Step` that dispatches on the message
    type.
- **Codecs.** `Messages` models the message-type name table and its JSON codec of
  `messages.go`. `Msg` models the one-byte type framing of `msg/messages.go`.

Randomness (`rand.Intn`, `rand.Shuffle`) is an input: a sequence of rolls or of swap
pairs. Only permutation properties are proved, so they hold whatever those inputs are.
Go's map iteration order is a nondeterministic choice (`:|`) inside methods. Pixel
positions are integers. Go's truncating integer division is written out as
`Vectors.TruncDiv`.

## Model

| member | source | states |
|---|---|---|
| Vectors.TruncDiv | wasm/vec.go:22-24 | Go's division truncates toward zero: the remainder has the dividend's sign and is smaller than the divisor in magnitude |
| Vectors.NegateUndoesStep | wasm/highlight.go:43-49 | a step by `d` followed by a step by `ScaleUp(d, -1)` returns to the start, which is how the highlight steps back |
| Vectors.TruncDivOfMultiple | wasm/vec.go:22-24 | an exact multiple divides back exactly under truncating division, whatever the signs |
| Vectors.Scale | wasm/vec.go:18-20 | for a non-zero factor, `ScaleDown` by the same factor gives the vector back (`v.ScaleUp(a).ScaleDown(a) == v`), whatever the signs |
| Vectors.ScaleDown | wasm/vec.go:22-24 | each component is rounded toward zero: scaled back up it is no larger than `v`'s in magnitude and short of it by less than `a` |
| Vectors.TruncTowardZero | wasm/vec.go:22-24 | the truncated quotient scaled back is no larger than the dividend in magnitude |
| VecSets.Neighbours | game/board.go:144-152 | the four coordinates searched from `v` are exactly its 4-neighbours |
| VecSets.Union | game/board.go:92-96 | inserting each element of `b` into `a` yields the set union |
| VecSets.FindConnectedTiles | game/board.go:144-152 | a search from `v` adds exactly tiles reachable from `v` in `s`, contains `v` when it is a tile, and leaves no step out of the result uncovered |
| VecSets.ExploredIsComponent | game/board.go:144-152 | a search started from an empty `found` yields exactly the 4-connected component of its start |
| VecSets.FindComponents | game/board.go:156-170 | the components returned cover `s`, are pairwise disjoint, each is a connected component of `s`, every component of `s` is among them, and none is listed twice |
| VecSets.ComponentOfMember | game/board.go:144-152 | the component of any tile of a component is that component |
| VecSets.ComponentListed | game/board.go:156-170 | a list of components that covers `s` lists every component of `s` |
| VecSets.ComponentsOfIff | game/board.go:156-170 | the set of components of `s`, one per tile, holds exactly the connected components of `s` |
| VecSets.ComponentClosed | game/board.go:144-152 | a component is closed: no step from it to a tile of `s` leaves it |
| VecSets.SmallComponentIsolated | game/board.go:218-222 | a one-tile component is exactly a tile with no neighbour |
| VecSets.LargeComponentNotIsolated | game/board.go:223-224 | in a component of two or more tiles every tile has a neighbour |
| Words.Run | game/board.go:181-187 | every tile of a run lies in the component |
| Words.WordAt | game/board.go:182-187 | the word starts with the letter at `v`, and is that letter alone when no tile follows in direction `d` |
| Words.ReadRun | game/board.go:181-187 | the loop of `followWord` collects exactly the maximal run after `v` in direction `d` and spells its letters |
| Words.FollowWord | game/board.go:175-189 | `(true, {})` when `v + d` is not a tile; otherwise the tiles are the maximal run from `v` and the verdict is dictionary membership of the word they spell |
| Words.CheckFrom | game/board.go:229-236 | one direction of the word check adds the tiles of a starting word to the valid or invalid set by its verdict |
| Words.WordTilesFromAll | game/board.go:223-238 | checking every tile in both directions gives the tiles of all valid and all invalid words of the component |
| Words.CheckWords | game/board.go:223-238 | in any iteration order, `valid` and `invalid` are exactly the tiles lying in some valid, resp. invalid, word, and `allValid` holds iff no word is invalid |
| Words.CheckedUnique | game/board.go:223-238 | the word check of a component has exactly one outcome: the tiles of valid words and those of invalid words |
| Words.WordSets | game/board.go:223-238 | that outcome, as a pair of subsets of the component |
| Scores.PointValueNonNegative | game.go:176-204 | no letter is worth a negative number of points |
| Scores.MPointsMono | game/board.go:261-273 | a larger multiset of letters is worth at least as much |
| Scores.SetPointsIsMPoints | board.go:201-207 | the points of a set of tiles are the points of the multiset of its letters |
| Scores.SetPointsMono | board.go:201-207 | a superset of tiles scores at least as much |
| Scores.SumPointsIsMPoints | game/board.go:298-303 | for tiles priced by `pointValues`, the sum of their `Points` equals the points of their letters |
| Scores.ScoreComponent | board.go:201-207 | summing over the set in any iteration order gives the component's letter points |
| Scores.BestOfIsMax | game/board.go:261-273 | the best score is at least 0, bounds every component total and is 0 or the total of some component |
| Scores.BestScore | game/board.go:261-273 | the loop that keeps a strictly larger total computes that maximum |
| Scores.ServedCounts | game/board.go:279-281 | after the first loop each letter's count is how often it was served |
| Scores.BoardCounts | game/board.go:282-284 | after the second loop each count is served minus placed |
| Scores.TileCounts | game/board.go:278-284 | both counting loops together leave served-minus-placed counts for every letter |
| Scores.CountedZero | board.go:219-223 | all counts zero means the board's letters equal the served letters |
| Scores.CountedNonNegative | game/board.go:285-293 | no negative count means no letter is on the board more often than served |
| Scores.CompareTileValues | game/board.go:277-294 | true exactly when the board's letter multiset is contained in the served letters' multiset |
| Scores.CompareTileValuesExact | board.go:210-227 | true exactly when the board's letters and the served letters are the same multiset |
| Scores.CatPoints | game/board_test.go:106-109 | tiles C, A and T are worth 5 points |
| GameBoard.BoardLetters | game/board.go:121-127 | the letters map has exactly the occupied cells as keys |
| GameBoard.CreateVecSetOfAllTiles | game/board.go:129-141 | the set built is exactly the cells of the grid that hold a letter |
| GameBoard.TallBoardReadsOutOfRange | game/board_test.go:52-55 | with `value` as written the "Tall board" makes the scan read `b[0][1]`, past a one-letter row |
| GameBoard.AsWrittenTransposes | game/board.go:121-127 | on a square board `value` as written reads the transposed board: it sees a tile where the cell is empty and none where the test expects one |
| GameBoard.Value | game/board.go:121-127 | corrected: the text of the tile at row `v.x`, column `v.y`, and "" for an empty cell |
| GameBoard.ValueAsWritten | game/board.go:121-127 | as written: the corrected value of the transposed cell `(v.y, v.x)` wherever that cell is on the board |
| GameBoard.String | game/board.go:343-357 | the text printed is each row's letters, a space per empty cell, then a newline |
| GameBoard.BoardTextLength | game/board.go:344-357 | a board of one-letter tiles prints `rows * (width + 1)` characters |
| GameBoard.PrintBoardExample | game/board_test.go:34-40 | the test board prints as "AB\n C\n" |
| GameScoring.FindValidScorableComponents | game/board.go:214-258 | the best score of the parts returned is `BestFor` of the board, whatever the iteration order; the invalid tiles become exactly `invalidAll` plus `InvalidFor` of the board; every part is a scorable subset of the board, and every isolated tile becomes invalid |
| GameScoring.ScorableParts | game/board.go:223-255 | for one component of two or more tiles, the best score of the parts found is `CompBest` of it; the invalid set grows by exactly `CompInvalid` of it, which is its invalid-word tiles plus, when some tile lies in no valid word, the invalid tiles of the valid-word tiles; every part is a scorable subset of it |
| GameScoring.BruteForceScorableComponents | game/board.go:194-210 | each invalid tile is tried once; the best score of the choice is the largest best score over all single-tile removals (`DropBest`), or 0; the choice is empty or one of the attempts, and no attempt beats it |
| GameScoring.TryWithout | game/board.go:199-203 | one attempt removes `elt`; the attempt score is the best score of the parts found and equals `BestFor` of the tiles left, and every part is scorable |
| GameScoring.WholeComponentScorable | game/board.go:240-244 | a component all of whose tiles lie in valid words, with no invalid word, is scorable |
| GameScoring.BestOfAtMostWhole | game/board.go:261-273 | no list of scorable parts of a set scores more than the whole set |
| GameScoring.LargeComponentIsolatedIn | game/board.go:218-224 | a component of two or more tiles has no isolated tile to report |
| GameScoring.BestOverIsMax | game/board.go:212-258 | the reference best score over the components of some tiles is at least 0, bounds the `CompBest` of each such component, and is 0 or equal to one of them |
| GameScoring.DropBestIsMax | game/board.go:194-210 | the reference best score over single-tile removals is at least 0, bounds `BestFor` of every removal, and is 0 or equal to one of them |
| GameScoring.InvalidOverIsUnion | game/board.go:212-258 | a tile is among the reference invalid tiles exactly when it is in the `CompInvalid` of the component of some tile scanned |
| GameScoring.BestOverAddComponent | game/board.go:216-256 | scanning one more whole component makes the best score the larger of the previous best and that component's best, so the order of components does not matter |
| GameScoring.DropBestAdd | game/board.go:198-208 | trying one more removal makes the best the larger of the previous best and that removal's best, so the order of tries does not matter |
| GameScoring.InvalidOverAddComponent | game/board.go:216-256 | scanning one more whole component adds exactly its `CompInvalid` tiles |
| GameScoring.BestOfConcat | game/board.go:261-273 | the best score of two lists joined is the larger of their best scores |
| GameScoring.InvalidWordTilesInvalid | game/board.go:229-239 | every tile of an invalid word of a component of two or more tiles is among the invalid tiles of the board |
| GameScoring.LoneTileInvalid | game/board.go:219-221 | every tile that forms a component on its own is among the invalid tiles of the board |
| GameScoring.InvalidForWithin | game/board.go:212-258 | the invalid tiles of a set are tiles of that set |
| GameScoring.WholeValidComponentCounted | game/board.go:240-249 | a component of two or more tiles whose words are all valid is never missed: the best score is at least its points |
| GameScoreBoard.MaxScore | game/board.go:300-303 | the first loop sums the `Points` of the served tiles |
| GameScoreBoard.Judge | game/board.go:310-340 | the score is served points minus the best score; no win unless it is 0 with as many tiles as served and compatible letters; a negative score, an oversize board or overused letters report all served points |
| GameScoreBoard.ScoreBoard | game/board.go:296-341 | win and score are as `Judge` decides for the board's best score `BestFor`; the invalid tiles are exactly `InvalidFor` of the board, so they include every lone tile and every tile of an invalid word; the ghost parts returned are scorable and reach that best score |
| GameScoreBoard.WinUsesExactlyTheTilesServed | game/board.go:322-337 | a winning board holds exactly the served letters, each as often as served |
| GameScoreBoard.HonestBoardScoresAtMostServed | game/board.go:315-320 | on an honest board no scorable part outscores the tiles served, so the "cheating suspected" reset needs an overused letter |
| GameScoreBoard.ScoreInRange | game/board.go:310-340 | with priced tiles the reported score lies between 0 and the served points |
| GameScoreBoard.EmptyBoardExample | game/board_test.go:48-51 | A, C, C served on an empty 2×2 board gives `{false, 7, {}}` |
| GameScoreBoard.TooManyBoardTilesExample | game/board_test.go:106-109 | five board tiles against C, A, T served gives no win and score 5 |
| MainBoard.MakeBoard | board.go:76-86 | no rows when the letter count is not `x * y`; otherwise `x` rows of `y` letters that read back as the letters in order |
| MainBoard.EvenRowsRectangular | board.go:76-86 | a board built of equal-length rows is rectangular with that width |
| MainBoard.CreateVecSetOfAllTiles | board.go:93-104 | the set built is exactly the cells that hold a letter |
| MainBoard.Value | board.go:88-90 | the letter at row `v.x`, column `v.y`, the order `createVecSetOfAllTiles` builds `Vec{i, j}` in |
| MainBoard.KeptParts | board.go:166-195 | a set is found exactly when it is kept from the component: the whole component when all its words are valid, nothing when all tiles lie in valid words but a word is invalid, else every component of the valid-word tiles; no set twice, each nonempty and inside the component; the invalid tiles grow by exactly the tiles of invalid words |
| MainBoard.FindValidScorableComponents | board.go:157-198 | every part kept from a component of two or more tiles is returned, only such parts are, and none twice; invalid tiles only grow by board tiles, and include every isolated tile |
| MainBoard.KeptFromChecked | board.go:166-195 | what is kept from a component is fixed by the outcome of its word check |
| MainBoard.KeptSetIff | board.go:157-198 | the reference set of parts holds exactly the parts kept from components of two or more tiles |
| MainBoard.GatheredStep | board.go:160-195 | scanning one more component keeps the gathered parts distinct and inside the scanned tiles, and gathers every part kept from it |
| MainBoard.ListsKept | board.go:157-198 | any duplicate-free list of exactly the kept parts is judged as the reference listing is |
| MainBoard.JudgedBySet | board.go:237-279 | the verdict depends on the parts and not on their order: lists of the same length holding the same sets get the same validity and score |
| MainBoard.DroppedNeverKept | board.go:183-188 | a component whose tiles all lie in valid words but which has an invalid word contributes nothing |
| MainBoard.KeptInValidWords | board.go:176-195 | every tile of a kept part lies in a valid word, and a whole kept component has no invalid word |
| MainBoard.NothingKeptFromSmall | board.go:160-164 | nothing is kept from a set of fewer than two tiles |
| MainBoard.ScoreBoard | board.go:230-280 | valid exactly when `ValidFor` holds of the parts kept from the board: exactly one part, as large as the tiles served, with the same letters and a best score equal to the max score; the score is `Reported` for those parts: max minus best, or max when cheating is suspected |
| MainBoard.ReportedInRange | board.go:245-256 | with a non-negative max score the reported score lies between 0 and it |
| MainBoard.ValidScoresAllServed | board.go:257-276 | a valid board scores 0, and its one part is worth exactly the served points |
| MainBoard.StrayTileStillValid | board.go:257-276 | only the one part is compared: the one-part list "CAT", with C, A, T served, meets `ValidFor` although the board holds a fourth tile Z |
| MainBoard.EmptyBoardExample | board_test.go:30-31 | an empty 2×2 board with A, C, C served gives `{false, 7}` |
| ServerTiles.PointValue | game.go:176-204 | a letter's value is its `pointValues` entry, and 0 for a letter with none |
| ServerTiles.CopiesCount | game.go:135-138 | `n` copies of `k` count `n` times for `k` and never for another letter |
| ServerTiles.AppendCopies | game.go:135-138 | the inner loop appends `n` priced tiles of letter `k` |
| ServerTiles.DealInOrder | game.go:134-139 | in any map order, the deal holds each letter exactly as often as `freq` says, each tile priced by `pointValues` |
| ServerTiles.SwapTiles | game.go:140-143 | one swap keeps the tiles priced and their letters' multiset |
| ServerTiles.Shuffle | game.go:140-143 | with any rolls the shuffle only permutes the tiles |
| ServerTiles.NewTiles | game.go:132-145 | every letter occurs exactly `freqMap` times in the deck, every tile priced by `pointValues` |
| ServerGame.AppendLetters | server.go:85-87 | the inner loop appends `n` copies of the letter |
| ServerGame.ShuffleLetters | server.go:89-92 | with any rolls the shuffle only permutes the letters |
| ServerGame.DealLetters | server.go:84-88 | in any map order, each letter appears exactly as often as `freq` says |
| ServerGame.NewLetterTiles | server.go:82-94 | every letter occurs exactly `freqMap` times |
| ServerGame.FullDealHasTwelve | server.go:55-60 | a full deal holds at least 18 letters, so the first twelve always exist |
| ServerGame.Game.constructor | server.go:51-53 | a fresh deal with nothing served |
| ServerGame.Game.GetInitialTiles | server.go:55-60 | the first twelve letters are served and returned |
| ServerGame.Game.GetNextTile | server.go:62-71 | corrected order: "" once the deck is used up, otherwise the next unserved letter, which joins the served prefix |
| ServerGame.AsWrittenSkipsThirteenth | server.go:62-71 | as written, after the first twelve the thirteenth letter is skipped while the count claims it was served |
| ServerGame.AsWrittenLastCallOutOfRange | server.go:62-71 | as written, `getNextTile` reads past the end of the deck exactly on the call made with one letter left |
| ServerGame.NextTileAsWritten | server.go:62-71 | as written: the count goes up by one (and stays put at the end of the deck), and the letter returned is the one after the old count, `tiles[tilesServed + 1]` |
| ServerBoard.FindConnectedTiles | server.go:99-110 | the search assigns exactly the unassigned cells reachable from `tile` to the current component and appends each once to its list |
| ServerBoard.ExploreFrom | server.go:104-109 | the branch that takes a new tile searches its four neighbours with the same guarantee |
| ServerBoard.VisitNeighbour | server.go:105-108 | one neighbour's recursive call extends the assignment and the list consistently |
| ServerBoard.ExploredFromCovered | server.go:99-110 | a search from an unassigned cell adds exactly that cell's connected component |
| ServerBoard.FindComponents | server.go:113-132 | the lists partition the occupied cells into connected components, each cell listed once |
| ServerBoard.ScanCell | server.go:121-126 | an unassigned occupied cell starts a new list; afterwards the cell is assigned |
| ServerBoard.VerifyComponentFailsIffIsolated | server.go:135-141 | for a listed component, `verifyComponent` fails exactly when its one tile has no neighbour |
| ServerBoard.VerifyComponent | server.go:134-141 | fails exactly for the empty list and for a single tile |
| ServerBoard.ReadWord | server.go:153-160 | the reading loops collect exactly the maximal run from `(i, j)` in direction `d` |
| ServerBoard.StartsDownIff | server.go:150-152 | the column guard, as intended, holds exactly where a vertical word of two or more letters starts |
| ServerBoard.StartsAcrossIff | server.go:165-167 | the row guard, as intended, holds exactly where a horizontal word starts |
| ServerBoard.VerifyCell | server.go:150-181 | a cell passes exactly when every word starting there is in the dictionary |
| ServerBoard.VerifyBoard | server.go:143-185 | with the guards as intended, true exactly when every vertical and horizontal run of two or more letters is a dictionary word |
| ServerBoard.GuardsAgreeInside | server.go:151-152 | where the cell below (right) exists, the guard as written agrees with the intended one |
| ServerBoard.ColumnGuardAsWritten | server.go:152 | as written, wherever `board[i+1]` exists the guard is only "the cell below holds a letter": `i == maxX` never decides it |
| ServerBoard.RowGuardAsWritten | server.go:167 | as written, for every column the loop visits (`j < maxY`) the guard is only "the cell to the right holds a letter" |
| ServerBoard.OneRowBoardReadsPastEnd | server.go:151-152 | on the one-row board "CAT" the guard as written reads the nonexistent row below, while the intended check reads "CAT" |
| Dealing.Game.constructor | game.go:30-38 | a fresh, priced deal with each letter `freqMap` times, no players, not running |
| Dealing.Game.IsRunning | game.go:24-28 | true exactly when the state is `RUNNING` |
| Dealing.Game.Contains | game.go:112-115 | true exactly when the client is a player |
| Dealing.Game.Insert | game.go:117-119 | afterwards the client is contained, and the players are the old ones plus it |
| Dealing.Client.constructor | game.go:49-55 | nothing served and a max score of 0 |
| Dealing.Client.AddToGame | game.go:57-64 | the client joins `g` and becomes one of its players, and nothing else changes |
| Dealing.Client.GetInitialTiles | game.go:66-77 | the first twelve tiles are served, and the invariant "max score is the points served" holds |
| Dealing.Client.GetNextTile | game.go:79-90 | an empty tile and no change once the deck is used up; otherwise the next tile joins those served and the invariant holds |
| Dealing.Client.TilesServedCount | game.go:92-96 | the number of tiles served |
| Dealing.Client.AllTilesServed | game.go:98-102 | the served tiles are the deck's prefix of length `tilesServed` |
| Dealing.Client.MaxScore | game.go:104-108 | the max score is the point sum of the tiles served |
| Dealing.MaxScoreIsLetterPoints | game.go:66-90 | with a priced deck the max score is the letter points the scorer counts for the served tiles |
| Rounds.MarkAfterReset | game/game.go:124-130 | after a reset, marking one player makes all ready exactly when it is the only player |
| Rounds.Client.AddTile | game/client.go:80-89 | `OutOfTiles` and no change once the deal is used up; otherwise the next tile, and the count grows by one |
| Rounds.Client.ScoreMarshalledBoard | game/client.go:92-100 | no score exactly for an undecodable board; otherwise win, score and invalid tiles are those of `scoreBoard` for this board against exactly the tiles served |
| Rounds.Game.Close | game/game.go:43-44 | the game is over and nothing else changes |
| Rounds.Game.AddPlayer | game/game.go:55-60 | the player joins not ready and others keep their flags |
| Rounds.Game.ResetClientReply | game/game.go:75-79 | the same players, none ready |
| Rounds.Game.AllClientsTrue | game/game.go:82-88 | true exactly when every player is ready (true with no players) |
| Rounds.Game.ServeStartingTiles | game/game.go:133-135 | every player starts the round with the opening tile count |
| Rounds.Game.RoundReady | game/game.go:115-136 | outside the waiting phase a new deal, no scores and all flags reset; the sender is marked; once all are ready the round runs with the opening tiles served; otherwise no player's served count changes; no player's game or name changes |
| Rounds.Game.HandleAddTile | game/game.go:137-142 | an error and no change outside a running round; otherwise the sender's `addTile` |
| Rounds.Game.Verify | game/game.go:143-163 | outside a running round no score and no change; otherwise win and score are those of `scoreBoard` for the sender's tiles; a losing board changes nothing; a winning one is recorded with only the winner marked |
| Rounds.Game.RecordWin | game/game.go:150-161 | the score is recorded, only the winner is marked, and the game is over exactly when the winner is the only player |
| Rounds.Game.SendBoard | game/game.go:164-180 | ignored unless scores are awaited; otherwise the sender's score from `scoreBoard` is recorded and marked, and the game ends once all boards are in |
| Rounds.Game.RecordBoard | game/game.go:172-180 | the sender is marked and recorded; over exactly when everyone is ready |
| Rounds.Game.Exit | game/game.go:181-188 | the player leaves; with none left the game is over |
| Rounds.Game.Step | game/game.go:112-189 | each message type has the effect of its case: `RoundReady` marks the sender and runs the round once all are ready; `AddTile` changes only the sender's count; `Verify` ends the running phase exactly on a win; `SendBoard` records the board's score; `Exit` removes the sender; a type with no case changes nothing |
| Rounds.RouteFrame | game/client.go:44-54 | `JoinGame` goes to the assigner, other types go to the game only when there is one, with byte 0 as type and the rest as payload |
| Rounds.RouteNewSocketData | game/client.go:44-54 | a frame built by `NewSocketData` reaches the game with the type and payload it was built from |
| Messages.MessageTypeToString | messages.go:30-46 | a name is non-empty exactly for the types `MsgOK..MsgGameOver` |
| Messages.UnquoteQuote | messages.go:48-54 | quoting then unquoting a name gives it back |
| Messages.NamesDistinct | messages.go:30-46 | different listed types have different names |
| Messages.MarshalJSON | messages.go:48-54 | panics exactly for an unlisted type; otherwise the JSON string of its name |
| Messages.UnmarshalJSON | messages.go:56-69 | a decode error exactly when the text is not a JSON string or `null` (a raw control character inside the quotes included); a panic exactly when the decoded name is in no table entry; otherwise the one type with that name |
| Messages.DecodeString | messages.go:57-61 | surrounding whitespace is skipped, `null` leaves the string at its zero value "", and a string literal gives its text; a literal holding a quote, a backslash or a raw control character is an error |
| Messages.NullPanics | messages.go:56-69 | `null` decodes without error to "", which names no type, so unmarshalling it panics |
| Messages.PaddedDecodes | messages.go:56-69 | whitespace around the JSON text is skipped: ` "exit" ` unmarshals to `MsgExit` |
| Messages.ControlCharRejected | messages.go:56-69 | a raw newline between the quotes is not a JSON string, so unmarshalling reports the decode error |
| Messages.RoundTrip | messages.go:48-69 | unmarshalling the marshalled form of any listed type gives that type back |
| Messages.String | messages.go:71-73 | the name in double quotes |
| Msg.TypeToString | msg/messages.go:32-47 | a name is non-empty exactly for the types up to `Result` |
| Msg.NamesDistinct | msg/messages.go:32-47 | different types have different names |
| Msg.String | msg/messages.go:49-51 | the name in double quotes |
| Msg.NewSocketData | msg/messages.go:58-69 | the error is always nil; the frame is the type byte followed by the payload, or empty when marshalling fails |
| Msg.SplitFrame | game/client.go:44-45 | an empty frame has no split; otherwise the type byte and payload rebuild the frame |
| Msg.SplitUndoesFrame | msg/messages.go:58-69 | splitting a built frame recovers its type and payload |
| JsTiles.ReadTileArg | public/js/tile.js:5-6 | a record argument gives its letter and points; a string gives `undefined` for both |
| JsTiles.NewTile | public/js/tile.js:1-19 | a new tile copies letter and points, sits at (0, 0) in its grid and is valid |
| JsTiles.TileStore.Add | public/js/tile.js:1-19 | a fresh tile gets the next handle |
| JsTiles.TileStore.SetPosition | public/js/grid.js:122 | only that tile's position changes |
| JsTiles.TileStore.Place | public/js/grid.js:78-79 | only that tile's position and grid change |
| JsTiles.TileStore.Invalidate | public/js/tile.js:32-38 | the tile is invalid afterwards and nothing else changes |
| JsTiles.TileStore.Validate | public/js/tile.js:40-46 | the tile is valid afterwards and nothing else changes |
| JsGrid.Setup | public/js/grid.js:22-33 | `size.x` columns of `size.y` empty cells |
| JsGrid.Set | public/js/grid.js:41-43 | afterwards the cell holds the new entry and no other cell or shape changed |
| JsGrid.AddTile | public/js/grid.js:76-83 | the cell takes the tile over any occupant, and only that tile's record changes, to name the cell and grid |
| JsGrid.RemoveTile | public/js/grid.js:45-47 | exactly the cell the tile's record names is emptied |
| JsGrid.Cleared | public/js/grid.js:50-60 | every cell is emptied and the shape is kept |
| JsGrid.FirstEmpty | public/js/grid.js:148-155 | the first empty cell in columns-outer, rows-inner order, or none |
| JsGrid.WithColumn | public/js/grid.js:163-172 | one more empty column; every tile stays |
| JsGrid.Expand | public/js/grid.js:162-186 | "left"/"right" widen by one column, "up"/"down" lengthen by one row, and the grid stays well formed |
| JsGrid.ExpandVerticalAsWritten | public/js/grid.js:176-185 | as written, the vertical branch grows `size.y` but pushes `size.x` entries onto the outer array |
| JsGrid.AddToFirstEmptyCell | public/js/grid.js:147-159 | the first empty cell takes the tile, or a full grid grows one column and the tile goes to its top (with `insertTile` read as in js/grid.js) |
| JsGrid.AddToFirstEmptyCellOrNone | js/grid.js:79-88 | `undefined` and no change exactly for a full grid; otherwise the first empty cell, which takes the tile |
| JsGrid.FindNearestEmptyCell | public/js/grid.js:132-144 | the computed cell exactly when it is in bounds and empty; only that one cell is looked at |
| JsGrid.NearestCell | js/grid.js:63-69 | with strict bounds a cell exactly for a point inside the grid, and that cell exists |
| JsGrid.NearestCellAsWritten | js/grid.js:48-54 | as written, a cell exactly when `isWithinBounds` (inclusive at both edges) holds |
| JsGrid.AddToNearestEmptyCell | js/grid.js:59-76 | falsy and no change outside; inside, the tile lands in the empty cell or back in its former cell and grid; the tile always ends in a cell its record names |
| JsGrid.MoveTileTo | public/js/game_manager.js:28-35 | the board is tried first: a drop inside it lands the tile on the cell under the point when that is empty, else back in its former cell, and leaves the tray alone for a board-homed tile; only outside the board does the tray decide in the same way; outside both, the board is untouched and the tile takes the tray's first empty cell |
| JsGrid.ShiftTiles | public/js/grid.js:86-129 | the board's size is kept and the tray keeps its height |
| JsGrid.Rotated | public/js/grid.js:88-99 | a horizontal shift of the matrix keeps its shape and size, and every record a tile in it names still exists |
| JsGrid.ShiftColumns | public/js/grid.js:109-128 | the column loop of a vertical shift keeps both grids ready for the shift, the board's size, the tray's height and the record count |
| JsGrid.SendAllFrom | public/js/grid.js:63-73 | the loop of `sendAllTiles` keeps both grids shaped with known tiles, the source's size and the record count |
| JsGridProps.RepositionAgrees | public/js/grid.js:119-127 | the positions loop makes every tile's record name its cell |
| JsGridProps.ExpandConserves | public/js/grid.js:162-186 | `expand` in any direction keeps exactly the tiles the grid held |
| JsGridProps.ExpandAgrees | public/js/grid.js:162-186 | `expand` keeps every tile's record in agreement with its cell |
| JsGridProps.ExpandLeftAgrees | public/js/grid.js:173-175 | after "left" every tile sits one column on and records it |
| JsGridProps.ExpandUpAgrees | public/js/grid.js:182-184 | after "up" every tile sits one row down and records it |
| JsGridProps.ExpandVerticalAsWrittenBreaksShape | public/js/grid.js:177-181 | as written the vertical branch leaves columns shorter than `size.y` and non-column entries in the outer array |
| JsGridProps.ExpandDownAddsRow | public/js/grid.js:176-181 | corrected: every column gains an empty cell at row `size.y` |
| JsGridProps.NearestCellAsWrittenFarEdge | js/grid.js:48-54 | as written, a point on the far right edge passes the bounds test and yields column `size.x`, which does not exist |
| JsGridProps.AddToFirstEmptyCellPlaces | public/js/grid.js:147-159 | the tile goes to the first empty cell, or to `(size.x, 0)` of a full grid; the grid gains exactly that tile |
| JsGridProps.AddToFirstEmptyCellOrNoneOcc | js/grid.js:79-88 | the grid gains the tile exactly when it was not full |
| JsGridProps.AddToFirstEmptyCellAgrees | public/js/grid.js:147-159 | placing a tile from another grid keeps this grid's agreement |
| JsGridProps.RotatedOcc | public/js/grid.js:93-99 | after a horizontal shift, the matrix plus the dropped column hold exactly the old tiles |
| JsGridProps.ShiftColumnsConserves | public/js/grid.js:106-128 | the vertical column loop moves tiles only between board and tray |
| JsGridProps.ShiftConserves | public/js/grid.js:86-129 | `shiftTiles` keeps the tiles: what leaves the board arrives in the tray |
| JsGridProps.ShiftMoves | public/js/grid.js:86-129 | every tile left on the board sits one cell further in the direction, and the vacated edge is empty |
| JsGridProps.ShiftAgrees | public/js/grid.js:86-129 | after a shift both board and tray agree with the records |
| JsGridProps.ExpandLeftIsShift | public/js/grid.js:170-175 | "left" is "right" followed by a right shift that leaves the tray untouched |
| JsGridProps.ExpandUpIsShift | public/js/grid.js:176-184 | "up" is the corrected "down" followed by a down shift that leaves the tray untouched |
| JsGridProps.SendColumnConserves | public/js/grid.js:65-72 | one column of `sendAllTiles` moves tiles only between the grids |
| JsGridProps.SendAllConserves | public/js/grid.js:63-73 | `sendAllTiles` keeps the tiles of both grids together |
| JsGridProps.SendAllEmpties | public/js/grid.js:63-73 | `sendAllTiles` leaves the source grid empty |
| JsGridProps.SendAllAgrees | public/js/grid.js:63-73 | both grids agree with the records afterwards |
| JsGridProps.SendAllTilesMoves | public/js/grid.js:63-73 | the source is empty, every tile is in the destination recording its cell there, and nothing is lost |
| JsGridClass.NewEmptyColumn | public/js/grid.js:89-92 | the loop builds `n` empty cells |
| JsGridClass.Grid.constructor | public/js/grid.js:1-33 | the new grid is the empty grid of `setup` |
| JsGridClass.Grid.SetPosition | public/js/grid.js:41-43 | the matrix becomes `Set` of the old one |
| JsGridClass.Grid.AddTile | public/js/grid.js:76-83 | the matrix and records become those of `addTile` |
| JsGridClass.Grid.RemoveTile | public/js/grid.js:45-47 | the tile's recorded cell is emptied |
| JsGridClass.Grid.RemoveAllTiles | public/js/grid.js:50-60 | every cell is emptied in place |
| JsGridClass.Grid.Widen | public/js/grid.js:163-172 | one more empty column at the far end |
| JsGridClass.Grid.AddToFirstEmptyCell | public/js/grid.js:147-159 | the scan loop stops at the first empty cell; the state becomes that of the specification function |
| JsGridClass.Grid.AddToFirstEmptyCellOrNone | js/grid.js:79-88 | the scan returns the cell used or `undefined`, as the function says |
| JsGridClass.Grid.RepositionColumn | public/js/grid.js:119-127 | each tile in the column records its cell |
| JsGridClass.Grid.AddEachToFirstEmptyCell | public/js/grid.js:100-104 | each tile of a dropped column, in order, goes to this grid's first empty cell |
| JsGridClass.Grid.DropColumn | public/js/grid.js:88-105 | the horizontal shift pops or shifts a column, brings in an empty one and hands the dropped tiles to the tray |
| JsGridClass.Grid.ShiftColumnCells | public/js/grid.js:107-113 | column `i` moves one cell and returns what fell off |
| JsGridClass.Grid.ShiftColumn | public/js/grid.js:106-128 | one pass of the column loop follows the specification's loop from column `i` to `i + 1` |
| JsGridClass.Grid.ShiftTiles | public/js/grid.js:86-129 | board, tray and records become those of `ShiftTiles` |
| JsGridClass.Grid.Expand | public/js/grid.js:162-186 | with the corrected vertical branch, the grid becomes `Expand` of the old and the tray is unchanged |
| JsGridClass.Grid.SendCell | public/js/grid.js:66-70 | one cell's tile moves to the other grid's first empty cell |
| JsGridClass.Grid.SendColumn | public/js/grid.js:65-72 | the inner loop follows the column specification |
| JsGridClass.Grid.SendAllTiles | public/js/grid.js:63-73 | both grids and the records become those of `sendAllTiles` |
| JsTray.IndexOf | public/js/grid.js:217 | the first index holding the tile, or -1 exactly when absent |
| JsTray.Renumber | public/js/grid.js:204-208 | the loop of `addTile` keeps one record per tile |
| JsTray.RenumberFrame | public/js/grid.js:204-208 | that loop changes positions only, and only those of listed tiles |
| JsTray.StepLeft | public/js/grid.js:218-222 | the loop of `removeTile` keeps one record per tile |
| JsTray.StepLeftFrame | public/js/grid.js:218-222 | that loop changes positions only, and only those of listed tiles |
| JsTray.TrayAdd | public/js/grid.js:201-214 | the list gains exactly the tile, which records the tray and `(index, 0)` (the end when no index is given); other records change at most in position, and those of unlisted tiles not at all |
| JsTray.TrayRemove | public/js/grid.js:216-224 | a listed tile loses exactly one copy from the list; for an unlisted tile the list becomes the prefix one shorter (empty stays empty); records change at most in position, and those of unlisted tiles not at all |
| JsTray.RenumberEffect | public/js/grid.js:205-209 | the tiles from `index` on record the next index |
| JsTray.StepLeftEffect | public/js/grid.js:218-222 | the tiles after the removed one step left |
| JsTray.TrayAddDense | public/js/grid.js:201-214 | an insert within the list keeps it dense and puts the tile at that index |
| JsTray.TrayAddPastEnd | public/js/grid.js:201-214 | an insert past the end puts the tile at the end of the list, and the list is no longer dense |
| JsTray.TrayRemoveDense | public/js/grid.js:216-224 | removing a listed tile splices it out and keeps the rest dense |
| JsTray.TrayRemoveAbsent | public/js/grid.js:216-224 | removing an unlisted tile drops the last listed tile instead |
| JsTray.NearestIndex | public/js/grid.js:226-232 | an index exactly when the cell is in row 0 and within the list |
| JsTray.Tray.constructor | public/js/grid.js:189-198 | a new tray is an empty list |
| JsTray.Tray.AddTile | public/js/grid.js:201-214 | the list and records become those of `TrayAdd` |
| JsTray.Tray.StepLeftFrom | public/js/grid.js:218-222 | the loop of `removeTile` leaves the records that `StepLeft` gives |
| JsTray.Tray.RemoveTile | public/js/grid.js:216-224 | the list and records become those of `TrayRemove` |
| JsTray.Tray.FindNearest | public/js/grid.js:226-232 | an index exactly when the cell is in row 0 and within the list |
| JsGameManager.StartLetter | public/js/game_manager.js:19-21 | start tile `i` has the letter `'A' + i`, one of A to L |
| JsGameManager.StartTilesAsWrittenUnlabelled | public/js/game_manager.js:18-25 | as written the constructor receives a string and reads no letter; the intended record carries the letter |
| JsGameManager.StartRecord | public/js/game_manager.js:22-23 | start tile `i` sits on the tray at `(i, 0)`, valid, with its letter |
| JsGameManager.StartTileArgAsWritten | public/js/game_manager.js:21-22 | as written the `Tile` constructor receives the bare one-letter string `'A' + i` |
| JsGameManager.StartTile | public/js/game_manager.js:21-22 | corrected: the record handed over has the letter `'A' + i` as its value, and 0 points |
| JsGameManager.TakeUp | public/js/tile.js:28-30 | `remove` empties the tile's recorded cell in its own grid and changes nothing else |
| JsGameManager.TakeUpAgrees | public/js/tile.js:49-52 | after taking a tile up both grids still agree and neither holds it |
| JsGameManager.DropAgrees | public/js/game_manager.js:28-35 | dropping a lifted tile anywhere keeps both grids in agreement |
| JsGameManager.DragAgrees | public/js/tile.js:49-84 | a whole drag keeps both grids in agreement and lands the tile in the cell its record names |
| JsGameManager.GameManager.constructor | public/js/game_manager.js:1-15 | a `size × size` board, a one-row tray of `startTiles` cells, and tiles A to L in the first tray cells |
| JsGameManager.GameManager.AddStartTiles | public/js/game_manager.js:18-25 | corrected: tiles A to L are inserted at tray cells 0 to 11 |
| JsGameManager.GameManager.AddToNearestEmptyCell | js/grid.js:59-76 | the state becomes that of `addToNearestEmptyCell` |
| JsGameManager.GameManager.MoveTileTo | public/js/game_manager.js:28-35 | the state becomes that of the three-tier drop, so the landing cells of `JsGrid.MoveTileTo` hold |
| JsGameManager.GameManager.RemoveTile | public/js/tile.js:28-30 | the state becomes that of `TakeUp` |
| WasmZones.IdxSize | wasm/grid.go:31-33 | the width is row 0's length and the height the number of rows |
| WasmZones.InCoordsInRow | wasm/grid.go:53-56 | on a rectangular grid `InCoords` is exactly a valid row and column index |
| WasmZones.Set | wasm/grid.go:44-46 | `Get` returns the new entry and no other cell changes |
| WasmZones.EmptyCells | wasm/grid.go:12-21 | `size.y` rows of `size.x` empty cells (none for a negative size) |
| WasmZones.CoordsOfInCanvas | wasm/grid.go:48-63 | a point strictly inside a canvas lies over one of the grid's cells |
| WasmZones.Coords | wasm/grid.go:58-63 | for a point right of and below the grid's corner, the cell whose square holds the point |
| WasmZones.BoardIndexInjective | wasm/game.go:78-94 | no two board tiles share an index |
| WasmZones.PickUp | wasm/game.go:78-86 | exactly the tile's cell is cleared and it is marked untracked |
| WasmZones.PickUpCells | wasm/game.go:78-86 | exactly the cell holding the tile becomes empty |
| WasmZones.AddTile | wasm/grid.go:23-29 | the tile is picked up and put into the cell, recording zone and index |
| WasmZones.Put | wasm/grid.go:24-28 | the tile records zone and index and the cell holds it; the other grid and every letter are untouched; an untracked tile put into an empty cell keeps the invariant |
| WasmZones.FirstNil | wasm/game.go:108-116 | the first empty tray slot, or the row length when all are taken |
| WasmZones.SendToTray | wasm/game.go:105-120 | the tile goes to the first empty slot, or to one appended slot, and the invariant holds |
| WasmZones.Grow | wasm/game.go:118 | one empty slot is appended to the tray row, nothing else changes, and the invariant holds |
| WasmZones.AddToBoard | wasm/game.go:89-94 | the tile is placed at the cell and the invariant holds |
| WasmZones.AddToBoardEffect | wasm/game.go:89-94 | a previous occupant goes to the first free tray slot, and no other tile moves |
| WasmZones.AddToTray | wasm/game.go:97-102 | corrected: the tile takes the requested slot when it is free, otherwise the first free slot left once the tile is picked up; only its zone and slot change, the invariant holds and no other tile moves |
| WasmZones.AddToTrayAsWritten | wasm/game.go:97-102 | as written it equals the corrected version on a free slot |
| WasmZones.AddToTrayAsWrittenLosesOccupant | wasm/game.go:97-102 | as written, dropping onto an occupied slot leaves the occupant claiming a slot that holds another tile |
| WasmZones.ToMove | wasm/game.go:159-169 | the work list holds exactly the board tiles with their shifted indices |
| WasmZones.ToMoveOrdered | wasm/game.go:160-169 | the work list follows tile order, so no tile is listed twice |
| WasmZones.ShiftBoard | wasm/game.go:154-174 | the shift keeps the invariant, the shapes and the letters |
| WasmZones.ShiftTiles | wasm/game.go:154-174 | the work list moves every board tile by `d` and no other tile |
| WasmZones.MoveAll | wasm/game.go:169-171 | applying the work list with `addToBoard` keeps the invariant, the shapes and the letters |
| WasmZones.BoardFollowsTiles | wasm/game.go:154-174 | afterwards the board is the old board translated by `d` |
| WasmZones.TrayFollowsTiles | wasm/game.go:154-174 | the tray keeps its tiles, and any new slots are empty |
| WasmZones.ShiftBoardEffect | wasm/game.go:154-174 | all or nothing: blocked means no change, otherwise every board tile moves by `d`, the board is translated and the tray only extended |
| WasmActions.LeadingTiles | wasm/game.go:123-132 | the number of leading coordinates that hold a tile |
| WasmActions.MarkInvalid | wasm/game.go:123-132 | marking keeps the invariant and moves no tile |
| WasmActions.MarkInvalidEffect | wasm/game.go:123-132 | exactly the board tiles at coordinates before the first empty one become marked, and nothing else changes |
| WasmActions.MarkAllValid | wasm/game.go:135-139 | every marker is cleared and nothing else changes |
| WasmActions.MarkAllValidUndoesMarkInvalid | wasm/game.go:123-139 | clearing all markers undoes any marking |
| WasmActions.SendBoardTiles | wasm/game.go:179-183 | the loop keeps the invariant, shapes and letters |
| WasmActions.SendBoardTilesEffect | wasm/game.go:179-183 | no tile stays on the board, former board tiles are on the tray, and the others have not moved |
| WasmActions.SendAllToTrayEffect | wasm/game.go:177-189 | the board is empty, every tile valid, and only board tiles moved, to the tray |
| WasmActions.SendAllToTray | wasm/game.go:177-189 | the moves keep the invariant, the shapes and the number of tiles |
| WasmActions.TrayTiles | wasm/game.go:194-200 | the list holds exactly the tray tiles, in tile order |
| WasmActions.TrayTilesDistinct | wasm/game.go:194-200 | no tray tile is listed twice |
| WasmActions.ApplySwaps | wasm/game.go:201-203 | any swaps only permute the list and keep it distinct |
| WasmActions.PickUpTrayEffect | wasm/game.go:194-200 | exactly the tray tiles are taken off; the board is unchanged |
| WasmActions.PickUpTray | wasm/game.go:194-200 | picking up the tray tiles keeps the invariant, the shapes, the tray's length and the letters |
| WasmActions.SendEachEffect | wasm/game.go:204-206 | the tile listed at position `j` goes to tray slot `j`, and no other tile moves |
| WasmActions.SendEach | wasm/game.go:204-206 | sending each listed tile to the tray keeps the invariant, the shapes and the letters |
| WasmActions.Shuffle | wasm/game.go:192-211 | the result is valid and holds the tray tiles in the shuffled order, unmarked |
| WasmInput.MoveHighlight | wasm/highlight.go:11-18 | the highlight moves to `idx + d`, or stays where it is when that cell is off the board; an on-board highlight stays on the board |
| WasmInput.MoveHighlightBack | wasm/highlight.go:11-18 | a step that stayed on the board is undone by the opposite step |
| WasmInput.ToggleDir | wasm/highlight.go:38-41 | the direction's components swap, so a unit direction turns |
| WasmInput.ToggleTwice | wasm/highlight.go:38-41 | two toggles restore the direction |
| WasmInput.HighlightCoords | wasm/highlight.go:52-56 | the highlight is shown at `c` with the same direction |
| WasmInput.Unhighlight | wasm/highlight.go:65-70 | hidden, at (-1, -1), pointing right |
| WasmInput.FirstTrayTile | wasm/highlight.go:28-35 | the first tray tile holding `v` in tile order, or none |
| WasmInput.FindForHighlight | wasm/highlight.go:23-36 | the state stays ready; the highlight either stays or moves on one step in its direction, and it moves whenever a tray tile holding `v` exists |
| WasmInput.FindForHighlightEffect | wasm/highlight.go:23-36 | when the highlighted cell already holds a `v` the tiles stay and the highlight advances; otherwise the first tray tile with `v` is fetched into the cell and the highlight advances; with no such tile nothing changes |
| WasmInput.BackspaceHighlight | wasm/highlight.go:43-49 | the highlight steps once against its direction |
| WasmInput.BackspaceEmptiesCell | wasm/highlight.go:43-49 | the highlighted cell becomes empty, and its former tile is on the tray |
| WasmInput.ClickOnTile | wasm/input.go:129-139 | the tile is held, and the recorded start zone is always `ZoneNone` |
| WasmInput.MouseDown | wasm/input.go:56-75 | a gesture starts at the point, and the tile under it is taken when there is one |
| WasmInput.Lift | wasm/input.go:129-136 | the tile is marked as moving and nothing else changes; the invariant holds |
| WasmInput.MouseMove | wasm/input.go:43-53 | during a gesture, that the mouse moved is recorded |
| WasmInput.Drop | wasm/input.go:155-169 | with the corrected `addToTray`: a drop inside the board puts the tile on the cell under the point; otherwise inside the tray on the slot under the point when free, else in the first free slot; outside both in the first free slot; only zone and index change and the invariant holds |
| WasmInput.ReleaseTile | wasm/input.go:152-173 | with the corrected `addToTray`: the tile lands where `Drop` says (the cell under the point for a board drop), every marker is cleared; a board drop with no highlight shows it on the drop cell, otherwise the highlight is kept |
| WasmInput.ReleaseUpdateHighlight | wasm/input.go:176-192 | a release off the board hides the highlight |
| WasmInput.HighlightAt | wasm/input.go:176-186 | the highlight is shown on the board cell under the point, which lies on the board |
| WasmInput.ClickHighlightsCell | wasm/input.go:178-187 | an unmoved click on the board leaves the highlight on that cell, turned exactly when it was already there |
| WasmInput.MouseUp | wasm/input.go:25-42 | with the corrected `addToTray` under the release: the gesture ends, and nothing happens without one |
| WasmInput.MouseUpLandsTile | wasm/input.go:25-42 | a held tile always lands on a grid, markers are cleared and no tile is lost |
| WasmInput.ClickOnTileWithoutHighlightTurns | wasm/input.go:176-192 | a click on a board tile with no highlight puts it back and leaves the highlight there, turned |
| WasmInput.ArrowDir | wasm/input.go:84-108 | each arrow key names one unit direction |
| WasmInput.Upper | wasm/input.go:119-120 | lower-case letters map to upper case, other characters stay |
| WasmInput.KeyDown | wasm/input.go:77-126 | nothing happens while no highlight is shown; otherwise arrows shift the board with Ctrl and move the highlight without it, space and Shift turn it, Backspace and Delete erase, other non-letter keys do nothing; the gesture and the tile count never change |
| WasmInput.KeyCaseInsensitive | wasm/input.go:118-121 | lower- and upper-case letter keys act the same |
| WasmInput.KeyDownLetter | wasm/input.go:118-121 | a letter key fetches its upper-case letter |
| WasmInput.SendAllTilesToTray | wasm/game.go:177-189 | the tiles move as `SendAllToTray` says (board emptied into the tray, all markers cleared), the highlight is hidden, and the tile count is kept |
| WasmInput.ShuffleTiles | wasm/game.go:192-211 | the tray tiles come back in the shuffled order |
| WasmInput.Reset | wasm/game.go:24-49 | an empty `boardSize` board, an empty one-row tray of `tileCnt` slots, no tiles, no gesture, hidden highlight |
| WasmInput.Receive | wasm/handle.go:511-520 | the received tile is appended and sent to the first free tray slot; no other tile changes |
| WasmInput.ReceiveAll | wasm/handle.go:506-509 | receiving a list adds exactly that many tiles and keeps the invariant |
| WasmInput.ReceiveAllDeals | wasm/handle.go:506-509 | the received tiles are dealt into consecutive tray slots |
| WasmInput.HandleSocketMsg | wasm/handle.go:486-542 | the code is 1 exactly when the payload does not fit the message type, and the state stays ready |
| WasmInput.StartDeals | wasm/handle.go:493-510 | `Start` deals the tiles into slots 0, 1, … of a fresh 16×16 board's tray |
| WasmManager.NewInnerGrid | wasm/grid.go:12-21 | the loops build the empty grid of `size` |
| WasmManager.SwapAll | wasm/game.go:201-203 | the swap loop computes the swaps' permutation |
| WasmManager.GameManager.constructor | wasm/game.go:24-49 | the state is `Reset(boardSize, tileCnt)` |
| WasmManager.GameManager.ResetManager | wasm/game.go:24-49 | the state is `Reset(boardSize, tileCnt)` |
| WasmManager.GameManager.PickUp | wasm/game.go:78-86 | the fields become `PickUp` of the old state |
| WasmManager.GameManager.AddTile | wasm/grid.go:23-29 | the fields become `AddTile` of the old state |
| WasmManager.GameManager.SendToTray | wasm/game.go:105-120 | the row-by-row scan gives `SendToTray` |
| WasmManager.GameManager.AddToBoard | wasm/game.go:89-94 | the fields become `AddToBoard` of the old state |
| WasmManager.GameManager.AddToTray | wasm/game.go:97-102 | the fields become the corrected `AddToTray` of the old state |
| WasmManager.GameManager.ShiftBoard | wasm/game.go:154-174 | the two loops give `ShiftBoard` |
| WasmManager.GameManager.MoveEach | wasm/game.go:170-172 | the work-list loop gives `MoveAll` |
| WasmManager.GameManager.MarkInvalidTiles | wasm/game.go:123-132 | the loop gives `MarkInvalid` |
| WasmManager.GameManager.MarkAllTilesValid | wasm/game.go:135-139 | the loop gives `MarkAllValid` |
| WasmManager.GameManager.SendAllTilesToTray | wasm/game.go:177-189 | the button's body gives `SendAllTilesToTray` |
| WasmManager.GameManager.SendBoardTilesToTray | wasm/game.go:179-183 | the loop gives `SendBoardTiles` |
| WasmManager.GameManager.ShuffleTiles | wasm/game.go:192-211 | the button's body gives `ShuffleTiles` |
| WasmManager.GameManager.PickUpTrayTiles | wasm/game.go:194-200 | the loop picks up the tray tiles and lists them in tile order |
| WasmManager.GameManager.SendEachToTray | wasm/game.go:204-206 | the loop gives `SendEach` |
| WasmManager.GameManager.MoveHighlight | wasm/highlight.go:11-18 | the highlight becomes `MoveHighlight` of the old one |
| WasmManager.GameManager.ToggleWordDir | wasm/highlight.go:38-41 | the highlight becomes `ToggleDir` of the old one |
| WasmManager.GameManager.HighlightCoords | wasm/highlight.go:52-56 | the highlight becomes `HighlightCoords` of the old one |
| WasmManager.GameManager.Unhighlight | wasm/highlight.go:65-70 | the highlight becomes `Unhighlight()` |
| WasmManager.GameManager.FindForHighlight | wasm/highlight.go:23-36 | the search loop gives `FindForHighlight` |
| WasmManager.GameManager.BackspaceHighlight | wasm/highlight.go:43-49 | the state becomes `BackspaceHighlight` of the old one |
| WasmManager.GameManager.ClickOnTile | wasm/input.go:129-139 | the state becomes `ClickOnTile` of the old one |
| WasmManager.GameManager.MouseDown | wasm/input.go:56-75 | the state becomes `MouseDown` of the old one |
| WasmManager.GameManager.MoveTile | wasm/input.go:142-149 | only the gesture's moved flag is set |
| WasmManager.GameManager.MouseMove | wasm/input.go:43-53 | the state becomes `MouseMove` of the old one |
| WasmManager.GameManager.ReleaseTile | wasm/input.go:152-173 | with the corrected `addToTray`: the state becomes `ReleaseTile` of the old one |
| WasmManager.GameManager.ReleaseUpdateHighlight | wasm/input.go:176-192 | the state becomes `ReleaseUpdateHighlight` of the old one |
| WasmManager.GameManager.MouseUp | wasm/input.go:25-42 | with the corrected `addToTray` under the release: the state becomes `MouseUp` of the old one |
| WasmManager.GameManager.KeyDown | wasm/input.go:77-126 | the state becomes `KeyDown` of the old one |
| WasmManager.GameManager.Receive | wasm/handle.go:511-520 | the state becomes `Receive` of the old one |
| WasmManager.GameManager.HandleSocketMsg | wasm/handle.go:486-542 | the state and code are those of `HandleSocketMsg` |

## Left out

- Rendering and event wiring are left out. This covers DOM divs, the canvas, `draw`, the `Loc`/`MoveOffset` fields and the listener bookkeeping of `public/js/tile.js`.
  - `onTile`'s hit test is the input `hit`.
  - The page helpers `nearestCoordsInDiv` and `inBoundsOfDiv` are not part of this model. The cell they compute is an abstract `Option<Vec>` input.
- `public/js/tile.js` `mouseMove` and the ghost tile use names defined nowhere in the source. Only `mouseDown`'s `remove` and `mouseUp`'s `moveTileTo` are modelled.
- Networking, channels, goroutines, logging and HTTP handlers are left out. This includes `sendSocketMsg`, `sendToAllClients`, `SendScore`, the `GameAssigner`, and the channel parts of `Close` and `Run`.
  - `SendScore` reads a field `msg` that `Score` does not have.
- Mutexes in `server.go` and `game.go` are left out; the model is sequential.
- JSON encoding and decoding are left out. A decoded payload is an input (`Payload`, an `Option` board). `Messages.DecodeString` covers whitespace, `null` and strings without escapes.
- Randomness is left out. `rand.Intn` draws are `rolls[i] % (i + 1)`, and `rand.Shuffle`'s swaps are an input.
- The dictionary file is not read; the dictionary is a `set<string>` parameter.
- game/tiles.go is not part of this model. `Rounds.Game.RoundReady` takes the new deal as a parameter `deal`.
- `StartNewGame`, `makeNewClient` and `sendGameInfo` of the game package are not part of this model.
- `server.go:144` calls a free `findComponents` that does not exist. `ServerBoard.VerifyBoard` models the word checks of `verifyBoard` and does not call it.
- `game/board_test.go:137` passes a Client where `[]Tile` is expected. That test case is not modelled.
- The wasm/handle.go copies of the tile-zone functions are not modelled separately, because they behave like the wasm/game.go versions.
  - Its key-down listener shifts the board on every arrow key. That is `WasmInput.KeyDown` with `ctrl` true.
- js/game_manager.js and game/messages.go are left out. The first is a stub; the second is a timestamped wrapper around a copy of the name table.
- ServerTiles.NewTiles: states each letter's count, not the derived total of 144. The sum over the 26-letter table is not unfolded.
- ServerGame.NewLetterTiles: states each letter's count, not the derived total of 144, for the same reason.
- Rounds.Game.Verify: needs a decoded board when it is called in a running round. Go would dereference a nil score there; the model states the case that does not crash. It also needs that board to be rectangular, because scoring it reads every row up to the length of row 0; a row shorter than row 0 makes Go's indexing panic with index out of range, and that crash is not modelled.
- Rounds.Game.SendBoard: needs a decoded board when scores are awaited, and needs it rectangular, for the same reasons as `Rounds.Game.Verify`.
- Rounds.RouteFrame: requires a non-empty frame, because reading byte 0 of an empty frame panics.
- Rounds.Client.ScoreMarshalledBoard: requires the decoded board to be rectangular. `scoreBoard` (game/board.go:298-305) walks every row up to the length of row 0; a row shorter than row 0 makes Go's indexing panic with index out of range, and that crash is not modelled.
- The error branch of `readSocketMsgs` (a failed read closes the client) is left out.
- GameScoreBoard.TooManyBoardTilesExample: states win and score, not the invalid set the test lists.
- MainBoard.StrayTileStillValid: is stated for the one-part list "CAT", not derived from `ScoreBoard` on that board. Working out the kept parts of a concrete board would mean unfolding the word check and the component search on it.
- JsGameManager.DragAgrees: starts the drag at `remove`. The first statement of `mouseDown` (public/js/tile.js:50) calls `gamemanager.grid.validateTiles()`, but no `gamemanager` is ever assigned (public/js/game_manager.js:56-59 builds the manager without storing it), and `Grid` defines no `validateTiles`. As written that call throws before the tile is taken up; the model takes the drag from `remove` on.
- JsGameManager.TakeUpAgrees: does not include the `validateTiles` call of `mouseDown`, for the same reason.
- WasmInput.HandleSocketMsg: requires every coordinate that `markInvalidTiles` reads from an `Invalid` message to be on the board. An off-board coordinate makes Go's slice indexing panic, and that crash is not modelled.
- WasmManager.GameManager.HandleSocketMsg: has the same requirement on `Invalid` messages, for the same reason.
- Messages.UnmarshalJSON: a JSON string that uses escapes (`"\u0061ddTile"`) is taken as a decode error, where Go would decode it and could find a table name. Raw control characters inside the quotes are rejected, as Go does.
- Rounds.Game.Step: needs a decoded, rectangular board for a `Verify` in a running round and for a `SendBoard` while scores are awaited, as `Rounds.Game.Verify` and `Rounds.Game.SendBoard` do.
- GameBoard.CreateVecSetOfAllTiles: requires a rectangular board. The loop at game/board.go:133 reads `b[i][j]` for every `j < len(b[0])`; a row shorter than row 0 makes Go's indexing panic with index out of range, and that crash is not modelled.
- GameBoard.String: requires a rectangular board, because the loop at game/board.go:347 reads rows the same way; a row shorter than row 0 makes Go's indexing panic with index out of range, and that crash is not modelled.
- GameScoreBoard.ScoreBoard: requires a rectangular board, because it starts from `createVecSetOfAllTiles` (game/board.go:305); a row shorter than row 0 makes Go's indexing panic with index out of range, and that crash is not modelled.
- MainBoard.CreateVecSetOfAllTiles: requires a rectangular board. The loop at board.go:96 reads `b[i][j]` for every `j < len(b[0])`; a row shorter than row 0 makes Go's indexing panic with index out of range, and that crash is not modelled.
- MainBoard.ScoreBoard: requires a rectangular board, because it starts from `createVecSetOfAllTiles` (board.go:235); a row shorter than row 0 makes Go's indexing panic with index out of range, and that crash is not modelled.
- ServerBoard.FindConnectedTiles: requires a rectangular board, and a non-empty one whenever `tile.x` is negative. The guard at server.go:101 reads `b[0]` once `tile.x < len(b)` holds, so an empty board with a negative `tile.x` panics; so does a row shorter than row 0. Neither crash is modelled.
- ServerBoard.FindComponents: requires a non-empty, rectangular board. `len(b[0])` at server.go:115 panics on an empty board, and a row shorter than row 0 makes Go's indexing panic with index out of range; neither crash is modelled.
- ServerBoard.VerifyBoard: requires a non-empty, rectangular board. `len(board[0])` at server.go:146 panics on an empty board, and a row shorter than row 0 makes Go's indexing panic with index out of range; neither crash is modelled.
- JsGrid.AddToFirstEmptyCell: public/js/grid.js calls `insertTile` (lines 151 and 158) but defines only `addTile`; the model uses js/grid.js's `insertTile` (js/grid.js:38-45), whose body is the same as `addTile`'s. As written, the call throws a TypeError.
- JsGridClass.Grid.AddToFirstEmptyCell: public/js/grid.js calls `insertTile` (lines 151 and 158) but defines only `addTile`; the model uses js/grid.js's `insertTile` (js/grid.js:38-45), whose body is the same as `addTile`'s, as in `JsGrid.AddToFirstEmptyCell`.
- JsGameManager.GameManager.AddStartTiles: public/js/game_manager.js:23 calls the tray's `insertTile`, which public/js/grid.js does not define; the model uses js/grid.js's `insertTile`, whose body is the same as `addTile`'s.
- JsGameManager.GameManager.AddToNearestEmptyCell: public/js/game_manager.js:30-31 calls `addToNearestEmptyCell`, which public/js/grid.js does not define; the model uses js/grid.js's version (js/grid.js:59-76).
- JsGameManager.GameManager.MoveTileTo: public/js/game_manager.js:30-31 calls `addToNearestEmptyCell`, which public/js/grid.js does not define; the model uses js/grid.js's version (js/grid.js:59-76), and `insertTile` from js/grid.js for its placements.
- JsGrid.MoveTileTo: public/js/game_manager.js:30-31 calls `addToNearestEmptyCell`, which public/js/grid.js does not define; the model uses js/grid.js's version (js/grid.js:59-76), and `insertTile` from js/grid.js for its placements.
- JsGrid.Expand: states shape and sizes. Conservation and agreement are the separate lemmas `JsGridProps.ExpandConserves` and `JsGridProps.ExpandAgrees`.
- JsGrid.ShiftTiles: states shape and sizes. Conservation, movement and agreement are `JsGridProps.ShiftConserves`, `JsGridProps.ShiftMoves` and `JsGridProps.ShiftAgrees`.
- JsGameManager.StartTile: the source names no points for the start tiles; they are given 0.

## Findings

| source | as written | input that shows it | evidently intended | confidence | as-written member | corrected member |
|---|---|---|---|---|---|---|
| wasm/game.go:97-102 | on an occupied slot, `addToTray` sends the tile to the tray and then writes it into the requested slot anyway, overwriting the occupant | a tray slot holding tile `p`, with another tile `t` dropped on it | put `t` in the first free slot instead (return after `sendToTray`) | high, not executed | WasmZones.AddToTrayAsWrittenLosesOccupant | WasmZones.AddToTray |
| public/js/grid.js:176-185 | the vertical `expand` pushes `size.x` nulls onto the outer array of columns and increments `size.y`, so no column grows | any grid, direction "down" | push one null onto every column | high, not executed | JsGridProps.ExpandVerticalAsWrittenBreaksShape | JsGridProps.ExpandDownAddsRow |
| js/grid.js:48-54 | `isWithinBounds` uses `<=` on the far edges, so the point `corner.x + size.x * cellSize` maps to column `size.x`, which does not exist | a point on the far right edge | strict `<` on the far edges | high, not executed | JsGridProps.NearestCellAsWrittenFarEdge | JsGrid.NearestCell |
| public/js/game_manager.js:18-25 | `addStartTiles` passes a bare letter to `new Tile`, which reads `Value` and `Points` off it | any start tile, e.g. "A" | pass a record whose `Value` is the letter | high, not executed | JsGameManager.StartTilesAsWrittenUnlabelled | JsGameManager.GameManager.AddStartTiles |
| game/board.go:121-127 | `value` reads `b[v.Y][v.X]`, while `createVecSetOfAllTiles` builds `Vec{i, j}` with `i` over rows, so the board is read transposed | the "Tall board" `[[C],[A],[T]]` reads `b[0][1]` | read `b[v.X][v.Y]` | high, not executed | GameBoard.AsWrittenTransposes | GameBoard.CreateVecSetOfAllTiles |
| server.go:151-152 | the guards `i == maxX` and `j == maxY` are never true inside the loops, so `board[i+1][j]` is read at the last row | the one-row board `[["C","A","T"]]` | compare with `maxX - 1` and `maxY - 1` | high, not executed | ServerBoard.OneRowBoardReadsPastEnd | ServerBoard.VerifyBoard |
| server.go:62-71 | `getNextTile` increments `tilesServed` before indexing, so `tiles[12]` is never served and the last call reads past the end | a deck of 14 or more letters after `getInitialTiles` | read `tiles[tilesServed]`, then increment | high, not executed | ServerGame.AsWrittenSkipsThirteenth | ServerGame.Game.GetNextTile |

=== FILE: dealing.dfy ===
/**
 * Dealing to one player in game.go: a `Game` holds the shuffled deck and its players, and
 * each `Client` counts the tiles it has been sent and the points they are worth. The
 * mutexes, the websocket and the `globalGame` default are left out.
 */
module Dealing {
  import opened ServerTiles
  import opened Scores

  /** `READY`, `RUNNING`, `ENDED`. */
  datatype Phase = Ready | Running | Ended

  /** `Game{id, state, tiles, players}`; `ClientSet` is the set of player references. */
  class Game {
    var id: int
    var state: Phase
    var tiles: seq<Tile>
    var players: set<Client>

    /** `makeNewGame` (game.go:30-38): a fresh deal, no players, not yet running. */
    constructor (id: int, rolls: seq<nat>)
      ensures this.id == id && state == Ready && players == {}
      ensures Priced(tiles) && forall k :: multiset(Values(tiles))[k] == Freq(k)
    {
      var deck := NewTiles(rolls);
      this.id := id;
      tiles := deck;
      state := Ready;
      players := {};
    }

    /** `isRunning` (game.go:24-28). */
    function IsRunning(): (r: bool)
      reads this
      ensures r <==> state == Running
    {
      state == Running
    }

    /** `ClientSet.contains` (game.go:112-115). */
    function Contains(c: Client): (r: bool)
      reads this
      ensures r <==> c in players
    {
      c in players
    }

    /**
     * `ClientSet.insert` (game.go:117-119): afterwards `c` is a player, and the players
     * are the ones before and `c`.
     */
    method Insert(c: Client)
      modifies this
      ensures Contains(c)
      ensures players == old(players) + {c}
      ensures id == old(id) && state == old(state) && tiles == old(tiles)
    {
      players := players + {c};
    }
  }

  /** `Client{id, game, tilesServed, maxScore}`. */
  class Client {
    var id: int
    var game: Game
    var tilesServed: int
    var maxScore: int

    /**
     * What the counters promise: the count stays within the deck, and `maxScore` is the
     * point sum of exactly the tiles served so far.
     */
    ghost predicate Valid()
      reads this, game
    {
      0 <= tilesServed <= |game.tiles| && maxScore == SumPoints(game.tiles[..tilesServed])
    }

    /** `makeNewClient` (game.go:49-55), with the game it starts in as a parameter. */
    constructor (id: int, g: Game)
      ensures this.id == id && game == g && Valid()
      ensures tilesServed == 0 && maxScore == 0
    {
      this.id := id;
      game := g;
      tilesServed := 0;
      maxScore := 0;
      new;
      assert g.tiles[..0] == [];
    }

    /** `addToGame` (game.go:57-64): the client moves to `g` and becomes one of its players. */
    method AddToGame(g: Game)
      modifies this, g
      ensures game == g && g.Contains(this)
      ensures g.players == old(g.players) + {this}
      ensures id == old(id) && tilesServed == old(tilesServed) && maxScore == old(maxScore)
      ensures g.tiles == old(g.tiles) && g.state == old(g.state)
    {
      game := g;
      g.Insert(this);
    }

    /**
     * `getInitialTiles` (game.go:66-77): the first twelve tiles of the deck are served and
     * `maxScore` becomes their point sum. Slicing `tiles[:12]` needs twelve tiles.
     */
    method GetInitialTiles() returns (ts: seq<Tile>)
      requires |game.tiles| >= 12
      modifies this
      ensures game == old(game) && id == old(id)
      ensures ts == game.tiles[..12] && tilesServed == 12 && Valid()
    {
      ts := game.tiles[..12];
      var score := 0;
      for i := 0 to |ts|
        invariant score == SumPoints(ts[..i])
        invariant game == old(game) && id == old(id) && ts == game.tiles[..12]
      {
        assert ts[..i + 1] == ts[..i] + [ts[i]];
        SumPointsAppend(ts[..i], ts[i]);
        score := score + ts[i].points;
      }
      assert ts[..|ts|] == ts;
      tilesServed := 12;
      maxScore := score;
    }

    /**
     * `getNextTile` (game.go:79-90): an empty tile and no change once the deck is used up;
     * otherwise the next tile of the deck, which joins the tiles served and adds its
     * points to `maxScore`.
     */
    method GetNextTile() returns (tile: Tile)
      requires Valid()
      modifies this
      ensures game == old(game) && id == old(id) && Valid()
      ensures old(tilesServed) == |game.tiles| ==> tile == Tile("", 0) && tilesServed == old(tilesServed)
      ensures old(tilesServed) < |game.tiles| ==>
        && tile == game.tiles[old(tilesServed)]
        && AllTilesServed() == old(AllTilesServed()) + [tile]
        && maxScore == old(maxScore) + tile.points
    {
      if tilesServed == |game.tiles| {
        return Tile("", 0);
      }
      tile := game.tiles[tilesServed];
      assert game.tiles[..tilesServed + 1] == game.tiles[..tilesServed] + [tile];
      SumPointsAppend(game.tiles[..tilesServed], tile);
      tilesServed := tilesServed + 1;
      maxScore := maxScore + tile.points;
    }

    /** `getTilesServedCount` (game.go:92-96): the number of tiles served. */
    function TilesServedCount(): (n: int)
      reads this, game
      requires Valid()
      ensures n == |AllTilesServed()|
    {
      tilesServed
    }

    /** `getAllTilesServed` (game.go:98-102): the deck up to the count, in dealing order. */
    function AllTilesServed(): (ts: seq<Tile>)
      reads this, game
      requires Valid()
      ensures |ts| == tilesServed && ts <= game.tiles
    {
      game.tiles[..tilesServed]
    }

    /** `getMaxScore` (game.go:104-108): the point sum of the tiles served. */
    function MaxScore(): (m: int)
      reads this, game
      requires Valid()
      ensures m == SumPoints(AllTilesServed())
    {
      maxScore
    }
  }

  /**
   * With a priced deck `maxScore` is the scorer's own tally of the letters served: the
   * sum of their `pointValues`, counting repeats, which the board check compares with
   * the letters on the board.
   */
  lemma MaxScoreIsLetterPoints(c: Client)
    requires c.Valid() && Priced(c.game.tiles)
    ensures c.MaxScore() == MPoints(multiset(Values(c.AllTilesServed())))
  {
    var ts := c.AllTilesServed();
    assert forall i :: 0 <= i < |ts| ==> ts[i] == c.game.tiles[i];
    SumPointsIsMPoints(ts);
  }
}

=== FILE: game_board.dfy ===
/**
 * The board a page client sends for scoring (game/board.go): a grid of rows of optional
 * tiles. A cell reads as its tile's letter, or as "" when it holds no tile.
 */
module GameBoard {
  import opened Wrappers
  import opened Vectors
  import opened VecSets
  import opened ServerTiles
  import opened Words

  /** `Board [][]*Tile`: `b[i][j]` is row `i`, column `j`; `None` is a nil tile. */
  type Board = seq<seq<Option<Tile>>>

  /** The width the loops use: `len(b[0])`, read only when there is a row. */
  function Width<T>(b: seq<seq<T>>): nat {
    if |b| == 0 then 0 else |b[0]|
  }

  /** No row is shorter than the first, so every index the loops make is in range. */
  predicate Rectangular<T>(b: seq<seq<T>>) {
    forall i :: 0 <= i < |b| ==> Width(b) <= |b[i]|
  }

  /** `v` is a cell the loops visit: row `v.x`, column `v.y`. */
  predicate InGrid<T>(b: seq<seq<T>>, v: Vec) {
    0 <= v.x < |b| && 0 <= v.y < Width(b)
  }

  /** The letter of a cell; "" when it holds no tile. */
  function CellText(c: Option<Tile>): string {
    match c
    case None => ""
    case Some(t) => t.value
  }

  /**
   * `value` as intended: the cell at row `v.x` and column `v.y`, the same convention as
   * `createVecSetOfAllTiles` and the coordinates of the expected invalid tiles in
   * game/board_test.go.
   */
  function Value(b: Board, v: Vec): (r: string)
    requires Rectangular(b) && InGrid(b, v)
    ensures b[v.x][v.y].None? ==> r == ""
    ensures b[v.x][v.y].Some? ==> r == b[v.x][v.y].value.value
  {
    CellText(b[v.x][v.y])
  }

  /**
   * `value` as written (game/board.go:121-127): it reads `b[v.Y][v.X]`, row and column
   * swapped relative to the `Vec{i, j}` that `createVecSetOfAllTiles` builds.
   */
  function ValueAsWritten(b: Board, v: Vec): (r: string)
    requires 0 <= v.y < |b| && 0 <= v.x < |b[v.y]|
    ensures Rectangular(b) && InGrid(b, Vec(v.y, v.x)) ==> r == Value(b, Vec(v.y, v.x))
  {
    CellText(b[v.y][v.x])
  }

  /** The occupied cells: those whose value is not "". */
  function Occupied(b: Board): VecSet
    requires Rectangular(b)
  {
    set i: int, j: int | 0 <= i < |b| && 0 <= j < Width(b) && Value(b, Vec(i, j)) != "" :: Vec(i, j)
  }

  /** The letter of each occupied cell. */
  function BoardLetters(b: Board): (letters: Letters)
    requires Rectangular(b)
    ensures letters.Keys == Occupied(b)
  {
    map v | v in Occupied(b) :: Value(b, v)
  }

  lemma OccupiedIff(b: Board, v: Vec)
    requires Rectangular(b)
    ensures v in Occupied(b) <==> InGrid(b, v) && Value(b, v) != ""
  {
    if InGrid(b, v) && Value(b, v) != "" {
      assert v == Vec(v.x, v.y);
    }
  }

  /**
   * `createVecSetOfAllTiles` (game/board.go:129-141), with `value` as intended: the set of
   * exactly the cells of the grid that hold a letter.
   */
  method CreateVecSetOfAllTiles(b: Board) returns (result: VecSet)
    requires Rectangular(b)
    ensures forall v :: v in result <==> InGrid(b, v) && Value(b, v) != ""
    ensures result == Occupied(b)
  {
    result := {};
    for i := 0 to |b|
      invariant forall v :: v in result <==> InGrid(b, v) && v.x < i && Value(b, v) != ""
    {
      for j := 0 to |b[0]|
        invariant forall v :: v in result <==>
          InGrid(b, v) && (v.x < i || (v.x == i && v.y < j)) && Value(b, v) != ""
      {
        var v := Vec(i, j);
        if Value(b, v) != "" {
          result := result + {v};
        }
      }
    }
    forall v ensures v in result <==> v in Occupied(b) {
      OccupiedIff(b, v);
    }
  }

  /**
   * The "Tall board" of game/board_test.go:52-55 (three rows of one letter). With `value`
   * as written, the loop of `createVecSetOfAllTiles` visits `Vec{1, 0}`, a cell of the
   * grid, and reads `b[0][1]` for it, past the end of a one-letter row.
   */
  lemma TallBoardReadsOutOfRange()
    ensures var b := [[Some(Tile("C", 3))], [Some(Tile("A", 1))], [Some(Tile("T", 1))]];
      InGrid(b, Vec(1, 0)) && !(Vec(1, 0).x < |b[Vec(1, 0).y]|)
  {
  }

  /** The 3×3 board of game/board_test.go:68-72: rows "CAO", " E ", " E ". */
  function CaoBoard(): Board {
    [[Some(Tile("C", 3)), Some(Tile("A", 1)), Some(Tile("O", 1))],
     [None, Some(Tile("E", 1)), None],
     [None, Some(Tile("E", 1)), None]]
  }

  /**
   * On a square board `value` as written reads the transposed board: for the test board
   * with rows "CAO", " E ", " E " it sees a tile at `Vec{1, 0}`, the empty first cell of
   * the second row, and none at `Vec{0, 1}`, which the test expects among the invalid
   * tiles.
   */
  lemma AsWrittenTransposes()
    ensures Rectangular(CaoBoard())
    ensures ValueAsWritten(CaoBoard(), Vec(1, 0)) == "A" && Value(CaoBoard(), Vec(1, 0)) == ""
    ensures ValueAsWritten(CaoBoard(), Vec(0, 1)) == "" && Value(CaoBoard(), Vec(0, 1)) == "A"
  {
  }

  /** What `String` prints for one cell: a space for a nil tile, else its letter. */
  function Shown(c: Option<Tile>): string {
    match c
    case None => " "
    case Some(t) => t.value
  }

  /** The first `n` cells of a row, printed. */
  function RowText(row: seq<Option<Tile>>, n: nat): string
    requires n <= |row|
  {
    if n == 0 then "" else RowText(row, n - 1) + Shown(row[n - 1])
  }

  /** The first `n` rows of a board, printed `Width(b)` cells each and ended by a newline. */
  function BoardText(b: Board, n: nat): string
    requires Rectangular(b) && n <= |b|
  {
    if n == 0 then "" else BoardText(b, n - 1) + RowText(b[n - 1], Width(b)) + "\n"
  }

  /** A board of one-letter tiles prints one character per cell and one newline per row. */
  lemma {:induction false} BoardTextLength(b: Board, n: nat)
    requires Rectangular(b) && n <= |b|
    requires forall i, j :: 0 <= i < |b| && 0 <= j < |b[i]| && b[i][j].Some? ==> |b[i][j].value.value| == 1
    ensures |BoardText(b, n)| == n * (Width(b) + 1)
  {
    if n > 0 {
      BoardTextLength(b, n - 1);
      RowTextLength(b[n - 1], Width(b));
    }
  }

  lemma {:induction false} RowTextLength(row: seq<Option<Tile>>, n: nat)
    requires n <= |row|
    requires forall j :: 0 <= j < |row| && row[j].Some? ==> |row[j].value.value| == 1
    ensures |RowText(row, n)| == n
  {
    if n > 0 {
      RowTextLength(row, n - 1);
    }
  }

  /**
   * `String` (game/board.go:343-357): each row's cells, a space for a nil tile, then a
   * newline.
   */
  method String(b: Board) returns (result: string)
    requires Rectangular(b)
    ensures result == BoardText(b, |b|)
  {
    result := "";
    for i := 0 to |b|
      invariant result == BoardText(b, i)
    {
      ghost var before := result;
      for j := 0 to |b[0]|
        invariant result == before + RowText(b[i], j)
      {
        if b[i][j] == None {
          result := result + " ";
        } else {
          result := result + b[i][j].value.value;
        }
      }
      result := result + "\n";
    }
  }

  /** The board of game/board_test.go:34-40 prints as "AB\n C\n". */
  lemma PrintBoardExample()
    ensures var b := [[Some(Tile("A", 1)), Some(Tile("B", 3))], [None, Some(Tile("C", 3))]];
      Rectangular(b) && BoardText(b, |b|) == "AB\n C\n"
  {
  }
}

=== FILE: game_score_board.dfy ===
/**
 * The verdict on a submitted board (game/board.go `scoreBoard`): the points of the tiles
 * served minus the best scorable part, a win only for a complete, exact and valid board,
 * and the full served points whenever the board cannot be honest.
 */
module GameScoreBoard {
  import opened Wrappers
  import opened Vectors
  import opened VecSets
  import opened ServerTiles
  import opened Words
  import opened Scores
  import opened GameBoard
  import opened GameScoring

  /** `Score{Win, Score, Invalid}`: lower scores are better. */
  datatype Score = Score(win: bool, score: int, invalid: VecSet)

  /** No letter is on the board more often than among the tiles served. */
  ghost predicate Compatible(b: Board, ts: seq<Tile>)
    requires Rectangular(b)
  {
    LettersOf(BoardLetters(b), Occupied(b)) <= multiset(Values(ts))
  }

  /**
   * A winning board: the best part scores every served point, the board holds as many
   * tiles as were served, and no letter more often than served.
   */
  ghost predicate Wins(b: Board, ts: seq<Tile>, best: int)
    requires Rectangular(b)
  {
    SumPoints(ts) == best && |Occupied(b)| == |ts| && Compatible(b, ts)
  }

  /**
   * The score reported: served points minus the best score, or all the served points
   * when the board has more tiles than served, scores more than served, or uses a
   * letter too often.
   */
  ghost function ScoreFor(b: Board, ts: seq<Tile>, best: int): int
    requires Rectangular(b)
  {
    if |Occupied(b)| > |ts| || SumPoints(ts) - best < 0 || !Compatible(b, ts) then SumPoints(ts)
    else SumPoints(ts) - best
  }

  /** The sum of the `Points` of the tiles served, as the first loop adds them up. */
  method MaxScore(tilesServed: seq<Tile>) returns (maxScore: int)
    ensures maxScore == SumPoints(tilesServed)
  {
    maxScore := 0;
    for i := 0 to |tilesServed|
      invariant maxScore == SumPoints(tilesServed[..i])
    {
      assert tilesServed[..i + 1] == tilesServed[..i] + [tilesServed[i]];
      SumPointsAppend(tilesServed[..i], tilesServed[i]);
      maxScore := maxScore + tilesServed[i].points;
    }
    assert tilesServed[..|tilesServed|] == tilesServed;
  }

  /** The best score the board can reach: the best of its scorable parts. */
  ghost function BoardBest(b: Board, dict: set<string>): int
    requires Rectangular(b)
  {
    BestFor(BoardLetters(b), dict, Occupied(b))
  }

  /**
   * `scoreBoard` (game/board.go:296-341). The result wins exactly when `Wins` holds for
   * the board's best score, reports `ScoreFor` it, and lists as invalid exactly the tiles
   * `InvalidFor` names: the lone tiles and the tiles of invalid words. `components` are
   * the scorable parts found, whose best score is that best.
   */
  method ScoreBoard(b: Board, dict: set<string>, tilesServed: seq<Tile>)
    returns (result: Score, ghost components: seq<VecSet>)
    requires Rectangular(b)
    ensures result.win == Wins(b, tilesServed, BoardBest(b, dict))
    ensures result.score == ScoreFor(b, tilesServed, BoardBest(b, dict))
    ensures result.invalid == InvalidFor(BoardLetters(b), dict, Occupied(b))
    ensures result.invalid <= Occupied(b)
    ensures IsolatedIn(Occupied(b), Occupied(b), result.invalid)
    ensures AllScorable(BoardLetters(b), dict, components, Occupied(b))
    ensures BestOf(BoardLetters(b), components) == BoardBest(b, dict)
  {
    var maxScore := MaxScore(tilesServed);
    result := Score(true, maxScore, {});
    var letters := BoardLetters(b);
    var boardSet := CreateVecSetOfAllTiles(b);
    var comps, invalid := FindValidScorableComponents(letters, dict, boardSet, result.invalid);
    assert invalid == InvalidFor(letters, dict, boardSet);
    components := comps;
    var bestScore := BestScore(letters, comps);
    var win, score := Judge(b, letters, boardSet, tilesServed, maxScore, bestScore);
    result := Score(win, score, invalid);
  }

  /**
   * The checks of `scoreBoard` once the best part is scored (game/board.go:310-340): the
   * served points minus the best score, no win unless that is 0, all the served points
   * when it is negative, when the board has more tiles than served, or when a letter is
   * used too often.
   */
  method Judge(b: Board, letters: Letters, boardSet: VecSet, tilesServed: seq<Tile>, maxScore: int, bestScore: int)
    returns (win: bool, score: int)
    requires Rectangular(b) && letters == BoardLetters(b) && boardSet == Occupied(b)
    requires maxScore == SumPoints(tilesServed)
    ensures win == Wins(b, tilesServed, bestScore)
    ensures score == ScoreFor(b, tilesServed, bestScore)
  {
    ghost var compatible := Compatible(b, tilesServed);
    win, score := true, maxScore - bestScore;
    if score != 0 {
      win := false;
      if score < 0 {
        score := maxScore;
      }
    }
    var tilesServedCount := |tilesServed|;
    if |boardSet| != tilesServedCount {
      win := false;
      if |boardSet| > tilesServedCount {
        score := maxScore;
        return;
      }
    }
    var ok := CompareTileValues(letters, tilesServed, boardSet);
    assert ok <==> compatible;
    if !ok {
      win, score := false, maxScore;
      return;
    }
  }

  /** A winning board holds exactly the letters served, each as often as served. */
  lemma WinUsesExactlyTheTilesServed(b: Board, ts: seq<Tile>, best: int)
    requires Rectangular(b) && Wins(b, ts, best)
    ensures LettersOf(BoardLetters(b), Occupied(b)) == multiset(Values(ts))
  {
    var onBoard := LettersOf(BoardLetters(b), Occupied(b));
    var served := multiset(Values(ts));
    LettersOfSize(BoardLetters(b), Occupied(b));
    assert |served| == |ts|;
    assert served == onBoard + (served - onBoard);
    assert |served - onBoard| == 0;
  }

  /**
   * For an honest board (letters served, tiles priced by `pointValues`) no scorable part
   * scores more than the tiles served: the "cheating suspected" reset for a negative
   * score is reached only by a board that uses a letter too often.
   */
  lemma HonestBoardScoresAtMostServed(b: Board, dict: set<string>, ts: seq<Tile>, cs: seq<VecSet>)
    requires Rectangular(b) && Priced(ts) && Compatible(b, ts)
    requires AllScorable(BoardLetters(b), dict, cs, Occupied(b))
    ensures 0 <= BestOf(BoardLetters(b), cs) <= SumPoints(ts)
  {
    var letters := BoardLetters(b);
    BestOfAtMostWhole(letters, dict, cs, Occupied(b));
    SetPointsIsMPoints(letters, Occupied(b));
    MPointsMono(LettersOf(letters, Occupied(b)), multiset(Values(ts)));
    SumPointsIsMPoints(ts);
  }

  /** With priced tiles the reported score lies between 0 and the served points. */
  lemma ScoreInRange(b: Board, ts: seq<Tile>, best: int)
    requires Rectangular(b) && Priced(ts) && best >= 0
    ensures 0 <= ScoreFor(b, ts, best) <= SumPoints(ts)
  {
    SumPointsIsMPoints(ts);
    MPointsMono(multiset{}, multiset(Values(ts)));
  }

  /** The "Empty board" case of game/board_test.go:48-51: tiles A, C, C on an empty 2×2 board. */
  method EmptyBoardExample(dict: set<string>) returns (result: Score)
    ensures result == Score(false, 7, {})
  {
    var b: Board := [[None, None], [None, None]];
    assert Occupied(b) == {} by {
      forall v | v in Occupied(b) ensures false {
        OccupiedIff(b, v);
      }
    }
    var ts := [Tile("A", 1), Tile("C", 3), Tile("C", 3)];
    assert SumPoints(ts) == 7 by {
      assert ts[..2] == [Tile("A", 1), Tile("C", 3)] && ts[..2][..1] == [Tile("A", 1)];
      assert SumPoints(ts[..2][..1]) == 1;
      assert SumPoints(ts[..2]) == 4;
    }
    ghost var components;
    result, components := ScoreBoard(b, dict, ts);
  }

  /** The board of game/board_test.go:106-109: rows "CAT", "  O", "  O". */
  function TooManyBoard(): Board {
    [[Some(Tile("C", 3)), Some(Tile("A", 1)), Some(Tile("T", 1))],
     [None, None, Some(Tile("O", 1))],
     [None, None, Some(Tile("O", 1))]]
  }

  /** That board holds at least five tiles. */
  lemma TooManyBoardHasFive()
    ensures Rectangular(TooManyBoard()) && |Occupied(TooManyBoard())| >= 5
  {
    var b := TooManyBoard();
    var five := {Vec(0, 0), Vec(0, 1), Vec(0, 2), Vec(1, 2), Vec(2, 2)};
    forall v | v in five ensures v in Occupied(b) {
      OccupiedIff(b, v);
    }
    SubsetNoLarger(five, Occupied(b));
  }

  /**
   * "Too many board tiles, passing tiles" (game/board_test.go:106-109): five tiles on the
   * board against C, A, T served. The board has more tiles than served, so it does not
   * win and scores all 5 served points.
   */
  method TooManyBoardTilesExample(dict: set<string>) returns (result: Score)
    ensures !result.win && result.score == 5
  {
    TooManyBoardHasFive();
    CatPoints();
    ghost var components;
    result, components := ScoreBoard(TooManyBoard(), dict, [Tile("C", 3), Tile("A", 1), Tile("T", 1)]);
  }
}

=== FILE: game_scoring.dfy ===
/**
 * Scoring a submitted board (game/board.go): split the tiles into components, keep the
 * parts made only of dictionary words, and score the best part against the tiles served.
 */
module GameScoring {
  import opened Vectors
  import opened VecSets
  import opened ServerTiles
  import opened Words
  import opened Scores
  import opened GameBoard

  /**
   * A set the scorer may score: two or more tiles, every word it reads is in the
   * dictionary, and every tile lies in one of them.
   */
  ghost predicate Scorable(letters: Letters, dict: set<string>, s: VecSet) {
    && s <= letters.Keys
    && |s| >= 2
    && Checked(letters, dict, s, s, {})
  }

  /** Every set of `cs` is scorable and made of tiles of `within`. */
  ghost predicate AllScorable(letters: Letters, dict: set<string>, cs: seq<VecSet>, within: VecSet) {
    && within <= letters.Keys
    && forall i :: 0 <= i < |cs| ==> cs[i] <= within && Scorable(letters, dict, cs[i])
  }

  /** Every tile of `c` with no neighbour in `s` is in `out`. */
  ghost predicate IsolatedIn(s: VecSet, c: VecSet, out: VecSet) {
    forall v :: v in c && Isolated(s, v) ==> v in out
  }

  lemma AllScorableAppend(letters: Letters, dict: set<string>, a: seq<VecSet>, wa: VecSet,
                          b: seq<VecSet>, wb: VecSet, within: VecSet)
    requires AllScorable(letters, dict, a, wa) && AllScorable(letters, dict, b, wb)
    requires wa <= within && wb <= within <= letters.Keys
    ensures AllScorable(letters, dict, a + b, within)
  {
    forall i | 0 <= i < |a + b|
      ensures (a + b)[i] <= within && Scorable(letters, dict, (a + b)[i])
    {
      if i < |a| {
        assert (a + b)[i] == a[i];
      } else {
        assert (a + b)[i] == b[i - |a|];
      }
    }
  }

  /** A component whose tiles all lie in valid words, with no invalid word, is scorable. */
  lemma WholeComponentScorable(letters: Letters, dict: set<string>, comp: VecSet, valid: VecSet, invalid: VecSet)
    requires comp <= letters.Keys && |comp| >= 2
    requires Checked(letters, dict, comp, valid, invalid)
    requires valid <= comp && |valid| == |comp| && |invalid| == 0
    ensures Scorable(letters, dict, valid)
  {
    SubsetSameSize(valid, comp);
  }

  lemma SingleScorable(letters: Letters, dict: set<string>, s: VecSet, within: VecSet)
    requires Scorable(letters, dict, s) && s <= within <= letters.Keys
    ensures AllScorable(letters, dict, [s], within)
  {
  }

  /** No list of scorable parts of `within` scores more than all of `within`. */
  lemma BestOfAtMostWhole(letters: Letters, dict: set<string>, cs: seq<VecSet>, within: VecSet)
    requires AllScorable(letters, dict, cs, within)
    ensures 0 <= BestOf(letters, cs) <= SetPoints(letters, within)
  {
    BestOfIsMax(letters, cs);
    if BestOf(letters, cs) == 0 {
      SetPointsMono(letters, {}, within);
    } else {
      var i :| 0 <= i < |cs| && BestOf(letters, cs) == SetPoints(letters, cs[i]);
      SetPointsMono(letters, cs[i], within);
    }
  }

  /** A component of two or more tiles has no isolated tile. */
  lemma LargeComponentIsolatedIn(s: VecSet, c: VecSet, out: VecSet)
    requires IsComponent(s, c) && |c| >= 2
    ensures IsolatedIn(s, c, out)
  {
    forall v | v in c
      ensures !Isolated(s, v)
    {
      LargeComponentNotIsolated(s, c, v);
    }
  }

  /** The larger of two scores, the first when they tie. */
  function Max(a: int, b: int): int {
    if a >= b then a else b
  }

  /** Taking a tile out of a set makes it smaller. */
  lemma RemoveShrinks(s: VecSet, e: Vec)
    requires e in s
    ensures |s - {e}| < |s|
  {
    assert s == (s - {e}) + {e};
  }

  /** Some tile of a non-empty set, the same one every time. */
  ghost function AnyTile(s: VecSet): (v: Vec)
    requires s != {}
    ensures v in s
  {
    var v :| v in s; v
  }

  /**
   * The best score `findValidScorableComponents` can reach on the tiles `s`: the best,
   * over the components of `s`, of what each one scores, and 0 when there is none.
   */
  ghost function BestFor(letters: Letters, dict: set<string>, s: VecSet): int
    requires s <= letters.Keys
    decreases |s|, 2, 0
  {
    BestOver(letters, dict, s, s)
  }

  /** The best `CompBest` of the components of the tiles `rest` of `s`, and 0 for none. */
  ghost function BestOver(letters: Letters, dict: set<string>, s: VecSet, rest: VecSet): int
    requires s <= letters.Keys && rest <= s
    decreases |s|, 1, |rest|
  {
    if rest == {} then 0
    else
      var v := AnyTile(rest);
      SubsetNoLarger(Component(s, v), s);
      Max(CompBest(letters, dict, Component(s, v)), BestOver(letters, dict, s, rest - {v}))
  }

  /**
   * What one component scores: nothing for fewer than two tiles; its points (or 0)
   * when every tile lies in a valid word and no word is invalid; the best of the
   * attempts without one tile of an invalid word when every tile lies in a valid word
   * but some word is invalid; and otherwise what the tiles of valid words score on
   * their own.
   */
  ghost function CompBest(letters: Letters, dict: set<string>, c: VecSet): int
    requires c <= letters.Keys
    decreases |c|, 1, 0
  {
    if |c| <= 1 then 0
    else
      var valid := WordSets(letters, dict, c).0;
      var invalid := WordSets(letters, dict, c).1;
      if |valid| == |c| then
        if |invalid| == 0 then Max(SetPoints(letters, c), 0) else DropBest(letters, dict, c, invalid)
      else
        SubsetNoLarger(valid, c);
        BestFor(letters, dict, valid)
  }

  /** The best, over the tiles `e` of `rest`, of what `valid` without `e` scores, and 0 for none. */
  ghost function DropBest(letters: Letters, dict: set<string>, valid: VecSet, rest: VecSet): int
    requires valid <= letters.Keys && rest <= valid
    decreases |valid|, 0, |rest|
  {
    if rest == {} then 0
    else
      var e := AnyTile(rest);
      RemoveShrinks(valid, e);
      Max(BestFor(letters, dict, valid - {e}), DropBest(letters, dict, valid, rest - {e}))
  }

  /**
   * The tiles `findValidScorableComponents` adds to the invalid tiles of `s`: what each
   * component of `s` adds.
   */
  ghost function InvalidFor(letters: Letters, dict: set<string>, s: VecSet): VecSet
    requires s <= letters.Keys
    decreases |s|, 2, 0
  {
    InvalidOver(letters, dict, s, s)
  }

  /** The union of `CompInvalid` over the components of the tiles `rest` of `s`. */
  ghost function InvalidOver(letters: Letters, dict: set<string>, s: VecSet, rest: VecSet): VecSet
    requires s <= letters.Keys && rest <= s
    decreases |s|, 1, |rest|
  {
    if rest == {} then {}
    else
      var v := AnyTile(rest);
      SubsetNoLarger(Component(s, v), s);
      CompInvalid(letters, dict, Component(s, v)) + InvalidOver(letters, dict, s, rest - {v})
  }

  /**
   * What one component adds to the invalid tiles: all of it when it has fewer than two
   * tiles; otherwise the tiles of its invalid words, and, when some tile lies in no
   * valid word, what the tiles of valid words add on their own.
   */
  ghost function CompInvalid(letters: Letters, dict: set<string>, c: VecSet): VecSet
    requires c <= letters.Keys
    decreases |c|, 1, 0
  {
    if |c| <= 1 then c
    else
      var valid := WordSets(letters, dict, c).0;
      var invalid := WordSets(letters, dict, c).1;
      SubsetNoLarger(valid, c);
      if |valid| == |c| then invalid
      else invalid + InvalidFor(letters, dict, valid)
  }

  /** `BestOver` is the maximum of 0 and the scores of the components of the tiles of `rest`. */
  lemma {:induction false} BestOverIsMax(letters: Letters, dict: set<string>, s: VecSet, rest: VecSet)
    requires s <= letters.Keys && rest <= s
    ensures BestOver(letters, dict, s, rest) >= 0
    ensures forall v :: v in rest ==> CompBest(letters, dict, Component(s, v)) <= BestOver(letters, dict, s, rest)
    ensures BestOver(letters, dict, s, rest) == 0 ||
      exists v :: v in rest && BestOver(letters, dict, s, rest) == CompBest(letters, dict, Component(s, v))
    decreases |rest|
  {
    if rest != {} {
      var v := AnyTile(rest);
      BestOverIsMax(letters, dict, s, rest - {v});
      var b := BestOver(letters, dict, s, rest - {v});
      var a := CompBest(letters, dict, Component(s, v));
      assert BestOver(letters, dict, s, rest) == Max(a, b);
    }
  }

  lemma BestOverNonNegative(letters: Letters, dict: set<string>, s: VecSet, rest: VecSet)
    requires s <= letters.Keys && rest <= s
    ensures BestOver(letters, dict, s, rest) >= 0
  {
    BestOverIsMax(letters, dict, s, rest);
  }

  /** `DropBest` is the maximum of 0 and the scores of `valid` without each tile of `rest`. */
  lemma {:induction false} DropBestIsMax(letters: Letters, dict: set<string>, valid: VecSet, rest: VecSet)
    requires valid <= letters.Keys && rest <= valid
    ensures DropBest(letters, dict, valid, rest) >= 0
    ensures forall e :: e in rest ==> BestFor(letters, dict, valid - {e}) <= DropBest(letters, dict, valid, rest)
    ensures DropBest(letters, dict, valid, rest) == 0 ||
      exists e :: e in rest && DropBest(letters, dict, valid, rest) == BestFor(letters, dict, valid - {e})
    decreases |rest|
  {
    if rest != {} {
      var e := AnyTile(rest);
      DropBestIsMax(letters, dict, valid, rest - {e});
      var b := DropBest(letters, dict, valid, rest - {e});
      var a := BestFor(letters, dict, valid - {e});
      assert DropBest(letters, dict, valid, rest) == Max(a, b);
    }
  }

  /** `InvalidOver` is the union of what the components of the tiles of `rest` add. */
  lemma {:induction false} InvalidOverIsUnion(letters: Letters, dict: set<string>, s: VecSet, rest: VecSet, u: Vec)
    requires s <= letters.Keys && rest <= s
    ensures u in InvalidOver(letters, dict, s, rest) <==>
      exists v :: v in rest && u in CompInvalid(letters, dict, Component(s, v))
    decreases |rest|
  {
    if rest != {} {
      var v := AnyTile(rest);
      InvalidOverIsUnion(letters, dict, s, rest - {v}, u);
    }
  }

  /** Adding the tiles of a whole component takes the better of the old best and its score. */
  lemma BestOverAddComponent(letters: Letters, dict: set<string>, s: VecSet, x: VecSet, c: VecSet)
    requires s <= letters.Keys && x <= s && IsComponent(s, c)
    ensures c <= s
    ensures BestOver(letters, dict, s, x + c) == Max(BestOver(letters, dict, s, x), CompBest(letters, dict, c))
  {
    BestOverAddAtLeast(letters, dict, s, x, c);
    BestOverAddAtMost(letters, dict, s, x, c);
  }

  /** The old best and the component's score are both at most the new best. */
  lemma BestOverAddAtLeast(letters: Letters, dict: set<string>, s: VecSet, x: VecSet, c: VecSet)
    requires s <= letters.Keys && x <= s && IsComponent(s, c)
    ensures c <= s
    ensures BestOver(letters, dict, s, x) <= BestOver(letters, dict, s, x + c)
    ensures CompBest(letters, dict, c) <= BestOver(letters, dict, s, x + c)
  {
    var w :| w in c && c == Component(s, w);
    BestOverIsMax(letters, dict, s, x);
    BestOverIsMax(letters, dict, s, x + c);
    var b := BestOver(letters, dict, s, x);
    assert w in x + c;
    if b != 0 {
      var v :| v in x && b == CompBest(letters, dict, Component(s, v));
      assert v in x + c;
    }
  }

  /** The new best is the old best or the component's score. */
  lemma BestOverAddAtMost(letters: Letters, dict: set<string>, s: VecSet, x: VecSet, c: VecSet)
    requires s <= letters.Keys && x <= s && IsComponent(s, c)
    ensures c <= s
    ensures BestOver(letters, dict, s, x + c) <= Max(BestOver(letters, dict, s, x), CompBest(letters, dict, c))
  {
    BestOverIsMax(letters, dict, s, x);
    BestOverIsMax(letters, dict, s, x + c);
    var a := BestOver(letters, dict, s, x + c);
    if a != 0 {
      var v :| v in x + c && a == CompBest(letters, dict, Component(s, v));
      if v in c {
        ComponentOfMember(s, c, v);
      }
    }
  }

  /** Trying one more tile takes the better of the old best and that attempt. */
  lemma DropBestAdd(letters: Letters, dict: set<string>, valid: VecSet, done: VecSet, e: Vec)
    requires valid <= letters.Keys && done <= valid && e in valid
    ensures DropBest(letters, dict, valid, done + {e}) ==
      Max(BestFor(letters, dict, valid - {e}), DropBest(letters, dict, valid, done))
  {
    DropBestIsMax(letters, dict, valid, done);
    DropBestIsMax(letters, dict, valid, done + {e});
    var a := DropBest(letters, dict, valid, done + {e});
    if a != 0 {
      var x :| x in done + {e} && a == BestFor(letters, dict, valid - {x});
    }
  }

  /** Adding the tiles of a whole component adds what that component adds. */
  lemma InvalidOverAddComponent(letters: Letters, dict: set<string>, s: VecSet, x: VecSet, c: VecSet)
    requires s <= letters.Keys && x <= s && IsComponent(s, c)
    ensures c <= s
    ensures InvalidOver(letters, dict, s, x + c) == InvalidOver(letters, dict, s, x) + CompInvalid(letters, dict, c)
  {
    var w :| w in c && c == Component(s, w);
    forall u
      ensures u in InvalidOver(letters, dict, s, x + c) <==>
        u in InvalidOver(letters, dict, s, x) + CompInvalid(letters, dict, c)
    {
      InvalidOverIsUnion(letters, dict, s, x + c, u);
      InvalidOverIsUnion(letters, dict, s, x, u);
      forall v | v in c
        ensures Component(s, v) == c
      {
        ComponentOfMember(s, c, v);
      }
    }
  }

  /** The best of two lists of components together is the better of their bests. */
  lemma {:induction false} BestOfConcat(letters: Letters, a: seq<VecSet>, b: seq<VecSet>)
    ensures BestOf(letters, a + b) == Max(BestOf(letters, a), BestOf(letters, b))
    decreases |b|
  {
    if b == [] {
      assert a + b == a;
      BestOfIsMax(letters, a);
    } else {
      var init := b[..|b| - 1];
      assert (a + b)[..|a + b| - 1] == a + init;
      assert (a + b)[|a + b| - 1] == b[|b| - 1];
      BestOfConcat(letters, a, init);
    }
  }

  /**
   * Every tile of an invalid word of a component of two or more tiles is among the
   * invalid tiles of `s`.
   */
  lemma InvalidWordTilesInvalid(letters: Letters, dict: set<string>, s: VecSet, c: VecSet, u: Vec)
    requires s <= letters.Keys && IsComponent(s, c) && |c| >= 2
    requires u in c && InSomeWord(letters, dict, c, u, false)
    ensures u in InvalidFor(letters, dict, s)
  {
    ComponentOfMember(s, c, u);
    assert u in WordSets(letters, dict, c).1;
    assert u in CompInvalid(letters, dict, Component(s, u));
    InvalidOverIsUnion(letters, dict, s, s, u);
  }

  /** Every tile of a component of one tile is among the invalid tiles of `s`. */
  lemma LoneTileInvalid(letters: Letters, dict: set<string>, s: VecSet, u: Vec)
    requires s <= letters.Keys && u in s && |Component(s, u)| <= 1
    ensures u in InvalidFor(letters, dict, s)
  {
    assert IsPath(s, [u]);
    assert u in CompInvalid(letters, dict, Component(s, u));
    InvalidOverIsUnion(letters, dict, s, s, u);
  }

  /** The invalid tiles of `s` are tiles of `s`. */
  lemma {:induction false} InvalidForWithin(letters: Letters, dict: set<string>, s: VecSet, u: Vec)
    requires s <= letters.Keys && u in InvalidFor(letters, dict, s)
    ensures u in s
    decreases |s|
  {
    InvalidOverIsUnion(letters, dict, s, s, u);
    var v :| v in s && u in CompInvalid(letters, dict, Component(s, v));
    var c := Component(s, v);
    SubsetNoLarger(c, s);
    if |c| >= 2 && u !in WordSets(letters, dict, c).1 {
      var valid := WordSets(letters, dict, c).0;
      SubsetNoLarger(valid, c);
      InvalidForWithin(letters, dict, valid, u);
    }
  }

  /**
   * A component of two or more tiles whose words are all valid is never missed: the best
   * score of `s` is at least its points.
   */
  lemma WholeValidComponentCounted(letters: Letters, dict: set<string>, s: VecSet, c: VecSet)
    requires s <= letters.Keys && IsComponent(s, c) && |c| >= 2
    requires Checked(letters, dict, c, c, {})
    ensures SetPoints(letters, c) <= BestFor(letters, dict, s)
  {
    var w :| w in c && c == Component(s, w);
    CheckedUnique(letters, dict, c, c, {}, WordSets(letters, dict, c).0, WordSets(letters, dict, c).1);
    BestOverIsMax(letters, dict, s, s);
    assert CompBest(letters, dict, Component(s, w)) <= BestOver(letters, dict, s, s);
  }

  /**
   * The state of the scan of `findValidScorableComponents` once the components covering
   * `done` are handled: the best of what was kept is `BestOver` them, and the invalid
   * tiles grew by exactly `InvalidOver` them.
   */
  ghost predicate Scanned(letters: Letters, dict: set<string>, s: VecSet, done: VecSet,
                          scorable: seq<VecSet>, invalidAll: VecSet, invalidOut: VecSet) {
    && s <= letters.Keys && done <= s
    && BestOf(letters, scorable) == BestOver(letters, dict, s, done)
    && invalidOut == invalidAll + InvalidOver(letters, dict, s, done)
  }

  /** A component of one tile scores nothing and joins the invalid tiles. */
  lemma ScannedSmall(letters: Letters, dict: set<string>, s: VecSet, done: VecSet, c: VecSet,
                     scorable: seq<VecSet>, invalidAll: VecSet, invalidOut: VecSet)
    requires Scanned(letters, dict, s, done, scorable, invalidAll, invalidOut)
    requires IsComponent(s, c) && |c| <= 1
    ensures Scanned(letters, dict, s, done + c, scorable, invalidAll, invalidOut + c)
  {
    BestOverAddComponent(letters, dict, s, done, c);
    InvalidOverAddComponent(letters, dict, s, done, c);
    BestOverNonNegative(letters, dict, s, done);
  }

  /** A larger component adds what `ScorableParts` keeps and marks invalid. */
  lemma ScannedLarge(letters: Letters, dict: set<string>, s: VecSet, done: VecSet, c: VecSet,
                     scorable: seq<VecSet>, found: seq<VecSet>, invalidAll: VecSet, invalidOut: VecSet, invalidNext: VecSet)
    requires Scanned(letters, dict, s, done, scorable, invalidAll, invalidOut)
    requires IsComponent(s, c) && c <= s
    requires BestOf(letters, found) == CompBest(letters, dict, c)
    requires invalidNext == invalidOut + CompInvalid(letters, dict, c)
    ensures Scanned(letters, dict, s, done + c, scorable + found, invalidAll, invalidNext)
  {
    BestOverAddComponent(letters, dict, s, done, c);
    InvalidOverAddComponent(letters, dict, s, done, c);
    BestOfConcat(letters, scorable, found);
  }

  /**
   * `findValidScorableComponents` (game/board.go:212-258). Components of one tile go to
   * the invalid tiles; the others are scored by `ScorableParts`. Every set returned is
   * scorable and made of tiles of `boardSet`, and the best of them scores `BestFor`; the
   * invalid tiles grow by exactly `InvalidFor`, which holds every tile of `boardSet` with
   * no neighbour.
   */
  method FindValidScorableComponents(letters: Letters, dict: set<string>, boardSet: VecSet, invalidAll: VecSet)
    returns (scorable: seq<VecSet>, invalidOut: VecSet)
    requires boardSet <= letters.Keys
    ensures AllScorable(letters, dict, scorable, boardSet)
    ensures BestOf(letters, scorable) == BestFor(letters, dict, boardSet)
    ensures invalidOut == invalidAll + InvalidFor(letters, dict, boardSet)
    ensures invalidAll <= invalidOut <= invalidAll + boardSet
    ensures IsolatedIn(boardSet, boardSet, invalidOut)
    decreases |boardSet|, 2
  {
    var components := FindComponents(boardSet);
    scorable := [];
    invalidOut := invalidAll;
    ghost var done: VecSet := {};
    for i := 0 to |components|
      invariant done == UnionAll(components[..i]) && done <= boardSet
      invariant AllScorable(letters, dict, scorable, boardSet)
      invariant Scanned(letters, dict, boardSet, done, scorable, invalidAll, invalidOut)
      invariant invalidAll <= invalidOut <= invalidAll + boardSet
      invariant IsolatedIn(boardSet, done, invalidOut)
    {
      var comp := components[i];
      assert comp <= boardSet;
      SubsetCard(comp, boardSet);
      UnionAllStep(components, i);
      if |comp| <= 1 {
        ScannedSmall(letters, dict, boardSet, done, comp, scorable, invalidAll, invalidOut);
        invalidOut := Union(invalidOut, comp);
      } else {
        var found, invalidNext := ScorableParts(letters, dict, comp, invalidOut);
        ScannedLarge(letters, dict, boardSet, done, comp, scorable, found, invalidAll, invalidOut, invalidNext);
        invalidOut := invalidNext;
        LargeComponentIsolatedIn(boardSet, comp, invalidOut);
        AllScorableAppend(letters, dict, scorable, boardSet, found, comp, boardSet);
        scorable := scorable + found;
      }
      done := done + comp;
    }
    assert components[..|components|] == components;
  }

  /**
   * The loop body of `findValidScorableComponents` for a component of two or more tiles
   * (game/board.go:223-255): the words are checked and the tiles of invalid words join
   * the invalid tiles. A component whose words are all valid is kept; one whose tiles
   * all lie in valid words but which also has an invalid word is handed to
   * `bruteForceScorableComponents`; otherwise the tiles in valid words are scored again
   * on their own. What is kept is scorable and made of tiles of `comp`, its best scores
   * `CompBest`, and the invalid tiles grow by exactly `CompInvalid`.
   */
  method ScorableParts(letters: Letters, dict: set<string>, comp: VecSet, invalidAll: VecSet)
    returns (found: seq<VecSet>, invalidOut: VecSet)
    requires comp <= letters.Keys && |comp| >= 2
    ensures AllScorable(letters, dict, found, comp)
    ensures BestOf(letters, found) == CompBest(letters, dict, comp)
    ensures invalidOut == invalidAll + CompInvalid(letters, dict, comp)
    ensures invalidAll <= invalidOut <= invalidAll + comp
    decreases |comp|, 1
  {
    var valid, invalid, _ := CheckWords(letters, dict, comp);
    CheckedWithin(letters, dict, comp, valid, invalid);
    CheckedUnique(letters, dict, comp, valid, invalid, WordSets(letters, dict, comp).0, WordSets(letters, dict, comp).1);
    invalidOut := Union(invalidAll, invalid);
    SubsetNoLarger(valid, comp);
    if |valid| == |comp| {
      SubsetSameSize(valid, comp);
      if |invalid| != 0 {
        ghost var attempts;
        found, attempts := BruteForceScorableComponents(letters, dict, valid, invalid);
      } else {
        WholeComponentScorable(letters, dict, comp, valid, invalid);
        SingleScorable(letters, dict, valid, comp);
        BestOfOne(letters, valid);
        found := [valid];
      }
    } else {
      found, invalidOut := FindValidScorableComponents(letters, dict, valid, invalidOut);
    }
  }

  /**
   * Every recorded attempt (the tile removed, the components found without it) is
   * scorable, avoids its removed tile, and scores no more than `bestScore`.
   */
  ghost predicate Tried(letters: Letters, dict: set<string>, valid: VecSet, attempts: map<Vec, seq<VecSet>>, bestScore: int) {
    forall e :: e in attempts ==>
      AllScorable(letters, dict, attempts[e], valid - {e}) && BestOf(letters, attempts[e]) <= bestScore
  }

  /** The choice is empty or one of the recorded attempts. */
  ghost predicate Chosen(attempts: map<Vec, seq<VecSet>>, bestChoice: seq<VecSet>) {
    bestChoice == [] || exists e :: e in attempts && bestChoice == attempts[e]
  }

  lemma TriedStep(letters: Letters, dict: set<string>, valid: VecSet, attempts: map<Vec, seq<VecSet>>,
                  bestScore: int, elt: Vec, comps: seq<VecSet>, newBest: int)
    requires Tried(letters, dict, valid, attempts, bestScore) && bestScore <= newBest
    requires AllScorable(letters, dict, comps, valid - {elt}) && BestOf(letters, comps) <= newBest
    ensures Tried(letters, dict, valid, attempts[elt := comps], newBest)
  {
  }

  lemma ChosenStep(attempts: map<Vec, seq<VecSet>>, bestChoice: seq<VecSet>, elt: Vec, comps: seq<VecSet>, taken: bool)
    requires Chosen(attempts, bestChoice) && elt !in attempts
    ensures Chosen(attempts[elt := comps], if taken then comps else bestChoice)
  {
    var m := attempts[elt := comps];
    if taken {
      assert elt in m && m[elt] == comps;
    } else if bestChoice != [] {
      var e :| e in attempts && bestChoice == attempts[e];
      assert e in m && m[e] == bestChoice;
    }
  }

  lemma AllScorableWiden(letters: Letters, dict: set<string>, cs: seq<VecSet>, w: VecSet, within: VecSet)
    requires AllScorable(letters, dict, cs, w) && w <= within <= letters.Keys
    ensures AllScorable(letters, dict, cs, within)
  {
  }

  /**
   * The choice so far: scorable, scored `bestScore`, no attempt scoring more, and one of
   * the attempts or empty.
   */
  ghost predicate Keeping(letters: Letters, dict: set<string>, valid: VecSet, attempts: map<Vec, seq<VecSet>>,
                          bestChoice: seq<VecSet>, bestScore: int) {
    && AllScorable(letters, dict, bestChoice, valid)
    && bestScore == BestOf(letters, bestChoice)
    && Tried(letters, dict, valid, attempts, bestScore)
    && Chosen(attempts, bestChoice)
  }

  /** Recording one more attempt keeps the choice, or takes the attempt when it scores strictly more. */
  lemma KeepingStep(letters: Letters, dict: set<string>, valid: VecSet, attempts: map<Vec, seq<VecSet>>,
                    bestChoice: seq<VecSet>, bestScore: int, elt: Vec, comps: seq<VecSet>, score: int)
    requires Keeping(letters, dict, valid, attempts, bestChoice, bestScore) && elt !in attempts
    requires valid <= letters.Keys && AllScorable(letters, dict, comps, valid - {elt}) && score == BestOf(letters, comps)
    ensures score > bestScore ==> Keeping(letters, dict, valid, attempts[elt := comps], comps, score)
    ensures score <= bestScore ==> Keeping(letters, dict, valid, attempts[elt := comps], bestChoice, bestScore)
  {
    ChosenStep(attempts, bestChoice, elt, comps, score > bestScore);
    if score > bestScore {
      TriedStep(letters, dict, valid, attempts, bestScore, elt, comps, score);
      AllScorableWiden(letters, dict, comps, valid - {elt}, valid);
    } else {
      TriedStep(letters, dict, valid, attempts, bestScore, elt, comps, bestScore);
    }
  }

  /** Moving one tile from `rest` to `done` keeps them apart and covering `all`. */
  lemma MoveOne(all: VecSet, rest: VecSet, done: VecSet, attempts: map<Vec, seq<VecSet>>, e: Vec, comps: seq<VecSet>)
    requires rest <= all && done == all - rest && attempts.Keys == done && e in rest
    ensures rest - {e} <= all && done + {e} == all - (rest - {e}) && attempts[e := comps].Keys == done + {e}
  {
  }

  /** After trying the tiles `done`, the best score is `DropBest` of them. */
  ghost predicate Tallied(letters: Letters, dict: set<string>, valid: VecSet, done: VecSet, bestScore: int) {
    && valid <= letters.Keys && done <= valid
    && bestScore == DropBest(letters, dict, valid, done)
  }

  /** Trying one more tile keeps the strictly better score. */
  lemma TalliedStep(letters: Letters, dict: set<string>, valid: VecSet, done: VecSet, bestScore: int,
                    e: Vec, attemptScore: int)
    requires Tallied(letters, dict, valid, done, bestScore) && e in valid
    requires attemptScore == BestFor(letters, dict, valid - {e})
    ensures Tallied(letters, dict, valid, done + {e}, if attemptScore > bestScore then attemptScore else bestScore)
  {
    DropBestAdd(letters, dict, valid, done, e);
  }

  /**
   * `bruteForceScorableComponents` (game/board.go:191-210): for each tile of `invalid`, in
   * the set's iteration order, score `valid` without that tile, and keep the first
   * attempt with the strictly highest best score above 0 (none: nil). The choice scores
   * `DropBest`, the best over all those attempts. `attempts` records the components each
   * removal produced, one entry per tile of `invalid`: every one of them is scorable and
   * avoids its removed tile, none scores more than the choice, and the choice is one of
   * them or empty.
   */
  method BruteForceScorableComponents(letters: Letters, dict: set<string>, valid: VecSet, invalid: VecSet)
    returns (bestChoice: seq<VecSet>, ghost attempts: map<Vec, seq<VecSet>>)
    requires valid <= letters.Keys && invalid <= valid
    ensures AllScorable(letters, dict, bestChoice, valid)
    ensures BestOf(letters, bestChoice) == DropBest(letters, dict, valid, invalid)
    ensures attempts.Keys == invalid
    ensures Tried(letters, dict, valid, attempts, BestOf(letters, bestChoice))
    ensures Chosen(attempts, bestChoice)
    decreases |valid|, 0
  {
    var bestScore := 0;
    bestChoice := [];
    attempts := map[];
    var tempInvalid: VecSet := {};
    var rest := invalid;
    ghost var done: VecSet := {};
    while rest != {}
      invariant rest <= invalid && done == invalid - rest && attempts.Keys == done
      invariant Keeping(letters, dict, valid, attempts, bestChoice, bestScore)
      invariant Tallied(letters, dict, valid, done, bestScore)
      decreases |rest|
    {
      var elt :| elt in rest;
      var attemptComps, attemptScore;
      attemptComps, tempInvalid, attemptScore := TryWithout(letters, dict, valid, elt, tempInvalid);
      TalliedStep(letters, dict, valid, done, bestScore, elt, attemptScore);
      KeepingStep(letters, dict, valid, attempts, bestChoice, bestScore, elt, attemptComps, attemptScore);
      MoveOne(invalid, rest, done, attempts, elt, attemptComps);
      if attemptScore > bestScore {
        bestScore := attemptScore;
        bestChoice := attemptComps;
      }
      attempts := attempts[elt := attemptComps];
      rest := rest - {elt};
      done := done + {elt};
    }
    assert done == invalid;
  }

  /**
   * One attempt of `bruteForceScorableComponents` (game/board.go:199-203): a copy of
   * `valid` without `elt`, its scorable components and their best score, `BestFor` of
   * `valid` without `elt`.
   */
  method TryWithout(letters: Letters, dict: set<string>, valid: VecSet, elt: Vec, tempInvalid: VecSet)
    returns (attemptComps: seq<VecSet>, tempOut: VecSet, attemptScore: int)
    requires valid <= letters.Keys && elt in valid
    ensures AllScorable(letters, dict, attemptComps, valid - {elt})
    ensures attemptScore == BestOf(letters, attemptComps) == BestFor(letters, dict, valid - {elt})
    decreases |valid| - 1, 3
  {
    var attempt := Union({}, valid);
    attempt := attempt - {elt};
    SubsetCard(attempt, valid);
    attemptComps, tempOut := FindValidScorableComponents(letters, dict, attempt, tempInvalid);
    attemptScore := BestScore(letters, attemptComps);
  }
}

=== FILE: js_game_manager.dfy ===
/**
 * The browser game object (public/js/game_manager.js) and the tile's `remove`
 * (public/js/tile.js): a board grid and a tray grid over one tile store, the start
 * tiles, and the drop of a dragged tile. The drop is proved to keep every tile's
 * record in agreement with the cell that holds it.
 */
module JsGameManager {
  import opened Vectors
  import opened Wrappers
  import opened JsTiles
  import opened JsGrid
  import opened JsGridClass

  /** The number of tiles `addStartTiles` deals. */
  const StartCount := 12

  /** `String.fromCharCode('A'.charCodeAt(0) + i)`. */
  function StartLetter(i: nat): (c: char)
    requires i < StartCount
    ensures 'A' <= c <= 'L' && c as int - 'A' as int == i
  {
    ('A' as int + i) as char
  }

  /** What `addStartTiles` as written hands the `Tile` constructor: the bare letter. */
  function StartTileArgAsWritten(i: nat): (r: TileArg)
    requires i < StartCount
    ensures r.TextArg? && r.text == [StartLetter(i)]
  {
    TextArg([StartLetter(i)])
  }

  /**
   * As written, no start tile gets its letter: the constructor reads `Value` and
   * `Points` off a string, and both are undefined.
   */
  lemma StartTilesAsWrittenUnlabelled(i: nat)
    requires i < StartCount
    ensures ReadTileArg(StartTileArgAsWritten(i)) == None
    ensures ReadTileArg(StructArg(StartTile(i))) == Some(StartTile(i)) && StartTile(i).value == [StartLetter(i)]
  {
  }

  /**
   * The record `addStartTiles` evidently means to pass: the letter as its value. The
   * source names no points for these tiles; they are given 0.
   */
  function StartTile(i: nat): (r: TileStruct)
    requires i < StartCount
    ensures r.value == [StartLetter(i)] && r.points == 0
  {
    TileStruct([StartLetter(i)], 0)
  }

  /** Start tile `i` after `insertTile(tile, vec(i, 0))` on the tray. */
  function StartRecord(i: nat): (r: TileRec)
    requires i < StartCount
    ensures r.value == [StartLetter(i)] && r.position == Vec(i, 0) && r.grid == TrayGrid && r.valid
  {
    NewTile(StartTile(i), TrayGrid).(position := Vec(i, 0))
  }

  /**
   * `tile.remove()`: the tile's own grid empties the cell the tile records. Nothing
   * else changes; the record keeps naming its old cell.
   */
  function TakeUp(c: Containers, t: TileId): (r: Containers)
    requires Homed(c, t)
    ensures Homed(r, t) && r.recs == c.recs && Get(Pick(r, c.recs[t].grid), c.recs[t].position) == None
    ensures c.recs[t].grid == BoardGrid ==> r.tray == c.tray
    ensures c.recs[t].grid == TrayGrid ==> r.board == c.board
  {
    var home := c.recs[t].grid;
    SetShapedKnown(Pick(c, home), c.recs[t].position, None, |c.recs|);
    if home == BoardGrid then c.(board := JsGrid.RemoveTile(c.board, c.recs, t))
    else c.(tray := JsGrid.RemoveTile(c.tray, c.recs, t))
  }

  // ------------------------------------------------------------------- agreement

  /** Every tile on the board records the board and its cell, and likewise for the tray. */
  predicate Consistent(c: Containers) {
    Agrees(c.board, BoardGrid, c.recs) && Agrees(c.tray, TrayGrid, c.recs)
  }

  /** Tile `t` is in no cell of `g`. */
  predicate Absent(g: GridV, t: TileId) {
    forall x, y :: 0 <= x < |g.tiles| && 0 <= y < |g.tiles[x]| ==> g.tiles[x][y] != Some(t)
  }

  /** A grid that does not hold `t` keeps its agreement when only `t`'s record changes. */
  lemma AgreesWithout(g: GridV, id: GridId, recs: seq<TileRec>, recs': seq<TileRec>, t: TileId)
    requires Agrees(g, id, recs) && Absent(g, t) && |recs'| == |recs|
    requires forall u :: 0 <= u < |recs| && u != t ==> recs'[u] == recs[u]
    ensures Agrees(g, id, recs')
  {
    forall x, y | 0 <= x < |g.tiles| && 0 <= y < |g.tiles[x]| && g.tiles[x][y].Some?
      ensures recs'[g.tiles[x][y].value] == recs[g.tiles[x][y].value]
    {
      assert g.tiles[x][y] != Some(t);
    }
  }

  /** Placing a tile the grid does not hold, into any cell, keeps the grid's agreement. */
  lemma PlaceAgrees(g: GridV, id: GridId, recs: seq<TileRec>, t: TileId, p: Vec)
    requires Agrees(g, id, recs) && Absent(g, t) && InGrid(g, p) && t < |recs|
    ensures var r := JsGrid.AddTile(g, id, recs, t, p); Agrees(r.g, id, r.recs)
  {
    var r := JsGrid.AddTile(g, id, recs, t, p);
    forall x, y | 0 <= x < |r.g.tiles| && 0 <= y < |r.g.tiles[x]| && r.g.tiles[x][y].Some?
      ensures r.g.tiles[x][y].value < |r.recs| && r.recs[r.g.tiles[x][y].value].position == Vec(x, y)
      ensures r.recs[r.g.tiles[x][y].value].grid == id
    {
      if Vec(x, y) != p {
        assert r.g.tiles[x][y] == g.tiles[x][y] && g.tiles[x][y] != Some(t);
      }
    }
  }

  /** `addToFirstEmptyCell` of a tile the grid does not hold keeps the grid's agreement. */
  lemma FirstEmptyAgrees(g: GridV, id: GridId, recs: seq<TileRec>, t: TileId)
    requires Shaped(g) && Known(g, |recs|) && Agrees(g, id, recs) && Absent(g, t) && t < |recs|
    ensures var r := JsGrid.AddToFirstEmptyCell(g, id, recs, t); Agrees(r.g, id, r.recs)
  {
    var first := FirstEmpty(g);
    if first.None? {
      var e := WithColumn(g);
      assert Agrees(e, id, recs) by {
        forall x, y | 0 <= x < |e.tiles| && 0 <= y < |e.tiles[x]| && e.tiles[x][y].Some?
          ensures x < |g.tiles| && e.tiles[x][y] == g.tiles[x][y]
        {
        }
      }
      assert Absent(e, t) by {
        forall x, y | 0 <= x < |e.tiles| && 0 <= y < |e.tiles[x]|
          ensures e.tiles[x][y] != Some(t)
        {
          if x < |g.tiles| {
            assert e.tiles[x][y] == g.tiles[x][y];
          }
        }
      }
      PlaceAgrees(e, id, recs, t, Vec(e.size.x - 1, 0));
    } else {
      PlaceAgrees(g, id, recs, t, first.value);
    }
  }

  /** Taking a tile up leaves both grids in agreement and the tile in neither. */
  lemma TakeUpAgrees(c: Containers, t: TileId)
    requires Homed(c, t) && Consistent(c)
    ensures var r := TakeUp(c, t); Consistent(r) && Absent(r.board, t) && Absent(r.tray, t)
  {
    var r := TakeUp(c, t);
    var home := c.recs[t].grid;
    var g := Pick(c, home);
    var h := Pick(r, home);
    assert Agrees(h, home, c.recs) && Absent(h, t) by {
      forall x, y | 0 <= x < |h.tiles| && 0 <= y < |h.tiles[x]|
        ensures h.tiles[x][y] != Some(t)
        ensures h.tiles[x][y].Some? ==>
          (c.recs[h.tiles[x][y].value].position == Vec(x, y) && c.recs[h.tiles[x][y].value].grid == home)
      {
        if Vec(x, y) != c.recs[t].position {
          assert h.tiles[x][y] == g.tiles[x][y];
        }
      }
    }
    var other := if home == BoardGrid then TrayGrid else BoardGrid;
    assert Absent(Pick(r, other), t) by {
      forall x, y | 0 <= x < |Pick(r, other).tiles| && 0 <= y < |Pick(r, other).tiles[x]|
        ensures Pick(r, other).tiles[x][y] != Some(t)
      {
        assert Pick(r, other) == Pick(c, other);
      }
    }
  }

  /** The tile goes into one of the grids at a cell; the other grid does not hold it. */
  lemma PutAgrees(c: Containers, id: GridId, t: TileId, p: Vec)
    requires id == BoardGrid || id == TrayGrid
    requires Homed(c, t) && Consistent(c) && Absent(c.board, t) && Absent(c.tray, t) && InGrid(Pick(c, id), p)
    ensures Consistent(Put(c, id, JsGrid.AddTile(Pick(c, id), id, c.recs, t, p)))
  {
    var a := JsGrid.AddTile(Pick(c, id), id, c.recs, t, p);
    PlaceAgrees(Pick(c, id), id, c.recs, t, p);
    if id == BoardGrid {
      AgreesWithout(c.tray, TrayGrid, c.recs, a.recs, t);
    } else {
      AgreesWithout(c.board, BoardGrid, c.recs, a.recs, t);
    }
  }

  /**
   * Dropping a tile that is in neither grid, wherever it is dropped, leaves both grids
   * in agreement with the records.
   */
  lemma DropAgrees(c: Containers, t: TileId, p: Vec, boardCorner: Vec, trayCorner: Vec)
    requires Homed(c, t) && Consistent(c) && Absent(c.board, t) && Absent(c.tray, t)
    ensures Consistent(JsGrid.MoveTileTo(c, t, p, boardCorner, trayCorner))
  {
    var b := NearestCell(c.board, boardCorner, p);
    var tr := NearestCell(c.tray, trayCorner, p);
    if b.Some? {
      if Get(c.board, b.value) == None {
        PutAgrees(c, BoardGrid, t, b.value);
      } else {
        PutAgrees(c, c.recs[t].grid, t, c.recs[t].position);
      }
    } else if tr.Some? {
      if Get(c.tray, tr.value) == None {
        PutAgrees(c, TrayGrid, t, tr.value);
      } else {
        PutAgrees(c, c.recs[t].grid, t, c.recs[t].position);
      }
    } else {
      var s := JsGrid.AddToFirstEmptyCell(c.tray, TrayGrid, c.recs, t);
      FirstEmptyAgrees(c.tray, TrayGrid, c.recs, t);
      AgreesWithout(c.board, BoardGrid, c.recs, s.recs, t);
    }
  }

  /**
   * A whole drag, `mouseDown`'s `remove` followed by `mouseUp`'s `moveTileTo`, keeps
   * every tile's record in agreement with the cell that holds it, and the tile lands
   * in the cell its record names.
   */
  lemma DragAgrees(c: Containers, t: TileId, p: Vec, boardCorner: Vec, trayCorner: Vec)
    requires Homed(c, t) && Consistent(c)
    ensures var r := JsGrid.MoveTileTo(TakeUp(c, t), t, p, boardCorner, trayCorner);
      Consistent(r) && Homed(r, t) && Landed(r, t)
  {
    TakeUpAgrees(c, t);
    DropAgrees(TakeUp(c, t), t, p, boardCorner, trayCorner);
  }

  // --------------------------------------------------------------------- the class

  /** A `GameManager` object: its board (`grid`), its tray and the tiles they hold. */
  class GameManager {
    const size: nat
    const startTiles: nat
    const store: TileStore
    const grid: Grid
    const tray: Grid

    predicate Valid()
      reads this, store, grid, tray
    {
      grid != tray && grid.store == store && tray.store == store &&
      grid.id == BoardGrid && tray.id == TrayGrid && grid.Valid() && tray.Valid()
    }

    /** The board, the tray and the tile records, as a value. */
    function State(): Containers
      reads this, grid, tray, store
    {
      Containers(grid.Value(), tray.Value(), store.recs)
    }

    /**
     * `new GameManager(size, startTiles)` and its `setup`: a tray of `startTiles` cells
     * in one row, a `size` by `size` board, and the start tiles in the first tray cells.
     * `addStartTiles` writes to tray cells 0 to 11, so the tray needs twelve.
     */
    constructor (size: nat, startTiles: nat)
      requires size > 0 && startTiles >= StartCount
      ensures Valid() && fresh(store) && fresh(grid) && fresh(tray)
      ensures grid.Value() == Setup(Vec(size, size)) && tray.size == Vec(startTiles, 1)
      ensures |store.recs| == StartCount && forall i :: 0 <= i < StartCount ==> store.recs[i] == StartRecord(i)
      ensures forall i :: 0 <= i < startTiles ==> tray.tiles[i] == [if i < StartCount then Some(i) else None]
      ensures Consistent(State())
    {
      this.size := size;
      this.startTiles := startTiles;
      var s := new TileStore();
      this.store := s;
      this.tray := new Grid(Vec(startTiles, 1), TrayGrid, s);
      this.grid := new Grid(Vec(size, size), BoardGrid, s);
      new;
      AddStartTiles();
    }

    /** `addStartTiles`, with the record it evidently means to pass: tiles A to L in tray cells 0 to 11. */
    method AddStartTiles()
      requires Valid() && tray.size.x >= StartCount && store.recs == []
      requires forall x :: 0 <= x < |tray.tiles| ==> tray.tiles[x] == [None]
      modifies tray, store
      ensures Valid() && grid.Value() == old(grid.Value()) && tray.size == old(tray.size)
      ensures |store.recs| == StartCount && forall i :: 0 <= i < StartCount ==> store.recs[i] == StartRecord(i)
      ensures forall i :: 0 <= i < |tray.tiles| ==> tray.tiles[i] == [if i < StartCount then Some(i) else None]
      ensures Agrees(tray.Value(), TrayGrid, store.recs) && Known(grid.Value(), 0)
    {
      ghost var board0 := grid.Value();
      ghost var size0 := tray.size;
      var i := 0;
      while i < StartCount
        invariant 0 <= i <= StartCount && Valid() && grid.Value() == board0 && tray.size == size0
        invariant |store.recs| == i && forall k :: 0 <= k < i ==> store.recs[k] == StartRecord(k)
        invariant forall x :: 0 <= x < |tray.tiles| ==> tray.tiles[x] == [if x < i then Some(x) else None]
      {
        var tile := store.Add(StartTile(i), TrayGrid);
        tray.AddTile(tile, Vec(i, 0));
        i := i + 1;
      }
      assert Known(grid.Value(), 0) by {
        assert Known(board0, |old(store.recs)|);
      }
    }

    /**
     * `addToNearestEmptyCell(tile, position)` (js/grid.js) called on the board or the
     * tray, with strict bounds: `corner` is the grid's page offset.
     */
    method AddToNearestEmptyCell(id: GridId, t: TileId, p: Vec, corner: Vec) returns (ok: bool)
      requires Valid() && (id == BoardGrid || id == TrayGrid) && Homed(State(), t)
      modifies grid, tray, store
      ensures Valid() && (ok, State()) == JsGrid.AddToNearestEmptyCell(old(State()), id, t, p, corner)
    {
      var g := if id == BoardGrid then grid else tray;
      if !Inside(g.Value(), corner, p) {
        return false;
      }
      var cell := NearestCell(g.Value(), corner, p).value;
      if g.tiles[cell.x][cell.y].None? {
        g.AddTile(t, cell);
      } else {
        var home := if store.recs[t].grid == BoardGrid then grid else tray;
        home.AddTile(t, store.recs[t].position);
      }
      return true;
    }

    /**
     * `moveTileTo(tile, position)`: the board first, then the tray, and failing both
     * the tray's first empty cell.
     */
    method MoveTileTo(t: TileId, p: Vec, boardCorner: Vec, trayCorner: Vec)
      requires Valid() && Homed(State(), t)
      modifies grid, tray, store
      ensures Valid() && State() == JsGrid.MoveTileTo(old(State()), t, p, boardCorner, trayCorner)
    {
      var ok := AddToNearestEmptyCell(BoardGrid, t, p, boardCorner);
      if ok {
        return;
      }
      ok := AddToNearestEmptyCell(TrayGrid, t, p, trayCorner);
      if ok {
        return;
      }
      tray.AddToFirstEmptyCell(t);
    }

    /** `tile.remove()`, as `mouseDown` calls it. */
    method RemoveTile(t: TileId)
      requires Valid() && Homed(State(), t)
      modifies grid, tray
      ensures Valid() && State() == TakeUp(old(State()), t)
    {
      if store.recs[t].grid == BoardGrid {
        grid.RemoveTile(t);
      } else {
        tray.RemoveTile(t);
      }
    }
  }
}

=== FILE: js_grid.dfy ===
/**
 * The grids of the browser engine (public/js/grid.js, js/grid.js) as values: a grid is
 * its `size` and its column-major matrix `tiles[x][y]` of optional tile handles. Each
 * operation is a function of the grids it touches and of the tile records; the `Grid`
 * class in js_grid_class.dfy performs the same operations step by step.
 */
module JsGrid {
  import opened Vectors
  import opened Wrappers
  import opened JsTiles

  type Column = seq<Option<TileId>>

  /** The fields `size` and `tiles` of a `Grid` object. */
  datatype GridV = GridV(size: Vec, tiles: seq<Column>)

  /** A grid together with the tile records, after an operation that touches both. */
  datatype Placed = Placed(g: GridV, recs: seq<TileRec>)

  /** The game's board grid, its tray grid and the tile records. */
  datatype Containers = Containers(board: GridV, tray: GridV, recs: seq<TileRec>)

  /** The directions `shiftTiles` and `expand` accept. */
  datatype Dir = Right | Left | Up | Down

  /** `game.cellSize`, in pixels. */
  const CellSize := 64

  function EmptyColumn(n: nat): (c: Column)
    ensures |c| == n && forall y :: 0 <= y < n ==> c[y] == None
  {
    seq(n, _ => None)
  }

  /** `size.x` columns of `size.y` cells each, and at least one row. */
  predicate Shaped(g: GridV) {
    g.size.x == |g.tiles| && g.size.y > 0 && forall x :: 0 <= x < |g.tiles| ==> |g.tiles[x]| == g.size.y
  }

  predicate InGrid(g: GridV, p: Vec) {
    0 <= p.x < |g.tiles| && 0 <= p.y < |g.tiles[p.x]|
  }

  /** Every tile the grid holds has a record among the first `n`. */
  predicate Known(g: GridV, n: nat) {
    forall x, y :: 0 <= x < |g.tiles| && 0 <= y < |g.tiles[x]| && g.tiles[x][y].Some? ==> g.tiles[x][y].value < n
  }

  /**
   * Cell and record agree: each tile in the grid records that cell as its `position`
   * and this grid as its `grid`. Then no tile is in two cells.
   */
  predicate Agrees(g: GridV, id: GridId, recs: seq<TileRec>) {
    forall x, y :: 0 <= x < |g.tiles| && 0 <= y < |g.tiles[x]| && g.tiles[x][y].Some? ==>
      g.tiles[x][y].value < |recs| && recs[g.tiles[x][y].value].position == Vec(x, y) &&
      recs[g.tiles[x][y].value].grid == id
  }

  /** No tile is in two cells. */
  predicate Unique(g: GridV) {
    forall x, y, x', y' ::
      (0 <= x < |g.tiles| && 0 <= y < |g.tiles[x]| && 0 <= x' < |g.tiles| && 0 <= y' < |g.tiles[x']| &&
       g.tiles[x][y].Some? && g.tiles[x][y] == g.tiles[x'][y']) ==> x == x' && y == y'
  }

  lemma AgreesUnique(g: GridV, id: GridId, recs: seq<TileRec>)
    requires Agrees(g, id, recs)
    ensures Unique(g)
  {
    forall x, y, x', y' |
      0 <= x < |g.tiles| && 0 <= y < |g.tiles[x]| && 0 <= x' < |g.tiles| && 0 <= y' < |g.tiles[x']| &&
      g.tiles[x][y].Some? && g.tiles[x][y] == g.tiles[x'][y']
      ensures x == x' && y == y'
    {
      assert recs[g.tiles[x][y].value].position == Vec(x, y);
      assert recs[g.tiles[x'][y'].value].position == Vec(x', y');
    }
  }

  /** `setup`: `size.x` columns of `size.y` empty cells. */
  function Setup(size: Vec): (g: GridV)
    requires size.x >= 0 && size.y > 0
    ensures Shaped(g) && g.size == size && Known(g, 0)
  {
    GridV(size, seq(size.x, _ => EmptyColumn(size.y)))
  }

  /** `getPosition`. */
  function Get(g: GridV, p: Vec): Option<TileId>
    requires InGrid(g, p)
  {
    g.tiles[p.x][p.y]
  }

  /** `setPosition`: afterwards `Get(p)` is the new entry; no other cell and no shape changed. */
  function Set(g: GridV, p: Vec, v: Option<TileId>): (r: GridV)
    requires InGrid(g, p)
    ensures r.size == g.size && |r.tiles| == |g.tiles|
    ensures forall x :: 0 <= x < |g.tiles| ==> |r.tiles[x]| == |g.tiles[x]|
    ensures InGrid(r, p) && Get(r, p) == v
    ensures forall x, y :: 0 <= x < |g.tiles| && 0 <= y < |g.tiles[x]| && Vec(x, y) != p ==> r.tiles[x][y] == g.tiles[x][y]
  {
    g.(tiles := g.tiles[p.x := g.tiles[p.x][p.y := v]])
  }

  /**
   * `addTile` (public/js/grid.js) and `insertTile` (js/grid.js), whose bodies are the
   * same: the cell takes `t`, over any occupant, and the record of `t` names the cell
   * and this grid. public/js/grid.js calls `insertTile` without defining it; this model
   * reads those calls as the js/grid.js method.
   */
  function AddTile(g: GridV, id: GridId, recs: seq<TileRec>, t: TileId, p: Vec): (r: Placed)
    requires InGrid(g, p) && t < |recs|
    ensures r.g == Set(g, p, Some(t)) && |r.recs| == |recs|
    ensures r.recs[t] == recs[t].(position := p, grid := id)
    ensures forall u :: 0 <= u < |recs| && u != t ==> r.recs[u] == recs[u]
  {
    Placed(Set(g, p, Some(t)), recs[t := recs[t].(position := p, grid := id)])
  }

  /** `removeTile`: empties the cell the tile's record names. */
  function RemoveTile(g: GridV, recs: seq<TileRec>, t: TileId): (r: GridV)
    requires t < |recs| && InGrid(g, recs[t].position)
    ensures r == Set(g, recs[t].position, None)
  {
    Set(g, recs[t].position, None)
  }

  /** `removeAllTiles`: every cell emptied; the shape is kept. */
  function Cleared(g: GridV): (r: GridV)
    ensures r.size == g.size && |r.tiles| == |g.tiles|
    ensures forall x :: 0 <= x < |g.tiles| ==> r.tiles[x] == EmptyColumn(|g.tiles[x]|)
  {
    g.(tiles := seq(|g.tiles|, x requires 0 <= x < |g.tiles| => EmptyColumn(|g.tiles[x]|)))
  }

  // ------------------------------------------------------------------ occupants

  function OptMs(v: Option<TileId>): multiset<TileId> {
    if v.Some? then multiset{v.value} else multiset{}
  }

  /** The tiles a column holds, with multiplicity. */
  function ColOcc(c: Column): multiset<TileId>
    decreases |c|
  {
    if c == [] then multiset{} else OptMs(c[0]) + ColOcc(c[1..])
  }

  /** The tiles a matrix holds, with multiplicity. */
  function Occ(cols: seq<Column>): multiset<TileId>
    decreases |cols|
  {
    if cols == [] then multiset{} else ColOcc(cols[0]) + Occ(cols[1..])
  }

  lemma {:induction false} ColOccConcat(a: Column, b: Column)
    ensures ColOcc(a + b) == ColOcc(a) + ColOcc(b)
    decreases |a|
  {
    if a != [] {
      assert (a + b)[0] == a[0] && (a + b)[1..] == a[1..] + b;
      ColOccConcat(a[1..], b);
    } else {
      assert a + b == b;
    }
  }

  lemma {:induction false} OccConcat(a: seq<Column>, b: seq<Column>)
    ensures Occ(a + b) == Occ(a) + Occ(b)
    decreases |a|
  {
    if a != [] {
      assert (a + b)[0] == a[0] && (a + b)[1..] == a[1..] + b;
      OccConcat(a[1..], b);
    } else {
      assert a + b == b;
    }
  }

  lemma {:induction false} ColOccEmpty(n: nat)
    ensures ColOcc(EmptyColumn(n)) == multiset{}
  {
    if n > 0 {
      assert EmptyColumn(n)[1..] == EmptyColumn(n - 1);
      ColOccEmpty(n - 1);
    }
  }

  /** Writing one cell of a column trades its old entry for the new one. */
  lemma ColOccSet(c: Column, y: nat, v: Option<TileId>)
    requires y < |c|
    ensures ColOcc(c[y := v]) + OptMs(c[y]) == ColOcc(c) + OptMs(v)
  {
    assert c == c[..y] + [c[y]] + c[y + 1..];
    assert c[y := v] == c[..y] + [v] + c[y + 1..];
    ColOccConcat(c[..y] + [c[y]], c[y + 1..]);
    ColOccConcat(c[..y], [c[y]]);
    ColOccConcat(c[..y] + [v], c[y + 1..]);
    ColOccConcat(c[..y], [v]);
  }

  lemma OccSetColumn(cols: seq<Column>, x: nat, c: Column)
    requires x < |cols|
    ensures Occ(cols[x := c]) + ColOcc(cols[x]) == Occ(cols) + ColOcc(c)
  {
    assert cols == cols[..x] + [cols[x]] + cols[x + 1..];
    assert cols[x := c] == cols[..x] + [c] + cols[x + 1..];
    OccConcat(cols[..x] + [cols[x]], cols[x + 1..]);
    OccConcat(cols[..x], [cols[x]]);
    OccConcat(cols[..x] + [c], cols[x + 1..]);
    OccConcat(cols[..x], [c]);
    OccSingle(c);
    OccSingle(cols[x]);
  }

  lemma OccSingle(c: Column)
    ensures Occ([c]) == ColOcc(c)
  {
    var one: seq<Column> := [c];
    assert one[1..] == [];
  }

  /** Writing one cell of a grid trades its old entry for the new one. */
  lemma OccSet(g: GridV, p: Vec, v: Option<TileId>)
    requires InGrid(g, p)
    ensures Occ(Set(g, p, v).tiles) + OptMs(Get(g, p)) == Occ(g.tiles) + OptMs(v)
  {
    var c := g.tiles[p.x];
    var c' := c[p.y := v];
    assert Set(g, p, v).tiles == g.tiles[p.x := c'];
    OccSetColumn(g.tiles, p.x, c');
    ColOccSet(c, p.y, v);
    MsTrade(Occ(g.tiles[p.x := c']), ColOcc(c), Occ(g.tiles), ColOcc(c'), OptMs(c[p.y]), OptMs(v));
  }

  lemma MsCancel(a: multiset<TileId>, b: multiset<TileId>, c: multiset<TileId>)
    requires a + c == b + c
    ensures a == b
  {
    forall u ensures a[u] == b[u] {
      assert (a + c)[u] == (b + c)[u];
    }
  }

  /** Two trades chained: `a` gives up `c` for `c'`, then `c'` gives up `m` for `n`. */
  lemma MsTrade(a: multiset<TileId>, c: multiset<TileId>, o: multiset<TileId>, c': multiset<TileId>,
                m: multiset<TileId>, n: multiset<TileId>)
    requires a + c == o + c' && c' + m == c + n
    ensures a + m == o + n
  {
    forall u ensures (a + m)[u] == (o + n)[u] {
      assert (a + c)[u] == (o + c')[u];
      assert (c' + m)[u] == (c + n)[u];
    }
  }

  /** What leaves one side arrives on the other: the total is kept. */
  lemma MsMove(a: multiset<TileId>, b: multiset<TileId>, s: multiset<TileId>, d: multiset<TileId>, m: multiset<TileId>)
    requires a + m == s && b == d + m
    ensures a + b == s + d
  {
    forall u ensures (a + b)[u] == (s + d)[u] {
      assert (a + m)[u] == s[u];
    }
  }

  lemma {:induction false} OccNone(cols: seq<Column>)
    requires forall x, y :: 0 <= x < |cols| && 0 <= y < |cols[x]| ==> cols[x][y] == None
    ensures Occ(cols) == multiset{}
    decreases |cols|
  {
    if cols != [] {
      assert cols[0] == EmptyColumn(|cols[0]|);
      ColOccEmpty(|cols[0]|);
      OccNone(cols[1..]);
    }
  }

  // ------------------------------------------------------------- first empty cell

  /** Cell `q` comes before cell `p` in the scan order: columns outer, rows inner. */
  predicate Before(q: Vec, p: Vec) {
    q.x < p.x || (q.x == p.x && q.y < p.y)
  }

  /** Every cell before `p` in scan order is occupied. */
  predicate FilledBefore(g: GridV, p: Vec) {
    forall x, y :: 0 <= x < |g.tiles| && 0 <= y < |g.tiles[x]| && Before(Vec(x, y), p) ==> g.tiles[x][y].Some?
  }

  /** Every cell is occupied. */
  predicate Full(g: GridV) {
    forall x, y :: 0 <= x < |g.tiles| && 0 <= y < |g.tiles[x]| ==> g.tiles[x][y].Some?
  }

  /** `r` is where the scan stops: the first empty cell, or nothing when the grid is full. */
  predicate IsFirstEmpty(g: GridV, r: Option<Vec>) {
    (r.None? <==> Full(g)) &&
    (r.Some? ==> InGrid(g, r.value) && Get(g, r.value) == None && FilledBefore(g, r.value))
  }

  function FirstEmptyFrom(g: GridV, x: nat, y: nat): Option<Vec>
    requires Shaped(g) && x <= |g.tiles| && y <= g.size.y
    decreases |g.tiles| - x, g.size.y - y
  {
    if x == |g.tiles| then None
    else if y == g.size.y then FirstEmptyFrom(g, x + 1, 0)
    else if g.tiles[x][y].None? then Some(Vec(x, y))
    else FirstEmptyFrom(g, x, y + 1)
  }

  lemma {:induction false} FirstEmptyFromFinds(g: GridV, x: nat, y: nat)
    requires Shaped(g) && x <= |g.tiles| && y <= g.size.y && FilledBefore(g, Vec(x, y))
    ensures IsFirstEmpty(g, FirstEmptyFrom(g, x, y))
    decreases |g.tiles| - x, g.size.y - y
  {
    if x == |g.tiles| {
    } else if y == g.size.y {
      FirstEmptyFromFinds(g, x + 1, 0);
    } else if g.tiles[x][y].None? {
    } else {
      FirstEmptyFromFinds(g, x, y + 1);
    }
  }

  /** The scan of `addToFirstEmptyCell`: columns outer, rows inner. */
  function FirstEmpty(g: GridV): (r: Option<Vec>)
    requires Shaped(g)
    ensures IsFirstEmpty(g, r)
  {
    FirstEmptyFromFinds(g, 0, 0);
    FirstEmptyFrom(g, 0, 0)
  }

  // ---------------------------------------------------------------- repositioning

  /**
   * The positions loop of `shiftTiles` over column `x`, from row `y` down: each tile
   * found records its cell.
   */
  function RepositionColumn(g: GridV, x: nat, recs: seq<TileRec>, y: nat): (r: seq<TileRec>)
    requires Shaped(g) && x < |g.tiles| && y <= g.size.y && Known(g, |recs|)
    ensures |r| == |recs|
    decreases g.size.y - y
  {
    if y == g.size.y then recs
    else
      var next := if g.tiles[x][y].Some? then
        recs[g.tiles[x][y].value := recs[g.tiles[x][y].value].(position := Vec(x, y))]
      else recs;
      RepositionColumn(g, x, next, y + 1)
  }

  /** The same loop over every column from `x` on. */
  function RepositionFrom(g: GridV, recs: seq<TileRec>, x: nat): (r: seq<TileRec>)
    requires Shaped(g) && x <= |g.tiles| && Known(g, |recs|)
    ensures |r| == |recs|
    decreases |g.tiles| - x
  {
    if x == |g.tiles| then recs else RepositionFrom(g, RepositionColumn(g, x, recs, 0), x + 1)
  }

  // ---------------------------------------------------------------------- expand

  /** The matrix grown by one empty column at the far end. */
  function WithColumn(g: GridV): (r: GridV)
    requires Shaped(g)
    ensures Shaped(r) && r.size == Vec(g.size.x + 1, g.size.y)
    ensures forall n :: Known(g, n) ==> Known(r, n)
  {
    GridV(Vec(g.size.x + 1, g.size.y), g.tiles + [EmptyColumn(g.size.y)])
  }

  /**
   * `expand(dir)`. "right" adds an empty column at the end; "left" adds it and then
   * shifts right, which drops that same empty column again and puts a new one in
   * front. "down" adds an empty cell at the end of every column; "up" does so and
   * then shifts down, which drops that cell and puts a new one in front. The vertical
   * branch as the source writes it is `ExpandVerticalAsWritten`.
   */
  function Expand(g: GridV, recs: seq<TileRec>, dir: Dir): (r: Placed)
    requires Shaped(g) && Known(g, |recs|)
    ensures Shaped(r.g) && Known(r.g, |recs|) && |r.recs| == |recs|
    ensures dir == Right || dir == Left ==> r.g.size == Vec(g.size.x + 1, g.size.y)
    ensures dir == Up || dir == Down ==> r.g.size == Vec(g.size.x, g.size.y + 1)
  {
    match dir
    case Right => Placed(WithColumn(g), recs)
    case Left =>
      var b := GridV(Vec(g.size.x + 1, g.size.y), [EmptyColumn(g.size.y)] + g.tiles);
      assert Known(b, |recs|) by {
        forall x, y | 0 <= x < |b.tiles| && 0 <= y < |b.tiles[x]| && b.tiles[x][y].Some?
          ensures b.tiles[x][y].value < |recs|
        {
          assert b.tiles[x] == g.tiles[x - 1];
        }
      }
      Placed(b, RepositionFrom(b, recs, 0))
    case Down =>
      Placed(GridV(Vec(g.size.x, g.size.y + 1), seq(|g.tiles|, x requires 0 <= x < |g.tiles| => g.tiles[x] + [None])), recs)
    case Up =>
      var b := GridV(Vec(g.size.x, g.size.y + 1), seq(|g.tiles|, x requires 0 <= x < |g.tiles| => [None] + g.tiles[x]));
      assert Known(b, |recs|) by {
        forall x, y | 0 <= x < |b.tiles| && 0 <= y < |b.tiles[x]| && b.tiles[x][y].Some?
          ensures b.tiles[x][y].value < |recs|
        {
          assert b.tiles[x][y] == g.tiles[x][y - 1];
        }
      }
      Placed(b, RepositionFrom(b, recs, 0))
  }

  /**
   * The vertical branch of `expand` as written: `size.x` nulls are pushed onto the
   * outer array (`None` entries here) and `size.y` grows, but no column gets longer.
   */
  function ExpandVerticalAsWritten(g: GridV): (r: (Vec, seq<Option<Column>>))
    requires Shaped(g)
    ensures r.0 == Vec(g.size.x, g.size.y + 1) && |r.1| == 2 * g.size.x
  {
    (Vec(g.size.x, g.size.y + 1),
     seq(|g.tiles|, x requires 0 <= x < |g.tiles| => Some(g.tiles[x])) + seq(g.size.x, _ => None))
  }

  // ---------------------------------------------------------- first empty cell: add

  /**
   * `addToFirstEmptyCell` (public/js/grid.js): the tile goes to the first empty cell in
   * scan order; a full grid first grows one column to the right and the tile goes to
   * the top cell of that column. The placing is the `insertTile` of js/grid.js, which
   * public/js/grid.js calls without defining.
   */
  function AddToFirstEmptyCell(g: GridV, id: GridId, recs: seq<TileRec>, t: TileId): (r: Placed)
    requires Shaped(g) && Known(g, |recs|) && t < |recs|
    ensures Shaped(r.g) && Known(r.g, |recs|) && |r.recs| == |recs| && r.g.size.y == g.size.y
    ensures r.g.size.x == if Full(g) then g.size.x + 1 else g.size.x
    ensures r.recs[t] == recs[t].(position := r.recs[t].position, grid := id)
    ensures InGrid(r.g, r.recs[t].position) && Get(r.g, r.recs[t].position) == Some(t)
    ensures forall u :: 0 <= u < |recs| && u != t ==> r.recs[u] == recs[u]
  {
    var first := FirstEmpty(g);
    if first.Some? then
      AddTile(g, id, recs, t, first.value)
    else
      var e := WithColumn(g);
      AddTile(e, id, recs, t, Vec(e.size.x - 1, 0))
  }

  /**
   * `addToFirstEmptyCell` (js/grid.js): the same scan, but a full grid is left as it
   * is and the result is `undefined` (`None`); otherwise the cell used.
   */
  function AddToFirstEmptyCellOrNone(g: GridV, id: GridId, recs: seq<TileRec>, t: TileId): (r: (Option<Vec>, Placed))
    requires Shaped(g) && t < |recs|
    ensures r.0.None? <==> Full(g)
    ensures r.0.None? ==> r.1 == Placed(g, recs)
    ensures r.0.Some? ==> IsFirstEmpty(g, r.0) && r.1 == AddTile(g, id, recs, t, r.0.value)
  {
    var first := FirstEmpty(g);
    if first.Some? then (first, AddTile(g, id, recs, t, first.value)) else (None, Placed(g, recs))
  }

  // ----------------------------------------------------------------------- shifts

  /** Every entry of a column names a known tile. */
  predicate ColKnown(c: Column, n: nat) {
    forall y :: 0 <= y < |c| && c[y].Some? ==> c[y].value < n
  }

  /** The tray's `addToFirstEmptyCell` for a dropped entry, when it holds a tile. */
  function SendOne(tray: GridV, tid: GridId, recs: seq<TileRec>, v: Option<TileId>): (r: Placed)
    requires Shaped(tray) && Known(tray, |recs|) && (v.Some? ==> v.value < |recs|)
    ensures Shaped(r.g) && Known(r.g, |recs|) && |r.recs| == |recs| && r.g.size.y == tray.size.y
  {
    if v.Some? then AddToFirstEmptyCell(tray, tid, recs, v.value) else Placed(tray, recs)
  }

  /** The tray's `addToFirstEmptyCell` for each tile of `col`, from entry `i` on, in order. */
  function SendEach(tray: GridV, tid: GridId, recs: seq<TileRec>, col: Column, i: nat): (r: Placed)
    requires Shaped(tray) && Known(tray, |recs|) && ColKnown(col, |recs|) && i <= |col|
    ensures Shaped(r.g) && Known(r.g, |recs|) && |r.recs| == |recs| && r.g.size.y == tray.size.y
    decreases |col| - i
  {
    if i == |col| then Placed(tray, recs)
    else
      var s := SendOne(tray, tid, recs, col[i]);
      SendEach(s.g, tid, s.recs, col, i + 1)
  }

  /** The board grid, the tray grid and the records are fit for `shiftTiles(dir)`. */
  predicate ShiftReady(board: GridV, tray: GridV, recs: seq<TileRec>, dir: Dir) {
    Shaped(board) && Shaped(tray) && Known(board, |recs|) && Known(tray, |recs|) &&
    ((dir == Right || dir == Left) ==> board.size.x > 0)
  }

  /** The column a horizontal shift pops ("right") or shifts off ("left"). */
  function Dropped(board: GridV, dir: Dir): Column
    requires Shaped(board) && board.size.x > 0
  {
    if dir == Right then board.tiles[|board.tiles| - 1] else board.tiles[0]
  }

  /** The matrix after a horizontal shift: an empty column comes in on the other side. */
  function Rotated(board: GridV, dir: Dir): (r: GridV)
    requires Shaped(board) && board.size.x > 0
    ensures Shaped(r) && r.size == board.size
    ensures forall n :: Known(board, n) ==> Known(r, n)
  {
    var n := |board.tiles|;
    var r := board.(tiles := if dir == Right then [EmptyColumn(board.size.y)] + board.tiles[..n - 1]
                             else board.tiles[1..] + [EmptyColumn(board.size.y)]);
    assert forall x, y :: 0 <= x < n && 0 <= y < |r.tiles[x]| && r.tiles[x][y].Some? ==>
      (dir == Right && x > 0 && r.tiles[x][y] == board.tiles[x - 1][y]) ||
      (dir != Right && x < n - 1 && r.tiles[x][y] == board.tiles[x + 1][y]);
    r
  }

  /** Column `i` of a vertical shift: the cell dropped, and the column after it. */
  function ShiftedColumn(c: Column, dir: Dir): (r: (Option<TileId>, Column))
    requires |c| > 0
    ensures |r.1| == |c|
  {
    if dir == Up then (c[0], c[1..] + [None]) else (c[|c| - 1], [None] + c[..|c| - 1])
  }

  /** The matrix with column `i` shifted vertically. */
  function WithShiftedColumn(board: GridV, i: nat, dir: Dir): (b: GridV)
    requires Shaped(board) && i < |board.tiles|
    ensures Shaped(b) && b.size == board.size
    ensures b.tiles == board.tiles[i := ShiftedColumn(board.tiles[i], dir).1]
    ensures forall n :: Known(board, n) ==> Known(b, n)
  {
    var c := board.tiles[i];
    var b := board.(tiles := board.tiles[i := ShiftedColumn(c, dir).1]);
    assert forall x, y :: 0 <= x < |b.tiles| && 0 <= y < |b.tiles[x]| && b.tiles[x][y].Some? ==>
      (x != i && b.tiles[x][y] == board.tiles[x][y]) ||
      (x == i && dir == Up && y + 1 < |c| && b.tiles[x][y] == c[y + 1]) ||
      (x == i && dir != Up && y > 0 && b.tiles[x][y] == c[y - 1]);
    b
  }

  /**
   * The column loop of a vertical `shiftTiles` from column `i` on: the column is
   * shifted, its dropped tile sent to the tray, and its tiles repositioned.
   */
  function ShiftColumns(board: GridV, tray: GridV, tid: GridId, recs: seq<TileRec>, dir: Dir, i: nat): (r: Containers)
    requires ShiftReady(board, tray, recs, dir) && i <= |board.tiles|
    ensures ShiftReady(r.board, r.tray, r.recs, dir) && |r.recs| == |recs|
    ensures r.board.size == board.size && r.tray.size.y == tray.size.y
    decreases |board.tiles| - i
  {
    if i == |board.tiles| then Containers(board, tray, recs)
    else
      var sc := ShiftedColumn(board.tiles[i], dir);
      var b := WithShiftedColumn(board, i, dir);
      assert sc.0.Some? ==> sc.0.value < |recs| by {
        assert sc.0 == board.tiles[i][if dir == Up then 0 else |board.tiles[i]| - 1];
      }
      var s := SendOne(tray, tid, recs, sc.0);
      ShiftColumns(b, s.g, tid, RepositionColumn(b, i, s.recs, 0), dir, i + 1)
  }

  /**
   * `shiftTiles(dir)` of the board grid: the matrix moves one cell in `dir`, each tile
   * that falls off goes to the tray's `addToFirstEmptyCell`, and every tile left on
   * the board records its new cell. The size does not change.
   */
  function ShiftTiles(board: GridV, tray: GridV, tid: GridId, recs: seq<TileRec>, dir: Dir): (r: Containers)
    requires ShiftReady(board, tray, recs, dir)
    ensures ShiftReady(r.board, r.tray, r.recs, dir) && |r.recs| == |recs|
    ensures r.board.size == board.size && r.tray.size.y == tray.size.y
  {
    if dir == Right || dir == Left then
      var b := Rotated(board, dir);
      var s := SendEach(tray, tid, recs, Dropped(board, dir), 0);
      Containers(b, s.g, RepositionFrom(b, s.recs, 0))
    else
      ShiftColumns(board, tray, tid, recs, dir, 0)
  }

  // -------------------------------------------------------------- send all tiles

  /**
   * The outer loop of `sendAllTiles(grid)` from column `x` on: each tile found is taken
   * out of `src` and given to `dst`'s `addToFirstEmptyCell`.
   */
  function SendAllFrom(src: GridV, dst: GridV, did: GridId, recs: seq<TileRec>, x: nat): (r: Containers)
    requires Shaped(src) && Shaped(dst) && Known(src, |recs|) && Known(dst, |recs|) && x <= |src.tiles|
    ensures Shaped(r.board) && Shaped(r.tray) && Known(r.board, |recs|) && Known(r.tray, |recs|)
    ensures r.board.size == src.size && |r.recs| == |recs|
    decreases |src.tiles| - x
  {
    if x == |src.tiles| then Containers(src, dst, recs)
    else
      var c := SendColumnFrom(src, dst, did, recs, x, 0);
      SendAllFrom(c.board, c.tray, did, c.recs, x + 1)
  }

  /** The inner loop of `sendAllTiles(grid)`: column `x`, from row `y` down. */
  function SendColumnFrom(src: GridV, dst: GridV, did: GridId, recs: seq<TileRec>, x: nat, y: nat): (r: Containers)
    requires Shaped(src) && Shaped(dst) && Known(src, |recs|) && Known(dst, |recs|)
    requires x < |src.tiles| && y <= src.size.y
    ensures Shaped(r.board) && Shaped(r.tray) && Known(r.board, |recs|) && Known(r.tray, |recs|)
    ensures r.board.size == src.size && |r.recs| == |recs|
    decreases src.size.y - y
  {
    if y == src.size.y then Containers(src, dst, recs)
    else
      var c := SendCell(src, dst, did, recs, Vec(x, y));
      SendColumnFrom(c.board, c.tray, did, c.recs, x, y + 1)
  }

  /**
   * One step of `sendAllTiles`: a tile at `p` leaves `src` for `dst`'s first empty
   * cell; an empty cell changes nothing.
   */
  function SendCell(src: GridV, dst: GridV, did: GridId, recs: seq<TileRec>, p: Vec): (r: Containers)
    requires Shaped(src) && Shaped(dst) && Known(src, |recs|) && Known(dst, |recs|) && InGrid(src, p)
    ensures Shaped(r.board) && Shaped(r.tray) && Known(r.board, |recs|) && Known(r.tray, |recs|)
    ensures r.board == Set(src, p, None) && |r.recs| == |recs|
  {
    SetShapedKnown(src, p, None, |recs|);
    if Get(src, p).None? then
      assert src.tiles[p.x][p.y := None] == src.tiles[p.x];
      assert src.tiles[p.x := src.tiles[p.x]] == src.tiles;
      Containers(src, dst, recs)
    else
      var s := AddToFirstEmptyCell(dst, did, recs, Get(src, p).value);
      Containers(Set(src, p, None), s.g, s.recs)
  }

  // ---------------------------------------------------------------- pixel to cell

  /** `isWithinBounds` as written: inclusive at both ends. */
  predicate IsWithinBounds(g: GridV, corner: Vec, p: Vec) {
    corner.x <= p.x <= corner.x + g.size.x * CellSize && corner.y <= p.y <= corner.y + g.size.y * CellSize
  }

  /** Strictly inside the grid's area: the far edge belongs to the next cell. */
  predicate Inside(g: GridV, corner: Vec, p: Vec) {
    corner.x <= p.x < corner.x + g.size.x * CellSize && corner.y <= p.y < corner.y + g.size.y * CellSize
  }

  /** The cell under a point: the offset from the grid's corner, divided by the cell size and floored. */
  function CellOf(corner: Vec, p: Vec): Vec {
    Vec((p.x - corner.x) / CellSize, (p.y - corner.y) / CellSize)
  }

  /** The cell `addToNearestEmptyCell` indexes, as written: `None` when out of bounds. */
  function NearestCellAsWritten(g: GridV, corner: Vec, p: Vec): (r: Option<Vec>)
    ensures r.Some? <==> IsWithinBounds(g, corner, p)
  {
    if IsWithinBounds(g, corner, p) then Some(CellOf(corner, p)) else None
  }

  lemma DivBelow(n: int, k: int)
    requires 0 <= n < k * CellSize
    ensures 0 <= n / CellSize < k
  {
  }

  /** The cell under a point strictly inside the grid; every such cell exists. */
  function NearestCell(g: GridV, corner: Vec, p: Vec): (r: Option<Vec>)
    requires Shaped(g)
    ensures r.Some? <==> Inside(g, corner, p)
    ensures r.Some? ==> r.value == CellOf(corner, p) && InGrid(g, r.value)
  {
    if Inside(g, corner, p) then
      DivBelow(p.x - corner.x, g.size.x);
      DivBelow(p.y - corner.y, g.size.y);
      Some(CellOf(corner, p))
    else None
  }

  /**
   * `findNearestEmptyCell` (public/js/grid.js). `cell` is what the page helpers
   * `inBoundsOfDiv` and `nearestCoordsInDiv` make of the point: `None` when it is out
   * of bounds. Only that one cell is looked at.
   */
  function FindNearestEmptyCell(g: GridV, cell: Option<Vec>): (r: Option<Vec>)
    requires cell.Some? ==> InGrid(g, cell.value)
    ensures r.Some? <==> cell.Some? && Get(g, cell.value) == None
    ensures r.Some? ==> r == cell
  {
    if cell.None? then None
    else if Get(g, cell.value) == None then cell
    else None
  }

  // ------------------------------------------------------------------ the game's drop

  /** The grid of the game that `id` names (the board, or else the tray). */
  function Pick(c: Containers, id: GridId): GridV {
    if id == BoardGrid then c.board else c.tray
  }

  function Put(c: Containers, id: GridId, p: Placed): Containers {
    if id == BoardGrid then c.(board := p.g, recs := p.recs) else c.(tray := p.g, recs := p.recs)
  }

  /** Both grids are well formed, and tile `t` has a home cell in one of them. */
  predicate Homed(c: Containers, t: TileId) {
    Shaped(c.board) && Shaped(c.tray) && Known(c.board, |c.recs|) && Known(c.tray, |c.recs|) &&
    t < |c.recs| && (c.recs[t].grid == BoardGrid || c.recs[t].grid == TrayGrid) &&
    InGrid(Pick(c, c.recs[t].grid), c.recs[t].position)
  }

  /** Tile `t` sits in the cell its record names, in the grid its record names. */
  predicate Landed(c: Containers, t: TileId)
    requires Homed(c, t)
  {
    Get(Pick(c, c.recs[t].grid), c.recs[t].position) == Some(t)
  }

  /** Placing `t` into a cell of one of the game's grids keeps it homed, and lands it there. */
  lemma PutLands(c: Containers, id: GridId, t: TileId, cell: Vec)
    requires id == BoardGrid || id == TrayGrid
    requires Homed(c, t) && InGrid(Pick(c, id), cell)
    ensures var r := Put(c, id, AddTile(Pick(c, id), id, c.recs, t, cell)); Homed(r, t) && Landed(r, t)
  {
    var g := Pick(c, id);
    var a := AddTile(g, id, c.recs, t, cell);
    SetShapedKnown(g, cell, Some(t), |c.recs|);
  }

  /** Writing a known entry into a cell keeps a grid well formed. */
  lemma SetShapedKnown(g: GridV, p: Vec, v: Option<TileId>, n: nat)
    requires Shaped(g) && Known(g, n) && InGrid(g, p) && (v.Some? ==> v.value < n)
    ensures Shaped(Set(g, p, v)) && Known(Set(g, p, v), n)
  {
    var r := Set(g, p, v);
    forall x, y | 0 <= x < |r.tiles| && 0 <= y < |r.tiles[x]| && r.tiles[x][y].Some?
      ensures r.tiles[x][y].value < n
    {
      if Vec(x, y) != p {
        assert r.tiles[x][y] == g.tiles[x][y];
      }
    }
  }

  /**
   * `addToNearestEmptyCell` (js/grid.js) of grid `id`, with strict bounds: `false`
   * (the source's `null`) out of bounds; otherwise the tile goes to the cell under the
   * point when that is empty, and back to its former cell in its former grid when it
   * is not, and the answer is `true`.
   */
  function AddToNearestEmptyCell(c: Containers, id: GridId, t: TileId, p: Vec, corner: Vec): (r: (bool, Containers))
    requires id == BoardGrid || id == TrayGrid
    requires Homed(c, t)
    ensures r.0 <==> Inside(Pick(c, id), corner, p)
    ensures !r.0 ==> r.1 == c
    ensures Homed(r.1, t) && (r.0 ==> Landed(r.1, t))
    ensures r.0 && Get(Pick(c, id), CellOf(corner, p)) == None ==>
      r.1.recs[t].grid == id && r.1.recs[t].position == CellOf(corner, p)
    ensures r.0 && Get(Pick(c, id), CellOf(corner, p)) != None ==>
      r.1.recs[t].grid == c.recs[t].grid && r.1.recs[t].position == c.recs[t].position
  {
    var g := Pick(c, id);
    var cell := NearestCell(g, corner, p);
    if cell.None? then (false, c)
    else if Get(g, cell.value) == None then
      PutLands(c, id, t, cell.value);
      (true, Put(c, id, AddTile(g, id, c.recs, t, cell.value)))
    else
      var home := c.recs[t].grid;
      PutLands(c, home, t, c.recs[t].position);
      (true, Put(c, home, AddTile(Pick(c, home), home, c.recs, t, c.recs[t].position)))
  }

  /**
   * `moveTileTo` (public/js/game_manager.js): the board is asked first, the tray only
   * when the board answers falsy, and the tray's `addToFirstEmptyCell` only when both do.
   */
  function MoveTileTo(c: Containers, t: TileId, p: Vec, boardCorner: Vec, trayCorner: Vec): (r: Containers)
    requires Homed(c, t)
    ensures Homed(r, t) && Landed(r, t)
    ensures Inside(c.board, boardCorner, p) && c.recs[t].grid == BoardGrid ==> r.tray == c.tray
    ensures Inside(c.board, boardCorner, p) && Get(c.board, CellOf(boardCorner, p)) == None ==>
      r.recs[t].grid == BoardGrid && r.recs[t].position == CellOf(boardCorner, p)
    ensures Inside(c.board, boardCorner, p) && Get(c.board, CellOf(boardCorner, p)) != None ==>
      r.recs[t].grid == c.recs[t].grid && r.recs[t].position == c.recs[t].position
    ensures !Inside(c.board, boardCorner, p) && Inside(c.tray, trayCorner, p) && Get(c.tray, CellOf(trayCorner, p)) == None ==>
      r.board == c.board && r.recs[t].grid == TrayGrid && r.recs[t].position == CellOf(trayCorner, p)
    ensures !Inside(c.board, boardCorner, p) && Inside(c.tray, trayCorner, p) && Get(c.tray, CellOf(trayCorner, p)) != None ==>
      r.recs[t].grid == c.recs[t].grid && r.recs[t].position == c.recs[t].position
    ensures !Inside(c.board, boardCorner, p) && !Inside(c.tray, trayCorner, p) ==>
      && r.board == c.board && r.recs[t].grid == TrayGrid
      && (FirstEmpty(c.tray).Some? ==> r.recs[t].position == FirstEmpty(c.tray).value)
  {
    var b := AddToNearestEmptyCell(c, BoardGrid, t, p, boardCorner);
    if b.0 then b.1
    else
      var tr := AddToNearestEmptyCell(c, TrayGrid, t, p, trayCorner);
      if tr.0 then tr.1
      else
        var s := AddToFirstEmptyCell(c.tray, TrayGrid, c.recs, t);
        c.(tray := s.g, recs := s.recs)
  }
}

=== FILE: js_grid_class.dfy ===
/**
 * The `Grid` object of the browser engine (public/js/grid.js, js/grid.js) as a class:
 * its `size` and its column-major `tiles` matrix are fields the methods update in
 * place, and the `Tile` objects it points at live in a shared `TileStore`. Every
 * method is proved against the function of the same operation in `JsGrid`, whose
 * properties `JsGridProps` proves.
 */
module JsGridClass {
  import opened Vectors
  import opened Wrappers
  import opened JsTiles
  import opened JsGrid
  import JsGridProps

  /** The `emptyRow` / `emptyTileRow` loops: `n` nulls pushed one by one. */
  method NewEmptyColumn(n: nat) returns (c: Column)
    ensures |c| == n && forall y :: 0 <= y < n ==> c[y] == None
    ensures c == EmptyColumn(n)
  {
    c := [];
    var i := 0;
    while i < n
      invariant 0 <= i <= n && |c| == i && forall y :: 0 <= y < i ==> c[y] == None
    {
      c := c + [None];
      i := i + 1;
    }
  }

  /** The scan order has one first empty cell. */
  lemma FirstEmptyUnique(g: GridV, a: Option<Vec>, b: Option<Vec>)
    requires IsFirstEmpty(g, a) && IsFirstEmpty(g, b)
    ensures a == b
  {
  }

  class Grid {
    var size: Vec
    var tiles: seq<Column>
    /** Which of the game's containers this grid is; tiles placed here record it. */
    const id: GridId
    const store: TileStore

    /** The grid as a value. */
    function Value(): GridV
      reads this
    {
      GridV(size, tiles)
    }

    /** `size.x` columns of `size.y` cells, every tile in it with a record. */
    predicate Valid()
      reads this, store
    {
      Shaped(Value()) && Known(Value(), |store.recs|)
    }

    /** `new Grid(game, size)` and its `setup`: `size.x` columns of `size.y` empty cells. */
    constructor (size: Vec, id: GridId, store: TileStore)
      requires size.x >= 0 && size.y > 0
      ensures Value() == Setup(size) && this.id == id && this.store == store
    {
      var ts: seq<Column> := [];
      var x := 0;
      while x < size.x
        invariant 0 <= x <= size.x && |ts| == x && forall i :: 0 <= i < x ==> ts[i] == EmptyColumn(size.y)
      {
        var col := NewEmptyColumn(size.y);
        ts := ts + [col];
        x := x + 1;
      }
      this.size := size;
      this.tiles := ts;
      this.id := id;
      this.store := store;
      assert ts == Setup(size).tiles;
    }

    /** `setPosition(position, value)`. */
    method SetPosition(p: Vec, v: Option<TileId>)
      requires InGrid(Value(), p)
      modifies this
      ensures Value() == Set(old(Value()), p, v)
    {
      tiles := tiles[p.x := tiles[p.x][p.y := v]];
    }

    /**
     * `addTile` (public/js/grid.js) and `insertTile` (js/grid.js), whose bodies are
     * the same: the cell takes the tile and the tile records the cell and this grid.
     * public/js/grid.js calls `insertTile` without defining it; this model reads those
     * calls as the js/grid.js method.
     */
    method AddTile(t: TileId, p: Vec)
      requires Valid() && InGrid(Value(), p) && t < |store.recs|
      modifies this, store
      ensures Valid()
      ensures var r := JsGrid.AddTile(old(Value()), id, old(store.recs), t, p); Value() == r.g && store.recs == r.recs
    {
      SetShapedKnown(Value(), p, Some(t), |store.recs|);
      SetPosition(p, Some(t));
      store.Place(t, p, id);
    }

    /** `removeTile(tile)`: the cell the tile records is emptied. */
    method RemoveTile(t: TileId)
      requires Valid() && t < |store.recs| && InGrid(Value(), store.recs[t].position)
      modifies this
      ensures Valid() && Value() == JsGrid.RemoveTile(old(Value()), store.recs, t)
    {
      SetShapedKnown(Value(), store.recs[t].position, None, |store.recs|);
      SetPosition(store.recs[t].position, None);
    }

    /** `removeAllTiles`: every occupied cell is emptied. */
    method RemoveAllTiles()
      requires Valid()
      modifies this
      ensures Valid() && Value() == Cleared(old(Value()))
    {
      ghost var g0 := Value();
      var x := 0;
      while x < size.x
        invariant 0 <= x <= size.x && size == g0.size && |tiles| == |g0.tiles|
        invariant forall i :: 0 <= i < x ==> tiles[i] == EmptyColumn(g0.size.y)
        invariant forall i :: x <= i < |tiles| ==> tiles[i] == g0.tiles[i]
      {
        var y := 0;
        while y < size.y
          invariant 0 <= y <= size.y && size == g0.size && |tiles| == |g0.tiles|
          invariant forall i :: 0 <= i < x ==> tiles[i] == EmptyColumn(g0.size.y)
          invariant forall i :: x < i < |tiles| ==> tiles[i] == g0.tiles[i]
          invariant |tiles[x]| == g0.size.y && forall j :: 0 <= j < y ==> tiles[x][j] == None
        {
          if tiles[x][y].Some? {
            tiles := tiles[x := tiles[x][y := None]];
          }
          y := y + 1;
        }
        assert tiles[x] == EmptyColumn(g0.size.y);
        x := x + 1;
      }
      assert tiles == Cleared(g0).tiles;
    }

    /** `expand("right")`: one more empty column at the far end. */
    method Widen()
      requires Valid()
      modifies this
      ensures Valid() && Value() == WithColumn(old(Value()))
    {
      var col := NewEmptyColumn(size.y);
      size := Vec(size.x + 1, size.y);
      tiles := tiles + [col];
    }

    /**
     * `addToFirstEmptyCell` (public/js/grid.js): the scan stops at the first empty cell,
     * columns outer and rows inner; a full grid grows one column and the tile goes to
     * its top cell.
     */
    method AddToFirstEmptyCell(t: TileId)
      requires Valid() && t < |store.recs|
      modifies this, store
      ensures Valid()
      ensures var r := JsGrid.AddToFirstEmptyCell(old(Value()), id, old(store.recs), t);
        Value() == r.g && store.recs == r.recs
    {
      ghost var g0 := Value();
      ghost var recs0 := store.recs;
      var i := 0;
      while i < size.x
        invariant 0 <= i <= size.x && Value() == g0 && store.recs == recs0
        invariant FilledBefore(g0, Vec(i, 0))
      {
        var j := 0;
        while j < size.y
          invariant 0 <= j <= size.y && Value() == g0 && store.recs == recs0
          invariant FilledBefore(g0, Vec(i, j))
        {
          if tiles[i][j].None? {
            FirstEmptyUnique(g0, FirstEmpty(g0), Some(Vec(i, j)));
            AddTile(t, Vec(i, j));
            return;
          }
          j := j + 1;
        }
        i := i + 1;
      }
      FirstEmptyUnique(g0, FirstEmpty(g0), None);
      Widen();
      AddTile(t, Vec(size.x - 1, 0));
    }

    /**
     * `addToFirstEmptyCell` (js/grid.js): the same scan; a full grid is left alone and
     * the answer is `undefined` (`None`), otherwise the cell used.
     */
    method AddToFirstEmptyCellOrNone(t: TileId) returns (cell: Option<Vec>)
      requires Valid() && t < |store.recs|
      modifies this, store
      ensures Valid()
      ensures var r := JsGrid.AddToFirstEmptyCellOrNone(old(Value()), id, old(store.recs), t);
        cell == r.0 && Value() == r.1.g && store.recs == r.1.recs
    {
      ghost var g0 := Value();
      ghost var recs0 := store.recs;
      var i := 0;
      while i < size.x
        invariant 0 <= i <= size.x && Value() == g0 && store.recs == recs0
        invariant FilledBefore(g0, Vec(i, 0))
      {
        var j := 0;
        while j < size.y
          invariant 0 <= j <= size.y && Value() == g0 && store.recs == recs0
          invariant FilledBefore(g0, Vec(i, j))
        {
          if tiles[i][j].None? {
            FirstEmptyUnique(g0, FirstEmpty(g0), Some(Vec(i, j)));
            AddTile(t, Vec(i, j));
            return Some(Vec(i, j));
          }
          j := j + 1;
        }
        i := i + 1;
      }
      FirstEmptyUnique(g0, FirstEmpty(g0), None);
      return None;
    }

    /** The positions loop of `shiftTiles` over column `x`: each tile records its cell. */
    method RepositionColumn(x: nat)
      requires Valid() && x < |tiles|
      modifies store
      ensures store.recs == JsGrid.RepositionColumn(Value(), x, old(store.recs), 0)
    {
      ghost var recs0 := store.recs;
      var y := 0;
      while y < size.y
        invariant 0 <= y <= size.y && |store.recs| == |recs0|
        invariant JsGrid.RepositionColumn(Value(), x, store.recs, y) == JsGrid.RepositionColumn(Value(), x, recs0, 0)
      {
        var tile := tiles[x][y];
        if tile.Some? {
          store.SetPosition(tile.value, Vec(x, y));
        }
        y := y + 1;
      }
    }

    /** The loop of `shiftTiles` over a dropped column: each tile goes to this grid's first empty cell. */
    method AddEachToFirstEmptyCell(col: Column)
      requires Valid() && ColKnown(col, |store.recs|)
      modifies this, store
      ensures Valid()
      ensures var s := SendEach(old(Value()), id, old(store.recs), col, 0); Value() == s.g && store.recs == s.recs
    {
      ghost var s := SendEach(Value(), id, store.recs, col, 0);
      var k := 0;
      while k < |col|
        invariant 0 <= k <= |col| && Valid() && |store.recs| == |s.recs|
        invariant SendEach(Value(), id, store.recs, col, k) == s
      {
        if col[k].Some? {
          AddToFirstEmptyCell(col[k].value);
        }
        k := k + 1;
      }
    }

    /**
     * The horizontal part of `shiftTiles`: the last column is popped ("right") or the
     * first shifted off ("left"), an empty column comes in on the other side, and each
     * tile of the dropped column goes to the tray's `addToFirstEmptyCell`, in order.
     */
    method DropColumn(dir: Dir, tray: Grid)
      requires tray != this && tray.store == store && (dir == Right || dir == Left)
      requires ShiftReady(Value(), tray.Value(), store.recs, dir)
      modifies this, tray, store
      ensures Valid() && tray.Valid() && Value() == Rotated(old(Value()), dir)
      ensures var s := SendEach(old(tray.Value()), tray.id, old(store.recs), Dropped(old(Value()), dir), 0);
        tray.Value() == s.g && store.recs == s.recs
    {
      ghost var v0, n := Value(), |store.recs|;
      var removed := Dropped(Value(), dir);
      assert ColKnown(removed, |store.recs|);
      var emptyRow := NewEmptyColumn(size.y);
      if dir == Right {
        tiles := [emptyRow] + tiles[..|tiles| - 1];
      } else {
        tiles := tiles[1..] + [emptyRow];
      }
      assert Value() == Rotated(v0, dir);
      tray.AddEachToFirstEmptyCell(removed);
      assert |store.recs| == n && Known(Value(), n);
    }

    /** The vertical part of one pass of `shiftTiles`: column `i` moves one cell. */
    method ShiftColumnCells(i: nat, dir: Dir) returns (removed: Option<TileId>)
      requires Valid() && i < size.x
      modifies this
      ensures Valid() && Value() == WithShiftedColumn(old(Value()), i, dir)
      ensures removed == ShiftedColumn(old(tiles)[i], dir).0
      ensures removed.Some? ==> removed.value < |store.recs|
    {
      var col := tiles[i];
      if dir == Up {
        removed := col[0];
        tiles := tiles[i := col[1..] + [None]];
      } else {
        removed := col[|col| - 1];
        tiles := tiles[i := [None] + col[..|col| - 1]];
      }
    }

    /**
     * One pass of the column loop of `shiftTiles`: for "up" and "down", column `i` is
     * shifted and its dropped tile sent to the tray; then every tile in column `i`
     * records its cell.
     */
    method ShiftColumn(i: nat, dir: Dir, tray: Grid)
      requires tray != this && tray.store == store && i < size.x
      requires ShiftReady(Value(), tray.Value(), store.recs, dir)
      modifies this, tray, store
      ensures ShiftReady(Value(), tray.Value(), store.recs, dir) && size == old(size)
      ensures dir == Up || dir == Down ==>
        ShiftColumns(old(Value()), old(tray.Value()), tray.id, old(store.recs), dir, i) ==
        ShiftColumns(Value(), tray.Value(), tray.id, store.recs, dir, i + 1)
      ensures dir == Right || dir == Left ==>
        Value() == old(Value()) && tray.Value() == old(tray.Value()) &&
        store.recs == JsGrid.RepositionColumn(Value(), i, old(store.recs), 0)
    {
      if dir == Up || dir == Down {
        var removed := ShiftColumnCells(i, dir);
        if removed.Some? {
          tray.AddToFirstEmptyCell(removed.value);
        }
      }
      RepositionColumn(i);
    }

    /**
     * `shiftTiles(direction)` of the board: the matrix moves one cell, every tile that
     * falls off goes to the tray's `addToFirstEmptyCell`, and every tile left records
     * its new cell.
     */
    method ShiftTiles(dir: Dir, tray: Grid)
      requires tray != this && tray.store == store
      requires ShiftReady(Value(), tray.Value(), store.recs, dir)
      modifies this, tray, store
      ensures ShiftReady(Value(), tray.Value(), store.recs, dir)
      ensures var r := JsGrid.ShiftTiles(old(Value()), old(tray.Value()), tray.id, old(store.recs), dir);
        Value() == r.board && tray.Value() == r.tray && store.recs == r.recs
    {
      ghost var R := JsGrid.ShiftTiles(Value(), tray.Value(), tray.id, store.recs, dir);
      if dir == Right || dir == Left {
        DropColumn(dir, tray);
      }
      ghost var b := Value();
      var i := 0;
      while i < size.x
        invariant 0 <= i <= size.x && tray.store == store
        invariant ShiftProgress(Value(), tray.Value(), tray.id, store.recs, dir, i, b, R)
      {
        ghost var board, trayV, recs := Value(), tray.Value(), store.recs;
        ShiftColumn(i, dir, tray);
        ShiftProgressStep(board, trayV, tray.id, recs, dir, i, b, R, Value(), tray.Value(), store.recs);
        i := i + 1;
      }
      ShiftProgressDone(Value(), tray.Value(), tray.id, store.recs, dir, b, R);
    }

    /**
     * `expand(direction)`, with the vertical branch as evidently intended (each column
     * gets one more cell): "left" and "up" grow on the far side and then shift the
     * matrix back by one, so the tray is handed over and comes back unchanged.
     */
    method Expand(dir: Dir, tray: Grid)
      requires tray != this && tray.store == store && Valid() && tray.Valid()
      modifies this, tray, store
      ensures Valid() && tray.Valid()
      ensures var r := JsGrid.Expand(old(Value()), old(store.recs), dir);
        Value() == r.g && store.recs == r.recs && tray.Value() == old(tray.Value())
    {
      ghost var g0 := Value();
      ghost var recs0 := store.recs;
      if dir == Right || dir == Left {
        Widen();
        if dir == Left {
          JsGridProps.ExpandLeftIsShift(g0, tray.Value(), tray.id, recs0);
          ShiftTiles(Right, tray);
        }
      } else {
        ghost var tray0 := tray.Value();
        var i := 0;
        while i < size.x
          invariant 0 <= i <= size.x && size == g0.size && |tiles| == |g0.tiles|
          invariant tray.Value() == tray0 && store.recs == recs0
          invariant forall k :: 0 <= k < i ==> tiles[k] == g0.tiles[k] + [None]
          invariant forall k :: i <= k < |tiles| ==> tiles[k] == g0.tiles[k]
        {
          tiles := tiles[i := tiles[i] + [None]];
          i := i + 1;
        }
        size := Vec(size.x, size.y + 1);
        assert Value() == JsGrid.Expand(g0, recs0, Down).g;
        if dir == Up {
          JsGridProps.ExpandUpIsShift(g0, tray.Value(), tray.id, recs0);
          ShiftTiles(Down, tray);
        }
      }
    }

    /** One cell of `sendAllTiles`: a tile at `p` leaves for `other`'s first empty cell. */
    method SendCell(p: Vec, other: Grid)
      requires other != this && other.store == store && Valid() && other.Valid() && InGrid(Value(), p)
      modifies this, other, store
      ensures Valid() && other.Valid() && size == old(size)
      ensures var c := JsGrid.SendCell(old(Value()), old(other.Value()), other.id, old(store.recs), p);
        Value() == c.board && other.Value() == c.tray && store.recs == c.recs
    {
      var tile := tiles[p.x][p.y];
      if tile.Some? {
        SetShapedKnown(Value(), p, None, |store.recs|);
        tiles := tiles[p.x := tiles[p.x][p.y := None]];
        other.AddToFirstEmptyCell(tile.value);
      }
    }

    /** The inner loop of `sendAllTiles` over column `x`. */
    method SendColumn(x: nat, other: Grid)
      requires other != this && other.store == store && Valid() && other.Valid() && x < size.x
      modifies this, other, store
      ensures Valid() && other.Valid() && size == old(size)
      ensures var c := SendColumnFrom(old(Value()), old(other.Value()), other.id, old(store.recs), x, 0);
        Value() == c.board && other.Value() == c.tray && store.recs == c.recs
    {
      ghost var C := SendColumnFrom(Value(), other.Value(), other.id, store.recs, x, 0);
      ghost var size0 := size;
      var y := 0;
      while y < size.y
        invariant 0 <= y <= size.y && size == size0 && Valid() && other.Valid() && other.store == store
        invariant SendColumnFrom(Value(), other.Value(), other.id, store.recs, x, y) == C
      {
        SendCell(Vec(x, y), other);
        y := y + 1;
      }
    }

    /**
     * `sendAllTiles(grid)`: every tile, in scan order, is taken out of this grid and
     * given to `other`'s `addToFirstEmptyCell`.
     */
    method SendAllTiles(other: Grid)
      requires other != this && other.store == store && Valid() && other.Valid()
      modifies this, other, store
      ensures Valid() && other.Valid()
      ensures var r := SendAllFrom(old(Value()), old(other.Value()), other.id, old(store.recs), 0);
        Value() == r.board && other.Value() == r.tray && store.recs == r.recs
    {
      ghost var R := SendAllFrom(Value(), other.Value(), other.id, store.recs, 0);
      ghost var size0 := size;
      var x := 0;
      while x < size.x
        invariant 0 <= x <= size.x && size == size0 && Valid() && other.Valid() && other.store == store
        invariant SendAllFrom(Value(), other.Value(), other.id, store.recs, x) == R
      {
        SendColumn(x, other);
        x := x + 1;
      }
    }
  }

  /**
   * How far the column loop of `shiftTiles` has come towards the result `R`: for a
   * horizontal shift the matrix `b` is already in place and the columns from `i` on
   * still record their cells; for a vertical one the columns from `i` on still shift.
   */
  ghost predicate ShiftProgress(board: GridV, tray: GridV, tid: GridId, recs: seq<TileRec>, dir: Dir, i: nat, b: GridV, R: Containers) {
    ShiftReady(board, tray, recs, dir) && i <= |board.tiles| &&
    if dir == Right || dir == Left then
      board == b && b == R.board && tray == R.tray && RepositionFrom(b, recs, i) == R.recs
    else
      ShiftColumns(board, tray, tid, recs, dir, i) == R
  }

  lemma ShiftProgressStep(board: GridV, tray: GridV, tid: GridId, recs: seq<TileRec>, dir: Dir, i: nat, b: GridV, R: Containers,
                          board': GridV, tray': GridV, recs': seq<TileRec>)
    requires ShiftProgress(board, tray, tid, recs, dir, i, b, R) && i < |board.tiles|
    requires ShiftReady(board', tray', recs', dir) && board'.size == board.size
    requires dir == Up || dir == Down ==>
      ShiftColumns(board, tray, tid, recs, dir, i) == ShiftColumns(board', tray', tid, recs', dir, i + 1)
    requires dir == Right || dir == Left ==>
      board' == board && tray' == tray && recs' == JsGrid.RepositionColumn(board', i, recs, 0)
    ensures ShiftProgress(board', tray', tid, recs', dir, i + 1, b, R)
  {
  }

  lemma ShiftProgressDone(board: GridV, tray: GridV, tid: GridId, recs: seq<TileRec>, dir: Dir, b: GridV, R: Containers)
    requires ShiftProgress(board, tray, tid, recs, dir, |board.tiles|, b, R)
    ensures board == R.board && tray == R.tray && recs == R.recs
  {
  }
}

=== FILE: js_grid_props.dfy ===
/**
 * Properties of the browser engine's grid operations (public/js/grid.js, js/grid.js):
 * cell and record stay in agreement, shifts and expansions conserve the tiles, and a
 * full-grid placement grows the grid instead of failing.
 */
module JsGridProps {
  import opened Vectors
  import opened Wrappers
  import opened JsTiles
  import opened JsGrid

  // ------------------------------------------------------------------ repositioning

  /** Records `a` and `b` differ at most in their `position` fields. */
  predicate OnlyPositions(a: seq<TileRec>, b: seq<TileRec>) {
    |a| == |b| && forall u :: 0 <= u < |a| ==> b[u] == a[u].(position := b[u].position)
  }

  /** Every tile in column `x` from row `y` down records its cell. */
  predicate ColumnPlaced(g: GridV, x: nat, y: nat, recs: seq<TileRec>)
    requires x < |g.tiles|
  {
    forall j :: y <= j < |g.tiles[x]| && g.tiles[x][j].Some? ==>
      g.tiles[x][j].value < |recs| && recs[g.tiles[x][j].value].position == Vec(x, j)
  }

  /** Tile `u` is not in column `x` from row `y` down. */
  predicate NotInColumn(g: GridV, x: nat, y: nat, u: TileId)
    requires x < |g.tiles|
  {
    forall j :: y <= j < |g.tiles[x]| ==> g.tiles[x][j] != Some(u)
  }

  /** What `RepositionColumn` achieves. */
  predicate ColumnRepositioned(g: GridV, x: nat, y: nat, recs: seq<TileRec>, r: seq<TileRec>)
    requires x < |g.tiles|
  {
    ColumnPlaced(g, x, y, r) && OnlyPositions(recs, r) &&
    forall u :: 0 <= u < |recs| && NotInColumn(g, x, y, u) ==> r[u] == recs[u]
  }

  /** No tile is in two cells of column `x`. */
  predicate ColumnUnique(g: GridV, x: nat)
    requires x < |g.tiles|
  {
    forall j, k :: 0 <= j < |g.tiles[x]| && 0 <= k < |g.tiles[x]| && g.tiles[x][j].Some? && g.tiles[x][j] == g.tiles[x][k] ==> j == k
  }

  lemma UniqueColumn(g: GridV, x: nat)
    requires Unique(g) && x < |g.tiles|
    ensures ColumnUnique(g, x)
  {
    forall j, k | 0 <= j < |g.tiles[x]| && 0 <= k < |g.tiles[x]| && g.tiles[x][j].Some? && g.tiles[x][j] == g.tiles[x][k]
      ensures j == k
    {
      assert x == x && j == k;
    }
  }

  lemma {:induction false} RepositionColumnPlaces(g: GridV, x: nat, recs: seq<TileRec>, y: nat)
    requires Shaped(g) && x < |g.tiles| && y <= g.size.y && Known(g, |recs|) && ColumnUnique(g, x)
    ensures ColumnRepositioned(g, x, y, recs, RepositionColumn(g, x, recs, y))
    decreases g.size.y - y
  {
    if y < g.size.y {
      var c := g.tiles[x];
      var next := if c[y].Some? then recs[c[y].value := recs[c[y].value].(position := Vec(x, y))] else recs;
      RepositionColumnPlaces(g, x, next, y + 1);
      var r := RepositionColumn(g, x, next, y + 1);
      assert r == RepositionColumn(g, x, recs, y);
      if c[y].Some? {
        assert NotInColumn(g, x, y + 1, c[y].value);
      }
      forall u | 0 <= u < |recs| && NotInColumn(g, x, y, u)
        ensures r[u] == recs[u]
      {
        assert NotInColumn(g, x, y + 1, u);
      }
    }
  }

  /** Every tile in the columns from `x` on records its cell. */
  predicate PlacedFrom(g: GridV, x: nat, recs: seq<TileRec>) {
    forall i :: x <= i < |g.tiles| ==> ColumnPlaced(g, i, 0, recs)
  }

  /** Tile `u` is in none of the columns from `x` on. */
  predicate NotFrom(g: GridV, x: nat, u: TileId) {
    forall i :: x <= i < |g.tiles| ==> NotInColumn(g, i, 0, u)
  }

  /** What `RepositionFrom` achieves. */
  predicate Repositioned(g: GridV, x: nat, recs: seq<TileRec>, r: seq<TileRec>) {
    PlacedFrom(g, x, r) && OnlyPositions(recs, r) &&
    forall u :: 0 <= u < |recs| && NotFrom(g, x, u) ==> r[u] == recs[u]
  }

  lemma {:induction false} RepositionFromPlaces(g: GridV, recs: seq<TileRec>, x: nat)
    requires Shaped(g) && x <= |g.tiles| && Known(g, |recs|) && Unique(g)
    ensures Repositioned(g, x, recs, RepositionFrom(g, recs, x))
    decreases |g.tiles| - x
  {
    if x < |g.tiles| {
      var next := RepositionColumn(g, x, recs, 0);
      UniqueColumn(g, x);
      RepositionColumnPlaces(g, x, recs, 0);
      RepositionFromPlaces(g, next, x + 1);
      var r := RepositionFrom(g, next, x + 1);
      assert r == RepositionFrom(g, recs, x);
      forall j | 0 <= j < |g.tiles[x]| && g.tiles[x][j].Some?
        ensures r[g.tiles[x][j].value].position == Vec(x, j)
      {
        assert NotFrom(g, x + 1, g.tiles[x][j].value);
      }
      assert ColumnPlaced(g, x, 0, r);
      forall u | 0 <= u < |recs| && NotFrom(g, x, u)
        ensures r[u] == recs[u]
      {
        assert NotInColumn(g, x, 0, u) && NotFrom(g, x + 1, u);
      }
    }
  }

  /** Every tile of the grid names `id` as its grid. */
  predicate OwnedBy(g: GridV, id: GridId, recs: seq<TileRec>) {
    forall x, y :: 0 <= x < |g.tiles| && 0 <= y < |g.tiles[x]| && g.tiles[x][y].Some? ==>
      g.tiles[x][y].value < |recs| && recs[g.tiles[x][y].value].grid == id
  }

  /**
   * The positions loop that ends `shiftTiles` (and so `expand("left")` and
   * `expand("up")`) restores the agreement of cells and records.
   */
  lemma {:induction false} RepositionAgrees(g: GridV, id: GridId, recs: seq<TileRec>)
    requires Shaped(g) && Known(g, |recs|) && Unique(g) && OwnedBy(g, id, recs)
    ensures Agrees(g, id, RepositionFrom(g, recs, 0))
  {
    RepositionFromPlaces(g, recs, 0);
    var r := RepositionFrom(g, recs, 0);
    forall x, y | 0 <= x < |g.tiles| && 0 <= y < |g.tiles[x]| && g.tiles[x][y].Some?
      ensures r[g.tiles[x][y].value].position == Vec(x, y) && r[g.tiles[x][y].value].grid == id
    {
      assert ColumnPlaced(g, x, 0, r);
    }
  }

  // ------------------------------------------------------------------ occupancy

  lemma {:induction false} OccSameColumns(a: seq<Column>, b: seq<Column>)
    requires |a| == |b| && forall x :: 0 <= x < |a| ==> ColOcc(a[x]) == ColOcc(b[x])
    ensures Occ(a) == Occ(b)
    decreases |a|
  {
    if a != [] {
      OccSameColumns(a[1..], b[1..]);
    }
  }

  lemma {:induction false} ColOccBlank(c: Column)
    ensures ColOcc(c + [None]) == ColOcc(c) && ColOcc([None] + c) == ColOcc(c)
  {
    ColOccEmpty(1);
    assert [None] == EmptyColumn(1);
    ColOccConcat(c, [None]);
    ColOccConcat([None], c);
  }

  lemma {:induction false} WithColumnOcc(g: GridV)
    requires Shaped(g)
    ensures Occ(WithColumn(g).tiles) == Occ(g.tiles)
    ensures Occ([EmptyColumn(g.size.y)] + g.tiles) == Occ(g.tiles)
  {
    OccConcat(g.tiles, [EmptyColumn(g.size.y)]);
    OccConcat([EmptyColumn(g.size.y)], g.tiles);
    OccSingle(EmptyColumn(g.size.y));
    ColOccEmpty(g.size.y);
  }

  // ---------------------------------------------------------------------- expand

  /** `expand` in any direction keeps exactly the tiles the grid held. */
  lemma {:induction false} ExpandConserves(g: GridV, recs: seq<TileRec>, dir: Dir)
    requires Shaped(g) && Known(g, |recs|)
    ensures Occ(Expand(g, recs, dir).g.tiles) == Occ(g.tiles)
  {
    var r := Expand(g, recs, dir);
    match dir
    case Right => WithColumnOcc(g);
    case Left => WithColumnOcc(g);
    case Down =>
      forall x | 0 <= x < |g.tiles| ensures ColOcc(r.g.tiles[x]) == ColOcc(g.tiles[x]) {
        ColOccBlank(g.tiles[x]);
      }
      OccSameColumns(r.g.tiles, g.tiles);
    case Up =>
      forall x | 0 <= x < |g.tiles| ensures ColOcc(r.g.tiles[x]) == ColOcc(g.tiles[x]) {
        ColOccBlank(g.tiles[x]);
      }
      OccSameColumns(r.g.tiles, g.tiles);
  }

  /** `expand` keeps every tile's record in agreement with its (possibly new) cell. */
  lemma {:induction false} ExpandAgrees(g: GridV, id: GridId, recs: seq<TileRec>, dir: Dir)
    requires Shaped(g) && Agrees(g, id, recs)
    ensures Agrees(Expand(g, recs, dir).g, id, Expand(g, recs, dir).recs)
  {
    AgreesUnique(g, id, recs);
    match dir
    case Right =>
    case Down =>
    case Left => ExpandLeftAgrees(g, id, recs);
    case Up => ExpandUpAgrees(g, id, recs);
  }

  /** After `expand("left")` every tile sits one column further on, and records it. */
  lemma ExpandLeftAgrees(g: GridV, id: GridId, recs: seq<TileRec>)
    requires Shaped(g) && Agrees(g, id, recs) && Unique(g)
    ensures Agrees(Expand(g, recs, Left).g, id, Expand(g, recs, Left).recs)
  {
    var b := Expand(g, recs, Left).g;
    forall x, y, x', y' | 0 <= x < |b.tiles| && 0 <= y < |b.tiles[x]| && 0 <= x' < |b.tiles| && 0 <= y' < |b.tiles[x']| &&
        b.tiles[x][y].Some? && b.tiles[x][y] == b.tiles[x'][y']
      ensures x == x' && y == y'
    {
      assert b.tiles[x] == g.tiles[x - 1] && b.tiles[x'] == g.tiles[x' - 1];
    }
    forall x, y | 0 <= x < |b.tiles| && 0 <= y < |b.tiles[x]| && b.tiles[x][y].Some?
      ensures b.tiles[x][y].value < |recs| && recs[b.tiles[x][y].value].grid == id
    {
      assert b.tiles[x] == g.tiles[x - 1];
    }
    RepositionAgrees(b, id, recs);
  }

  /** After `expand("up")` every tile sits one row further down, and records it. */
  lemma ExpandUpAgrees(g: GridV, id: GridId, recs: seq<TileRec>)
    requires Shaped(g) && Agrees(g, id, recs) && Unique(g)
    ensures Agrees(Expand(g, recs, Up).g, id, Expand(g, recs, Up).recs)
  {
    var b := Expand(g, recs, Up).g;
    forall x, y, x', y' | 0 <= x < |b.tiles| && 0 <= y < |b.tiles[x]| && 0 <= x' < |b.tiles| && 0 <= y' < |b.tiles[x']| &&
        b.tiles[x][y].Some? && b.tiles[x][y] == b.tiles[x'][y']
      ensures x == x' && y == y'
    {
      assert b.tiles[x][y] == g.tiles[x][y - 1] && b.tiles[x'][y'] == g.tiles[x'][y' - 1];
    }
    forall x, y | 0 <= x < |b.tiles| && 0 <= y < |b.tiles[x]| && b.tiles[x][y].Some?
      ensures b.tiles[x][y].value < |recs| && recs[b.tiles[x][y].value].grid == id
    {
      assert b.tiles[x][y] == g.tiles[x][y - 1];
    }
    RepositionAgrees(b, id, recs);
  }

  /**
   * The vertical branch of `expand` as written leaves the grid malformed: the new
   * bottom row has no cells, and the outer array gains `size.x` entries that are not
   * columns at all.
   */
  lemma {:induction false} ExpandVerticalAsWrittenBreaksShape(g: GridV)
    requires Shaped(g) && g.size.x > 0
    ensures var r := ExpandVerticalAsWritten(g);
      r.1[0].Some? && |r.1[0].value| < r.0.y && r.1[g.size.x].None?
  {
  }

  /** The corrected vertical `expand`: each column gains one empty cell, at the bottom for "down". */
  lemma {:induction false} ExpandDownAddsRow(g: GridV, recs: seq<TileRec>)
    requires Shaped(g) && Known(g, |recs|)
    ensures var r := Expand(g, recs, Down);
      forall x :: 0 <= x < g.size.x ==> InGrid(r.g, Vec(x, g.size.y)) && Get(r.g, Vec(x, g.size.y)) == None
  {
  }

  /**
   * `isWithinBounds` as written lets through a point on the far right edge of the grid;
   * the cell computed from it is one column past the last, so `tiles[intCoords.x]` is
   * undefined and reading a row of it throws.
   */
  lemma NearestCellAsWrittenFarEdge(g: GridV, corner: Vec)
    requires Shaped(g)
    ensures var p := Vec(corner.x + g.size.x * CellSize, corner.y);
      var r := NearestCellAsWritten(g, corner, p);
      r.Some? && r.value.x == g.size.x && !InGrid(g, r.value) && !Inside(g, corner, p)
  {
    var p := Vec(corner.x + g.size.x * CellSize, corner.y);
    assert (p.x - corner.x) / CellSize == g.size.x;
  }

  // ---------------------------------------------------------- first empty cell: add

  /**
   * `addToFirstEmptyCell` (public/js/grid.js) puts the tile in the first empty cell in
   * scan order, or, when the grid is full, at the top of the one new column; either way
   * the grid holds one more tile, `t`, and nothing else changes.
   */
  lemma {:induction false} AddToFirstEmptyCellPlaces(g: GridV, id: GridId, recs: seq<TileRec>, t: TileId)
    requires Shaped(g) && Known(g, |recs|) && t < |recs|
    ensures var r := AddToFirstEmptyCell(g, id, recs, t);
      (!Full(g) ==> FirstEmpty(g) == Some(r.recs[t].position)) &&
      (Full(g) ==> r.recs[t].position == Vec(g.size.x, 0)) &&
      Occ(r.g.tiles) == Occ(g.tiles) + multiset{t}
  {
    var first := FirstEmpty(g);
    if first.Some? {
      OccSet(g, first.value, Some(t));
    } else {
      var e := WithColumn(g);
      WithColumnOcc(g);
      OccSet(e, Vec(e.size.x - 1, 0), Some(t));
    }
  }

  /** `addToFirstEmptyCell` (js/grid.js) adds `t` exactly when the grid is not full. */
  lemma {:induction false} AddToFirstEmptyCellOrNoneOcc(g: GridV, id: GridId, recs: seq<TileRec>, t: TileId)
    requires Shaped(g) && t < |recs|
    ensures var r := AddToFirstEmptyCellOrNone(g, id, recs, t);
      Occ(r.1.g.tiles) == if Full(g) then Occ(g.tiles) else Occ(g.tiles) + multiset{t}
  {
    var first := FirstEmpty(g);
    if first.Some? {
      OccSet(g, first.value, Some(t));
    }
  }

  /** Tile `t` is in no cell of `g`. */
  predicate NotIn(g: GridV, t: TileId) {
    forall x, y :: 0 <= x < |g.tiles| && 0 <= y < |g.tiles[x]| ==> g.tiles[x][y] != Some(t)
  }

  /** A grid whose records all name it does not hold a tile whose record names another grid. */
  lemma {:induction false} AgreesNotIn(g: GridV, id: GridId, recs: seq<TileRec>, t: TileId)
    requires Agrees(g, id, recs) && t < |recs| && recs[t].grid != id
    ensures NotIn(g, t)
  {
  }

  /** Changing the record of a tile a grid does not hold keeps that grid's agreement. */
  lemma {:induction false} AgreesFrame(g: GridV, id: GridId, recs: seq<TileRec>, recs': seq<TileRec>, t: TileId)
    requires Agrees(g, id, recs) && NotIn(g, t) && |recs'| == |recs|
    requires forall u :: 0 <= u < |recs| && u != t ==> recs'[u] == recs[u]
    ensures Agrees(g, id, recs')
  {
    forall x, y | 0 <= x < |g.tiles| && 0 <= y < |g.tiles[x]| && g.tiles[x][y].Some?
      ensures recs'[g.tiles[x][y].value] == recs[g.tiles[x][y].value]
    {
      assert g.tiles[x][y] != Some(t);
    }
  }

  /** `addToFirstEmptyCell` of a tile from another grid keeps this grid's agreement. */
  lemma {:induction false} AddToFirstEmptyCellAgrees(g: GridV, id: GridId, recs: seq<TileRec>, t: TileId)
    requires Shaped(g) && Agrees(g, id, recs) && t < |recs| && recs[t].grid != id
    ensures var r := AddToFirstEmptyCell(g, id, recs, t); Agrees(r.g, id, r.recs)
  {
    var r := AddToFirstEmptyCell(g, id, recs, t);
    var first := FirstEmpty(g);
    var e := if first.Some? then g else WithColumn(g);
    var p := r.recs[t].position;
    assert r.g == Set(e, p, Some(t));
    AgreesNotIn(g, id, recs, t);
    forall x, y | 0 <= x < |r.g.tiles| && 0 <= y < |r.g.tiles[x]| && r.g.tiles[x][y].Some?
      ensures r.g.tiles[x][y].value < |r.recs| && r.recs[r.g.tiles[x][y].value].position == Vec(x, y)
      ensures r.recs[r.g.tiles[x][y].value].grid == id
    {
      if Vec(x, y) != p {
        assert r.g.tiles[x][y] == e.tiles[x][y];
        assert x < |g.tiles| && g.tiles[x][y] == e.tiles[x][y];
      }
    }
  }

  // ----------------------------------------------------------------------- shifts

  lemma {:induction false} SendOneOcc(tray: GridV, tid: GridId, recs: seq<TileRec>, v: Option<TileId>)
    requires Shaped(tray) && Known(tray, |recs|) && (v.Some? ==> v.value < |recs|)
    ensures Occ(SendOne(tray, tid, recs, v).g.tiles) == Occ(tray.tiles) + OptMs(v)
  {
    if v.Some? {
      AddToFirstEmptyCellPlaces(tray, tid, recs, v.value);
    }
  }

  lemma {:induction false} SendEachOcc(tray: GridV, tid: GridId, recs: seq<TileRec>, col: Column, i: nat)
    requires Shaped(tray) && Known(tray, |recs|) && ColKnown(col, |recs|) && i <= |col|
    ensures Occ(SendEach(tray, tid, recs, col, i).g.tiles) == Occ(tray.tiles) + ColOcc(col[i..])
    decreases |col| - i
  {
    if i < |col| {
      var s := SendOne(tray, tid, recs, col[i]);
      SendOneOcc(tray, tid, recs, col[i]);
      SendEachOcc(s.g, tid, s.recs, col, i + 1);
      assert col[i..][1..] == col[i + 1..];
    } else {
      assert col[i..] == [];
    }
  }

  /** What a vertical shift of column `x` drops, and what it keeps, between them hold the column. */
  lemma {:induction false} ShiftedColumnOcc(c: Column, dir: Dir)
    requires |c| > 0
    ensures ColOcc(ShiftedColumn(c, dir).1) + OptMs(ShiftedColumn(c, dir).0) == ColOcc(c)
  {
    var n := |c|;
    if dir == Up {
      ColOccBlank(c[1..]);
      assert ColOcc(c) == OptMs(c[0]) + ColOcc(c[1..]);
    } else {
      ColOccBlank(c[..n - 1]);
      var one: Column := [c[n - 1]];
      ColOccConcat(c[..n - 1], one);
      assert c == c[..n - 1] + one;
      assert one[1..] == [];
      assert ColOcc(one) == OptMs(c[n - 1]) + ColOcc(one[1..]);
    }
  }

  /** The board and tray of `r` hold, between them, the tiles `board` and `tray` held. */
  predicate Conserved(board: GridV, tray: GridV, r: Containers) {
    Occ(r.board.tiles) + Occ(r.tray.tiles) == Occ(board.tiles) + Occ(tray.tiles)
  }

  /** One column of a vertical shift: the board's loss is the tray's gain. */
  lemma ShiftColumnConserves(board: GridV, tray: GridV, tid: GridId, recs: seq<TileRec>, dir: Dir, i: nat, b: GridV, s: Placed)
    requires ShiftReady(board, tray, recs, dir) && i < |board.tiles|
    requires ShiftedColumn(board.tiles[i], dir).0.Some? ==> ShiftedColumn(board.tiles[i], dir).0.value < |recs|
    requires b == WithShiftedColumn(board, i, dir)
    requires s == SendOne(tray, tid, recs, ShiftedColumn(board.tiles[i], dir).0)
    ensures Occ(b.tiles) + Occ(s.g.tiles) == Occ(board.tiles) + Occ(tray.tiles)
  {
    var sc := ShiftedColumn(board.tiles[i], dir);
    ShiftedColumnOcc(board.tiles[i], dir);
    OccSetColumn(board.tiles, i, sc.1);
    SendOneOcc(tray, tid, recs, sc.0);
    MsShift(Occ(b.tiles), ColOcc(board.tiles[i]), Occ(board.tiles), ColOcc(sc.1), OptMs(sc.0),
            Occ(s.g.tiles), Occ(tray.tiles));
  }

  /** A tile dropped from one container and added to another leaves their union unchanged. */
  lemma MsShift(nb: multiset<TileId>, col: multiset<TileId>, ob: multiset<TileId>, kept: multiset<TileId>,
                dropped: multiset<TileId>, nt: multiset<TileId>, ot: multiset<TileId>)
    requires kept + dropped == col && nb + col == ob + kept && nt == ot + dropped
    ensures nb + nt == ob + ot
  {
    forall u ensures (nb + nt)[u] == (ob + ot)[u] {
      assert (kept + dropped)[u] == col[u];
      assert (nb + col)[u] == (ob + kept)[u];
    }
  }

  /** One pass of the vertical column loop: the state it leaves conserves the tiles, and the loop goes on from the next column. */
  lemma ShiftColumnsNext(board: GridV, tray: GridV, tid: GridId, recs: seq<TileRec>, dir: Dir, i: nat) returns (c: Containers)
    requires ShiftReady(board, tray, recs, dir) && i < |board.tiles|
    ensures ShiftReady(c.board, c.tray, c.recs, dir) && |c.board.tiles| == |board.tiles|
    ensures Conserved(board, tray, c)
    ensures ShiftColumns(board, tray, tid, recs, dir, i) == ShiftColumns(c.board, c.tray, tid, c.recs, dir, i + 1)
  {
    var sc := ShiftedColumn(board.tiles[i], dir);
    var b := WithShiftedColumn(board, i, dir);
    assert sc.0 == board.tiles[i][if dir == Up then 0 else |board.tiles[i]| - 1];
    var s := SendOne(tray, tid, recs, sc.0);
    c := Containers(b, s.g, RepositionColumn(b, i, s.recs, 0));
    ShiftColumnConserves(board, tray, tid, recs, dir, i, b, s);
  }

  lemma {:induction false} ShiftColumnsConserves(board: GridV, tray: GridV, tid: GridId, recs: seq<TileRec>, dir: Dir, i: nat)
    requires ShiftReady(board, tray, recs, dir) && i <= |board.tiles|
    ensures Conserved(board, tray, ShiftColumns(board, tray, tid, recs, dir, i))
    decreases |board.tiles| - i
  {
    if i < |board.tiles| {
      var c := ShiftColumnsNext(board, tray, tid, recs, dir, i);
      ShiftColumnsConserves(c.board, c.tray, tid, c.recs, dir, i + 1);
      ConservedTrans(board, tray, c, ShiftColumns(c.board, c.tray, tid, c.recs, dir, i + 1));
    }
  }

  /** The board's matrix after a horizontal shift, with the dropped column, holds the old matrix's tiles. */
  lemma {:induction false} RotatedOcc(board: GridV, dir: Dir)
    requires Shaped(board) && board.size.x > 0
    ensures Occ(Rotated(board, dir).tiles) + ColOcc(Dropped(board, dir)) == Occ(board.tiles)
  {
    var n := |board.tiles|;
    var d := Dropped(board, dir);
    var e := [EmptyColumn(board.size.y)];
    OccSingle(EmptyColumn(board.size.y));
    OccSingle(d);
    ColOccEmpty(board.size.y);
    if dir == Right {
      assert board.tiles == board.tiles[..n - 1] + [d];
      OccConcat(board.tiles[..n - 1], [d]);
      OccConcat(e, board.tiles[..n - 1]);
    } else {
      assert board.tiles == [d] + board.tiles[1..];
      OccConcat([d], board.tiles[1..]);
      OccConcat(board.tiles[1..], e);
    }
  }

  /** `shiftTiles` conserves the tiles: what leaves the board arrives in the tray. */
  lemma {:induction false} ShiftConserves(board: GridV, tray: GridV, tid: GridId, recs: seq<TileRec>, dir: Dir)
    requires ShiftReady(board, tray, recs, dir)
    ensures Conserved(board, tray, ShiftTiles(board, tray, tid, recs, dir))
  {
    if dir == Right || dir == Left {
      var d := Dropped(board, dir);
      assert ColKnown(d, |recs|);
      SendEachOcc(tray, tid, recs, d, 0);
      assert d[0..] == d;
      RotatedOcc(board, dir);
    } else {
      ShiftColumnsConserves(board, tray, tid, recs, dir, 0);
    }
  }

  // ------------------------------------------------------------------ shift: movement

  /** One cell in the direction `shiftTiles(dir)` names; rows grow downwards. */
  function Step(dir: Dir): Vec {
    match dir
    case Right => Vec(1, 0)
    case Left => Vec(-1, 0)
    case Up => Vec(0, -1)
    case Down => Vec(0, 1)
  }

  /** What a shift in `dir` brings into cell `p`: the entry one step back, or nothing past the edge. */
  function Source(g: GridV, dir: Dir, p: Vec): Option<TileId> {
    var q := Sub(p, Step(dir));
    if InGrid(g, q) then Get(g, q) else None
  }

  /** `r` is `g` with every entry moved one cell in `dir`, and the cells left behind emptied. */
  predicate Moved(g: GridV, r: GridV, dir: Dir) {
    Shaped(r) && r.size == g.size &&
    forall x, y :: 0 <= x < |r.tiles| && 0 <= y < |r.tiles[x]| ==> r.tiles[x][y] == Source(g, dir, Vec(x, y))
  }

  /** The columns before `i` are as in `g`, those from `i` on shifted vertically. */
  predicate ShiftedFrom(g: GridV, r: GridV, dir: Dir, i: nat) {
    Shaped(g) && |r.tiles| == |g.tiles| &&
    (forall x :: 0 <= x < i && x < |g.tiles| ==> r.tiles[x] == g.tiles[x]) &&
    forall x :: i <= x < |g.tiles| ==> r.tiles[x] == ShiftedColumn(g.tiles[x], dir).1
  }

  lemma {:induction false} ShiftColumnsBoard(board: GridV, tray: GridV, tid: GridId, recs: seq<TileRec>, dir: Dir, i: nat)
    requires ShiftReady(board, tray, recs, dir) && i <= |board.tiles|
    ensures ShiftedFrom(board, ShiftColumns(board, tray, tid, recs, dir, i).board, dir, i)
    decreases |board.tiles| - i
  {
    if i < |board.tiles| {
      var sc := ShiftedColumn(board.tiles[i], dir);
      var b := WithShiftedColumn(board, i, dir);
      assert sc.0 == board.tiles[i][if dir == Up then 0 else |board.tiles[i]| - 1];
      var s := SendOne(tray, tid, recs, sc.0);
      var rs := RepositionColumn(b, i, s.recs, 0);
      var r := ShiftColumns(b, s.g, tid, rs, dir, i + 1);
      ShiftColumnsBoard(b, s.g, tid, rs, dir, i + 1);
      assert ShiftColumns(board, tray, tid, recs, dir, i) == r;
      ShiftedFromStep(board, b, r.board, dir, i);
    }
  }

  /** Shifting column `i` of `board` first and the columns after it later shifts them all from `i` on. */
  lemma ShiftedFromStep(board: GridV, b: GridV, r: GridV, dir: Dir, i: nat)
    requires Shaped(board) && Shaped(b) && i < |board.tiles|
    requires b.tiles == board.tiles[i := ShiftedColumn(board.tiles[i], dir).1]
    requires ShiftedFrom(b, r, dir, i + 1)
    ensures ShiftedFrom(board, r, dir, i)
  {
    forall x | i < x < |board.tiles|
      ensures r.tiles[x] == ShiftedColumn(board.tiles[x], dir).1
    {
      assert b.tiles[x] == board.tiles[x];
    }
  }

  lemma RotatedMoves(board: GridV, dir: Dir)
    requires Shaped(board) && board.size.x > 0 && (dir == Right || dir == Left)
    ensures Moved(board, Rotated(board, dir), dir)
  {
    var r := Rotated(board, dir);
    forall x, y | 0 <= x < |r.tiles| && 0 <= y < |r.tiles[x]|
      ensures r.tiles[x][y] == Source(board, dir, Vec(x, y))
    {
      if dir == Right && x > 0 {
        assert r.tiles[x] == board.tiles[x - 1];
      } else if dir == Left && x < |r.tiles| - 1 {
        assert r.tiles[x] == board.tiles[x + 1];
      }
    }
  }

  lemma ColumnsMoved(board: GridV, r: GridV, dir: Dir)
    requires ShiftedFrom(board, r, dir, 0) && (dir == Up || dir == Down) && Shaped(r) && r.size == board.size
    ensures Moved(board, r, dir)
  {
    forall x, y | 0 <= x < |r.tiles| && 0 <= y < |r.tiles[x]|
      ensures r.tiles[x][y] == Source(board, dir, Vec(x, y))
    {
      assert r.tiles[x] == ShiftedColumn(board.tiles[x], dir).1;
    }
  }

  /**
   * `shiftTiles(dir)` moves every tile that stays on the board one cell in `dir`, and
   * leaves the size unchanged.
   */
  lemma {:induction false} ShiftMoves(board: GridV, tray: GridV, tid: GridId, recs: seq<TileRec>, dir: Dir)
    requires ShiftReady(board, tray, recs, dir)
    ensures Moved(board, ShiftTiles(board, tray, tid, recs, dir).board, dir)
  {
    if dir == Right || dir == Left {
      RotatedMoves(board, dir);
    } else {
      ShiftColumnsBoard(board, tray, tid, recs, dir, 0);
      ColumnsMoved(board, ShiftTiles(board, tray, tid, recs, dir).board, dir);
    }
  }

  // --------------------------------------------------------------- shift: agreement

  /** Board and tray each agree with the records, under their own grid names. */
  predicate BothAgree(c: Containers, bid: GridId, tid: GridId) {
    Agrees(c.board, bid, c.recs) && Agrees(c.tray, tid, c.recs)
  }

  /** The row of the old column that row `y` of a vertically shifted column came from. */
  function Back(dir: Dir, y: int): int {
    if dir == Up then y + 1 else y - 1
  }

  /** The row a vertical shift drops. */
  function DropRow(c: Column, dir: Dir): nat
    requires |c| > 0
  {
    if dir == Up then 0 else |c| - 1
  }

  lemma ShiftedColumnRows(c: Column, dir: Dir)
    requires |c| > 0 && (dir == Up || dir == Down)
    ensures ShiftedColumn(c, dir).0 == c[DropRow(c, dir)]
    ensures forall y :: 0 <= y < |c| && ShiftedColumn(c, dir).1[y].Some? ==>
      0 <= Back(dir, y) < |c| && Back(dir, y) != DropRow(c, dir) && ShiftedColumn(c, dir).1[y] == c[Back(dir, y)]
  {
  }

  /** Every tile kept in a vertically shifted column of an agreeing board. */
  predicate KeptInColumn(b: GridV, i: nat, recs: seq<TileRec>, bid: GridId, dir: Dir, drop: Option<TileId>)
    requires i < |b.tiles|
  {
    forall y :: 0 <= y < |b.tiles[i]| && b.tiles[i][y].Some? ==>
      b.tiles[i][y].value < |recs| && recs[b.tiles[i][y].value].position == Vec(i, Back(dir, y)) &&
      recs[b.tiles[i][y].value].grid == bid && b.tiles[i][y] != drop
  }

  lemma ShiftColumnKeeps(board: GridV, recs: seq<TileRec>, bid: GridId, dir: Dir, i: nat)
    requires Shaped(board) && i < |board.tiles| && Agrees(board, bid, recs) && (dir == Up || dir == Down)
    ensures KeptInColumn(WithShiftedColumn(board, i, dir), i, recs, bid, dir, ShiftedColumn(board.tiles[i], dir).0)
    ensures ColumnUnique(WithShiftedColumn(board, i, dir), i)
  {
    var c := board.tiles[i];
    var b := WithShiftedColumn(board, i, dir);
    ShiftedColumnRows(c, dir);
    forall y | 0 <= y < |b.tiles[i]| && b.tiles[i][y].Some?
      ensures b.tiles[i][y].value < |recs| && recs[b.tiles[i][y].value].position == Vec(i, Back(dir, y))
      ensures recs[b.tiles[i][y].value].grid == bid && b.tiles[i][y] != ShiftedColumn(c, dir).0
    {
      assert b.tiles[i][y] == c[Back(dir, y)];
      var dr := DropRow(c, dir);
      if c[dr].Some? {
        assert recs[c[dr].value].position == Vec(i, dr);
      }
    }
  }

  /** `b` equals `a` except perhaps at tile `d`. */
  predicate SameExcept(a: seq<TileRec>, b: seq<TileRec>, d: Option<TileId>) {
    |a| == |b| && forall u :: 0 <= u < |a| && Some(u) != d ==> b[u] == a[u]
  }

  /** Sending a board tile to the tray keeps the tray's agreement and changes no other record. */
  lemma SendOneAgrees(tray: GridV, tid: GridId, recs: seq<TileRec>, d: Option<TileId>)
    requires Shaped(tray) && Agrees(tray, tid, recs) && (d.Some? ==> d.value < |recs| && recs[d.value].grid != tid)
    ensures Agrees(SendOne(tray, tid, recs, d).g, tid, SendOne(tray, tid, recs, d).recs)
    ensures SameExcept(recs, SendOne(tray, tid, recs, d).recs, d)
  {
    if d.Some? {
      AddToFirstEmptyCellAgrees(tray, tid, recs, d.value);
    }
  }

  /** After the column is repositioned, the board agrees again. */
  lemma ShiftedBoardAgrees(board: GridV, b: GridV, bid: GridId, recs: seq<TileRec>, srecs: seq<TileRec>, rs: seq<TileRec>,
                           dir: Dir, i: nat, d: Option<TileId>)
    requires Shaped(board) && i < |board.tiles| && Agrees(board, bid, recs)
    requires |b.tiles| == |board.tiles| && forall x :: 0 <= x < |b.tiles| && x != i ==> b.tiles[x] == board.tiles[x]
    requires KeptInColumn(b, i, recs, bid, dir, d) && (d.Some? ==> d.value < |recs| && recs[d.value].position.x == i)
    requires SameExcept(recs, srecs, d) && ColumnRepositioned(b, i, 0, srecs, rs)
    ensures Agrees(b, bid, rs)
  {
    forall x, y | 0 <= x < |b.tiles| && 0 <= y < |b.tiles[x]| && b.tiles[x][y].Some?
      ensures b.tiles[x][y].value < |rs| && rs[b.tiles[x][y].value].position == Vec(x, y)
      ensures rs[b.tiles[x][y].value].grid == bid
    {
      var u := b.tiles[x][y].value;
      if x == i {
        assert ColumnPlaced(b, i, 0, rs);
        assert rs[u].grid == srecs[u].grid == recs[u].grid;
      } else {
        assert b.tiles[x][y] == board.tiles[x][y];
        assert recs[u].position == Vec(x, y);
        assert NotInColumn(b, i, 0, u);
        assert rs[u] == srecs[u] == recs[u];
      }
    }
  }

  /** Repositioning a board column leaves the records of tray tiles alone. */
  lemma ShiftedTrayAgrees(tray: GridV, b: GridV, bid: GridId, tid: GridId, recs: seq<TileRec>, srecs: seq<TileRec>,
                          rs: seq<TileRec>, dir: Dir, i: nat, d: Option<TileId>)
    requires i < |b.tiles| && bid != tid && Agrees(tray, tid, srecs)
    requires KeptInColumn(b, i, recs, bid, dir, d)
    requires SameExcept(recs, srecs, d) && ColumnRepositioned(b, i, 0, srecs, rs)
    ensures Agrees(tray, tid, rs)
  {
    forall x, y | 0 <= x < |tray.tiles| && 0 <= y < |tray.tiles[x]| && tray.tiles[x][y].Some?
      ensures rs[tray.tiles[x][y].value] == srecs[tray.tiles[x][y].value]
    {
      var u := tray.tiles[x][y].value;
      forall j | 0 <= j < |b.tiles[i]| ensures b.tiles[i][j] != Some(u) {
        if b.tiles[i][j].Some? {
          assert srecs[b.tiles[i][j].value] == recs[b.tiles[i][j].value];
        }
      }
      assert NotInColumn(b, i, 0, u);
    }
  }

  /** One column of a vertical shift keeps board and tray in agreement with the records. */
  lemma ShiftColumnAgrees(board: GridV, tray: GridV, bid: GridId, tid: GridId, recs: seq<TileRec>, dir: Dir, i: nat,
                          b: GridV, s: Placed, rs: seq<TileRec>)
    requires ShiftReady(board, tray, recs, dir) && i < |board.tiles| && bid != tid && (dir == Up || dir == Down)
    requires BothAgree(Containers(board, tray, recs), bid, tid)
    requires ShiftedColumn(board.tiles[i], dir).0.Some? ==> ShiftedColumn(board.tiles[i], dir).0.value < |recs|
    requires b == WithShiftedColumn(board, i, dir)
    requires s == SendOne(tray, tid, recs, ShiftedColumn(board.tiles[i], dir).0)
    requires rs == RepositionColumn(b, i, s.recs, 0)
    ensures BothAgree(Containers(b, s.g, rs), bid, tid)
  {
    var c := board.tiles[i];
    var d := ShiftedColumn(c, dir).0;
    ShiftedColumnRows(c, dir);
    ShiftColumnKeeps(board, recs, bid, dir, i);
    assert d == c[DropRow(c, dir)];
    SendOneAgrees(tray, tid, recs, d);
    RepositionColumnPlaces(b, i, s.recs, 0);
    ShiftedBoardAgrees(board, b, bid, recs, s.recs, rs, dir, i, d);
    ShiftedTrayAgrees(s.g, b, bid, tid, recs, s.recs, rs, dir, i, d);
  }

  lemma {:induction false} ShiftColumnsAgrees(board: GridV, tray: GridV, bid: GridId, tid: GridId, recs: seq<TileRec>, dir: Dir, i: nat)
    requires ShiftReady(board, tray, recs, dir) && i <= |board.tiles| && bid != tid && (dir == Up || dir == Down)
    requires BothAgree(Containers(board, tray, recs), bid, tid)
    ensures BothAgree(ShiftColumns(board, tray, tid, recs, dir, i), bid, tid)
    decreases |board.tiles| - i
  {
    if i < |board.tiles| {
      var sc := ShiftedColumn(board.tiles[i], dir);
      var b := WithShiftedColumn(board, i, dir);
      assert sc.0 == board.tiles[i][if dir == Up then 0 else |board.tiles[i]| - 1];
      var s := SendOne(tray, tid, recs, sc.0);
      var rs := RepositionColumn(b, i, s.recs, 0);
      ShiftColumnAgrees(board, tray, bid, tid, recs, dir, i, b, s, rs);
      ShiftColumnsAgrees(b, s.g, bid, tid, rs, dir, i + 1);
      assert ShiftColumns(board, tray, tid, recs, dir, i) == ShiftColumns(b, s.g, tid, rs, dir, i + 1);
    }
  }

  /** No tile is in two entries of a column. */
  predicate ColDistinct(c: Column) {
    forall j, k :: 0 <= j < |c| && 0 <= k < |c| && c[j].Some? && c[j] == c[k] ==> j == k
  }

  /** Every tile of `c` from entry `i` on has a record naming grid `id`. */
  predicate FromGrid(c: Column, i: nat, recs: seq<TileRec>, id: GridId) {
    forall j :: i <= j < |c| && c[j].Some? ==> c[j].value < |recs| && recs[c[j].value].grid == id
  }

  /** Tile `u` is in no entry of `c` from `i` on. */
  predicate NotInCol(c: Column, i: nat, u: TileId) {
    forall j :: i <= j < |c| ==> c[j] != Some(u)
  }

  /** What `SendEach` keeps: the tray's agreement, and the records of tiles it did not send. */
  predicate SentAgrees(tid: GridId, recs: seq<TileRec>, col: Column, i: nat, r: Placed) {
    Agrees(r.g, tid, r.recs) && |r.recs| == |recs| &&
    forall u :: 0 <= u < |recs| && NotInCol(col, i, u) ==> r.recs[u] == recs[u]
  }

  lemma {:induction false} SendEachAgrees(tray: GridV, tid: GridId, recs: seq<TileRec>, col: Column, i: nat, bid: GridId)
    requires Shaped(tray) && Agrees(tray, tid, recs) && ColKnown(col, |recs|) && i <= |col| && bid != tid
    requires ColDistinct(col) && FromGrid(col, i, recs, bid)
    ensures SentAgrees(tid, recs, col, i, SendEach(tray, tid, recs, col, i))
    decreases |col| - i
  {
    if i < |col| {
      var s := SendOne(tray, tid, recs, col[i]);
      SendOneAgrees(tray, tid, recs, col[i]);
      forall j | i + 1 <= j < |col| && col[j].Some?
        ensures col[j].value < |s.recs| && s.recs[col[j].value].grid == bid
      {
        assert col[j] != col[i];
      }
      SendEachAgrees(s.g, tid, s.recs, col, i + 1, bid);
      var r := SendEach(s.g, tid, s.recs, col, i + 1);
      assert r == SendEach(tray, tid, recs, col, i);
      forall u | 0 <= u < |recs| && NotInCol(col, i, u)
        ensures r.recs[u] == recs[u]
      {
        assert NotInCol(col, i + 1, u) && col[i] != Some(u);
      }
    }
  }

  /**
   * The board after a horizontal shift: its tiles are the board's tiles outside the
   * dropped column, so they still name the board, and none is in two cells.
   */
  lemma RotatedOwned(board: GridV, bid: GridId, recs: seq<TileRec>, srecs: seq<TileRec>, dir: Dir)
    requires Shaped(board) && board.size.x > 0 && (dir == Right || dir == Left) && Agrees(board, bid, recs)
    requires |srecs| == |recs| && forall u :: 0 <= u < |recs| && NotInCol(Dropped(board, dir), 0, u) ==> srecs[u] == recs[u]
    ensures OwnedBy(Rotated(board, dir), bid, srecs) && Unique(Rotated(board, dir))
  {
    var b := Rotated(board, dir);
    var n := |board.tiles|;
    var k := if dir == Right then n - 1 else 0;
    assert Dropped(board, dir) == board.tiles[k];
    AgreesUnique(board, bid, recs);
    forall x, y | 0 <= x < |b.tiles| && 0 <= y < |b.tiles[x]| && b.tiles[x][y].Some?
      ensures b.tiles[x][y].value < |srecs| && srecs[b.tiles[x][y].value].grid == bid
      ensures recs[b.tiles[x][y].value].position == Vec(if dir == Right then x - 1 else x + 1, y)
    {
      var x' := if dir == Right then x - 1 else x + 1;
      assert b.tiles[x] == board.tiles[x'];
      var u := b.tiles[x][y].value;
      forall j | 0 <= j < |board.tiles[k]| ensures board.tiles[k][j] != Some(u) {
        assert board.tiles[k][j] == Some(u) ==> k == x';
      }
      assert NotInCol(Dropped(board, dir), 0, u);
    }
  }

  /** Repositioning one grid's tiles leaves the records of another grid's tiles alone. */
  lemma RepositionKeepsOther(g: GridV, id: GridId, srecs: seq<TileRec>, r: seq<TileRec>, h: GridV, hid: GridId)
    requires Repositioned(g, 0, srecs, r) && OwnedBy(g, id, srecs) && Agrees(h, hid, srecs) && hid != id
    ensures Agrees(h, hid, r)
  {
    forall x, y | 0 <= x < |h.tiles| && 0 <= y < |h.tiles[x]| && h.tiles[x][y].Some?
      ensures r[h.tiles[x][y].value] == srecs[h.tiles[x][y].value]
    {
      var u := h.tiles[x][y].value;
      forall i | 0 <= i < |g.tiles| ensures NotInColumn(g, i, 0, u) {
        assert srecs[u].grid == hid;
      }
      assert NotFrom(g, 0, u);
    }
  }

  lemma HorizontalAgrees(board: GridV, tray: GridV, bid: GridId, tid: GridId, recs: seq<TileRec>, dir: Dir)
    requires ShiftReady(board, tray, recs, dir) && bid != tid && (dir == Right || dir == Left)
    requires BothAgree(Containers(board, tray, recs), bid, tid)
    ensures BothAgree(ShiftTiles(board, tray, tid, recs, dir), bid, tid)
  {
    var d := Dropped(board, dir);
    var k := if dir == Right then |board.tiles| - 1 else 0;
    assert d == board.tiles[k];
    AgreesUnique(board, bid, recs);
    UniqueColumn(board, k);
    assert ColDistinct(d);
    assert ColKnown(d, |recs|);
    SendEachAgrees(tray, tid, recs, d, 0, bid);
    var s := SendEach(tray, tid, recs, d, 0);
    var b := Rotated(board, dir);
    RotatedOwned(board, bid, recs, s.recs, dir);
    RepositionFromPlaces(b, s.recs, 0);
    RepositionAgrees(b, bid, s.recs);
    RepositionKeepsOther(b, bid, s.recs, RepositionFrom(b, s.recs, 0), s.g, tid);
  }

  /**
   * `shiftTiles` keeps every tile's cell and record in agreement: the board's tiles
   * record their new cells, and the tiles it evicts record their tray cells.
   */
  lemma ShiftAgrees(board: GridV, tray: GridV, bid: GridId, tid: GridId, recs: seq<TileRec>, dir: Dir)
    requires ShiftReady(board, tray, recs, dir) && bid != tid
    requires BothAgree(Containers(board, tray, recs), bid, tid)
    ensures BothAgree(ShiftTiles(board, tray, tid, recs, dir), bid, tid)
  {
    if dir == Right || dir == Left {
      HorizontalAgrees(board, tray, bid, tid, recs, dir);
    } else {
      ShiftColumnsAgrees(board, tray, bid, tid, recs, dir, 0);
    }
  }

  // ------------------------------------------------------------- expand as a shift

  lemma {:induction false} SendEachNone(tray: GridV, tid: GridId, recs: seq<TileRec>, col: Column, i: nat)
    requires Shaped(tray) && Known(tray, |recs|) && i <= |col| && forall j :: 0 <= j < |col| ==> col[j] == None
    ensures SendEach(tray, tid, recs, col, i) == Placed(tray, recs)
    decreases |col| - i
  {
    if i < |col| {
      SendEachNone(tray, tid, recs, col, i + 1);
    }
  }

  /**
   * `expand("left")` is `expand("right")` followed by `shiftTiles("right")`: the shift
   * drops the empty column just added, so the tray is not touched.
   */
  lemma ExpandLeftIsShift(g: GridV, tray: GridV, tid: GridId, recs: seq<TileRec>)
    requires Shaped(g) && Known(g, |recs|) && Shaped(tray) && Known(tray, |recs|)
    ensures ShiftReady(WithColumn(g), tray, recs, Right)
    ensures ShiftTiles(WithColumn(g), tray, tid, recs, Right) ==
      Containers(Expand(g, recs, Left).g, tray, Expand(g, recs, Left).recs)
  {
    var w := WithColumn(g);
    assert w.tiles[..|w.tiles| - 1] == g.tiles;
    assert Dropped(w, Right) == EmptyColumn(g.size.y);
    SendEachNone(tray, tid, recs, EmptyColumn(g.size.y), 0);
  }

  /** Columns before `i` as after `expand("up")`, the rest as after `expand("down")`. */
  function Mixed(g: GridV, i: nat): (m: GridV)
    requires Shaped(g)
  {
    GridV(Vec(g.size.x, g.size.y + 1),
          seq(|g.tiles|, x requires 0 <= x < |g.tiles| => if x < i then [None] + g.tiles[x] else g.tiles[x] + [None]))
  }

  /** The positions loop over one column reads only that column. */
  lemma {:induction false} RepositionColumnLocal(g: GridV, h: GridV, x: nat, recs: seq<TileRec>, y: nat)
    requires Shaped(g) && Shaped(h) && x < |g.tiles| && x < |h.tiles| && g.tiles[x] == h.tiles[x]
    requires y <= g.size.y && Known(g, |recs|) && Known(h, |recs|)
    ensures RepositionColumn(g, x, recs, y) == RepositionColumn(h, x, recs, y)
    decreases g.size.y - y
  {
    if y < g.size.y {
      var next := if g.tiles[x][y].Some? then recs[g.tiles[x][y].value := recs[g.tiles[x][y].value].(position := Vec(x, y))] else recs;
      RepositionColumnLocal(g, h, x, next, y + 1);
    }
  }

  /** Every stage of the mixed matrix is a well-formed grid whose tiles have records. */
  lemma MixedKnown(g: GridV, i: nat, n: nat)
    requires Shaped(g) && Known(g, n) && i <= |g.tiles|
    ensures Shaped(Mixed(g, i)) && Known(Mixed(g, i), n)
  {
    var m := Mixed(g, i);
    forall x, y | 0 <= x < |m.tiles| && 0 <= y < |m.tiles[x]| && m.tiles[x][y].Some?
      ensures m.tiles[x][y].value < n
    {
      assert x < i ==> m.tiles[x][y] == g.tiles[x][y - 1];
      assert x >= i ==> m.tiles[x][y] == g.tiles[x][y];
    }
  }

  /** Shifting column `i` of the mixed matrix down drops nothing and moves that column to its "up" form. */
  lemma MixedStep(g: GridV, i: nat)
    requires Shaped(g) && i < |g.tiles|
    ensures Shaped(Mixed(g, i)) && ShiftedColumn(Mixed(g, i).tiles[i], Down) == (None, [None] + g.tiles[i])
    ensures WithShiftedColumn(Mixed(g, i), i, Down) == Mixed(g, i + 1)
  {
  }

  lemma {:induction false} ExpandUpColumns(g: GridV, tray: GridV, tid: GridId, recs: seq<TileRec>, i: nat)
    requires Shaped(g) && Known(g, |recs|) && Shaped(tray) && Known(tray, |recs|) && i <= |g.tiles|
    ensures Shaped(Mixed(g, i)) && Known(Mixed(g, i), |recs|) && ShiftReady(Mixed(g, i), tray, recs, Down)
    ensures ShiftColumns(Mixed(g, i), tray, tid, recs, Down, i) ==
      Containers(Mixed(g, |g.tiles|), tray, RepositionFrom(Mixed(g, |g.tiles|), recs, i))
    decreases |g.tiles| - i
  {
    MixedKnown(g, i, |recs|);
    if i < |g.tiles| {
      var u := Mixed(g, |g.tiles|);
      MixedStep(g, i);
      MixedKnown(g, i + 1, |recs|);
      MixedKnown(g, |g.tiles|, |recs|);
      RepositionColumnLocal(Mixed(g, i + 1), u, i, recs, 0);
      var rs := RepositionColumn(u, i, recs, 0);
      ExpandUpColumns(g, tray, tid, rs, i + 1);
      assert ShiftColumns(Mixed(g, i), tray, tid, recs, Down, i) == ShiftColumns(Mixed(g, i + 1), tray, tid, rs, Down, i + 1);
    }
  }

  /**
   * `expand("up")` is the corrected `expand("down")` followed by `shiftTiles("down")`:
   * the shift drops the empty row just added, so the tray is not touched.
   */
  lemma ExpandUpIsShift(g: GridV, tray: GridV, tid: GridId, recs: seq<TileRec>)
    requires Shaped(g) && Known(g, |recs|) && Shaped(tray) && Known(tray, |recs|)
    ensures ShiftReady(Expand(g, recs, Down).g, tray, recs, Down)
    ensures ShiftTiles(Expand(g, recs, Down).g, tray, tid, recs, Down) ==
      Containers(Expand(g, recs, Up).g, tray, Expand(g, recs, Up).recs)
  {
    ExpandUpColumns(g, tray, tid, recs, 0);
    assert Mixed(g, 0) == Expand(g, recs, Down).g;
    assert Mixed(g, |g.tiles|) == Expand(g, recs, Up).g;
  }

  // -------------------------------------------------------------- send all tiles

  /** Every cell of `g` before (x, y) in scan order is empty. */
  predicate EmptyBefore(g: GridV, x: nat, y: nat) {
    forall i, j :: 0 <= i < |g.tiles| && 0 <= j < |g.tiles[i]| && Before(Vec(i, j), Vec(x, y)) ==> g.tiles[i][j] == None
  }

  /** Every cell of `g` is empty. */
  predicate AllEmpty(g: GridV) {
    forall i, j :: 0 <= i < |g.tiles| && 0 <= j < |g.tiles[i]| ==> g.tiles[i][j] == None
  }

  lemma {:induction false} SendColumnEmpties(src: GridV, dst: GridV, did: GridId, recs: seq<TileRec>, x: nat, y: nat)
    requires Shaped(src) && Shaped(dst) && Known(src, |recs|) && Known(dst, |recs|)
    requires x < |src.tiles| && y <= src.size.y && EmptyBefore(src, x, y)
    ensures EmptyBefore(SendColumnFrom(src, dst, did, recs, x, y).board, x + 1, 0)
    decreases src.size.y - y
  {
    if y < src.size.y {
      var c := SendColumnNext(src, dst, did, recs, x, y);
      EmptyBeforeSet(src, x, y);
      SendColumnEmpties(c.board, c.tray, did, c.recs, x, y + 1);
    } else {
      EmptyColumnDone(src, x);
    }
  }

  /** A column emptied to its last row leaves every cell before the next column empty. */
  lemma EmptyColumnDone(g: GridV, x: nat)
    requires Shaped(g) && x < |g.tiles| && EmptyBefore(g, x, g.size.y)
    ensures EmptyBefore(g, x + 1, 0)
  {
    assert forall i, j :: 0 <= i < |g.tiles| && 0 <= j < |g.tiles[i]| && Before(Vec(i, j), Vec(x + 1, 0)) ==>
      Before(Vec(i, j), Vec(x, g.size.y));
  }

  /** Emptying the cell (x, y) extends the empty prefix past it. */
  lemma EmptyBeforeSet(g: GridV, x: nat, y: nat)
    requires Shaped(g) && InGrid(g, Vec(x, y)) && EmptyBefore(g, x, y)
    ensures EmptyBefore(Set(g, Vec(x, y), None), x, y + 1)
  {
  }

  lemma {:induction false} SendAllEmpties(src: GridV, dst: GridV, did: GridId, recs: seq<TileRec>, x: nat)
    requires Shaped(src) && Shaped(dst) && Known(src, |recs|) && Known(dst, |recs|)
    requires x <= |src.tiles| && EmptyBefore(src, x, 0)
    ensures AllEmpty(SendAllFrom(src, dst, did, recs, x).board)
    decreases |src.tiles| - x
  {
    if x < |src.tiles| {
      var c := SendColumnFrom(src, dst, did, recs, x, 0);
      SendColumnEmpties(src, dst, did, recs, x, 0);
      SendAllEmpties(c.board, c.tray, did, c.recs, x + 1);
    }
  }

  lemma SendCellConserves(src: GridV, dst: GridV, did: GridId, recs: seq<TileRec>, p: Vec)
    requires Shaped(src) && Shaped(dst) && Known(src, |recs|) && Known(dst, |recs|) && InGrid(src, p)
    ensures Conserved(src, dst, SendCell(src, dst, did, recs, p))
  {
    if Get(src, p).Some? {
      var t := Get(src, p).value;
      var c := SendCell(src, dst, did, recs, p);
      AddToFirstEmptyCellPlaces(dst, did, recs, t);
      OccSet(src, p, None);
      MsMove(Occ(c.board.tiles), Occ(c.tray.tiles), Occ(src.tiles), Occ(dst.tiles), multiset{t});
    }
  }

  /** One cell of the column loop: the state it leaves conserves the tiles, and the loop goes on from the next row. */
  lemma SendColumnNext(src: GridV, dst: GridV, did: GridId, recs: seq<TileRec>, x: nat, y: nat) returns (c: Containers)
    requires Shaped(src) && Shaped(dst) && Known(src, |recs|) && Known(dst, |recs|)
    requires x < |src.tiles| && y < src.size.y
    ensures Shaped(c.board) && Shaped(c.tray) && Known(c.board, |c.recs|) && Known(c.tray, |c.recs|)
    ensures c.board.size == src.size && x < |c.board.tiles| && c.board == Set(src, Vec(x, y), None)
    ensures Conserved(src, dst, c)
    ensures SendColumnFrom(src, dst, did, recs, x, y) == SendColumnFrom(c.board, c.tray, did, c.recs, x, y + 1)
  {
    c := SendCell(src, dst, did, recs, Vec(x, y));
    SendCellConserves(src, dst, did, recs, Vec(x, y));
  }

  lemma ConservedTrans(board: GridV, tray: GridV, c: Containers, r: Containers)
    requires Conserved(board, tray, c) && Conserved(c.board, c.tray, r)
    ensures Conserved(board, tray, r)
  {
  }

  lemma {:induction false} SendColumnConserves(src: GridV, dst: GridV, did: GridId, recs: seq<TileRec>, x: nat, y: nat)
    requires Shaped(src) && Shaped(dst) && Known(src, |recs|) && Known(dst, |recs|)
    requires x < |src.tiles| && y <= src.size.y
    ensures Conserved(src, dst, SendColumnFrom(src, dst, did, recs, x, y))
    decreases src.size.y - y
  {
    if y < src.size.y {
      var c := SendColumnNext(src, dst, did, recs, x, y);
      SendColumnConserves(c.board, c.tray, did, c.recs, x, y + 1);
      ConservedTrans(src, dst, c, SendColumnFrom(c.board, c.tray, did, c.recs, x, y + 1));
    }
  }

  lemma {:induction false} SendAllConserves(src: GridV, dst: GridV, did: GridId, recs: seq<TileRec>, x: nat)
    requires Shaped(src) && Shaped(dst) && Known(src, |recs|) && Known(dst, |recs|) && x <= |src.tiles|
    ensures Conserved(src, dst, SendAllFrom(src, dst, did, recs, x))
    decreases |src.tiles| - x
  {
    if x < |src.tiles| {
      var c := SendColumnFrom(src, dst, did, recs, x, 0);
      SendColumnConserves(src, dst, did, recs, x, 0);
      SendAllConserves(c.board, c.tray, did, c.recs, x + 1);
      ConservedTrans(src, dst, c, SendAllFrom(c.board, c.tray, did, c.recs, x + 1));
    }
  }

  lemma SendCellAgrees(src: GridV, sid: GridId, dst: GridV, did: GridId, recs: seq<TileRec>, p: Vec)
    requires Shaped(src) && Shaped(dst) && Agrees(src, sid, recs) && Agrees(dst, did, recs) && sid != did && InGrid(src, p)
    ensures BothAgree(SendCell(src, dst, did, recs, p), sid, did)
  {
    if Get(src, p).Some? {
      var t := Get(src, p).value;
      var c := SendCell(src, dst, did, recs, p);
      AddToFirstEmptyCellAgrees(dst, did, recs, t);
      AgreesUnique(src, sid, recs);
      assert Agrees(c.board, sid, recs) by {
        forall i, j | 0 <= i < |c.board.tiles| && 0 <= j < |c.board.tiles[i]| && c.board.tiles[i][j].Some?
          ensures c.board.tiles[i][j] == src.tiles[i][j]
        {
        }
      }
      assert NotIn(c.board, t) by {
        forall i, j | 0 <= i < |c.board.tiles| && 0 <= j < |c.board.tiles[i]|
          ensures c.board.tiles[i][j] != Some(t)
        {
          assert Vec(i, j) != p ==> c.board.tiles[i][j] == src.tiles[i][j];
        }
      }
      AgreesFrame(c.board, sid, recs, c.recs, t);
    }
  }

  /** One cell of the column loop keeps both grids in agreement, and the loop goes on from the next row. */
  lemma SendColumnAgreesNext(src: GridV, sid: GridId, dst: GridV, did: GridId, recs: seq<TileRec>, x: nat, y: nat) returns (c: Containers)
    requires Shaped(src) && Shaped(dst) && Agrees(src, sid, recs) && Agrees(dst, did, recs) && sid != did
    requires x < |src.tiles| && y < src.size.y
    ensures Shaped(c.board) && Shaped(c.tray) && BothAgree(c, sid, did)
    ensures c.board.size == src.size && x < |c.board.tiles|
    ensures SendColumnFrom(src, dst, did, recs, x, y) == SendColumnFrom(c.board, c.tray, did, c.recs, x, y + 1)
  {
    c := SendCell(src, dst, did, recs, Vec(x, y));
    SendCellAgrees(src, sid, dst, did, recs, Vec(x, y));
  }

  lemma {:induction false} SendColumnAgrees(src: GridV, sid: GridId, dst: GridV, did: GridId, recs: seq<TileRec>, x: nat, y: nat)
    requires Shaped(src) && Shaped(dst) && Agrees(src, sid, recs) && Agrees(dst, did, recs) && sid != did
    requires x < |src.tiles| && y <= src.size.y
    ensures BothAgree(SendColumnFrom(src, dst, did, recs, x, y), sid, did)
    decreases src.size.y - y
  {
    if y < src.size.y {
      var c := SendColumnAgreesNext(src, sid, dst, did, recs, x, y);
      SendColumnAgrees(c.board, sid, c.tray, did, c.recs, x, y + 1);
    }
  }

  lemma {:induction false} SendAllAgrees(src: GridV, sid: GridId, dst: GridV, did: GridId, recs: seq<TileRec>, x: nat)
    requires Shaped(src) && Shaped(dst) && Agrees(src, sid, recs) && Agrees(dst, did, recs) && sid != did
    requires x <= |src.tiles|
    ensures BothAgree(SendAllFrom(src, dst, did, recs, x), sid, did)
    decreases |src.tiles| - x
  {
    if x < |src.tiles| {
      var c := SendColumnFrom(src, dst, did, recs, x, 0);
      SendColumnAgrees(src, sid, dst, did, recs, x, 0);
      SendAllAgrees(c.board, sid, c.tray, did, c.recs, x + 1);
    }
  }

  /**
   * `sendAllTiles(grid)` empties this grid and hands every one of its tiles to `grid`,
   * each recording its new cell there.
   */
  lemma {:induction false} SendAllTilesMoves(src: GridV, sid: GridId, dst: GridV, did: GridId, recs: seq<TileRec>)
    requires Shaped(src) && Shaped(dst) && Agrees(src, sid, recs) && Agrees(dst, did, recs) && sid != did
    ensures var r := SendAllFrom(src, dst, did, recs, 0);
      AllEmpty(r.board) && Occ(r.tray.tiles) == Occ(dst.tiles) + Occ(src.tiles) && Agrees(r.tray, did, r.recs)
  {
    var r := SendAllFrom(src, dst, did, recs, 0);
    SendAllEmpties(src, dst, did, recs, 0);
    SendAllConserves(src, dst, did, recs, 0);
    SendAllAgrees(src, sid, dst, did, recs, 0);
    OccNone(r.board.tiles);
    assert Conserved(src, dst, r);
    assert Occ(r.board.tiles) == multiset{};
    assert Occ(r.tray.tiles) == Occ(src.tiles) + Occ(dst.tiles);
    assert BothAgree(r, sid, did);
  }
}

=== FILE: js_tiles.dfy ===
/**
 * The tiles of the browser engine (public/js/tile.js). A JavaScript `Tile` object is
 * named here by a handle, its index in a `TileStore`; the store holds the fields the
 * engine updates in place: `position`, `grid` and `valid`.
 */
module JsTiles {
  import opened Vectors
  import opened Wrappers

  /** A handle on one `Tile` object. */
  type TileId = nat

  /**
   * The container object a tile's `grid` field refers to: the game's board grid, its
   * tray grid, or a dense `Tray` list.
   */
  datatype GridId = BoardGrid | TrayGrid | TrayList

  /** The record the server sends for a tile: its letter and its points. */
  datatype TileStruct = TileStruct(value: string, points: int)

  /**
   * What the `Tile` constructor is handed as its first argument: the server's record,
   * or a bare string.
   */
  datatype TileArg = StructArg(s: TileStruct) | TextArg(text: string)

  /**
   * The constructor's reads of `tileStruct["Value"]` and `tileStruct["Points"]`: a
   * string has neither property, so both read as `undefined` (`None`).
   */
  function ReadTileArg(arg: TileArg): (r: Option<TileStruct>)
    ensures r.Some? <==> arg.StructArg?
    ensures arg.StructArg? ==> r.value == arg.s
  {
    match arg
    case StructArg(s) => Some(s)
    case TextArg(_) => None
  }

  /** The fields of one `Tile` object the engine reads or writes. */
  datatype TileRec = TileRec(value: string, points: int, position: Vec, grid: GridId, valid: bool)

  /** `new Tile(tileStruct, game, grid)`: the letter and points copied, at (0, 0) in `grid`, valid. */
  function NewTile(s: TileStruct, grid: GridId): (r: TileRec)
    ensures r.value == s.value && r.points == s.points
    ensures r.position == Vec(0, 0) && r.grid == grid && r.valid
  {
    TileRec(s.value, s.points, Vec(0, 0), grid, true)
  }

  /** Every `Tile` object created so far, by handle. */
  class TileStore {
    var recs: seq<TileRec>

    constructor ()
      ensures recs == []
    {
      recs := [];
    }

    /** The `Tile` constructor: a fresh tile with the next handle. */
    method Add(s: TileStruct, grid: GridId) returns (t: TileId)
      modifies this
      ensures t == |old(recs)| && recs == old(recs) + [NewTile(s, grid)]
    {
      t := |recs|;
      recs := recs + [NewTile(s, grid)];
    }

    /** A write of `tile.position`. */
    method SetPosition(t: TileId, p: Vec)
      requires t < |recs|
      modifies this
      ensures recs == old(recs)[t := old(recs)[t].(position := p)]
    {
      recs := recs[t := recs[t].(position := p)];
    }

    /** Writes of `tile.position` and `tile.grid`, as `addTile`/`insertTile` make them. */
    method Place(t: TileId, p: Vec, grid: GridId)
      requires t < |recs|
      modifies this
      ensures recs == old(recs)[t := old(recs)[t].(position := p, grid := grid)]
    {
      recs := recs[t := recs[t].(position := p, grid := grid)];
    }

    /** `invalidate`: clears `valid`, and returns at once when it is already clear. */
    method Invalidate(t: TileId)
      requires t < |recs|
      modifies this
      ensures recs == old(recs)[t := old(recs)[t].(valid := false)]
    {
      if recs[t].valid == false {
        return;
      }
      recs := recs[t := recs[t].(valid := false)];
    }

    /** `validate`: sets `valid`, and returns at once when it is already set. */
    method Validate(t: TileId)
      requires t < |recs|
      modifies this
      ensures recs == old(recs)[t := old(recs)[t].(valid := true)]
    {
      if recs[t].valid == true {
        return;
      }
      recs := recs[t := recs[t].(valid := true)];
    }
  }
}

=== FILE: js_tray.dfy ===
/**
 * The dense tray list of the browser engine (`Tray` in public/js/grid.js): an array of
 * tiles in which the tile at index `i` records position `(i, 0)`.
 */
module JsTray {
  import opened Vectors
  import opened Wrappers
  import opened JsTiles

  /** Every listed tile has a record, names the list, and records its own index. */
  predicate Dense(tiles: seq<TileId>, recs: seq<TileRec>) {
    forall i :: 0 <= i < |tiles| ==>
      tiles[i] < |recs| && recs[tiles[i]].position == Vec(i, 0) && recs[tiles[i]].grid == TrayList
  }

  /** Record `a` differs from `b` at most in its position. */
  predicate OnlyMoved(a: TileRec, b: TileRec) {
    a.value == b.value && a.points == b.points && a.grid == b.grid && a.valid == b.valid
  }

  /** Every listed tile has a record. */
  predicate ListKnown(tiles: seq<TileId>, n: nat) {
    forall i :: 0 <= i < |tiles| ==> tiles[i] < n
  }

  /** The loop of `addTile`: from index `i` on, each tile records position `(i + 1, 0)`. */
  function Renumber(recs: seq<TileRec>, tiles: seq<TileId>, i: int): (r: seq<TileRec>)
    requires 0 <= i && ListKnown(tiles, |recs|)
    ensures |r| == |recs|
    decreases |tiles| - i
  {
    if i >= |tiles| then recs
    else Renumber(recs[tiles[i] := recs[tiles[i]].(position := Vec(i + 1, 0))], tiles, i + 1)
  }

  /** The loop of `removeTile`: from index `i` on, each tile's position moves one to the left. */
  function StepLeft(recs: seq<TileRec>, tiles: seq<TileId>, i: int): (r: seq<TileRec>)
    requires 0 <= i && ListKnown(tiles, |recs|)
    ensures |r| == |recs|
    decreases |tiles| - i
  {
    if i >= |tiles| then recs
    else StepLeft(recs[tiles[i] := recs[tiles[i]].(position := Add(recs[tiles[i]].position, Vec(-1, 0)))], tiles, i + 1)
  }

  /** `Array.prototype.indexOf`: the first index holding `t`, or -1. */
  function IndexOf(tiles: seq<TileId>, t: TileId): (r: int)
    ensures -1 <= r < |tiles|
    ensures r >= 0 ==> tiles[r] == t && t !in tiles[..r]
    ensures r == -1 <==> t !in tiles
  {
    if |tiles| == 0 then -1
    else if tiles[|tiles| - 1] == t && t !in tiles[..|tiles| - 1] then |tiles| - 1
    else
      assert tiles == tiles[..|tiles| - 1] + [tiles[|tiles| - 1]];
      IndexOf(tiles[..|tiles| - 1], t)
  }

  /** `Renumber` changes positions only, and only those of listed tiles. */
  lemma {:induction false} RenumberFrame(recs: seq<TileRec>, tiles: seq<TileId>, i: int)
    requires 0 <= i && ListKnown(tiles, |recs|)
    ensures var r := Renumber(recs, tiles, i);
      && (forall u :: 0 <= u < |recs| ==> OnlyMoved(r[u], recs[u]))
      && (forall u :: 0 <= u < |recs| && u !in tiles ==> r[u] == recs[u])
    decreases |tiles| - i
  {
    if i < |tiles| {
      RenumberFrame(recs[tiles[i] := recs[tiles[i]].(position := Vec(i + 1, 0))], tiles, i + 1);
    }
  }

  /** `StepLeft` changes positions only, and only those of listed tiles. */
  lemma {:induction false} StepLeftFrame(recs: seq<TileRec>, tiles: seq<TileId>, i: int)
    requires 0 <= i && ListKnown(tiles, |recs|)
    ensures var r := StepLeft(recs, tiles, i);
      && (forall u :: 0 <= u < |recs| ==> OnlyMoved(r[u], recs[u]))
      && (forall u :: 0 <= u < |recs| && u !in tiles ==> r[u] == recs[u])
    decreases |tiles| - i
  {
    if i < |tiles| {
      StepLeftFrame(recs[tiles[i] := recs[tiles[i]].(position := Add(recs[tiles[i]].position, Vec(-1, 0)))], tiles, i + 1);
    }
  }

  /**
   * `addTile(tile, index)`: a missing index (`null` or `undefined`) means the end. The
   * tiles from `index` on record the next index, the tile is spliced in (at the end when
   * `index` is past it, as `splice` clamps), and it records the list and `(index, 0)`.
   * A negative index makes the source read `tiles[-1]`, which is undefined.
   */
  function TrayAdd(tiles: seq<TileId>, recs: seq<TileRec>, t: TileId, index: Option<int>): (r: (seq<TileId>, seq<TileRec>))
    requires ListKnown(tiles, |recs|) && t < |recs| && (index.Some? ==> index.value >= 0)
    ensures |r.1| == |recs| && ListKnown(r.0, |recs|)
    ensures multiset(r.0) == multiset(tiles) + multiset{t}
    ensures r.1[t] == recs[t].(position := Vec(if index.None? then |tiles| else index.value, 0), grid := TrayList)
    ensures forall u :: 0 <= u < |recs| && u != t ==> OnlyMoved(r.1[u], recs[u])
    ensures forall u :: 0 <= u < |recs| && u != t && u !in tiles ==> r.1[u] == recs[u]
  {
    var k := if index.None? then |tiles| else index.value;
    var at := if k <= |tiles| then k else |tiles|;
    var recs1 := Renumber(recs, tiles, k);
    assert tiles == tiles[..at] + tiles[at..];
    RenumberFrame(recs, tiles, k);
    (tiles[..at] + [t] + tiles[at..], recs1[t := recs1[t].(position := Vec(k, 0), grid := TrayList)])
  }

  /**
   * `removeTile(tile)`: the tiles after it step one to the left and it is spliced out.
   * For a tile that is not listed, `indexOf` gives -1: every tile steps left, and
   * `splice(-1, 1)` removes the last one.
   */
  function TrayRemove(tiles: seq<TileId>, recs: seq<TileRec>, t: TileId): (r: (seq<TileId>, seq<TileRec>))
    requires ListKnown(tiles, |recs|)
    ensures |r.1| == |recs| && ListKnown(r.0, |recs|)
    ensures t in tiles ==> multiset(r.0) == multiset(tiles) - multiset{t}
    ensures t !in tiles ==> r.0 <= tiles && |r.0| == if tiles == [] then 0 else |tiles| - 1
    ensures forall u :: 0 <= u < |recs| ==> OnlyMoved(r.1[u], recs[u])
    ensures forall u :: 0 <= u < |recs| && u !in tiles ==> r.1[u] == recs[u]
  {
    var index := IndexOf(tiles, t);
    var recs1 := StepLeft(recs, tiles, index + 1);
    StepLeftFrame(recs, tiles, index + 1);
    if index >= 0 then
      SpliceOut(tiles, index);
      (tiles[..index] + tiles[index + 1..], recs1)
    else if |tiles| > 0 then (tiles[..|tiles| - 1], recs1)
    else (tiles, recs1)
  }

  /** Splicing out the entry at `k` takes one copy of it out of the list's multiset. */
  lemma SpliceOut(s: seq<TileId>, k: nat)
    requires k < |s|
    ensures multiset(s[..k] + s[k + 1..]) == multiset(s) - multiset{s[k]}
  {
    assert s == s[..k] + [s[k]] + s[k + 1..];
  }

  /**
   * `findNearest(position)`: `cell` is the page helper `nearestCoordsInDiv` applied to
   * the point; the index when the cell is in the one row and within the list.
   */
  function NearestIndex(tiles: seq<TileId>, cell: Vec): (r: Option<nat>)
    ensures r.Some? <==> cell.y == 0 && 0 <= cell.x < |tiles|
    ensures r.Some? ==> r.value == cell.x
  {
    if cell.y != 0 || cell.x >= |tiles| || cell.x < 0 then None else Some(cell.x)
  }

  // ------------------------------------------------------------------- properties

  /** What `Renumber` does: the tiles from `i` on record the next index, and nothing else changes. */
  predicate Renumbered(recs: seq<TileRec>, tiles: seq<TileId>, i: nat, r: seq<TileRec>) {
    i <= |tiles| && |r| == |recs| &&
    (forall j :: i <= j < |tiles| ==> tiles[j] < |r| && r[tiles[j]] == recs[tiles[j]].(position := Vec(j + 1, 0))) &&
    forall u :: 0 <= u < |recs| && u !in tiles[i..] ==> r[u] == recs[u]
  }

  lemma {:induction false} RenumberEffect(recs: seq<TileRec>, tiles: seq<TileId>, i: nat)
    requires ListKnown(tiles, |recs|) && i <= |tiles|
    requires DistinctFrom(tiles, i)
    ensures Renumbered(recs, tiles, i, Renumber(recs, tiles, i))
    decreases |tiles| - i
  {
    if i < |tiles| {
      var next := recs[tiles[i] := recs[tiles[i]].(position := Vec(i + 1, 0))];
      RenumberEffect(next, tiles, i + 1);
      var r := Renumber(next, tiles, i + 1);
      assert tiles[i..] == [tiles[i]] + tiles[i + 1..];
      assert tiles[i] !in tiles[i + 1..];
    }
  }

  /** What `StepLeft` does: the tiles from `i` on move one to the left, and nothing else changes. */
  predicate SteppedLeft(recs: seq<TileRec>, tiles: seq<TileId>, i: nat, r: seq<TileRec>) {
    i <= |tiles| && |r| == |recs| &&
    (forall j :: i <= j < |tiles| ==> tiles[j] < |r| && r[tiles[j]] == recs[tiles[j]].(position := Add(recs[tiles[j]].position, Vec(-1, 0)))) &&
    forall u :: 0 <= u < |recs| && u !in tiles[i..] ==> r[u] == recs[u]
  }

  lemma {:induction false} StepLeftEffect(recs: seq<TileRec>, tiles: seq<TileId>, i: nat)
    requires ListKnown(tiles, |recs|) && i <= |tiles|
    requires DistinctFrom(tiles, i)
    ensures SteppedLeft(recs, tiles, i, StepLeft(recs, tiles, i))
    decreases |tiles| - i
  {
    if i < |tiles| {
      var next := recs[tiles[i] := recs[tiles[i]].(position := Add(recs[tiles[i]].position, Vec(-1, 0)))];
      StepLeftEffect(next, tiles, i + 1);
      assert tiles[i..] == [tiles[i]] + tiles[i + 1..];
      assert tiles[i] !in tiles[i + 1..];
    }
  }

  /** From index `i` on, the list holds no tile twice. */
  predicate DistinctFrom(tiles: seq<TileId>, i: nat) {
    forall j, k :: i <= j < k < |tiles| ==> tiles[j] != tiles[k]
  }

  /** A dense list holds no tile twice. */
  lemma DenseDistinct(tiles: seq<TileId>, recs: seq<TileRec>, i: nat)
    requires Dense(tiles, recs)
    ensures DistinctFrom(tiles, i)
  {
    forall j, k | i <= j < k < |tiles| ensures tiles[j] != tiles[k] {
      assert recs[tiles[j]].position != recs[tiles[k]].position;
    }
  }

  /** In a dense list, a tile before index `k` is not among those from `k` on. */
  lemma NotLater(tiles: seq<TileId>, recs: seq<TileRec>, i: nat, k: nat)
    requires Dense(tiles, recs) && i < k <= |tiles|
    ensures tiles[i] !in tiles[k..]
  {
  }

  /** The step of `TrayAddDense` with the renumbered records given. */
  lemma InsertDense(tiles: seq<TileId>, recs: seq<TileRec>, t: TileId, k: nat, recs1: seq<TileRec>)
    requires Dense(tiles, recs) && t < |recs| && t !in tiles && k <= |tiles|
    requires Renumbered(recs, tiles, k, recs1)
    ensures Dense(tiles[..k] + [t] + tiles[k..], recs1[t := recs1[t].(position := Vec(k, 0), grid := TrayList)])
  {
    var nt := tiles[..k] + [t] + tiles[k..];
    var nr := recs1[t := recs1[t].(position := Vec(k, 0), grid := TrayList)];
    forall i | 0 <= i < |nt|
      ensures nt[i] < |nr| && nr[nt[i]].position == Vec(i, 0) && nr[nt[i]].grid == TrayList
    {
      if i < k {
        NotLater(tiles, recs, i, k);
        assert nt[i] == tiles[i];
      } else if i > k {
        assert nt[i] == tiles[i - 1];
      }
    }
  }

  /**
   * `addTile` at an index within the list (or at the end) keeps the list dense, and
   * the tile goes in at that index.
   */
  lemma TrayAddDense(tiles: seq<TileId>, recs: seq<TileRec>, t: TileId, index: Option<int>)
    requires Dense(tiles, recs) && t < |recs| && t !in tiles
    requires index.Some? ==> 0 <= index.value <= |tiles|
    ensures var r := TrayAdd(tiles, recs, t, index);
      var k := if index.None? then |tiles| else index.value;
      Dense(r.0, r.1) && r.0 == tiles[..k] + [t] + tiles[k..] && multiset(r.0) == multiset(tiles) + multiset{t}
  {
    var k: nat := if index.None? then |tiles| else index.value;
    AddAtDense(tiles, recs, t, k);
    InsertMultiset(tiles, t, k);
  }

  /** The list and records `addTile` builds for an index `k` within the list are dense. */
  lemma AddAtDense(tiles: seq<TileId>, recs: seq<TileRec>, t: TileId, k: nat)
    requires Dense(tiles, recs) && t < |recs| && t !in tiles && k <= |tiles|
    ensures var recs1 := Renumber(recs, tiles, k);
      Dense(tiles[..k] + [t] + tiles[k..], recs1[t := recs1[t].(position := Vec(k, 0), grid := TrayList)])
  {
    DenseDistinct(tiles, recs, k);
    RenumberEffect(recs, tiles, k);
    InsertDense(tiles, recs, t, k, Renumber(recs, tiles, k));
  }

  /** Inserting `t` at index `k` adds `t` to the list's multiset. */
  lemma InsertMultiset(tiles: seq<TileId>, t: TileId, k: nat)
    requires k <= |tiles|
    ensures multiset(tiles[..k] + [t] + tiles[k..]) == multiset(tiles) + multiset{t}
  {
    assert tiles == tiles[..k] + tiles[k..];
  }

  /** `addTile` past the end of the list leaves the new tile recording a cell it is not in. */
  lemma TrayAddPastEnd(tiles: seq<TileId>, recs: seq<TileRec>, t: TileId, k: int)
    requires ListKnown(tiles, |recs|) && t < |recs| && k > |tiles|
    ensures var r := TrayAdd(tiles, recs, t, Some(k)); r.0[|tiles|] == t && !Dense(r.0, r.1)
  {
    var r := TrayAdd(tiles, recs, t, Some(k));
    assert r.0[|tiles|] == t && r.1[t].position == Vec(k, 0);
  }

  /** The step of `TrayRemoveDense` with the shifted records given. */
  lemma SpliceDense(tiles: seq<TileId>, recs: seq<TileRec>, k: nat, recs1: seq<TileRec>)
    requires Dense(tiles, recs) && k < |tiles|
    requires SteppedLeft(recs, tiles, k + 1, recs1)
    ensures Dense(tiles[..k] + tiles[k + 1..], recs1)
  {
    var nt := tiles[..k] + tiles[k + 1..];
    forall i | 0 <= i < |nt|
      ensures nt[i] < |recs1| && recs1[nt[i]].position == Vec(i, 0) && recs1[nt[i]].grid == TrayList
    {
      if i < k {
        NotLater(tiles, recs, i, k + 1);
        assert nt[i] == tiles[i];
      } else {
        assert nt[i] == tiles[i + 1];
      }
    }
  }

  /**
   * `removeTile` of a listed tile splices it out and keeps the rest dense. The removed
   * tile's own record is left as it was.
   */
  lemma TrayRemoveDense(tiles: seq<TileId>, recs: seq<TileRec>, t: TileId)
    requires Dense(tiles, recs) && t in tiles
    ensures var r := TrayRemove(tiles, recs, t);
      var k := IndexOf(tiles, t);
      Dense(r.0, r.1) && r.0 == tiles[..k] + tiles[k + 1..] && multiset(r.0) == multiset(tiles) - multiset{t} &&
      r.1[t] == recs[t]
  {
    var k: nat := IndexOf(tiles, t);
    assert tiles == tiles[..k] + [t] + tiles[k + 1..];
    NotLater(tiles, recs, k, k + 1);
    DenseDistinct(tiles, recs, k + 1);
    StepLeftEffect(recs, tiles, k + 1);
    SpliceDense(tiles, recs, k, StepLeft(recs, tiles, k + 1));
  }

  /** `removeTile` of a tile that is not listed drops the last listed tile instead. */
  lemma TrayRemoveAbsent(tiles: seq<TileId>, recs: seq<TileRec>, t: TileId)
    requires ListKnown(tiles, |recs|) && t !in tiles && |tiles| > 0
    ensures TrayRemove(tiles, recs, t).0 == tiles[..|tiles| - 1] && tiles[|tiles| - 1] != t
  {
  }

  // ----------------------------------------------------------------------- the class

  /** A `Tray` object: its tile array, over the game's tile store. */
  class Tray {
    var tiles: seq<TileId>
    const store: TileStore

    /** `new Tray(game)`: an empty list. */
    constructor (store: TileStore)
      ensures tiles == [] && this.store == store
    {
      tiles := [];
      this.store := store;
    }

    method AddTile(t: TileId, index: Option<int>)
      requires ListKnown(tiles, |store.recs|) && t < |store.recs| && (index.Some? ==> index.value >= 0)
      modifies this, store
      ensures (tiles, store.recs) == TrayAdd(old(tiles), old(store.recs), t, index)
    {
      var ts := tiles;
      var k := if index.None? then |ts| else index.value;
      ghost var recs0 := store.recs;
      var i := k;
      while i < |ts|
        invariant k <= i && (k <= |ts| ==> i <= |ts|) && |store.recs| == |recs0| && tiles == ts
        invariant Renumber(store.recs, ts, i) == Renumber(recs0, ts, k)
        decreases |ts| - i
      {
        store.SetPosition(ts[i], Vec(i + 1, 0));
        i := i + 1;
      }
      var at := if k <= |ts| then k else |ts|;
      tiles := ts[..at] + [t] + ts[at..];
      store.Place(t, Vec(k, 0), TrayList);
    }

    /** The loop of `removeTile`: the tiles of `ts` from index `from` on step one to the left. */
    method StepLeftFrom(ts: seq<TileId>, from: int)
      requires 0 <= from && ListKnown(ts, |store.recs|)
      modifies store
      ensures store.recs == StepLeft(old(store.recs), ts, from)
    {
      ghost var recs0 := store.recs;
      var i := from;
      while i < |ts|
        invariant from <= i && (from <= |ts| ==> i <= |ts|) && |store.recs| == |recs0|
        invariant StepLeft(store.recs, ts, i) == StepLeft(recs0, ts, from)
        decreases |ts| - i
      {
        store.SetPosition(ts[i], Add(store.recs[ts[i]].position, Vec(-1, 0)));
        i := i + 1;
      }
    }

    method RemoveTile(t: TileId)
      requires ListKnown(tiles, |store.recs|)
      modifies this, store
      ensures (tiles, store.recs) == TrayRemove(old(tiles), old(store.recs), t)
    {
      var ts := tiles;
      var index := IndexOf(ts, t);
      ghost var want := TrayRemove(ts, store.recs, t);
      StepLeftFrom(ts, index + 1);
      assert store.recs == want.1;
      if index >= 0 {
        tiles := ts[..index] + ts[index + 1..];
      } else if |ts| > 0 {
        tiles := ts[..|ts| - 1];
      }
      assert tiles == want.0;
    }

    function FindNearest(cell: Vec): (r: Option<nat>)
      reads this
      ensures r.Some? <==> cell.y == 0 && 0 <= cell.x < |tiles|
      ensures r.Some? ==> r.value == cell.x
    {
      NearestIndex(tiles, cell)
    }
  }
}

=== FILE: main_board.dfy ===
/**
 * The first server's board scorer (board.go): a board is a grid of letters, "" for an
 * empty cell. Its components are split into words, and the best scorable part is
 * compared with the client's maximum score.
 */
module MainBoard {
  import opened Vectors
  import opened VecSets
  import opened ServerTiles
  import opened Words
  import opened Scores
  import GB = GameBoard

  /** `Board [][]string`: `b[i][j]` is row `i`, column `j`; "" is an empty cell. */
  type Board = seq<seq<string>>

  /** `Score{Valid, Score}`: lower scores are better. */
  datatype Score = Score(valid: bool, score: int)

  /** A positive row count times the row width is a letter count only for a width of 0 or more. */
  lemma WidthNotNegative(x: int, y: int, n: nat)
    requires x > 0 && x * y == n
    ensures y >= 0
  {
  }

  lemma MulStep(i: nat, x: int, y: nat)
    requires i < x
    ensures 0 <= i * y && (i + 1) * y == i * y + y <= x * y
  {
    assert x * y == (i + 1) * y + (x - i - 1) * y;
  }

  /** The letters of the rows, read row after row. */
  function Flatten(b: Board): seq<string> {
    if b == [] then [] else Flatten(b[..|b| - 1]) + b[|b| - 1]
  }

  /**
   * `makeBoard` (board.go:76-86): no rows when the letter count is not `x * y`;
   * otherwise `x` rows, row `i` holding the letters `i * y` up to `(i + 1) * y`, so every
   * row has `y` cells and the rows read one after another give back the letters.
   */
  method MakeBoard(x: int, y: int, letters: seq<string>) returns (b: Board)
    ensures |letters| != x * y || x <= 0 ==> b == []
    ensures |letters| == x * y && x > 0 ==>
      && y >= 0 && |b| == x
      && (forall i :: 0 <= i < x ==> b[i] == letters[i * y..(i + 1) * y] && |b[i]| == y)
      && Flatten(b) == letters
  {
    b := [];
    if |letters| != x * y || x <= 0 {
      return;
    }
    WidthNotNegative(x, y, |letters|);
    var i := 0;
    while i < x
      invariant 0 <= i <= x
      invariant |b| == i && i * y <= |letters|
      invariant forall k :: 0 <= k < i ==> b[k] == letters[k * y..(k + 1) * y] && |b[k]| == y
      invariant Flatten(b) == letters[..i * y]
    {
      MulStep(i, x, y);
      var row := letters[i * y..(i + 1) * y];
      assert (b + [row])[..i] == b;
      assert letters[..i * y] + row == letters[..(i + 1) * y];
      b := b + [row];
      i := i + 1;
    }
    assert letters[..x * y] == letters;
  }

  /** A board whose rows all have `y` cells is rectangular, `y` wide. */
  lemma EvenRowsRectangular(b: Board, y: nat)
    requires b != [] && forall i :: 0 <= i < |b| ==> |b[i]| == y
    ensures GB.Rectangular(b) && GB.Width(b) == y
  {
  }

  /** `value` (board.go:88-90): row `v.x`, column `v.y`, as `createVecSetOfAllTiles` builds them. */
  function Value(b: Board, v: Vec): (r: string)
    requires GB.Rectangular(b) && GB.InGrid(b, v)
    ensures r == b[v.x][v.y]
  {
    b[v.x][v.y]
  }

  /** The occupied cells: those whose letter is not "". */
  function Occupied(b: Board): VecSet
    requires GB.Rectangular(b)
  {
    set i: int, j: int | 0 <= i < |b| && 0 <= j < GB.Width(b) && Value(b, Vec(i, j)) != "" :: Vec(i, j)
  }

  /** The letter of each occupied cell. */
  function BoardLetters(b: Board): (letters: Letters)
    requires GB.Rectangular(b)
    ensures letters.Keys == Occupied(b)
  {
    map v | v in Occupied(b) :: Value(b, v)
  }

  lemma OccupiedIff(b: Board, v: Vec)
    requires GB.Rectangular(b)
    ensures v in Occupied(b) <==> GB.InGrid(b, v) && Value(b, v) != ""
  {
    if GB.InGrid(b, v) && Value(b, v) != "" {
      assert v == Vec(v.x, v.y);
    }
  }

  /** `createVecSetOfAllTiles` (board.go:92-104): exactly the cells that hold a letter. */
  method CreateVecSetOfAllTiles(b: Board) returns (result: VecSet)
    requires GB.Rectangular(b)
    ensures forall v :: v in result <==> GB.InGrid(b, v) && Value(b, v) != ""
    ensures result == Occupied(b)
  {
    result := {};
    for i := 0 to |b|
      invariant forall v :: v in result <==> GB.InGrid(b, v) && v.x < i && Value(b, v) != ""
    {
      for j := 0 to |b[0]|
        invariant forall v :: v in result <==>
          GB.InGrid(b, v) && (v.x < i || (v.x == i && v.y < j)) && Value(b, v) != ""
      {
        var v := Vec(i, j);
        if Value(b, v) != "" {
          result := result + {v};
        }
      }
    }
    forall v ensures v in result <==> v in Occupied(b) {
      OccupiedIff(b, v);
    }
  }

  /**
   * What this scorer keeps of a component `origin`: the component itself when its tiles
   * all lie in valid words and none of its words is invalid, or, when some tile lies in
   * no valid word, one component of the tiles that do.
   */
  ghost predicate KeptFrom(letters: Letters, dict: set<string>, origin: VecSet, part: VecSet)
    requires origin <= letters.Keys
  {
    exists valid, invalid :: Checked(letters, dict, origin, valid, invalid) &&
      ((valid == origin && invalid == {} && part == origin) || (valid != origin && IsComponent(valid, part)))
  }

  /** `part` is kept from some component of two or more tiles of `s`. */
  ghost predicate Kept(letters: Letters, dict: set<string>, s: VecSet, part: VecSet)
    requires s <= letters.Keys
  {
    exists origin :: IsComponent(s, origin) && |origin| >= 2 && origin <= s && KeptFrom(letters, dict, origin, part)
  }

  ghost predicate AllKept(letters: Letters, dict: set<string>, s: VecSet, cs: seq<VecSet>) {
    s <= letters.Keys && forall i :: 0 <= i < |cs| ==> Kept(letters, dict, s, cs[i])
  }

  /**
   * The loop body of `findValidScorableComponents` for a component of two or more tiles
   * (board.go:166-195): the tiles of invalid words join the invalid tiles; a component
   * whose tiles all lie in valid words is kept when it has no invalid word and dropped
   * otherwise; else the components of the tiles in valid words are kept.
   */
  method KeptParts(letters: Letters, dict: set<string>, comp: VecSet, invalidAll: VecSet)
    returns (found: seq<VecSet>, invalidOut: VecSet)
    requires comp <= letters.Keys && |comp| >= 2
    ensures forall p :: p in found <==> KeptFrom(letters, dict, comp, p)
    ensures NoDup(found)
    ensures forall i :: 0 <= i < |found| ==> found[i] != {} && found[i] <= comp
    ensures invalidOut == invalidAll + WordSets(letters, dict, comp).1
  {
    var valid, invalid, isAllValid := CheckWords(letters, dict, comp);
    CheckedWithin(letters, dict, comp, valid, invalid);
    CheckedUnique(letters, dict, comp, valid, invalid, WordSets(letters, dict, comp).0, WordSets(letters, dict, comp).1);
    invalidOut := Union(invalidAll, invalid);
    SubsetNoLarger(valid, comp);
    if |valid| == |comp| {
      SubsetSameSize(valid, comp);
      found := if isAllValid then [valid] else [];
      forall p
        ensures p in found <==> KeptFrom(letters, dict, comp, p)
      {
        KeptFromChecked(letters, dict, comp, valid, invalid, p);
      }
    } else {
      found := FindComponents(valid);
      forall p
        ensures p in found <==> KeptFrom(letters, dict, comp, p)
      {
        KeptFromChecked(letters, dict, comp, valid, invalid, p);
      }
      forall i | 0 <= i < |found|
        ensures found[i] != {} && found[i] <= comp
      {
        var w :| w in found[i] && found[i] == Component(valid, w);
      }
    }
  }

  /** What is kept from a component is fixed by the outcome of checking its words. */
  lemma KeptFromChecked(letters: Letters, dict: set<string>, origin: VecSet,
                        valid: VecSet, invalid: VecSet, part: VecSet)
    requires origin <= letters.Keys && Checked(letters, dict, origin, valid, invalid)
    ensures KeptFrom(letters, dict, origin, part) <==>
      (valid == origin && invalid == {} && part == origin) || (valid != origin && IsComponent(valid, part))
  {
    if KeptFrom(letters, dict, origin, part) {
      var valid', invalid' :| Checked(letters, dict, origin, valid', invalid') &&
        ((valid' == origin && invalid' == {} && part == origin) || (valid' != origin && IsComponent(valid', part)));
      CheckedUnique(letters, dict, origin, valid, invalid, valid', invalid');
    }
  }

  /**
   * The parts kept from a component `c` of `s`, as a set: nothing from fewer than two
   * tiles, `c` itself or nothing when all its tiles lie in valid words, else the
   * components of the tiles in valid words.
   */
  ghost function PartsOf(letters: Letters, dict: set<string>, c: VecSet): set<VecSet>
    requires c <= letters.Keys
  {
    var valid := WordSets(letters, dict, c).0;
    var invalid := WordSets(letters, dict, c).1;
    if |c| <= 1 then {}
    else if valid == c then (if invalid == {} then {c} else {})
    else ComponentsOf(valid)
  }

  /** Everything kept from the components of `s`. */
  ghost function KeptSet(letters: Letters, dict: set<string>, s: VecSet): set<VecSet>
    requires s <= letters.Keys
  {
    set v, p | v in s && p in PartsOf(letters, dict, Component(s, v)) :: p
  }

  /** `KeptSet` holds exactly the parts kept from a component of two or more tiles. */
  lemma KeptSetIff(letters: Letters, dict: set<string>, s: VecSet, p: VecSet)
    requires s <= letters.Keys
    ensures p in KeptSet(letters, dict, s) <==> Kept(letters, dict, s, p)
  {
    if p in KeptSet(letters, dict, s) {
      var v :| v in s && p in PartsOf(letters, dict, Component(s, v));
      var origin := Component(s, v);
      assert IsPath(s, [v]);
      assert v in origin;
      KeptFromChecked(letters, dict, origin, WordSets(letters, dict, origin).0, WordSets(letters, dict, origin).1, p);
      ComponentsOfIff(WordSets(letters, dict, origin).0, p);
    }
    if Kept(letters, dict, s, p) {
      var origin :| IsComponent(s, origin) && |origin| >= 2 && origin <= s && KeptFrom(letters, dict, origin, p);
      var w :| w in origin && origin == Component(s, w);
      KeptFromChecked(letters, dict, origin, WordSets(letters, dict, origin).0, WordSets(letters, dict, origin).1, p);
      ComponentsOfIff(WordSets(letters, dict, origin).0, p);
      assert p in PartsOf(letters, dict, Component(s, w));
    }
  }

  /** Some set of a nonempty set of sets. */
  ghost function AnyPart(e: set<VecSet>): (p: VecSet)
    requires e != {}
    ensures p in e
  {
    var p :| p in e; p
  }

  /** The sets of `e` listed one after another, each once. */
  ghost function Listing(e: set<VecSet>): (r: seq<VecSet>)
    ensures |r| == |e| && forall p :: p in r <==> p in e
    decreases |e|
  {
    if e == {} then []
    else
      var p := AnyPart(e);
      [p] + Listing(e - {p})
  }

  /** The parts `scoreBoard` works with, in a fixed order. */
  ghost function KeptListing(letters: Letters, dict: set<string>, s: VecSet): seq<VecSet>
    requires s <= letters.Keys
  {
    Listing(KeptSet(letters, dict, s))
  }

  /** The sets appearing in `cs`. */
  ghost function Elements(cs: seq<VecSet>): set<VecSet> {
    set p | p in cs
  }

  /** A list without repeats is as long as the set of its elements. */
  lemma {:induction false} NoDupElements(cs: seq<VecSet>)
    requires NoDup(cs)
    ensures |Elements(cs)| == |cs|
  {
    if cs != [] {
      var init := cs[..|cs| - 1];
      assert NoDup(init);
      NoDupElements(init);
      assert Elements(cs) == Elements(init) + {cs[|cs| - 1]};
      assert cs[|cs| - 1] !in Elements(init);
    }
  }

  lemma KeptLift(letters: Letters, dict: set<string>, s: VecSet, origin: VecSet, found: seq<VecSet>)
    requires s <= letters.Keys && IsComponent(s, origin) && |origin| >= 2 && origin <= s
    requires forall i :: 0 <= i < |found| ==> KeptFrom(letters, dict, origin, found[i])
    ensures AllKept(letters, dict, s, found)
  {
  }

  lemma AllKeptAppend(letters: Letters, dict: set<string>, s: VecSet, a: seq<VecSet>, b: seq<VecSet>)
    requires AllKept(letters, dict, s, a) && AllKept(letters, dict, s, b)
    ensures AllKept(letters, dict, s, a + b)
  {
    forall i | 0 <= i < |a + b|
      ensures Kept(letters, dict, s, (a + b)[i])
    {
      if i < |a| {
        assert (a + b)[i] == a[i];
      } else {
        assert (a + b)[i] == b[i - |a|];
      }
    }
  }

  /**
   * `findValidScorableComponents` (board.go:157-198). Components of one tile go to the
   * invalid tiles; every set returned is kept from a component of two or more tiles;
   * the invalid tiles only grow, by tiles of `boardSet`, and include every tile with no
   * neighbour.
   */
  method FindValidScorableComponents(letters: Letters, dict: set<string>, boardSet: VecSet, invalidAll: VecSet)
    returns (scorable: seq<VecSet>, invalidOut: VecSet)
    requires boardSet <= letters.Keys
    ensures AllKept(letters, dict, boardSet, scorable)
    ensures forall p :: Kept(letters, dict, boardSet, p) ==> p in scorable
    ensures NoDup(scorable)
    ensures invalidAll <= invalidOut <= invalidAll + boardSet
    ensures forall v :: v in boardSet && Isolated(boardSet, v) ==> v in invalidOut
  {
    var components := FindComponents(boardSet);
    scorable := [];
    invalidOut := invalidAll;
    for i := 0 to |components|
      invariant AllKept(letters, dict, boardSet, scorable)
      invariant Gathered(letters, dict, boardSet, components, i, scorable)
      invariant invalidAll <= invalidOut <= invalidAll + boardSet
      invariant forall v :: v in UnionAll(components[..i]) && Isolated(boardSet, v) ==> v in invalidOut
    {
      var comp := components[i];
      assert comp <= boardSet;
      UnionAllStep(components, i);
      if |comp| <= 1 {
        invalidOut := Union(invalidOut, comp);
        GatheredStep(letters, dict, boardSet, components, i, scorable, []);
        assert scorable + [] == scorable;
      } else {
        var found;
        found, invalidOut := KeptParts(letters, dict, comp, invalidOut);
        forall v | v in comp
          ensures !Isolated(boardSet, v)
        {
          LargeComponentNotIsolated(boardSet, comp, v);
        }
        KeptLift(letters, dict, boardSet, comp, found);
        AllKeptAppend(letters, dict, boardSet, scorable, found);
        GatheredStep(letters, dict, boardSet, components, i, scorable, found);
        scorable := scorable + found;
      }
    }
    assert components[..|components|] == components;
    GatheredAll(letters, dict, boardSet, components, scorable);
  }

  /** Once every component has been scanned, every part kept from one has been gathered. */
  lemma GatheredAll(letters: Letters, dict: set<string>, s: VecSet, comps: seq<VecSet>, scorable: seq<VecSet>)
    requires Gathered(letters, dict, s, comps, |comps|, scorable)
    requires forall c :: IsComponent(s, c) ==> c in comps
    ensures forall p :: Kept(letters, dict, s, p) ==> p in scorable
  {
    forall p | Kept(letters, dict, s, p)
      ensures p in scorable
    {
      var origin :| IsComponent(s, origin) && |origin| >= 2 && origin <= s && KeptFrom(letters, dict, origin, p);
      var j :| 0 <= j < |comps| && comps[j] == origin;
    }
  }

  /**
   * The state of the scan of `findValidScorableComponents` after `i` components: the
   * parts gathered are distinct, nonempty tiles of those components, and every part
   * kept from one of them has been gathered.
   */
  ghost predicate Gathered(letters: Letters, dict: set<string>, s: VecSet, comps: seq<VecSet>, i: nat,
                           scorable: seq<VecSet>) {
    && s <= letters.Keys && i <= |comps|
    && NoDup(scorable)
    && (forall k :: 0 <= k < |scorable| ==> scorable[k] != {} && scorable[k] <= UnionAll(comps[..i]))
    && (forall j, p :: 0 <= j < i && comps[j] <= s && |comps[j]| >= 2 && KeptFrom(letters, dict, comps[j], p) ==>
          p in scorable)
  }

  /** A component of a disjoint list shares no tile with those before it. */
  lemma DisjointFromBefore(comps: seq<VecSet>, i: nat, x: Vec)
    requires PairwiseDisjoint(comps) && i < |comps| && x in comps[i]
    ensures x !in UnionAll(comps[..i])
  {
    forall j | 0 <= j < i
      ensures x !in comps[..i][j]
    {
      assert comps[j] * comps[i] == {};
      assert x !in comps[j] * comps[i];
    }
    if x in UnionAll(comps[..i]) {
      InUnionAll(comps[..i], x);
      assert false;
    }
  }

  /** Gathering the parts kept from component `i` keeps `Gathered`. */
  lemma GatheredStep(letters: Letters, dict: set<string>, s: VecSet, comps: seq<VecSet>, i: nat,
                     scorable: seq<VecSet>, found: seq<VecSet>)
    requires Gathered(letters, dict, s, comps, i, scorable) && i < |comps| && comps[i] <= s
    requires PairwiseDisjoint(comps)
    requires |comps[i]| <= 1 ==> found == []
    requires |comps[i]| >= 2 ==> forall p :: p in found <==> KeptFrom(letters, dict, comps[i], p)
    requires NoDup(found) && forall k :: 0 <= k < |found| ==> found[k] != {} && found[k] <= comps[i]
    ensures Gathered(letters, dict, s, comps, i + 1, scorable + found)
  {
    UnionAllStep(comps, i);
    var all := scorable + found;
    forall a, b | 0 <= a < b < |all|
      ensures all[a] != all[b]
    {
      if a < |scorable| && b >= |scorable| {
        assert all[b] == found[b - |scorable|];
        var x :| x in all[b];
        DisjointFromBefore(comps, i, x);
        assert x !in all[a];
      }
    }
    forall k | 0 <= k < |all|
      ensures all[k] != {} && all[k] <= UnionAll(comps[..i + 1])
    {
      if k >= |scorable| {
        assert all[k] == found[k - |scorable|];
      }
    }
  }

  /**
   * A component whose tiles all lie in valid words but which has an invalid word
   * contributes nothing (board.go:183-188).
   */
  lemma DroppedNeverKept(letters: Letters, dict: set<string>, comp: VecSet, invalid: VecSet, part: VecSet)
    requires comp <= letters.Keys
    requires Checked(letters, dict, comp, comp, invalid) && invalid != {}
    ensures !KeptFrom(letters, dict, comp, part)
  {
    if KeptFrom(letters, dict, comp, part) {
      var valid', invalid' :| Checked(letters, dict, comp, valid', invalid') &&
        ((valid' == comp && invalid' == {} && part == comp) || (valid' != comp && IsComponent(valid', part)));
      CheckedUnique(letters, dict, comp, comp, invalid, valid', invalid');
    }
  }

  /**
   * Every tile of a kept part lies in a valid word of its component, and a part that is
   * a whole component has only valid words.
   */
  lemma KeptInValidWords(letters: Letters, dict: set<string>, origin: VecSet, part: VecSet, u: Vec)
    requires origin <= letters.Keys && KeptFrom(letters, dict, origin, part) && u in part
    ensures u in origin && InSomeWord(letters, dict, origin, u, true)
    ensures part == origin ==> forall w :: !(w in origin && InSomeWord(letters, dict, origin, w, false))
  {
    var valid, invalid :| Checked(letters, dict, origin, valid, invalid) &&
      ((valid == origin && invalid == {} && part == origin) || (valid != origin && IsComponent(valid, part)));
    CheckedWithin(letters, dict, origin, valid, invalid);
    if valid != origin {
      var w :| w in part && part == Component(valid, w);
      assert u in valid;
      var e :| e in origin && e !in valid;
      assert e !in part;
    }
  }

  /** When `s` has fewer than two tiles nothing is kept from it. */
  lemma NothingKeptFromSmall(letters: Letters, dict: set<string>, s: VecSet, cs: seq<VecSet>)
    requires AllKept(letters, dict, s, cs)
    ensures cs != [] ==> |s| >= 2
  {
    if cs != [] {
      assert Kept(letters, dict, s, cs[0]);
      var origin :| IsComponent(s, origin) && |origin| >= 2 && origin <= s && KeptFrom(letters, dict, origin, cs[0]);
      SubsetNoLarger(origin, s);
    }
  }

  /**
   * A board is valid when its best part is worth the maximum score, it is the only
   * part, and it holds exactly the letters served.
   */
  ghost predicate ValidFor(letters: Letters, served: seq<Tile>, maxScore: int, cs: seq<VecSet>) {
    && maxScore == BestOf(letters, cs)
    && |cs| == 1
    && |cs[0]| == |served|
    && LettersOf(letters, cs[0]) == multiset(Values(served))
  }

  /**
   * "Cheating suspected": the best part is worth more than the maximum score, or, with a
   * score of 0 and a single part, that part has more tiles than served or as many with
   * other letters.
   */
  ghost predicate Suspect(letters: Letters, served: seq<Tile>, maxScore: int, cs: seq<VecSet>) {
    var d := maxScore - BestOf(letters, cs);
    || d < 0
    || (d == 0 && |cs| == 1 && (|cs[0]| > |served| ||
         (|cs[0]| == |served| && LettersOf(letters, cs[0]) != multiset(Values(served)))))
  }

  /** The score reported: the full maximum when cheating is suspected, else what was not scored. */
  ghost function Reported(letters: Letters, served: seq<Tile>, maxScore: int, cs: seq<VecSet>): int {
    if Suspect(letters, served, maxScore, cs) then maxScore else maxScore - BestOf(letters, cs)
  }

  /**
   * `scoreBoard` (board.go:230-280) for a client whose `getAllTilesServed` is `served`,
   * whose `getTilesServedCount` is `|served|` and whose `getMaxScore` is `maxScore`.
   * The board is valid exactly when `ValidFor` holds of the parts kept from its
   * components, and the score is `Reported` for them.
   */
  method ScoreBoard(b: Board, dict: set<string>, served: seq<Tile>, maxScore: int) returns (result: Score)
    requires GB.Rectangular(b)
    ensures result.valid <==> ValidFor(BoardLetters(b), served, maxScore, KeptListing(BoardLetters(b), dict, Occupied(b)))
    ensures result.score == Reported(BoardLetters(b), served, maxScore, KeptListing(BoardLetters(b), dict, Occupied(b)))
  {
    result := Score(false, maxScore);
    var boardSet := CreateVecSetOfAllTiles(b);
    var letters := BoardLetters(b);
    var comps, invalid := FindValidScorableComponents(letters, dict, boardSet, {});
    ListsKept(letters, dict, boardSet, comps, served, maxScore);
    var score := BestScore(letters, comps);
    result := result.(score := result.score - score);
    if result.score != 0 {
      if result.score < 0 {
        result := result.(score := maxScore);
      }
      return;
    }
    if |comps| != 1 {
      return;
    }
    var comp := comps[0];
    var tilesServedCount := |served|;
    if |comp| != tilesServedCount {
      if |comp| > tilesServedCount {
        result := result.(score := maxScore);
      }
      return;
    }
    var ok := CompareTileValuesExact(letters, served, comp);
    if !ok {
      result := result.(score := maxScore);
      return;
    }
    result := result.(valid := true);
  }

  /** A list holding exactly the kept parts, each once, is judged as `KeptListing` is. */
  lemma ListsKept(letters: Letters, dict: set<string>, s: VecSet, cs: seq<VecSet>, served: seq<Tile>, maxScore: int)
    requires s <= letters.Keys && NoDup(cs)
    requires AllKept(letters, dict, s, cs) && forall p :: Kept(letters, dict, s, p) ==> p in cs
    ensures ValidFor(letters, served, maxScore, cs) == ValidFor(letters, served, maxScore, KeptListing(letters, dict, s))
    ensures Reported(letters, served, maxScore, cs) == Reported(letters, served, maxScore, KeptListing(letters, dict, s))
  {
    var ref := KeptListing(letters, dict, s);
    forall p
      ensures p in cs <==> p in ref
    {
      KeptSetIff(letters, dict, s, p);
      if p in cs {
        var i :| 0 <= i < |cs| && cs[i] == p;
      }
    }
    assert Elements(cs) == KeptSet(letters, dict, s);
    NoDupElements(cs);
    JudgedBySet(letters, served, maxScore, cs, ref);
  }

  /** The best of a list is at most the best of a list holding all its sets. */
  lemma BestOfWithin(letters: Letters, a: seq<VecSet>, b: seq<VecSet>)
    requires forall p :: p in a ==> p in b
    ensures BestOf(letters, a) <= BestOf(letters, b)
  {
    BestOfIsMax(letters, a);
    BestOfIsMax(letters, b);
    if BestOf(letters, a) != 0 {
      var i :| 0 <= i < |a| && BestOf(letters, a) == SetPoints(letters, a[i]);
      assert a[i] in b;
    }
  }

  /**
   * The verdict depends on the parts and not on their order: two lists of the same
   * length holding the same sets are judged alike.
   */
  lemma JudgedBySet(letters: Letters, served: seq<Tile>, maxScore: int, a: seq<VecSet>, b: seq<VecSet>)
    requires |a| == |b| && forall p :: p in a <==> p in b
    ensures ValidFor(letters, served, maxScore, a) == ValidFor(letters, served, maxScore, b)
    ensures Reported(letters, served, maxScore, a) == Reported(letters, served, maxScore, b)
  {
    BestOfWithin(letters, a, b);
    BestOfWithin(letters, b, a);
    if |a| == 1 {
      assert b[0] in a;
    }
  }

  /** With a maximum score of 0 or more the reported score lies between 0 and that maximum. */
  lemma ReportedInRange(letters: Letters, served: seq<Tile>, maxScore: int, cs: seq<VecSet>)
    requires maxScore >= 0
    ensures 0 <= Reported(letters, served, maxScore, cs) <= maxScore
  {
    BestOfIsMax(letters, cs);
  }

  /**
   * A valid board scores 0, and when the maximum score is the points of the tiles
   * served, its one part is worth exactly those points.
   */
  lemma ValidScoresAllServed(letters: Letters, served: seq<Tile>, maxScore: int, cs: seq<VecSet>)
    requires ValidFor(letters, served, maxScore, cs)
    requires Priced(served) && maxScore == SumPoints(served)
    ensures Reported(letters, served, maxScore, cs) == 0
    ensures SetPoints(letters, cs[0]) == SumPoints(served) == BestOf(letters, cs)
  {
    SetPointsIsMPoints(letters, cs[0]);
    SumPointsIsMPoints(served);
  }

  /** Letters C, A, T in the top row of a 3×3 board and a stray Z in the far corner. */
  function StrayLetters(): Letters {
    map[Vec(0, 0) := "C", Vec(0, 1) := "A", Vec(0, 2) := "T", Vec(2, 2) := "Z"]
  }

  lemma LettersOfOne(letters: Letters, a: Vec)
    ensures LettersOf(letters, {a}) == multiset{Letter(letters, a)}
  {
    LettersOfAdd(letters, {}, a);
    assert {} + {a} == {a};
  }

  lemma LettersOfTwo(letters: Letters, a: Vec, b: Vec)
    requires a != b
    ensures LettersOf(letters, {a, b}) == multiset{Letter(letters, a), Letter(letters, b)}
  {
    LettersOfOne(letters, a);
    LettersOfAdd(letters, {a}, b);
    assert {a} + {b} == {a, b};
  }

  lemma LettersOfThree(letters: Letters, a: Vec, b: Vec, c: Vec)
    requires a != b && a != c && b != c
    ensures LettersOf(letters, {a, b, c}) == multiset{Letter(letters, a), Letter(letters, b), Letter(letters, c)}
  {
    LettersOfTwo(letters, a, b);
    LettersOfAdd(letters, {a, b}, c);
    assert {a, b} + {c} == {a, b, c};
  }

  /** The letters of "CAT" in the stray-tile board. */
  lemma CatLetters()
    ensures LettersOf(StrayLetters(), {Vec(0, 0), Vec(0, 1), Vec(0, 2)}) == multiset{"C", "A", "T"}
  {
    LettersOfThree(StrayLetters(), Vec(0, 0), Vec(0, 1), Vec(0, 2));
  }

  /** "CAT" in the stray-tile board is worth 5 points. */
  lemma CatWorthFive()
    ensures BestOf(StrayLetters(), [{Vec(0, 0), Vec(0, 1), Vec(0, 2)}]) == 5
  {
    var cat := {Vec(0, 0), Vec(0, 1), Vec(0, 2)};
    CatLetters();
    CatLetterPoints();
    SetPointsIsMPoints(StrayLetters(), cat);
    BestOfOne(StrayLetters(), cat);
  }

  /**
   * Only the single part is compared with the tiles served (board.go:257-276): with
   * C, A, T served, the part "CAT" makes the board valid although a fourth tile, Z,
   * lies apart from it.
   */
  lemma StrayTileStillValid()
    ensures |StrayLetters().Keys| == 4
    ensures ValidFor(StrayLetters(), [Tile("C", 3), Tile("A", 1), Tile("T", 1)], 5, [{Vec(0, 0), Vec(0, 1), Vec(0, 2)}])
  {
    StrayKeys();
    CatLetters();
    CatWorthFive();
    CatValues();
  }

  /** The stray-tile board has four tiles. */
  lemma StrayKeys()
    ensures |StrayLetters().Keys| == 4
  {
    assert StrayLetters().Keys == {Vec(0, 0), Vec(0, 1), Vec(0, 2), Vec(2, 2)};
  }

  /** The letters of the tiles C, A, T. */
  lemma CatValues()
    ensures Values([Tile("C", 3), Tile("A", 1), Tile("T", 1)]) == ["C", "A", "T"]
  {
    var vs := Values([Tile("C", 3), Tile("A", 1), Tile("T", 1)]);
    assert |vs| == 3 && vs[0] == "C" && vs[1] == "A" && vs[2] == "T";
  }

  /** "EmptyBoard" (board_test.go:30-31): a 2×2 board of empty cells with A, C, C served. */
  method EmptyBoardExample(dict: set<string>) returns (result: Score)
    ensures result == Score(false, 7)
  {
    var b := MakeBoard(2, 2, ["", "", "", ""]);
    assert b[0] == ["", ""] && b[1] == ["", ""];
    EvenRowsRectangular(b, 2);
    assert Occupied(b) == {} by {
      forall v | v in Occupied(b) ensures false {
        OccupiedIff(b, v);
      }
    }
    var served := [Tile("A", 1), Tile("C", 3), Tile("C", 3)];
    result := ScoreBoard(b, dict, served, 7);
    assert KeptSet(BoardLetters(b), dict, Occupied(b)) == {};
  }
}

=== FILE: messages.dfy ===
/**
 * The older message-type enumeration and its JSON text form (messages.go): fifteen
 * integer constants `MsgOK .. MsgGameOver`, a table of their names, and JSON
 * marshalling that panics on anything outside the table.
 */
module Messages {
  import opened Wrappers

  /** Message types are plain Go ints; only 0 .. 14 have a table entry. */
  const MsgOK := 0
  const MsgError := 1
  const MsgExit := 2
  const MsgConnect := 3
  const MsgJoinGame := 4
  const MsgGameStatus := 5
  const MsgGlobal := 6
  const MsgNewGame := 7
  const MsgStart := 8
  const MsgNewTiles := 9
  const MsgAddTile := 10
  const MsgSendBoard := 11
  const MsgVerify := 12
  const MsgScore := 13
  const MsgGameOver := 14

  /** The name table; a missing key reads as Go's zero value "". */
  function MessageTypeToString(mt: int): (s: string)
    ensures s != "" <==> MsgOK <= mt <= MsgGameOver
  {
    match mt
    case 0 => "ok"
    case 1 => "error"
    case 2 => "exit"
    case 3 => "connect"
    case 4 => "joinGame"
    case 5 => "gameStatus"
    case 6 => "global"
    case 7 => "newGame"
    case 8 => "start"
    case 9 => "newTiles"
    case 10 => "addTile"
    case 11 => "sendBoard"
    case 12 => "verify"
    case 13 => "score"
    case 14 => "gameOver"
    case _ => ""
  }

  /**
   * Text a JSON string literal can hold as it is: no quote, no backslash and no control
   * character below U+0020, which JSON allows only escaped. Table names are letters only.
   */
  predicate PlainText(s: string) {
    '"' !in s && '\\' !in s && forall ch :: ch in s ==> ch >= ' '
  }

  /** `json.Marshal` of a string without quotes or backslashes. */
  function Quote(s: string): string {
    "\"" + s + "\""
  }

  /** A JSON string literal without escapes; None for anything else. */
  function Unquote(b: string): (r: Option<string>)
    ensures r.Some? ==> Quote(r.value) == b && PlainText(r.value)
  {
    if |b| >= 2 && b[0] == '"' && b[|b| - 1] == '"' && PlainText(b[1..|b| - 1]) then Some(b[1..|b| - 1]) else None
  }

  /** The whitespace JSON allows around a value. */
  predicate JsonSpace(c: char) {
    c == ' ' || c == '\t' || c == '\n' || c == '\r'
  }

  /** `b` without its leading and trailing JSON whitespace. */
  function Trim(b: string): (r: string)
    ensures |r| <= |b|
    ensures r != [] ==> !JsonSpace(r[0]) && !JsonSpace(r[|r| - 1])
    ensures (b != [] && !JsonSpace(b[0]) && !JsonSpace(b[|b| - 1])) ==> r == b
  {
    if b == [] then []
    else if JsonSpace(b[0]) then Trim(b[1..])
    else if JsonSpace(b[|b| - 1]) then Trim(b[..|b| - 1])
    else b
  }

  /**
   * `json.Unmarshal` into a string variable: surrounding whitespace is skipped, `null`
   * leaves the variable at Go's zero value "", and a string literal gives its text;
   * None is a decode error.
   */
  function DecodeString(b: string): (r: Option<string>)
    ensures Trim(b) == "null" ==> r == Some("")
    ensures Trim(b) != "null" ==> r == Unquote(Trim(b))
  {
    var t := Trim(b);
    if t == "null" then Some("") else Unquote(t)
  }

  datatype Marshalled = Encoded(json: string) | MarshalPanic

  datatype Unmarshalled = Decoded(mt: int) | DecodeError | UnmarshalPanic

  lemma {:induction false} UnquoteQuote(s: string)
    requires PlainText(s)
    ensures Unquote(Quote(s)) == Some(s)
    ensures DecodeString(Quote(s)) == Some(s)
  {
    var q := Quote(s);
    assert q[1..|q| - 1] == s;
    assert q[0] == '"' && q[|q| - 1] == '"';
    assert q != "null";
  }

  /** Every table name is plain letters. */
  lemma TableNamesPlain(mt: int)
    ensures PlainText(MessageTypeToString(mt))
  {
    match mt
    case 0 => LettersPlain("ok");
    case 1 => LettersPlain("error");
    case 2 => LettersPlain("exit");
    case 3 => LettersPlain("connect");
    case 4 => LettersPlain("joinGame");
    case 5 => LettersPlain("gameStatus");
    case 6 => LettersPlain("global");
    case 7 => LettersPlain("newGame");
    case 8 => LettersPlain("start");
    case 9 => LettersPlain("newTiles");
    case 10 => LettersPlain("addTile");
    case 11 => LettersPlain("sendBoard");
    case 12 => LettersPlain("verify");
    case 13 => LettersPlain("score");
    case 14 => LettersPlain("gameOver");
    case _ =>
  }

  /** A text of ASCII letters only is plain. */
  lemma LettersPlain(s: string)
    requires forall i :: 0 <= i < |s| ==> 'a' <= s[i] <= 'z' || 'A' <= s[i] <= 'Z'
    ensures PlainText(s)
  {
  }

  /** Every listed type has its own name. */
  lemma NamesDistinct(a: int, b: int)
    requires MsgOK <= a <= MsgGameOver && MsgOK <= b <= MsgGameOver && a != b
    ensures MessageTypeToString(a) != MessageTypeToString(b)
  {
  }

  /** `MarshalJSON`: the quoted table name, or a panic for a type with no entry. */
  function MarshalJSON(mt: int): (r: Marshalled)
    ensures r == MarshalPanic <==> !(MsgOK <= mt <= MsgGameOver)
    ensures r.Encoded? ==> Unquote(r.json) == Some(MessageTypeToString(mt))
  {
    var s := MessageTypeToString(mt);
    TableNamesPlain(mt);
    UnquoteQuote(s);
    if s == "" then MarshalPanic else Encoded(Quote(s))
  }

  /**
   * `UnmarshalJSON`: decode the JSON text, then search the table for the name. The
   * table's names are distinct, so whichever order the map is walked in, the key found
   * is the only one carrying that name.
   */
  method UnmarshalJSON(b: string) returns (r: Unmarshalled)
    ensures r == DecodeError <==> DecodeString(b) == None
    ensures r == UnmarshalPanic <==>
      DecodeString(b).Some? && forall k :: MsgOK <= k <= MsgGameOver ==> MessageTypeToString(k) != DecodeString(b).value
    ensures forall k :: MsgOK <= k <= MsgGameOver && DecodeString(b) == Some(MessageTypeToString(k)) ==> r == Decoded(k)
  {
    var decoded := DecodeString(b);
    if decoded.None? {
      return DecodeError;
    }
    var s := decoded.value;
    var key := MsgOK;
    while key <= MsgGameOver
      invariant MsgOK <= key <= MsgGameOver + 1
      invariant forall k :: MsgOK <= k < key ==> MessageTypeToString(k) != s
    {
      if MessageTypeToString(key) == s {
        forall k | MsgOK <= k <= MsgGameOver && k != key
          ensures MessageTypeToString(k) != s
        {
          NamesDistinct(k, key);
        }
        return Decoded(key);
      }
      key := key + 1;
    }
    return UnmarshalPanic;
  }

  /** Marshalling then unmarshalling any listed type gives that type back. */
  method RoundTrip(mt: int) returns (r: Unmarshalled)
    requires MsgOK <= mt <= MsgGameOver
    ensures r == Decoded(mt)
  {
    var m := MarshalJSON(mt);
    TableNamesPlain(mt);
    UnquoteQuote(MessageTypeToString(mt));
    r := UnmarshalJSON(m.json);
  }

  /** `null` decodes to "", which no type is named, so unmarshalling it panics. */
  method NullPanics() returns (r: Unmarshalled)
    ensures r == UnmarshalPanic
  {
    r := UnmarshalJSON("null");
  }

  /** Whitespace around the JSON text is skipped: ` "exit" ` unmarshals to `MsgExit`. */
  method PaddedDecodes() returns (r: Unmarshalled)
    ensures r == Decoded(MsgExit)
  {
    assert Trim(" \"exit\" ") == "\"exit\"";
    r := UnmarshalJSON(" \"exit\" ");
  }

  /** A raw newline inside the quotes is not a JSON string: unmarshalling reports the error. */
  method ControlCharRejected() returns (r: Unmarshalled)
    ensures r == DecodeError
  {
    assert Trim("\"\n\"") == "\"\n\"";
    assert "\"\n\""[1..2] == "\n" && "\n"[0] in "\n" && "\n"[0] < ' ';
    assert Unquote("\"\n\"") == None;
    r := UnmarshalJSON("\"\n\"");
  }

  /** `String`: the table name in double quotes. */
  function String(mt: int): (s: string)
    ensures |s| >= 2 && s[0] == '"' && s[|s| - 1] == '"'
    ensures Unquote(s) == Some(MessageTypeToString(mt))
  {
    TableNamesPlain(mt);
    UnquoteQuote(MessageTypeToString(mt));
    Quote(MessageTypeToString(mt))
  }
}

/**
 * The byte-framed message types (msg/messages.go): fourteen one-byte constants
 * `Exit .. Result`, their names, and the frame that puts the type byte in front of
 * the JSON payload.
 */
module Msg {
  import opened Wrappers

  type Byte = b: int | 0 <= b < 256

  const Exit: Byte := 0
  const Error: Byte := 1
  const JoinGame: Byte := 2
  const GameInfo: Byte := 3
  const RoundReady: Byte := 4
  const Start: Byte := 5
  const AddTile: Byte := 6
  const SendBoard: Byte := 7
  const Verify: Byte := 8
  const Score: Byte := 9
  const Invalid: Byte := 10
  const OutOfTiles: Byte := 11
  const PlayerJoined: Byte := 12
  const Result: Byte := 13

  function TypeToString(t: Byte): (s: string)
    ensures s != "" <==> t <= Result
  {
    match t
    case 0 => "exit"
    case 1 => "error"
    case 2 => "joinGame"
    case 3 => "gameInfo"
    case 4 => "roundReady"
    case 5 => "start"
    case 6 => "addTile"
    case 7 => "sendBoard"
    case 8 => "verify"
    case 9 => "score"
    case 10 => "invalid"
    case 11 => "outOfTiles"
    case 12 => "playerJoined"
    case 13 => "result"
    case _ => ""
  }

  lemma NamesDistinct(a: Byte, b: Byte)
    requires a <= Result && b <= Result && a != b
    ensures TypeToString(a) != TypeToString(b)
  {
  }

  function String(t: Byte): (s: string)
    ensures |s| == |TypeToString(t)| + 2 && s[0] == '"' && s[|s| - 1] == '"'
    ensures s[1..|s| - 1] == TypeToString(t)
  {
    "\"" + TypeToString(t) + "\""
  }

  /**
   * `NewSocketData(t, d)`: `payload` is `json.Marshal(d)`, None when marshalling failed.
   * The error result is always nil: a marshalling failure yields a nil slice instead.
   */
  function NewSocketData(t: Byte, payload: Option<seq<Byte>>): (r: (seq<Byte>, Option<string>))
    ensures r.1 == None
    ensures payload.None? ==> r.0 == []
    ensures payload.Some? ==> |r.0| == 1 + |payload.value| && r.0[0] == t && r.0[1..] == payload.value
  {
    match payload
    case None => ([], None)
    case Some(p) => ([t] + p, None)
  }

  /**
   * The receiving side (game/client.go): the first byte is the type, the rest the JSON
   * payload. Indexing an empty frame panics in Go; that is the None case here.
   */
  function SplitFrame(b: seq<Byte>): (r: Option<(Byte, seq<Byte>)>)
    ensures r.None? <==> b == []
    ensures r.Some? ==> [r.value.0] + r.value.1 == b
  {
    if b == [] then None else Some((b[0], b[1..]))
  }

  lemma SplitUndoesFrame(t: Byte, p: seq<Byte>)
    ensures SplitFrame(NewSocketData(t, Some(p)).0) == Some((t, p))
  {
  }
}

=== FILE: rounds.dfy ===
/**
 * The multi-round game of the game package (game/game.go, game/client.go): a `Game`
 * keeps one ready flag per player, the current deal, the winning scores and a phase,
 * and `Run` updates them once per message a player sends. Each `case` of `Run` is a
 * method here; channels, sockets and logging are left out, and a message sent to a
 * player is returned instead.
 */
module Rounds {
  import opened Wrappers
  import opened VecSets
  import opened ServerTiles
  import opened Scores
  import opened GameBoard
  import opened GameScoring
  import opened GameScoreBoard
  import Msg

  /** `gameState`: `StateInit` .. `StateOver`. */
  datatype GameState = StateInit | StateWaitingRoundReady | StateRunning | StateWaitingScores | StateOver

  /** Every player has checked in; vacuously so with no players. */
  predicate AllReady<K>(flags: map<K, bool>) {
    forall c :: c in flags ==> flags[c]
  }

  /** No player has checked in. */
  predicate NoneReady<K>(flags: map<K, bool>) {
    forall c :: c in flags ==> !flags[c]
  }

  /**
   * Right after the flags are reset, marking one player makes everyone ready exactly when
   * that player is the only one.
   */
  lemma MarkAfterReset<K>(flags: map<K, bool>, c: K)
    requires NoneReady(flags)
    ensures AllReady(flags[c := true]) <==> flags.Keys <= {c}
  {
    if !(flags.Keys <= {c}) {
      var d :| d in flags && d != c;
      assert !flags[c := true][d];
    }
  }

  /** What `addTile` sends: an error outside a round, `OutOfTiles`, or the next tile. */
  datatype TileReply = NoActiveGame | OutOfTiles | NewTile(tile: Tile)

  /** `Client{Name, game, servedCnt}`; the socket and the assigner are left out. */
  class Client {
    var name: string
    var game: Game?
    var servedCnt: int

    /**
     * `addTile` (game/client.go:80-89): `OutOfTiles` with nothing changed once the deal is
     * used up, otherwise the next tile of the deal, which joins the tiles served.
     */
    method AddTile() returns (reply: TileReply)
      requires game != null && servedCnt >= 0
      modifies this
      ensures game == old(game) && name == old(name)
      ensures old(servedCnt) >= |game.tiles| ==> reply == OutOfTiles && servedCnt == old(servedCnt)
      ensures old(servedCnt) < |game.tiles| ==>
        && reply == NewTile(game.tiles[old(servedCnt)])
        && servedCnt == old(servedCnt) + 1
        && game.tiles[..servedCnt] == game.tiles[..old(servedCnt)] + [reply.tile]
    {
      if servedCnt >= |game.tiles| {
        reply := OutOfTiles;
      } else {
        var tile := game.tiles[servedCnt];
        reply := NewTile(tile);
        servedCnt := servedCnt + 1;
        assert game.tiles[..servedCnt] == game.tiles[..servedCnt - 1] + [tile];
      }
    }

    /**
     * `ScoreMarshalledBoard` (game/client.go:92-100): `decoded` is the board
     * `json.Unmarshal` produced, None when decoding failed. No score for an undecodable
     * board; otherwise the verdict of `scoreBoard` against exactly the tiles this player
     * has been served.
     */
    method ScoreMarshalledBoard(decoded: Option<Board>, dict: set<string>) returns (s: Option<Score>)
      requires game != null && 0 <= servedCnt <= |game.tiles|
      requires decoded.Some? ==> Rectangular(decoded.value)
      ensures s.None? <==> decoded.None?
      ensures decoded.Some? ==>
        var b, ts := decoded.value, game.tiles[..servedCnt];
        && s.value.win == Wins(b, ts, BoardBest(b, dict))
        && s.value.score == ScoreFor(b, ts, BoardBest(b, dict))
        && s.value.invalid == InvalidFor(BoardLetters(b), dict, Occupied(b))
    {
      if decoded.None? {
        return None;
      }
      var result, _ := ScoreBoard(decoded.value, dict, game.tiles[..servedCnt]);
      s := Some(result);
    }
  }

  /** `Game{Name, tiles, clients, lastScores, state, startingTileCnt}`; channels left out. */
  class Game {
    var name: string
    var tiles: seq<Tile>
    var clients: map<Client, bool>
    var lastScores: map<Client, Score>
    var state: GameState
    var startingTileCnt: int

    /** While players are being waited for, the deal holds the tiles each will start with. */
    ghost predicate Valid()
      reads this
    {
      0 <= startingTileCnt && (state == StateWaitingRoundReady ==> startingTileCnt <= |tiles|)
    }

    /** The state effect of `Close` (game/game.go:43-44): the game is over. */
    method Close()
      modifies this
      ensures state == StateOver
      ensures name == old(name) && tiles == old(tiles) && clients == old(clients)
      ensures lastScores == old(lastScores) && startingTileCnt == old(startingTileCnt)
    {
      state := StateOver;
    }

    /**
     * `AddPlayer` (game/game.go:55-60): `c` joins not yet ready, and its game is this
     * one; every other player keeps its flag.
     */
    method AddPlayer(c: Client)
      modifies this, c
      ensures clients == old(clients)[c := false] && c.game == this
      ensures c.servedCnt == old(c.servedCnt) && c.name == old(c.name)
      ensures name == old(name) && tiles == old(tiles) && lastScores == old(lastScores)
      ensures state == old(state) && startingTileCnt == old(startingTileCnt)
    {
      clients := clients[c := false];
      c.game := this;
    }

    /** `resetClientReply` (game/game.go:75-79): the same players, none of them ready. */
    method ResetClientReply()
      modifies this
      ensures clients.Keys == old(clients.Keys) && NoneReady(clients)
      ensures name == old(name) && tiles == old(tiles) && lastScores == old(lastScores)
      ensures state == old(state) && startingTileCnt == old(startingTileCnt)
    {
      var todo := clients.Keys;
      while todo != {}
        invariant todo <= clients.Keys == old(clients.Keys)
        invariant forall c :: c in clients && c !in todo ==> !clients[c]
        invariant name == old(name) && tiles == old(tiles) && lastScores == old(lastScores)
        invariant state == old(state) && startingTileCnt == old(startingTileCnt)
        decreases |todo|
      {
        var c :| c in todo;
        clients := clients[c := false];
        todo := todo - {c};
      }
    }

    /** `allClientsTrue` (game/game.go:82-88): whether every player has checked in. */
    method AllClientsTrue() returns (result: bool)
      ensures result == AllReady(clients)
    {
      result := true;
      var todo := clients.Keys;
      while todo != {}
        invariant todo <= clients.Keys
        invariant result <==> forall c :: c in clients && c !in todo ==> clients[c]
        decreases |todo|
      {
        var c :| c in todo;
        result := result && clients[c];
        todo := todo - {c};
      }
    }

    /** The loop of game/game.go:133-135: every player starts the round with its opening tiles. */
    method ServeStartingTiles()
      modifies clients.Keys
      ensures forall c :: c in clients ==>
        c.servedCnt == startingTileCnt && c.game == old(c.game) && c.name == old(c.name)
    {
      var todo := clients.Keys;
      while todo != {}
        invariant todo <= clients.Keys
        invariant forall c :: c in clients && c !in todo ==> c.servedCnt == startingTileCnt
        invariant forall c :: c in clients ==> c.game == old(c.game) && c.name == old(c.name)
        decreases |todo|
      {
        var c :| c in todo;
        c.servedCnt := startingTileCnt;
        todo := todo - {c};
      }
    }

    /**
     * `case msg.RoundReady` (game/game.go:115-136). Outside the waiting phase a new round
     * is dealt from `deal` (the result of `newTiles`), the last scores are cleared and
     * every flag is reset. The sender is then marked ready. Once everyone is ready the
     * round runs, `start` holds the opening tiles sent to all, and every player has been
     * served them.
     */
    method RoundReady(c: Client, deal: seq<Tile>) returns (start: Option<seq<Tile>>)
      requires Valid() && startingTileCnt <= |deal|
      modifies this, clients.Keys, c
      ensures Valid() && name == old(name) && startingTileCnt == old(startingTileCnt)
      ensures old(state) != StateWaitingRoundReady ==>
        && tiles == deal && lastScores == map[]
        && clients.Keys == old(clients.Keys) + {c}
        && clients[c] && (forall d :: d in clients && d != c ==> !clients[d])
        && (state == StateRunning <==> old(clients.Keys) <= {c})
      ensures old(state) == StateWaitingRoundReady ==>
        tiles == old(tiles) && lastScores == old(lastScores) && clients == old(clients)[c := true]
      ensures state == (if AllReady(clients) then StateRunning else StateWaitingRoundReady)
      ensures start.Some? <==> state == StateRunning
      ensures start.Some? ==>
        start.value == tiles[..startingTileCnt] &&
        forall d :: d in clients ==> d.servedCnt == startingTileCnt
      ensures start.None? ==> forall d :: d in clients ==> d.servedCnt == old(d.servedCnt)
      ensures forall d :: d in clients ==> d.game == old(d.game) && d.name == old(d.name)
    {
      if state != StateWaitingRoundReady {
        tiles := deal;
        lastScores := map[];
        ResetClientReply();
        state := StateWaitingRoundReady;
        MarkAfterReset(clients, c);
      }
      clients := clients[c := true];
      start := None;
      var all := AllClientsTrue();
      if all {
        state := StateRunning;
        start := Some(tiles[..startingTileCnt]);
        ServeStartingTiles();
      }
    }

    /**
     * `case msg.AddTile` (game/game.go:137-142): an error and no change outside a
     * running round, otherwise the sender's `addTile`.
     */
    method HandleAddTile(c: Client) returns (reply: TileReply)
      requires state == StateRunning ==> c.game != null && c.servedCnt >= 0
      modifies c
      ensures state != StateRunning ==> reply == NoActiveGame && unchanged(c)
      ensures state == StateRunning ==>
        && c.game == old(c.game)
        && (old(c.servedCnt) >= |c.game.tiles| ==> reply == OutOfTiles && c.servedCnt == old(c.servedCnt))
        && (old(c.servedCnt) < |c.game.tiles| ==>
              reply == NewTile(c.game.tiles[old(c.servedCnt)]) && c.servedCnt == old(c.servedCnt) + 1)
    {
      if state != StateRunning {
        reply := NoActiveGame;
      } else {
        reply := c.AddTile();
      }
    }

    /**
     * `case msg.Verify` (game/game.go:143-163): outside a running round an error and no
     * change. Otherwise the sender's board is scored; a losing board changes nothing, and
     * a winning one is recorded, every other player is asked for its board, and the
     * game is over at once when the winner is the only player.
     */
    method Verify(c: Client, decoded: Option<Board>, dict: set<string>) returns (score: Option<Score>)
      requires state == StateRunning ==>
        && c.game != null && 0 <= c.servedCnt <= |c.game.tiles|
        && decoded.Some? && Rectangular(decoded.value)
      requires Valid()
      modifies this
      ensures Valid()
      ensures old(state) != StateRunning ==> score == None && unchanged(this)
      ensures old(state) == StateRunning ==>
        var b := decoded.value;
        && score.Some?
        && score.value.win == Wins(b, old(c.game.tiles[..c.servedCnt]), BoardBest(b, dict))
        && score.value.score == ScoreFor(b, old(c.game.tiles[..c.servedCnt]), BoardBest(b, dict))
        && (!score.value.win ==> unchanged(this))
        && (score.value.win ==>
              && lastScores == old(lastScores)[c := score.value] && tiles == old(tiles)
              && clients.Keys == old(clients.Keys) + {c}
              && clients[c] && (forall d :: d in clients && d != c ==> !clients[d])
              && state == (if old(clients.Keys) <= {c} then StateOver else StateWaitingScores))
    {
      if state != StateRunning {
        return None;
      }
      score := c.ScoreMarshalledBoard(decoded, dict);
      if score.value.win {
        RecordWin(c, score.value);
      }
    }

    /**
     * The winning branch of `case msg.Verify` (game/game.go:150-161): the score is
     * recorded, only the winner is marked, and the game is over when the winner is the
     * only player, scores being awaited otherwise.
     */
    method RecordWin(c: Client, s: Score)
      requires Valid() && state == StateRunning
      modifies this
      ensures Valid() && name == old(name) && startingTileCnt == old(startingTileCnt)
      ensures lastScores == old(lastScores)[c := s] && tiles == old(tiles)
      ensures clients.Keys == old(clients.Keys) + {c}
      ensures clients[c] && forall d :: d in clients && d != c ==> !clients[d]
      ensures state == (if old(clients.Keys) <= {c} then StateOver else StateWaitingScores)
    {
      lastScores := lastScores[c := s];
      ResetClientReply();
      state := StateWaitingScores;
      MarkAfterReset(clients, c);
      clients := clients[c := true];
      var all := AllClientsTrue();
      if all {
        state := StateOver;
      }
    }

    /**
     * `case msg.SendBoard` (game/game.go:164-180): ignored unless scores are being
     * collected. Otherwise the sender's board is scored and recorded, the sender is
     * marked, and the game is over once every player has sent a board.
     */
    method SendBoard(c: Client, decoded: Option<Board>, dict: set<string>) returns (score: Option<Score>)
      requires state == StateWaitingScores ==>
        && c.game != null && 0 <= c.servedCnt <= |c.game.tiles|
        && decoded.Some? && Rectangular(decoded.value)
      requires Valid()
      modifies this
      ensures Valid()
      ensures old(state) != StateWaitingScores ==> score == None && unchanged(this)
      ensures old(state) == StateWaitingScores ==>
        var b := decoded.value;
        && score.Some?
        && score.value.win == Wins(b, old(c.game.tiles[..c.servedCnt]), BoardBest(b, dict))
        && score.value.score == ScoreFor(b, old(c.game.tiles[..c.servedCnt]), BoardBest(b, dict))
        && lastScores == old(lastScores)[c := score.value] && tiles == old(tiles)
        && clients == old(clients)[c := true]
        && state == (if AllReady(clients) then StateOver else StateWaitingScores)
    {
      if state != StateWaitingScores {
        return None;
      }
      score := c.ScoreMarshalledBoard(decoded, dict);
      RecordBoard(c, score.value);
    }

    /**
     * The bookkeeping of `case msg.SendBoard` (game/game.go:172-180): the sender is
     * marked and its score recorded; the game is over once every player has sent a board.
     */
    method RecordBoard(c: Client, s: Score)
      requires Valid() && state == StateWaitingScores
      modifies this
      ensures Valid() && name == old(name) && startingTileCnt == old(startingTileCnt)
      ensures lastScores == old(lastScores)[c := s] && tiles == old(tiles)
      ensures clients == old(clients)[c := true]
      ensures state == (if AllReady(clients) then StateOver else StateWaitingScores)
    {
      clients := clients[c := true];
      lastScores := lastScores[c := s];
      var all := AllClientsTrue();
      if all {
        state := StateOver;
      }
    }

    /**
     * `case msg.Exit` (game/game.go:181-188): the player leaves; when none is left the
     * game closes and is over.
     */
    method Exit(c: Client)
      requires Valid()
      modifies this
      ensures Valid()
      ensures clients == old(clients) - {c}
      ensures tiles == old(tiles) && lastScores == old(lastScores)
      ensures state == (if clients == map[] then StateOver else old(state))
    {
      clients := clients - {c};
      if |clients| == 0 {
        Close();
      }
    }

    /**
     * One turn of the `Run` loop (game/game.go:112-189): the message type picks the case,
     * and a type `Run` has no case for changes nothing.
     */
    method Step(t: Msg.Byte, c: Client, deal: seq<Tile>, decoded: Option<Board>, dict: set<string>)
      requires Valid() && startingTileCnt <= |deal|
      requires t == Msg.AddTile && state == StateRunning ==> c.game != null && c.servedCnt >= 0
      requires (t == Msg.Verify && state == StateRunning) || (t == Msg.SendBoard && state == StateWaitingScores) ==>
        && c.game != null && 0 <= c.servedCnt <= |c.game.tiles|
        && decoded.Some? && Rectangular(decoded.value)
      modifies this, clients.Keys, c
      ensures Valid()
      ensures t !in {Msg.RoundReady, Msg.AddTile, Msg.Verify, Msg.SendBoard, Msg.Exit} ==> unchanged(this)
      ensures t != Msg.RoundReady && old(state) != StateOver ==> tiles == old(tiles)
      ensures t == Msg.RoundReady ==>
        && c in clients && clients[c]
        && state == (if AllReady(clients) then StateRunning else StateWaitingRoundReady)
        && (old(state) != StateWaitingRoundReady ==> tiles == deal && lastScores == map[])
      ensures t == Msg.AddTile ==>
        && unchanged(this)
        && (old(state) != StateRunning ==> unchanged(c))
        && (old(state) == StateRunning ==>
              && c.game == old(c.game)
              && c.servedCnt == if old(c.servedCnt) < |c.game.tiles| then old(c.servedCnt) + 1 else old(c.servedCnt))
      ensures t == Msg.Verify ==>
        && (old(state) != StateRunning ==> unchanged(this))
        && (old(state) == StateRunning ==>
              var won := Wins(decoded.value, old(c.game.tiles[..c.servedCnt]), BoardBest(decoded.value, dict));
              && (won ==> state != StateRunning && c in lastScores && lastScores[c].win)
              && (!won ==> unchanged(this)))
      ensures t == Msg.SendBoard ==>
        && (old(state) != StateWaitingScores ==> unchanged(this))
        && (old(state) == StateWaitingScores ==>
              && c in lastScores && clients == old(clients)[c := true]
              && lastScores[c].score == ScoreFor(decoded.value, old(c.game.tiles[..c.servedCnt]), BoardBest(decoded.value, dict))
              && state == (if AllReady(clients) then StateOver else StateWaitingScores))
      ensures t == Msg.Exit ==>
        clients == old(clients) - {c} && state == (if clients == map[] then StateOver else old(state))
    {
      if t == Msg.RoundReady {
        var _ := RoundReady(c, deal);
      } else if t == Msg.AddTile {
        var _ := HandleAddTile(c);
      } else if t == Msg.Verify {
        var _ := Verify(c, decoded, dict);
      } else if t == Msg.SendBoard {
        var _ := SendBoard(c, decoded, dict);
      } else if t == Msg.Exit {
        Exit(c);
      }
    }
  }

  /** Where `readSocketMsgs` sends a frame: the assigner, the player's game, or nowhere. */
  datatype Delivery = ToAssigner | ToGame(t: Msg.Byte, data: seq<Msg.Byte>) | Ignored

  /**
   * The routing of one incoming frame (game/client.go:44-54): the first byte is the type
   * and the rest the JSON payload; `JoinGame` goes to the assigner, any other type to the
   * player's game when it has one, and is dropped otherwise. Reading `b[0]` of an empty
   * frame panics, so a frame has a type byte.
   */
  function RouteFrame(b: seq<Msg.Byte>, inGame: bool): (d: Delivery)
    requires b != []
    ensures d == ToAssigner <==> b[0] == Msg.JoinGame
    ensures d.ToGame? <==> b[0] != Msg.JoinGame && inGame
    ensures d.ToGame? ==> [d.t] + d.data == b
  {
    var (t, data) := Msg.SplitFrame(b).value;
    if t == Msg.JoinGame then ToAssigner
    else if inGame then ToGame(t, data)
    else Ignored
  }

  /** A frame built by `NewSocketData` reaches the game with the type and payload it was built from. */
  lemma RouteNewSocketData(t: Msg.Byte, p: seq<Msg.Byte>)
    requires t != Msg.JoinGame
    ensures RouteFrame(Msg.NewSocketData(t, Some(p)).0, true) == ToGame(t, p)
  {
    Msg.SplitUndoesFrame(t, p);
  }
}

=== FILE: scores.dfy ===
/**
 * Point totals and letter counts of sets of board tiles (game/board.go, board.go): the
 * score of a component, the best score of a list of components, and the comparison of
 * the letters on the board with the letters served.
 */
module Scores {
  import opened Vectors
  import opened VecSets
  import opened ServerTiles
  import opened Words

  /** `b.value(v)` for a tile of the board; "" elsewhere, like an empty cell. */
  function Letter(letters: Letters, v: Vec): string {
    if v in letters then letters[v] else ""
  }

  /** The sum of `pointValues` over the letters of the tiles of `c`. */
  ghost function SetPoints(letters: Letters, c: VecSet): int
  {
    if c == {} then 0
    else
      var v :| v in c;
      PointValue(Letter(letters, v)) + SetPoints(letters, c - {v})
  }

  /** The multiset of the letters of the tiles of `c`. */
  ghost function LettersOf(letters: Letters, c: VecSet): multiset<string>
  {
    if c == {} then multiset{}
    else
      var v :| v in c;
      LettersOf(letters, c - {v}) + multiset{Letter(letters, v)}
  }

  /** The sum does not depend on which tile is taken out first. */
  lemma {:induction false} SetPointsRemove(letters: Letters, c: VecSet, u: Vec)
    requires u in c
    ensures SetPoints(letters, c) == PointValue(Letter(letters, u)) + SetPoints(letters, c - {u})
    decreases |c|
  {
    var v :| v in c && SetPoints(letters, c) == PointValue(Letter(letters, v)) + SetPoints(letters, c - {v});
    if v != u {
      SetPointsRemove(letters, c - {v}, u);
      SetPointsRemove(letters, c - {u}, v);
      assert c - {v} - {u} == c - {u} - {v};
    }
  }

  /** The multiset does not depend on which tile is taken out first. */
  lemma {:induction false} LettersOfRemove(letters: Letters, c: VecSet, u: Vec)
    requires u in c
    ensures LettersOf(letters, c) == LettersOf(letters, c - {u}) + multiset{Letter(letters, u)}
    decreases |c|
  {
    var v :| v in c && LettersOf(letters, c) == LettersOf(letters, c - {v}) + multiset{Letter(letters, v)};
    if v != u {
      LettersOfRemove(letters, c - {v}, u);
      LettersOfRemove(letters, c - {u}, v);
      assert c - {v} - {u} == c - {u} - {v};
    }
  }

  /** Adding a tile adds its letter. */
  lemma LettersOfAdd(letters: Letters, c: VecSet, u: Vec)
    requires u !in c
    ensures LettersOf(letters, c + {u}) == LettersOf(letters, c) + multiset{Letter(letters, u)}
  {
    LettersOfRemove(letters, c + {u}, u);
    assert c + {u} - {u} == c;
  }

  /** A set of `n` tiles has `n` letters. */
  lemma {:induction false} LettersOfSize(letters: Letters, c: VecSet)
    ensures |LettersOf(letters, c)| == |c|
    decreases |c|
  {
    if c != {} {
      var v :| v in c;
      LettersOfRemove(letters, c, v);
      LettersOfSize(letters, c - {v});
    }
  }

  /** No letter is worth a negative number of points. */
  lemma PointValueNonNegative(k: string)
    ensures PointValue(k) >= 0
  {
  }

  /** The sum of `pointValues` over a multiset of letters, counting repeats. */
  ghost function MPoints(m: multiset<string>): int {
    if m == multiset{} then 0
    else
      var x :| x in m;
      PointValue(x) + MPoints(m - multiset{x})
  }

  lemma {:induction false} MPointsRemove(m: multiset<string>, y: string)
    requires y in m
    ensures MPoints(m) == PointValue(y) + MPoints(m - multiset{y})
    decreases |m|
  {
    var x :| x in m && MPoints(m) == PointValue(x) + MPoints(m - multiset{x});
    if x != y {
      MPointsRemove(m - multiset{x}, y);
      MPointsRemove(m - multiset{y}, x);
      assert m - multiset{x} - multiset{y} == m - multiset{y} - multiset{x};
    }
  }

  lemma MPointsAdd(m: multiset<string>, y: string)
    ensures MPoints(m + multiset{y}) == MPoints(m) + PointValue(y)
  {
    MPointsRemove(m + multiset{y}, y);
    assert m + multiset{y} - multiset{y} == m;
  }

  /** More letters are worth at least as much. */
  lemma {:induction false} MPointsMono(a: multiset<string>, b: multiset<string>)
    requires a <= b
    ensures MPoints(a) <= MPoints(b)
    decreases |b|
  {
    if a != b {
      assert b == a + (b - a);
      var x :| x in b - a;
      MPointsRemove(b, x);
      PointValueNonNegative(x);
      MPointsMono(a, b - multiset{x});
    }
  }

  /** The points of a set of tiles are the points of its letters. */
  lemma {:induction false} SetPointsIsMPoints(letters: Letters, c: VecSet)
    ensures SetPoints(letters, c) == MPoints(LettersOf(letters, c))
    decreases |c|
  {
    if c != {} {
      var v :| v in c;
      SetPointsRemove(letters, c, v);
      LettersOfRemove(letters, c, v);
      SetPointsIsMPoints(letters, c - {v});
      MPointsAdd(LettersOf(letters, c - {v}), Letter(letters, v));
    }
  }

  /** A larger set of tiles scores at least as much. */
  lemma {:induction false} SetPointsMono(letters: Letters, c: VecSet, d: VecSet)
    requires c <= d
    ensures SetPoints(letters, c) <= SetPoints(letters, d)
    decreases |d|
  {
    if c != d {
      assert d == c + (d - c);
      var u :| u in d - c;
      SetPointsRemove(letters, d, u);
      PointValueNonNegative(Letter(letters, u));
      SetPointsMono(letters, c, d - {u});
    }
  }

  /** For tiles priced by `pointValues`, their points are the points of their letters. */
  lemma {:induction false} SumPointsIsMPoints(ts: seq<Tile>)
    requires Priced(ts)
    ensures SumPoints(ts) == MPoints(multiset(Values(ts)))
  {
    if ts != [] {
      var init := ts[..|ts| - 1];
      var last := ts[|ts| - 1];
      assert ts == init + [last];
      SumPointsIsMPoints(init);
      ValuesAppend(init, last);
      assert multiset(Values(ts)) == multiset(Values(init)) + multiset{last.value};
      MPointsAdd(multiset(Values(init)), last.value);
    }
  }

  /** The best score of a list of components: the largest total, and 0 for none. */
  ghost function BestOf(letters: Letters, cs: seq<VecSet>): int
  {
    if cs == [] then 0
    else
      var rest := BestOf(letters, cs[..|cs| - 1]);
      var last := SetPoints(letters, cs[|cs| - 1]);
      if last > rest then last else rest
  }

  /**
   * `BestOf` is the maximum of 0 and the component totals: it bounds every total and,
   * unless it is 0, is the total of one of the components.
   */
  lemma {:induction false} BestOfIsMax(letters: Letters, cs: seq<VecSet>)
    ensures BestOf(letters, cs) >= 0
    ensures forall i :: 0 <= i < |cs| ==> SetPoints(letters, cs[i]) <= BestOf(letters, cs)
    ensures BestOf(letters, cs) == 0 || exists i :: 0 <= i < |cs| && BestOf(letters, cs) == SetPoints(letters, cs[i])
  {
    if cs != [] {
      BestOfIsMax(letters, cs[..|cs| - 1]);
      if BestOf(letters, cs) != 0 && BestOf(letters, cs) != SetPoints(letters, cs[|cs| - 1]) {
        var i :| 0 <= i < |cs| - 1 && BestOf(letters, cs[..|cs| - 1]) == SetPoints(letters, cs[..|cs| - 1][i]);
        assert BestOf(letters, cs) == SetPoints(letters, cs[i]);
      }
    }
  }

  /**
   * `scoreComponent` (board.go:200-207) and the inner loop of `bestScore`
   * (game/board.go:264-267): `pointValues` of each tile's letter, summed over the set in
   * its iteration order.
   */
  method ScoreComponent(letters: Letters, c: VecSet) returns (score: int)
    ensures score == SetPoints(letters, c)
  {
    score := 0;
    var rest := c;
    while rest != {}
      invariant rest <= c
      invariant score + SetPoints(letters, rest) == SetPoints(letters, c)
      decreases |rest|
    {
      var v :| v in rest;
      SetPointsRemove(letters, rest, v);
      score := score + PointValue(Letter(letters, v));
      rest := rest - {v};
    }
  }

  lemma BestOfAppend(letters: Letters, cs: seq<VecSet>, c: VecSet)
    ensures BestOf(letters, cs + [c]) ==
      if SetPoints(letters, c) > BestOf(letters, cs) then SetPoints(letters, c) else BestOf(letters, cs)
  {
    assert (cs + [c])[..|cs|] == cs;
  }

  /** The best score of one component is its total, or 0 when that is lower. */
  lemma BestOfOne(letters: Letters, c: VecSet)
    ensures BestOf(letters, [c]) == if SetPoints(letters, c) > 0 then SetPoints(letters, c) else 0
  {
    BestOfAppend(letters, [], c);
    assert [] + [c] == [c];
  }

  /**
   * `bestScore` (game/board.go:260-273): the largest component total, starting from 0
   * and replacing it only by a strictly larger one.
   */
  method BestScore(letters: Letters, cs: seq<VecSet>) returns (best: int)
    ensures best == BestOf(letters, cs)
  {
    best := 0;
    for k := 0 to |cs|
      invariant best == BestOf(letters, cs[..k])
    {
      var newScore := ScoreComponent(letters, cs[k]);
      BestOfAppend(letters, cs[..k], cs[k]);
      assert cs[..k + 1] == cs[..k] + [cs[k]];
      if newScore > best {
        best := newScore;
      }
    }
    assert cs[..|cs|] == cs;
  }

  /** `tileCount[k]`: a Go map read gives 0 for a letter with no entry. */
  function Count(m: map<string, int>, k: string): int {
    if k in m then m[k] else 0
  }

  /** The letter counts after both loops: served minus on the board, letter by letter. */
  ghost predicate Counted(m: map<string, int>, served: multiset<string>, board: multiset<string>) {
    forall k {:trigger Count(m, k)} :: Count(m, k) == served[k] as int - board[k] as int
  }

  /** The first loop of `compareTileValues`: one up for each served tile's letter. */
  method ServedCounts(sent: seq<Tile>) returns (tileCount: map<string, int>)
    ensures forall k :: Count(tileCount, k) == multiset(Values(sent))[k]
  {
    tileCount := map[];
    for i := 0 to |sent|
      invariant forall k :: Count(tileCount, k) == multiset(Values(sent[..i]))[k]
    {
      assert Values(sent[..i + 1]) == Values(sent[..i]) + [sent[i].value] by {
        assert sent[..i + 1] == sent[..i] + [sent[i]];
        ValuesAppend(sent[..i], sent[i]);
      }
      tileCount := tileCount[sent[i].value := Count(tileCount, sent[i].value) + 1];
    }
    assert sent[..|sent|] == sent;
  }

  /** Taking one more board tile with letter `x` lowers the count of `x` by one. */
  lemma CountDown(m: map<string, int>, served: multiset<string>, board: multiset<string>, x: string)
    requires Counted(m, served, board)
    ensures Counted(m[x := Count(m, x) - 1], served, board + multiset{x})
  {
    var m' := m[x := Count(m, x) - 1];
    forall k ensures Count(m', k) == served[k] as int - (board + multiset{x})[k] as int {
      assert Count(m, k) == served[k] as int - board[k] as int;
    }
  }

  /** Moving `key` from the tiles still to visit to the ones visited keeps the split of `all`. */
  lemma MoveKey(done: VecSet, rest: VecSet, all: VecSet, key: Vec)
    requires done + rest == all && done !! rest && key in rest
    ensures (done + {key}) + (rest - {key}) == all && (done + {key}) !! (rest - {key})
    ensures key !in done && |rest - {key}| < |rest|
  {
  }

  /** All counts zero: the board holds exactly the letters served. */
  lemma CountedZero(m: map<string, int>, served: multiset<string>, board: multiset<string>)
    requires Counted(m, served, board) && forall k :: k in m ==> m[k] == 0
    ensures board == served
  {
    forall k ensures board[k] == served[k] {
      assert Count(m, k) == 0;
    }
  }

  /** No count negative: no letter is on the board more often than served. */
  lemma CountedNonNegative(m: map<string, int>, served: multiset<string>, board: multiset<string>)
    requires Counted(m, served, board) && forall k :: k in m ==> m[k] >= 0
    ensures board <= served
  {
    forall k ensures board[k] <= served[k] {
      assert Count(m, k) >= 0;
    }
  }

  /** The count of a listed letter is how many more times it was served than placed. */
  lemma CountedAt(m: map<string, int>, served: multiset<string>, board: multiset<string>, k: string)
    requires Counted(m, served, board) && k in m
    ensures m[k] == served[k] as int - board[k] as int
  {
    assert Count(m, k) == m[k];
  }

  /** The second loop of `compareTileValues`: one down for each board tile's letter. */
  method BoardCounts(letters: Letters, m: map<string, int>, ghost served: multiset<string>, received: VecSet)
    returns (tileCount: map<string, int>)
    requires Counted(m, served, multiset{})
    ensures Counted(tileCount, served, LettersOf(letters, received))
  {
    tileCount := m;
    var done := {};
    var rest := received;
    ghost var board: multiset<string> := multiset{};
    while rest != {}
      invariant done + rest == received && done !! rest
      invariant board == LettersOf(letters, done)
      invariant Counted(tileCount, served, board)
      decreases |rest|
    {
      var key :| key in rest;
      MoveKey(done, rest, received, key);
      LettersOfAdd(letters, done, key);
      CountDown(tileCount, served, board, Letter(letters, key));
      tileCount := tileCount[Letter(letters, key) := Count(tileCount, Letter(letters, key)) - 1];
      board := board + multiset{Letter(letters, key)};
      rest := rest - {key};
      done := done + {key};
    }
  }

  /**
   * The first two loops of `compareTileValues` (game/board.go:278-284, board.go:211-218):
   * one up for each served tile's letter, one down for each board tile's letter.
   */
  method TileCounts(letters: Letters, sent: seq<Tile>, received: VecSet) returns (tileCount: map<string, int>)
    ensures Counted(tileCount, multiset(Values(sent)), LettersOf(letters, received))
  {
    tileCount := ServedCounts(sent);
    tileCount := BoardCounts(letters, tileCount, multiset(Values(sent)), received);
  }

  /**
   * `compareTileValues` (game/board.go:275-294): false exactly when some letter is on the
   * board more often than among the served tiles.
   */
  method CompareTileValues(letters: Letters, sent: seq<Tile>, received: VecSet) returns (ok: bool)
    ensures ok <==> LettersOf(letters, received) <= multiset(Values(sent))
  {
    var tileCount := TileCounts(letters, sent, received);
    ghost var served, board := multiset(Values(sent)), LettersOf(letters, received);
    var keys := tileCount.Keys;
    while keys != {}
      invariant keys <= tileCount.Keys
      invariant forall k :: k in tileCount && k !in keys ==> tileCount[k] >= 0
      decreases |keys|
    {
      var k :| k in keys;
      if tileCount[k] < 0 {
        CountedAt(tileCount, served, board, k);
        assert board[k] > served[k];
        return false;
      }
      keys := keys - {k};
    }
    CountedNonNegative(tileCount, served, board);
    return true;
  }

  /**
   * `compareTileValues` in board.go (board.go:209-227): false exactly when the letters on
   * the board and the letters served differ in any count.
   */
  method CompareTileValuesExact(letters: Letters, sent: seq<Tile>, received: VecSet) returns (ok: bool)
    ensures ok <==> LettersOf(letters, received) == multiset(Values(sent))
  {
    var tileCount := TileCounts(letters, sent, received);
    ghost var served, board := multiset(Values(sent)), LettersOf(letters, received);
    var keys := tileCount.Keys;
    while keys != {}
      invariant keys <= tileCount.Keys
      invariant forall k :: k in tileCount && k !in keys ==> tileCount[k] == 0
      decreases |keys|
    {
      var k :| k in keys;
      if tileCount[k] != 0 {
        CountedAt(tileCount, served, board, k);
        assert board[k] != served[k];
        return false;
      }
      keys := keys - {k};
    }
    CountedZero(tileCount, served, board);
    return true;
  }

  /** Tiles C, A and T, priced by `pointValues`, are worth 5 points. */
  lemma CatPoints()
    ensures SumPoints([Tile("C", 3), Tile("A", 1), Tile("T", 1)]) == 5
  {
    var ts := [Tile("C", 3), Tile("A", 1), Tile("T", 1)];
    assert ts[..2] == [Tile("C", 3), Tile("A", 1)] && ts[..2][..1] == [Tile("C", 3)];
    assert SumPoints(ts[..2][..1]) == 3;
  }

  /** The letters C, A and T are worth 5 points. */
  lemma CatLetterPoints()
    ensures MPoints(multiset{"C", "A", "T"}) == 5
  {
    MPointsOfTwo("C", "A");
    MPointsAdd(multiset{"C", "A"}, "T");
    assert multiset{"C", "A"} + multiset{"T"} == multiset{"C", "A", "T"};
  }

  lemma MPointsOfTwo(a: string, b: string)
    ensures MPoints(multiset{a, b}) == PointValue(a) + PointValue(b)
  {
    MPointsAdd(multiset{}, a);
    MPointsAdd(multiset{a}, b);
    assert multiset{} + multiset{a} == multiset{a};
    assert multiset{a} + multiset{b} == multiset{a, b};
  }
}

=== FILE: server_board.dfy ===
/**
 * The oldest server's board checks (server.go): components found on the grid itself,
 * with a map from each visited cell to the component it joined, and `verifyBoard`, which
 * reads every word of two or more letters straight off the grid.
 */
module ServerBoard {
  import opened Vectors
  import opened VecSets
  import opened Words
  import GB = GameBoard
  import MB = MainBoard

  /** `v` comes before `(i, j)` in the row-by-row order of the scan. */
  predicate Before(v: Vec, i: int, j: int) {
    v.x < i || (v.x == i && v.y < j)
  }

  /** Row `v.x`, column `v.y` lies on the grid and holds a letter. */
  predicate HasLetter(b: MB.Board, v: Vec)
    requires GB.Rectangular(b)
  {
    GB.InGrid(b, v) && b[v.x][v.y] != ""
  }

  /** `s` is the set of cells of `b` that hold a letter. */
  ghost predicate OccupiedBy(b: MB.Board, s: VecSet)
    requires GB.Rectangular(b)
  {
    forall v {:trigger HasLetter(b, v)} :: v in s <==> HasLetter(b, v)
  }

  /** Every occupied cell lies on the grid. */
  lemma OccupiedInGrid(b: MB.Board, s: VecSet)
    requires GB.Rectangular(b) && OccupiedBy(b, s)
    ensures forall v :: v in s ==> GB.InGrid(b, v)
  {
    forall v | v in s
      ensures GB.InGrid(b, v)
    {
      assert HasLetter(b, v);
    }
  }

  lemma OccupiedByOccupied(b: MB.Board)
    requires GB.Rectangular(b)
    ensures OccupiedBy(b, MB.Occupied(b))
  {
    forall v
      ensures v in MB.Occupied(b) <==> HasLetter(b, v)
    {
      MB.OccupiedIff(b, v);
    }
  }

  /**
   * `found1` is `found0` followed by the cells of `keys1` not in `keys0`, each once, in
   * some order.
   */
  ghost predicate Appended(found0: seq<Vec>, found1: seq<Vec>, keys0: VecSet, keys1: VecSet) {
    && keys0 <= keys1
    && |found1| == |found0| + |keys1 - keys0|
    && found1[..|found0|] == found0
    && (forall i :: |found0| <= i < |found1| ==> found1[i] in keys1 - keys0)
    && (forall v :: v in keys1 - keys0 ==> v in found1[|found0|..])
  }

  lemma AppendedTrans(f0: seq<Vec>, f1: seq<Vec>, f2: seq<Vec>, k0: VecSet, k1: VecSet, k2: VecSet)
    requires Appended(f0, f1, k0, k1) && Appended(f1, f2, k1, k2)
    ensures Appended(f0, f2, k0, k2)
  {
    assert k2 - k0 == (k2 - k1) + (k1 - k0);
    assert (k2 - k1) * (k1 - k0) == {};
    assert f2[..|f0|] == f2[..|f1|][..|f0|];
    forall i | |f0| <= i < |f2|
      ensures f2[i] in k2 - k0
    {
      if i < |f1| {
        assert f2[i] == f2[..|f1|][i];
      }
    }
    forall v | v in k2 - k0
      ensures v in f2[|f0|..]
    {
      if v in k1 - k0 {
        var n :| 0 <= n < |f1[|f0|..]| && f1[|f0|..][n] == v;
        assert f2[|f0|..][n] == f2[..|f1|][|f0| + n];
      } else {
        var n :| 0 <= n < |f2[|f1|..]| && f2[|f1|..][n] == v;
        assert f2[|f0|..][|f1| - |f0| + n] == v;
      }
    }
  }

  /** `c'` keeps every entry of `c` and maps each cell it adds to `id`. */
  ghost predicate Extends(c: map<Vec, nat>, c': map<Vec, nat>, id: nat) {
    && (forall v :: v in c ==> v in c' && c'[v] == c[v])
    && (forall v :: v in c' && v !in c ==> c'[v] == id)
  }

  lemma ExtendsTrans(c0: map<Vec, nat>, c1: map<Vec, nat>, c2: map<Vec, nat>, id: nat)
    requires Extends(c0, c1, id) && Extends(c1, c2, id)
    ensures Extends(c0, c2, id)
  {
  }

  /**
   * Part way through the search from `v`, after its first `done` neighbours: `k` holds `v`
   * and cells of `s` reachable from it, no step leaves it except from the cells `k0` known
   * before, the neighbours searched so far are in it, and `f` lists the new cells after
   * `f0`.
   */
  ghost predicate Searching(s: VecSet, v: Vec, k0: VecSet, k: VecSet, f0: seq<Vec>, f: seq<Vec>, done: nat) {
    && k0 + {v} <= k <= k0 + s
    && AllReachable(s, v, k - k0)
    && ClosedFrom(k, s, k0 + {v})
    && Appended(f0, f, k0, k)
    && done <= 4
    && (forall i :: 0 <= i < done && Neighbours(v)[i] in s ==> Neighbours(v)[i] in k)
  }

  /** One recursive call of `findConnectedTiles` from the next neighbour of `v`, as the caller sees it. */
  lemma ExploreAppendStep(s: VecSet, v: Vec, k0: VecSet, ka: VecSet, kb: VecSet,
                          f0: seq<Vec>, fa: seq<Vec>, fb: seq<Vec>, done: nat)
    requires v in s && v !in k0 && done < 4
    requires Searching(s, v, k0, ka, f0, fa, done)
    requires Explored(s, Neighbours(v)[done], ka, kb) && Appended(fa, fb, ka, kb)
    ensures Searching(s, v, k0, kb, f0, fb, done + 1)
    ensures |s - kb| < |s - k0|
  {
    ExploreStep(s, v, k0, ka, Neighbours(v)[done], kb);
    AppendedTrans(f0, fa, fb, k0, ka, kb);
    SubsetCard(s - kb, s - k0);
  }

  /** The search from `v` starts with `v` alone. */
  lemma SearchStart(s: VecSet, v: Vec, k0: VecSet, f0: seq<Vec>)
    requires v in s && v !in k0
    ensures Searching(s, v, k0, k0 + {v}, f0, f0 + [v], 0)
    ensures |s - (k0 + {v})| < |s - k0|
  {
    assert (f0 + [v])[..|f0|] == f0;
    assert (k0 + {v}) - k0 == {v};
    assert IsPath(s, [v]);
    SubsetCard(s - (k0 + {v}), s - k0);
  }

  /** Once every neighbour of `v` has been searched, the search from `v` is done. */
  lemma SearchDone(s: VecSet, v: Vec, k0: VecSet, k: VecSet, f0: seq<Vec>, f: seq<Vec>)
    requires v in s && Searching(s, v, k0, k, f0, f, 4)
    ensures Explored(s, v, k0, k) && Appended(f0, f, k0, k)
  {
    forall u, n | u in k && u !in k0 && n in s && Adjacent(u, n)
      ensures n in k
    {
      if u == v {
        var i :| 0 <= i < 4 && Neighbours(v)[i] == n;
      }
    }
  }

  /**
   * `Board.findConnectedTiles` (server.go:98-110). `c` maps every cell already given a
   * component to that component (`id` stands for the `found` list it points to). A
   * non-empty cell of the grid with no component yet is mapped to `id`, appended to
   * `found`, and the search goes on from its four neighbours in turn. Afterwards the
   * new cells are exactly what a search of the occupied cells from `tile` adds, all
   * mapped to `id` and appended to `found` once each; earlier entries are unchanged.
   * The guard reads `b[0]` only once `tile.x < len(b)` holds, so an empty board is
   * read only for a negative `tile.x`, where Go panics.
   */
  method FindConnectedTiles(b: MB.Board, ghost s: VecSet, c: map<Vec, nat>, tile: Vec, id: nat, found: seq<Vec>)
    returns (c': map<Vec, nat>, found': seq<Vec>)
    requires GB.Rectangular(b) && (|b| > 0 || tile.x >= 0) && OccupiedBy(b, s)
    ensures Explored(s, tile, c.Keys, c'.Keys)
    ensures Extends(c, c', id)
    ensures Appended(found, found', c.Keys, c'.Keys)
    decreases |s - c.Keys|, 2
  {
    assert tile in s <==> HasLetter(b, tile);
    if tile !in c && tile.x < |b| && tile.y < |b[0]| && tile.x >= 0 && tile.y >= 0 && b[tile.x][tile.y] != "" {
      c', found' := ExploreFrom(b, s, c, tile, id, found);
    } else {
      c', found' := c, found;
    }
  }

  /** The branch of `findConnectedTiles` that takes a new tile and visits its neighbours. */
  method ExploreFrom(b: MB.Board, ghost s: VecSet, c: map<Vec, nat>, tile: Vec, id: nat, found: seq<Vec>)
    returns (c': map<Vec, nat>, found': seq<Vec>)
    requires GB.Rectangular(b) && |b| > 0 && OccupiedBy(b, s)
    requires tile in s && tile !in c
    ensures Explored(s, tile, c.Keys, c'.Keys)
    ensures Extends(c, c', id)
    ensures Appended(found, found', c.Keys, c'.Keys)
    decreases |s - c.Keys|, 1
  {
    c' := c[tile := id];
    found' := found + [tile];
    assert c'.Keys == c.Keys + {tile};
    SearchStart(s, tile, c.Keys, found);
    c', found' := VisitNeighbour(b, s, c, c', tile, id, found, found', 0);
    c', found' := VisitNeighbour(b, s, c, c', tile, id, found, found', 1);
    c', found' := VisitNeighbour(b, s, c, c', tile, id, found, found', 2);
    c', found' := VisitNeighbour(b, s, c, c', tile, id, found, found', 3);
    SearchDone(s, tile, c.Keys, c'.Keys, found, found');
  }

  /**
   * The recursive call of `findConnectedTiles` on the neighbour of `tile` numbered `i`:
   * `(1, 0)`, `(0, 1)`, `(-1, 0)`, `(0, -1)` away.
   */
  method VisitNeighbour(b: MB.Board, ghost s: VecSet, ghost c0: map<Vec, nat>, c: map<Vec, nat>, tile: Vec,
                        id: nat, ghost f0: seq<Vec>, found: seq<Vec>, i: nat)
    returns (c': map<Vec, nat>, found': seq<Vec>)
    requires GB.Rectangular(b) && |b| > 0 && OccupiedBy(b, s)
    requires tile in s && tile !in c0 && i < 4
    requires Searching(s, tile, c0.Keys, c.Keys, f0, found, i) && Extends(c0, c, id)
    ensures Searching(s, tile, c0.Keys, c'.Keys, f0, found', i + 1) && Extends(c0, c', id)
    decreases |s - c0.Keys|, 0
  {
    SubsetCard(s - c.Keys, s - c0.Keys);
    c', found' := FindConnectedTiles(b, s, c, Neighbours(tile)[i], id, found);
    ExploreAppendStep(s, tile, c0.Keys, c.Keys, c'.Keys, f0, found, found', i);
    ExtendsTrans(c0, c, c', id);
  }

  /** Every step of a walk from a new cell stays among the new cells of a search. */
  lemma {:induction false} PathStaysNew(s: VecSet, c: VecSet, r: VecSet, p: seq<Vec>, k: nat)
    requires IsPath(s, p) && p[0] in r && p[0] !in c && k < |p|
    requires Closed(c, s) && ClosedFrom(r, s, c)
    ensures p[k] in r && p[k] !in c
  {
    if k > 0 {
      PathStaysNew(s, c, r, p, k - 1);
      assert Adjacent(p[k - 1], p[k]) && Adjacent(p[k], p[k - 1]);
    }
  }

  /**
   * A search from a cell outside the closed set `c` of cells already assigned adds
   * exactly that cell's component.
   */
  lemma ExploredFromCovered(s: VecSet, v: Vec, c: VecSet, r: VecSet)
    requires v in s && v !in c && Closed(c, s) && Explored(s, v, c, r)
    ensures r - c == Component(s, v)
  {
    forall u | u in Component(s, v)
      ensures u in r - c
    {
      var p :| IsPath(s, p) && p[0] == v && p[|p| - 1] == u;
      PathStaysNew(s, c, r, p, |p| - 1);
    }
  }

  /** The cells of a list. */
  function Elements(xs: seq<Vec>): VecSet {
    set x | x in xs
  }

  /** The cells of each list. */
  function Sets(rs: seq<seq<Vec>>): (ss: seq<VecSet>)
    ensures |ss| == |rs|
    ensures forall i :: 0 <= i < |rs| ==> ss[i] == Elements(rs[i])
  {
    if rs == [] then [] else Sets(rs[..|rs| - 1]) + [Elements(rs[|rs| - 1])]
  }

  /** Every list holds each of its cells once. */
  predicate NoRepeats(rs: seq<seq<Vec>>) {
    forall i :: 0 <= i < |rs| ==> |rs[i]| == |Elements(rs[i])|
  }

  /** A list appended by a search from an empty list holds the new cells, each once. */
  lemma AppendedElements(found: seq<Vec>, k0: VecSet, k1: VecSet)
    requires Appended([], found, k0, k1)
    ensures Elements(found) == k1 - k0 && |found| == |k1 - k0|
  {
    assert found[0..] == found;
  }

  /** A search from an uncovered tile adds that tile's component as one more list. */
  lemma CoveringAppend(s: VecSet, result: seq<seq<Vec>>, k0: VecSet, tile: Vec, k1: VecSet, found: seq<Vec>)
    requires Covering(s, Sets(result), k0) && NoRepeats(result)
    requires tile in s && tile !in k0
    requires Explored(s, tile, k0, k1) && Appended([], found, k0, k1)
    ensures Covering(s, Sets(result + [found]), k1) && NoRepeats(result + [found])
  {
    var comp := Component(s, tile);
    ExploredFromCovered(s, tile, k0, k1);
    AppendedElements(found, k0, k1);
    assert k1 == k0 + comp;
    SetsAppend(result, found);
    CoveringGrows(s, Sets(result), k0, tile, comp);
    NoRepeatsAppend(result, found);
  }

  lemma SetsAppend(rs: seq<seq<Vec>>, xs: seq<Vec>)
    ensures Sets(rs + [xs]) == Sets(rs) + [Elements(xs)]
  {
    assert (rs + [xs])[..|rs|] == rs;
  }

  lemma NoRepeatsAppend(rs: seq<seq<Vec>>, xs: seq<Vec>)
    requires NoRepeats(rs) && |xs| == |Elements(xs)|
    ensures NoRepeats(rs + [xs])
  {
    assert forall i :: 0 <= i < |rs| ==> (rs + [xs])[i] == rs[i];
  }

  /**
   * `Board.findComponents` (server.go:112-132): the grid is scanned row by row, and
   * every non-empty cell with no component yet starts a new one. The lists returned
   * partition the occupied cells `s` into their 4-connected components, each cell listed
   * once.
   */
  method FindComponents(b: MB.Board, ghost s: VecSet) returns (result: seq<seq<Vec>>)
    requires GB.Rectangular(b) && |b| > 0 && OccupiedBy(b, s)
    ensures UnionAll(Sets(result)) == s
    ensures PairwiseDisjoint(Sets(result))
    ensures forall i :: 0 <= i < |result| ==> IsComponent(s, Sets(result)[i])
    ensures NoRepeats(result)
  {
    OccupiedInGrid(b, s);
    result := [];
    var maxX := |b|;
    var maxY := |b[0]|;
    var c: map<Vec, nat> := map[];
    for i := 0 to maxX
      invariant Covering(s, Sets(result), c.Keys) && NoRepeats(result)
      invariant ScannedTo(s, c.Keys, i, 0)
    {
      for j := 0 to maxY
        invariant Covering(s, Sets(result), c.Keys) && NoRepeats(result)
        invariant ScannedTo(s, c.Keys, i, j)
      {
        ghost var c0 := c.Keys;
        c, result := ScanCell(b, s, c, result, i, j);
        ScannedCell(s, c0, c.Keys, i, j);
      }
      ScannedRow(s, c.Keys, i, maxY);
    }
    ScannedAll(s, Sets(result), c.Keys, maxX);
  }

  /** Every tile of `s` before cell `(i, j)` in row-major order has been assigned. */
  ghost predicate ScannedTo(s: VecSet, c: VecSet, i: int, j: int) {
    forall v :: v in s && Before(v, i, j) ==> v in c
  }

  lemma ScannedCell(s: VecSet, c: VecSet, c': VecSet, i: int, j: int)
    requires ScannedTo(s, c, i, j) && c <= c' && (Vec(i, j) in s ==> Vec(i, j) in c')
    ensures ScannedTo(s, c', i, j + 1)
  {
    forall v | v in s && Before(v, i, j + 1)
      ensures v in c'
    {
      assert v == Vec(i, j) || Before(v, i, j);
    }
  }

  lemma ScannedRow(s: VecSet, c: VecSet, i: int, w: int)
    requires ScannedTo(s, c, i, w) && forall v :: v in s ==> 0 <= v.y < w
    ensures ScannedTo(s, c, i + 1, 0)
  {
    forall v | v in s && Before(v, i + 1, 0)
      ensures v in c
    {
      assert Before(v, i, w);
    }
  }

  lemma ScannedAll(s: VecSet, comps: seq<VecSet>, c: VecSet, h: int)
    requires Covering(s, comps, c) && ScannedTo(s, c, h, 0) && forall v :: v in s ==> v.x < h
    ensures UnionAll(comps) == s
  {
    forall v | v in s
      ensures v in c
    {
      assert Before(v, h, 0);
    }
  }

  /**
   * The body of the scan in `findComponents` (server.go:121-126): a non-empty cell with no
   * component yet is searched from, and the cells found become a new list.
   */
  method ScanCell(b: MB.Board, ghost s: VecSet, c: map<Vec, nat>, result: seq<seq<Vec>>, i: int, j: int)
    returns (c': map<Vec, nat>, result': seq<seq<Vec>>)
    requires GB.Rectangular(b) && |b| > 0 && OccupiedBy(b, s)
    requires 0 <= i < |b| && 0 <= j < |b[0]|
    requires Covering(s, Sets(result), c.Keys) && NoRepeats(result)
    ensures Covering(s, Sets(result'), c'.Keys) && NoRepeats(result')
    ensures c.Keys <= c'.Keys && (Vec(i, j) in s ==> Vec(i, j) in c')
  {
    var tile := Vec(i, j);
    assert tile in s <==> HasLetter(b, tile);
    c', result' := c, result;
    if tile !in c && b[i][j] != "" {
      var thisCompFound;
      c', thisCompFound := FindConnectedTiles(b, s, c, tile, |result|, []);
      CoveringAppend(s, result, c.Keys, tile, c'.Keys, thisCompFound);
      result' := result + [thisCompFound];
    }
  }

  /**
   * `verifyComponent` (server.go:134-141): a component needs two or more tiles, so the
   * empty list and a single tile fail.
   */
  function VerifyComponent(v: seq<Vec>): (ok: bool)
    ensures !ok <==> v == [] || v == [v[0]]
  {
    |v| > 1
  }

  /**
   * For a component listed by `findComponents`, `verifyComponent` fails exactly when its
   * one tile has no occupied neighbour.
   */
  lemma VerifyComponentFailsIffIsolated(s: VecSet, v: seq<Vec>)
    requires IsComponent(s, Elements(v)) && |v| == |Elements(v)|
    ensures !VerifyComponent(v) <==> forall u :: u in v ==> Isolated(s, u)
  {
    var w :| w in Elements(v) && Elements(v) == Component(s, w);
    if |v| <= 1 {
      forall u | u in v
        ensures Isolated(s, u)
      {
        SmallComponentIsolated(s, Elements(v), u);
      }
    } else {
      LargeComponentNotIsolated(s, Elements(v), w);
    }
  }

  /** `letters` gives the letter in each cell of `s`, as the grid holds it. */
  ghost predicate LettersBy(b: MB.Board, s: VecSet, letters: Letters)
    requires GB.Rectangular(b)
  {
    && letters.Keys == s
    && forall v {:trigger HasLetter(b, v)} :: HasLetter(b, v) && v in letters ==> letters[v] == b[v.x][v.y]
  }

  lemma BoardLettersBy(b: MB.Board)
    requires GB.Rectangular(b)
    ensures OccupiedBy(b, MB.Occupied(b)) && LettersBy(b, MB.Occupied(b), MB.BoardLetters(b))
  {
    OccupiedByOccupied(b);
  }

  /** Every run of two or more letters of `s`, down a column or along a row, is a dictionary word. */
  ghost predicate WordsValid(s: VecSet, letters: Letters, dict: set<string>)
    requires s <= letters.Keys
  {
    forall v, d :: IsDir(d) && StartsRun(s, v, d) ==> WordAt(letters, s, v, d) in dict
  }

  /** Every word that starts at a cell before `(i, j)` is a dictionary word. */
  ghost predicate WordsValidBefore(s: VecSet, letters: Letters, dict: set<string>, i: int, j: int)
    requires s <= letters.Keys
  {
    forall v, d :: IsDir(d) && StartsRun(s, v, d) && Before(v, i, j) ==> WordAt(letters, s, v, d) in dict
  }

  /** The words that start at `v` are dictionary words. */
  ghost predicate CellValid(s: VecSet, letters: Letters, dict: set<string>, v: Vec)
    requires s <= letters.Keys
  {
    forall d :: IsDir(d) && StartsRun(s, v, d) ==> WordAt(letters, s, v, d) in dict
  }

  lemma CellValidIff(s: VecSet, letters: Letters, dict: set<string>, v: Vec)
    requires s <= letters.Keys
    ensures CellValid(s, letters, dict, v) <==>
      && (StartsRun(s, v, Vec(1, 0)) ==> WordAt(letters, s, v, Vec(1, 0)) in dict)
      && (StartsRun(s, v, Vec(0, 1)) ==> WordAt(letters, s, v, Vec(0, 1)) in dict)
  {
  }

  /** An occupied cell lies on the grid, and its letter is the one the grid holds. */
  lemma GridLetter(b: MB.Board, s: VecSet, letters: Letters, w: Vec)
    requires GB.Rectangular(b) && OccupiedBy(b, s) && LettersBy(b, s, letters) && w in s
    ensures GB.InGrid(b, w) && w in letters && letters[w] == b[w.x][w.y]
  {
    assert HasLetter(b, w);
  }

  /** One more letter read: the run walked so far grows by `next`, the word by its letter. */
  lemma ReadStep(s: VecSet, letters: Letters, v: Vec, d: Vec, walked: seq<Vec>, result: VecSet,
                 next: Vec, word: string, c: string)
    requires IsDir(d) && letters.Keys == s && v in s && next in s && c == letters[next]
    requires Walking(s, v, d, walked, result, next)
    requires word == letters[v] + Spell(letters, walked)
    ensures Walking(s, v, d, walked + [next], result + {next}, Add(next, d))
    ensures word + c == letters[v] + Spell(letters, walked + [next])
  {
    WalkStep(s, v, d, walked, result, next);
    SpellAppend(letters, walked, next);
  }

  /**
   * The word-reading loops of `verifyBoard` (server.go:153-160, 168-175): the letter at
   * `(i, j)`, the next one in direction `d`, then every further letter up to the first
   * empty cell or the edge of the grid. The result is the word that starts there.
   */
  method ReadWord(b: MB.Board, ghost s: VecSet, ghost letters: Letters, i: int, j: int, d: Vec)
    returns (word: string)
    requires GB.Rectangular(b) && OccupiedBy(b, s) && LettersBy(b, s, letters) && IsDir(d)
    requires StartsRun(s, Vec(i, j), d)
    ensures word == WordAt(letters, s, Vec(i, j), d)
  {
    ghost var v := Vec(i, j);
    ghost var walked: seq<Vec> := [];
    ghost var result := {v};
    var next := Add(Vec(i, j), d);
    assert (set w | w in walked) == {};
    assert Walking(s, v, d, walked, result, next);
    GridLetter(b, s, letters, v);
    GridLetter(b, s, letters, next);
    ReadStep(s, letters, v, d, walked, result, next, b[i][j], b[next.x][next.y]);
    word := b[i][j] + b[next.x][next.y];
    walked, result := walked + [next], result + {next};
    next := Add(next, d);
    var limit := if d == Vec(1, 0) then |b| else |b[0]|;
    var k := if d == Vec(1, 0) then i + 2 else j + 2;
    while k < limit && b[next.x][next.y] != ""
      invariant next == if d == Vec(1, 0) then Vec(k, j) else Vec(i, k)
      invariant 0 <= i < |b| && 0 <= j < |b[0]| && k >= 0
      invariant Walking(s, v, d, walked, result, next)
      invariant word == letters[v] + Spell(letters, walked)
      decreases limit - k
    {
      assert HasLetter(b, next);
      GridLetter(b, s, letters, next);
      ReadStep(s, letters, v, d, walked, result, next, word, b[next.x][next.y]);
      word := word + b[next.x][next.y];
      walked, result := walked + [next], result + {next};
      next := Add(next, d);
      k := k + 1;
    }
    assert !HasLetter(b, next);
    assert Run(s - result, next, d) == [];
    assert Run(s - {v}, Add(v, d), d) == walked;
  }

  /** The guards of the column check, as intended, hold exactly where a column word starts. */
  lemma StartsDownIff(b: MB.Board, s: VecSet, i: int, j: int)
    requires GB.Rectangular(b) && OccupiedBy(b, s) && 0 <= i < |b| && 0 <= j < |b[0]|
    ensures StartsRun(s, Vec(i, j), Vec(1, 0)) <==>
      b[i][j] != "" && (i == 0 || b[i - 1][j] == "") && !(i == |b| - 1 || b[i + 1][j] == "")
  {
    assert HasLetter(b, Vec(i, j)) <==> Vec(i, j) in s;
    assert HasLetter(b, Sub(Vec(i, j), Vec(1, 0))) <==> Sub(Vec(i, j), Vec(1, 0)) in s;
    assert HasLetter(b, Add(Vec(i, j), Vec(1, 0))) <==> Add(Vec(i, j), Vec(1, 0)) in s;
  }

  /** The guards of the row check, as intended, hold exactly where a row word starts. */
  lemma StartsAcrossIff(b: MB.Board, s: VecSet, i: int, j: int)
    requires GB.Rectangular(b) && OccupiedBy(b, s) && 0 <= i < |b| && 0 <= j < |b[0]|
    ensures StartsRun(s, Vec(i, j), Vec(0, 1)) <==>
      b[i][j] != "" && (j == 0 || b[i][j - 1] == "") && !(j == |b[0]| - 1 || b[i][j + 1] == "")
  {
    assert HasLetter(b, Vec(i, j)) <==> Vec(i, j) in s;
    assert HasLetter(b, Sub(Vec(i, j), Vec(0, 1))) <==> Sub(Vec(i, j), Vec(0, 1)) in s;
    assert HasLetter(b, Add(Vec(i, j), Vec(0, 1))) <==> Add(Vec(i, j), Vec(0, 1)) in s;
  }

  /**
   * One cell of `verifyBoard` (server.go:150-181): a cell that starts a word down its
   * column (nothing above it, a letter below it) or along its row (nothing to its left, a
   * letter to its right) passes only when that word is in the dictionary. The last row
   * and column have nothing below or to the right of them.
   */
  method VerifyCell(b: MB.Board, ghost s: VecSet, ghost letters: Letters, dict: set<string>, i: int, j: int)
    returns (ok: bool)
    requires GB.Rectangular(b) && OccupiedBy(b, s) && LettersBy(b, s, letters)
    requires 0 <= i < |b| && 0 <= j < |b[0]|
    ensures ok <==> CellValid(s, letters, dict, Vec(i, j))
  {
    var maxX, maxY := |b|, |b[0]|;
    StartsDownIff(b, s, i, j);
    StartsAcrossIff(b, s, i, j);
    CellValidIff(s, letters, dict, Vec(i, j));
    if b[i][j] != "" {
      if i == 0 || b[i - 1][j] == "" {
        if !(i == maxX - 1 || b[i + 1][j] == "") {
          var word := ReadWord(b, s, letters, i, j, Vec(1, 0));
          if word !in dict {
            return false;
          }
        }
      }
      if j == 0 || b[i][j - 1] == "" {
        if !(j == maxY - 1 || b[i][j + 1] == "") {
          var word := ReadWord(b, s, letters, i, j, Vec(0, 1));
          if word !in dict {
            return false;
          }
        }
      }
    }
    return true;
  }

  /** The scan moves past a cell whose words are valid. */
  lemma ValidBeforeNext(s: VecSet, letters: Letters, dict: set<string>, i: int, j: int)
    requires s <= letters.Keys
    requires WordsValidBefore(s, letters, dict, i, j) && CellValid(s, letters, dict, Vec(i, j))
    ensures WordsValidBefore(s, letters, dict, i, j + 1)
  {
    forall v, d | IsDir(d) && StartsRun(s, v, d) && Before(v, i, j + 1)
      ensures WordAt(letters, s, v, d) in dict
    {
      if v != Vec(i, j) {
        assert Before(v, i, j);
      }
    }
  }

  /** The scan moves past the end of a row. */
  lemma ValidBeforeRow(b: MB.Board, s: VecSet, letters: Letters, dict: set<string>, i: int)
    requires GB.Rectangular(b) && |b| > 0 && OccupiedBy(b, s) && s <= letters.Keys
    requires WordsValidBefore(s, letters, dict, i, |b[0]|)
    ensures WordsValidBefore(s, letters, dict, i + 1, 0)
  {
    forall v, d | IsDir(d) && StartsRun(s, v, d) && Before(v, i + 1, 0)
      ensures WordAt(letters, s, v, d) in dict
    {
      assert HasLetter(b, v);
      assert Before(v, i, |b[0]|);
    }
  }

  /** After the last row every word has been checked. */
  lemma ValidBeforeEnd(b: MB.Board, s: VecSet, letters: Letters, dict: set<string>)
    requires GB.Rectangular(b) && OccupiedBy(b, s) && s <= letters.Keys
    requires WordsValidBefore(s, letters, dict, |b|, 0)
    ensures WordsValid(s, letters, dict)
  {
    forall v, d | IsDir(d) && StartsRun(s, v, d)
      ensures WordAt(letters, s, v, d) in dict
    {
      assert HasLetter(b, v);
      assert Before(v, |b|, 0);
    }
  }

  /**
   * `verifyBoard` (server.go:143-185), with the last-row and last-column guards as
   * intended: true exactly when every run of two or more letters, down a column or
   * along a row, is a dictionary word.
   */
  method VerifyBoard(b: MB.Board, dict: set<string>) returns (ok: bool)
    requires GB.Rectangular(b) && |b| > 0
    ensures ok <==> WordsValid(MB.Occupied(b), MB.BoardLetters(b), dict)
  {
    ghost var s, letters := MB.Occupied(b), MB.BoardLetters(b);
    BoardLettersBy(b);
    var maxX, maxY := |b|, |b[0]|;
    for i := 0 to maxX
      invariant WordsValidBefore(s, letters, dict, i, 0)
    {
      for j := 0 to maxY
        invariant WordsValidBefore(s, letters, dict, i, j)
      {
        var cellOk := VerifyCell(b, s, letters, dict, i, j);
        if !cellOk {
          return false;
        }
        ValidBeforeNext(s, letters, dict, i, j);
      }
      ValidBeforeRow(b, s, letters, dict, i);
    }
    ValidBeforeEnd(b, s, letters, dict);
    return true;
  }

  /**
   * The guard of the column check as written (server.go:152): `i == maxX` never holds
   * inside the loop, so it goes on to read the row below, `board[i+1]`, which must exist.
   */
  function ColumnGuardAsWritten(b: MB.Board, i: int, j: int): (ok: bool)
    requires 0 <= i && i + 1 < |b| && 0 <= j < |b[i + 1]|
    ensures ok <==> b[i + 1][j] != ""
  {
    !(i == |b| || b[i + 1][j] == "")
  }

  /**
   * The guard of the row check as written (server.go:167): `j == maxY` never holds, so it
   * reads `board[i][j+1]`, which must exist.
   */
  function RowGuardAsWritten(b: MB.Board, i: int, j: int): (ok: bool)
    requires 0 <= i < |b| && 0 <= j && j + 1 < |b[i]|
    ensures j < GB.Width(b) ==> (ok <==> b[i][j + 1] != "")
  {
    !(j == GB.Width(b) || b[i][j + 1] == "")
  }

  /**
   * Where the cells it reads exist, each guard as written agrees with the one
   * `VerifyCell` uses.
   */
  lemma GuardsAgreeInside(b: MB.Board, i: int, j: int)
    requires GB.Rectangular(b) && 0 <= i < |b| && 0 <= j < GB.Width(b)
    ensures i + 1 < |b| ==> ColumnGuardAsWritten(b, i, j) == !(i == |b| - 1 || b[i + 1][j] == "")
    ensures j + 1 < |b[i]| && |b[i]| == GB.Width(b) ==>
      RowGuardAsWritten(b, i, j) == !(j == GB.Width(b) - 1 || b[i][j + 1] == "")
  {
  }

  /**
   * The one-row board "CAT": the loop reaches the column check at `(0, 0)` (a letter with
   * nothing above it), `i == maxX` is false, and the row below that the guard as written
   * reads does not exist: `!(0 + 1 < |b|)` is exactly the precondition `i + 1 < |b|` of
   * `ColumnGuardAsWritten(b, 0, 0)` failing, so Go's read of `board[1]` is out of range.
   * The intended check finds "CAT" along the row.
   */
  lemma OneRowBoardReadsPastEnd()
    ensures var b := [["C", "A", "T"]];
      && b[0][0] != "" && 0 != |b|
      && !(0 + 1 < |b|)
      && StartsRun(MB.Occupied(b), Vec(0, 0), Vec(0, 1))
  {
    var b := [["C", "A", "T"]];
    MB.OccupiedIff(b, Vec(0, 0));
    MB.OccupiedIff(b, Vec(0, 1));
    MB.OccupiedIff(b, Vec(0, -1));
  }
}

=== FILE: server_game.dfy ===
/**
 * The oldest server's single game (server.go): a deck of letters dealt once at start-up,
 * twelve letters to begin with and then one letter per request, counted by `tilesServed`.
 */
module ServerGame {
  import opened Wrappers
  import opened ServerTiles

  /** The inner loop of `newTiles` (server.go:85-87): `n` copies of the letter `k`, appended one by one. */
  method AppendLetters(tiles: seq<string>, k: string, n: nat) returns (r: seq<string>)
    ensures r == tiles + Copies(k, n)
  {
    r := tiles;
    for j := 0 to n
      invariant r == tiles + Copies(k, j)
    {
      r := r + [k];
    }
  }

  /**
   * The shuffle of `newTiles` (server.go:89-92): position `i` is swapped with position
   * `rand.Intn(i + 1)`, drawn as `rolls[i] % (i + 1)` (0 past the end of `rolls`). The
   * letters are only permuted.
   */
  method ShuffleLetters(tiles: seq<string>, rolls: seq<nat>) returns (r: seq<string>)
    ensures |r| == |tiles| && multiset(r) == multiset(tiles)
  {
    r := tiles;
    for i := 0 to |r|
      invariant |r| == |tiles| && multiset(r) == multiset(tiles)
    {
      var roll := if i < |rolls| then rolls[i] else 0;
      var j := roll % (i + 1);
      SwapKeepsMultiset(r, i, j);
      r := r[i := r[j]][j := r[i]];
    }
  }

  /**
   * The first loop of `newTiles` (server.go:84-88), over the letters of `freq` in the
   * map's iteration order: each letter as many times as `freq` says.
   */
  method DealLetters(freq: map<string, nat>) returns (tiles: seq<string>)
    ensures forall k :: multiset(tiles)[k] == Count(freq, k)
  {
    tiles := [];
    var keys := freq.Keys;
    while keys != {}
      invariant keys <= freq.Keys
      invariant Dealt(freq, tiles, keys)
      decreases |keys|
    {
      var k :| k in keys;
      var r := AppendLetters(tiles, k, freq[k]);
      DealtStep(freq, tiles, keys, k, r);
      tiles := r;
      keys := keys - {k};
    }
  }

  /**
   * `newTiles` (server.go:82-94): for each letter of `freqMap` that many copies, then
   * shuffled. Every letter occurs exactly `freqMap` times.
   */
  method NewLetterTiles(rolls: seq<nat>) returns (tiles: seq<string>)
    ensures forall k :: multiset(tiles)[k] == Freq(k)
  {
    tiles := DealLetters(FreqMap);
    tiles := ShuffleLetters(tiles, rolls);
  }

  /** A letter occurs in a list at most as often as the list is long. */
  lemma {:induction false} CountBound(s: seq<string>, x: string)
    ensures multiset(s)[x] <= |s|
  {
    if s != [] {
      CountBound(s[1..], x);
      assert s == [s[0]] + s[1..];
    }
  }

  /**
   * A full deal holds the 18 E's of `freqMap`, so the twelve letters of
   * `getInitialTiles` are always there.
   */
  lemma FullDealHasTwelve(tiles: seq<string>)
    requires forall k :: multiset(tiles)[k] == Freq(k)
    ensures |tiles| >= 18
  {
    assert Freq("E") == 18;
    CountBound(tiles, "E");
  }

  /** `Game{id, tiles, tilesServed}`; the mutex is left out. */
  class Game {
    var id: int
    var tiles: seq<string>
    var tilesServed: int

    /** The count never passes the end of the deck. */
    ghost predicate Valid()
      reads this
    {
      0 <= tilesServed <= |tiles|
    }

    /** The letters sent so far. */
    function Served(): seq<string>
      reads this
      requires Valid()
    {
      tiles[..tilesServed]
    }

    /** `makeNewGame` (server.go:51-53): a fresh deal, nothing served. */
    constructor (id: int, rolls: seq<nat>)
      ensures Valid() && this.id == id && Served() == []
      ensures forall k :: multiset(tiles)[k] == Freq(k)
    {
      var deck := NewLetterTiles(rolls);
      this.id := id;
      tiles := deck;
      tilesServed := 0;
    }

    /**
     * `getInitialTiles` (server.go:55-60): the first twelve letters are the ones served.
     * Slicing `tiles[:12]` needs twelve letters in the deck.
     */
    method GetInitialTiles() returns (ts: seq<string>)
      requires |tiles| >= 12
      modifies this
      ensures tiles == old(tiles) && id == old(id)
      ensures Valid() && tilesServed == 12
      ensures ts == Served() && |ts| == 12
    {
      tilesServed := 12;
      ts := tiles[..12];
    }

    /**
     * `getNextTile` (server.go:62-71) with the count read before it is incremented: ""
     * once the deck is used up, otherwise the next letter of the deck, which joins the
     * letters served.
     */
    method GetNextTile() returns (tile: string)
      requires Valid()
      modifies this
      ensures tiles == old(tiles) && id == old(id) && Valid()
      ensures old(tilesServed) == |tiles| ==> tile == "" && tilesServed == old(tilesServed)
      ensures old(tilesServed) < |tiles| ==> tile == tiles[old(tilesServed)] && Served() == old(Served()) + [tile]
    {
      if tilesServed == |tiles| {
        return "";
      }
      tile := tiles[tilesServed];
      tilesServed := tilesServed + 1;
      assert tiles[..tilesServed] == tiles[..tilesServed - 1] + [tile];
    }
  }

  /**
   * `getNextTile` as written (server.go:62-71): the count is incremented first and the
   * letter at the new count returned; None when that position is past the end of the
   * deck, where Go panics.
   */
  function NextTileAsWritten(tiles: seq<string>, tilesServed: int): (r: Option<(string, int)>)
    requires 0 <= tilesServed <= |tiles|
    ensures r.Some? ==> r.value.1 == if tilesServed == |tiles| then tilesServed else tilesServed + 1
    ensures tilesServed + 1 < |tiles| ==> r.Some? && r.value.0 == tiles[tilesServed + 1]
  {
    if tilesServed == |tiles| then Some(("", tilesServed))
    else if tilesServed + 1 < |tiles| then Some((tiles[tilesServed + 1], tilesServed + 1))
    else None
  }

  /**
   * Right after `getInitialTiles` the code as written sends the fourteenth letter and
   * counts thirteen served: the player holds the first twelve and `tiles[13]`, never
   * `tiles[12]`, while the count claims the first thirteen.
   */
  lemma AsWrittenSkipsThirteenth(tiles: seq<string>)
    requires |tiles| >= 14 && tiles[12] != tiles[13]
    ensures NextTileAsWritten(tiles, 12) == Some((tiles[13], 13))
    ensures tiles[..12] + [NextTileAsWritten(tiles, 12).value.0] != tiles[..NextTileAsWritten(tiles, 12).value.1]
  {
    assert tiles[..13][12] == tiles[12];
  }

  /**
   * The code as written fails exactly on the call made with one letter left: the guard
   * `tilesServed == len(tiles)` does not stop it and the position read is past the end.
   */
  lemma AsWrittenLastCallOutOfRange(tiles: seq<string>, tilesServed: int)
    requires 0 <= tilesServed <= |tiles|
    ensures NextTileAsWritten(tiles, tilesServed) == None <==> tilesServed == |tiles| - 1
  {
  }
}

=== FILE: server_tiles.dfy ===
/**
 * The server's tile records and letter tables (game.go, server.go): a `Tile` is a letter
 * with its point value, `freqMap` says how many tiles of each letter a game deals and
 * `pointValues` what each letter is worth.
 */
module ServerTiles {

  /** `Tile{Value, Points}`. */
  datatype Tile = Tile(value: string, points: int)

  /** `freqMap` (game.go:147-174, server.go:242-269). */
  const FreqMap: map<string, nat> := map[
    "A" := 13, "B" := 3, "C" := 3, "D" := 6, "E" := 18, "F" := 3, "G" := 4,
    "H" := 3, "I" := 12, "J" := 2, "K" := 2, "L" := 5, "M" := 3, "N" := 8,
    "O" := 11, "P" := 3, "Q" := 2, "R" := 9, "S" := 6, "T" := 9, "U" := 6,
    "V" := 3, "W" := 3, "X" := 2, "Y" := 3, "Z" := 2]

  /** `pointValues` (game.go:176-203, server.go:271-298). */
  const PointValues: map<string, int> := map[
    "A" := 1, "B" := 3, "C" := 3, "D" := 2, "E" := 1, "F" := 4, "G" := 2,
    "H" := 4, "I" := 1, "J" := 8, "K" := 5, "L" := 1, "M" := 3, "N" := 1,
    "O" := 1, "P" := 3, "Q" := 10, "R" := 1, "S" := 1, "T" := 1, "U" := 1,
    "V" := 4, "W" := 4, "X" := 8, "Y" := 4, "Z" := 10]

  /** `pointValues[k]`: a Go map read gives 0 for a letter with no entry. */
  function PointValue(k: string): (p: int)
    ensures k !in PointValues ==> p == 0
    ensures k in PointValues ==> p == PointValues[k]
  {
    if k in PointValues then PointValues[k] else 0
  }

  /** `freqMap[k]`, 0 for a letter with no entry. */
  function Freq(k: string): nat {
    Count(FreqMap, k)
  }

  /** The letters of a list of tiles, in order. */
  function Values(ts: seq<Tile>): (vs: seq<string>)
    ensures |vs| == |ts|
    ensures forall i :: 0 <= i < |ts| ==> vs[i] == ts[i].value
  {
    if ts == [] then [] else Values(ts[..|ts| - 1]) + [ts[|ts| - 1].value]
  }

  /** The sum of the `Points` fields of a list of tiles. */
  function SumPoints(ts: seq<Tile>): int {
    if ts == [] then 0 else SumPoints(ts[..|ts| - 1]) + ts[|ts| - 1].points
  }

  /** Each tile's points are its letter's entry in `pointValues`. */
  predicate Priced(ts: seq<Tile>) {
    forall i :: 0 <= i < |ts| ==> ts[i].points == PointValue(ts[i].value)
  }

  /** Swapping two entries of a list keeps its multiset. */
  lemma SwapKeepsMultiset<T>(s: seq<T>, i: nat, j: nat)
    requires i < |s| && j < |s|
    ensures multiset(s[i := s[j]][j := s[i]]) == multiset(s)
  {
    var s1 := s[i := s[j]];
    assert multiset(s1) == multiset(s) - multiset{s[i]} + multiset{s[j]};
    assert s1[j] == s[j];
    assert multiset(s1[j := s[i]]) == multiset(s1) - multiset{s[j]} + multiset{s[i]};
  }

  lemma ValuesAppend(ts: seq<Tile>, t: Tile)
    ensures Values(ts + [t]) == Values(ts) + [t.value]
  {
    assert (ts + [t])[..|ts|] == ts;
  }

  lemma SumPointsAppend(ts: seq<Tile>, t: Tile)
    ensures SumPoints(ts + [t]) == SumPoints(ts) + t.points
  {
    assert (ts + [t])[..|ts|] == ts;
  }

  /** Swapping two tiles permutes their letters the same way. */
  lemma ValuesSwap(ts: seq<Tile>, i: nat, j: nat)
    requires i < |ts| && j < |ts|
    ensures Values(ts[i := ts[j]][j := ts[i]]) == Values(ts)[i := Values(ts)[j]][j := Values(ts)[i]]
  {
    var s := ts[i := ts[j]][j := ts[i]];
    var vs := Values(ts);
    var l, r := Values(s), vs[i := vs[j]][j := vs[i]];
    assert |l| == |r|;
    forall k | 0 <= k < |l|
      ensures l[k] == r[k]
    {
      assert l[k] == s[k].value;
      if k == j {
        assert s[k] == ts[i] && r[k] == vs[i];
      } else if k == i {
        assert s[k] == ts[j] && r[k] == vs[j];
      } else {
        assert s[k] == ts[k] && r[k] == vs[k];
      }
    }
  }

  /** Swapping two tiles keeps the list priced and its letters' multiset. */
  lemma SwapTiles(ts: seq<Tile>, i: nat, j: nat)
    requires Priced(ts) && i < |ts| && j < |ts|
    ensures Priced(ts[i := ts[j]][j := ts[i]])
    ensures multiset(Values(ts[i := ts[j]][j := ts[i]])) == multiset(Values(ts))
  {
    ValuesSwap(ts, i, j);
    SwapKeepsMultiset(Values(ts), i, j);
  }

  /** `n` copies of the letter `k`. */
  function Copies(k: string, n: nat): (r: seq<string>)
    ensures |r| == n
  {
    if n == 0 then [] else Copies(k, n - 1) + [k]
  }

  /** `n` copies of `k` count `n` times for `k` and never for another letter. */
  lemma {:induction false} CopiesCount(k: string, n: nat, k': string)
    ensures multiset(Copies(k, n))[k'] == if k' == k then n else 0
  {
    if n > 0 {
      CopiesCount(k, n - 1, k');
    }
  }

  /** The inner loop of `newTiles`: `n` tiles of the letter `k`, appended one by one. */
  method AppendCopies(tiles: seq<Tile>, k: string, n: nat) returns (r: seq<Tile>)
    requires Priced(tiles)
    ensures Priced(r)
    ensures Values(r) == Values(tiles) + Copies(k, n)
  {
    r := tiles;
    for j := 0 to n
      invariant Priced(r)
      invariant Values(r) == Values(tiles) + Copies(k, j)
    {
      ValuesAppend(r, Tile(k, PointValue(k)));
      r := r + [Tile(k, PointValue(k))];
    }
  }

  /** How often `freq` asks for the letter `k`: 0 for a letter it does not list. */
  function Count(freq: map<string, nat>, k: string): nat {
    if k in freq then freq[k] else 0
  }

  /**
   * The letter counts of the list built so far: every letter of `freq` not among the
   * `keys` still to deal, each in full, and nothing else.
   */
  ghost predicate Dealt(freq: map<string, nat>, letters: seq<string>, keys: set<string>) {
    forall k :: multiset(letters)[k] == if k !in keys then Count(freq, k) else 0
  }

  lemma DealtStep(freq: map<string, nat>, letters: seq<string>, keys: set<string>, k: string, r: seq<string>)
    requires Dealt(freq, letters, keys) && k in keys && k in freq
    requires r == letters + Copies(k, freq[k])
    ensures Dealt(freq, r, keys - {k})
  {
    forall k' ensures multiset(r)[k'] == if k' !in keys - {k} then Count(freq, k') else 0 {
      CopiesCount(k, freq[k], k');
    }
  }

  /**
   * The first loop of `newTiles` (game.go:134-139), over the letters of `freq` in the
   * map's iteration order: each letter's tiles, priced from `pointValues`, as many as
   * `freq` says.
   */
  method DealInOrder(freq: map<string, nat>) returns (tiles: seq<Tile>)
    ensures Priced(tiles)
    ensures forall k :: multiset(Values(tiles))[k] == Count(freq, k)
  {
    tiles := [];
    var keys := freq.Keys;
    while keys != {}
      invariant keys <= freq.Keys
      invariant Priced(tiles)
      invariant Dealt(freq, Values(tiles), keys)
      decreases |keys|
    {
      var k :| k in keys;
      var r := AppendCopies(tiles, k, freq[k]);
      DealtStep(freq, Values(tiles), keys, k, Values(r));
      tiles := r;
      keys := keys - {k};
    }
  }

  /**
   * The shuffle of `newTiles` (game.go:140-143): each position `i` is swapped with the
   * position `rand.Intn(i + 1)`. The draw at `i` is `rolls[i] % (i + 1)` (0 past the end
   * of `rolls`), so any rolls give a legal draw; the tiles are only permuted.
   */
  method Shuffle(tiles: seq<Tile>, rolls: seq<nat>) returns (r: seq<Tile>)
    requires Priced(tiles)
    ensures Priced(r)
    ensures multiset(Values(r)) == multiset(Values(tiles))
  {
    r := tiles;
    for i := 0 to |r|
      invariant |r| == |tiles|
      invariant Priced(r)
      invariant multiset(Values(r)) == multiset(Values(tiles))
    {
      var roll := if i < |rolls| then rolls[i] else 0;
      var j := roll % (i + 1);
      SwapTiles(r, i, j);
      r := r[i := r[j]][j := r[i]];
    }
  }

  /**
   * `newTiles` (game.go:132-145): for each letter of `freqMap`, in the map's iteration
   * order, that many tiles priced from `pointValues`, then shuffled. The deal holds each
   * letter exactly `freqMap` times, every tile priced by `pointValues`.
   */
  method NewTiles(rolls: seq<nat>) returns (tiles: seq<Tile>)
    ensures Priced(tiles)
    ensures forall k :: multiset(Values(tiles))[k] == Freq(k)
  {
    tiles := DealInOrder(FreqMap);
    tiles := Shuffle(tiles, rolls);
  }
}

=== FILE: vec_sets.dfy ===
/**
 * The server's `VecSet` (a Go `map[Vec]struct{}` used as a set of board coordinates) and
 * the 4-connected components of such a set (game/board.go, board.go). A `VecSet` is a
 * Dafny `set<Vec>`; `contains` and `insert` are membership and `+ {v}`.
 */
module VecSets {
  import opened Vectors

  type VecSet = set<Vec>

  /** Two coordinates one unit step apart, horizontally or vertically. */
  predicate Adjacent(a: Vec, b: Vec) {
    (a.x == b.x && (a.y - b.y == 1 || b.y - a.y == 1)) ||
    (a.y == b.y && (a.x - b.x == 1 || b.x - a.x == 1))
  }

  /** The four coordinates `findConnectedTiles` visits from `v`, in its order. */
  function Neighbours(v: Vec): (ns: seq<Vec>)
    ensures |ns| == 4
    ensures forall i :: 0 <= i < 4 ==> Adjacent(v, ns[i])
    ensures forall n :: Adjacent(v, n) ==> n in ns
  {
    [Add(v, Vec(1, 0)), Add(v, Vec(0, 1)), Add(v, Vec(-1, 0)), Add(v, Vec(0, -1))]
  }

  /** A walk of unit steps that stays inside `s`. */
  ghost predicate IsPath(s: VecSet, p: seq<Vec>) {
    && |p| > 0
    && (forall i :: 0 <= i < |p| ==> p[i] in s)
    && (forall i :: 0 < i < |p| ==> Adjacent(p[i - 1], p[i]))
  }

  /** `b` can be reached from `a` by unit steps inside `s`. */
  ghost predicate Reachable(s: VecSet, a: Vec, b: Vec) {
    exists p :: IsPath(s, p) && p[0] == a && p[|p| - 1] == b
  }

  /** The 4-connected component of `v` in `s`: everything reachable from `v`. */
  ghost function Component(s: VecSet, v: Vec): VecSet {
    set u | u in s && Reachable(s, v, u)
  }

  /** `c` is one of the 4-connected components of `s`. */
  ghost predicate IsComponent(s: VecSet, c: VecSet) {
    exists v :: v in c && c == Component(s, v)
  }

  /** Every step out of `r` minus `base` that lands in `s` lands back in `r`. */
  ghost predicate ClosedFrom(r: VecSet, s: VecSet, base: VecSet) {
    forall u, n :: u in r && u !in base && n in s && Adjacent(u, n) ==> n in r
  }

  /** No step out of `r` that lands in `s` leaves `r`. */
  ghost predicate Closed(r: VecSet, s: VecSet) {
    forall u, n :: u in r && n in s && Adjacent(u, n) ==> n in r
  }

  /** No tile of `s` is next to `u`: `u` forms a component on its own. */
  predicate Isolated(s: VecSet, u: Vec) {
    forall i :: 0 <= i < 4 ==> Neighbours(u)[i] !in s
  }

  /** Everything in `x` is reachable from `v` inside `s`. */
  ghost predicate AllReachable(s: VecSet, v: Vec, x: VecSet) {
    forall u :: u in x ==> Reachable(s, v, u)
  }

  /**
   * What one `findConnectedTiles(v, found)` call on `s` does to `found`: it only adds
   * tiles of `s`, adds `v` when `v` is a tile not yet found, adds only tiles reachable
   * from `v`, and leaves no new tile with an unvisited neighbour in `s`.
   */
  ghost predicate Explored(s: VecSet, v: Vec, found: VecSet, r: VecSet) {
    && found <= r <= found + s
    && (v in s ==> v in r)
    && AllReachable(s, v, r - found)
    && ClosedFrom(r, s, found)
  }

  /** The union of a list of sets. */
  function UnionAll(cs: seq<VecSet>): (u: VecSet)
    ensures forall i :: 0 <= i < |cs| ==> cs[i] <= u
  {
    if cs == [] then {} else UnionAll(cs[..|cs| - 1]) + cs[|cs| - 1]
  }

  /** The sets of `cs` have no element in common. */
  predicate PairwiseDisjoint(cs: seq<VecSet>) {
    forall i, j :: 0 <= i < j < |cs| ==> cs[i] * cs[j] == {}
  }

  lemma SubsetCard(a: VecSet, b: VecSet)
    requires a <= b
    ensures |a| <= |b|
    ensures a < b ==> |a| < |b|
  {
    assert b == a + (b - a);
  }

  /** A subset is no larger than its superset. */
  lemma SubsetNoLarger(a: VecSet, b: VecSet)
    requires a <= b
    ensures |a| <= |b|
  {
    SubsetCard(a, b);
  }

  /** A subset as large as its superset is the superset. */
  lemma SubsetSameSize(a: VecSet, b: VecSet)
    requires a <= b && |a| == |b|
    ensures a == b
  {
    SubsetCard(a, b);
  }

  /** A walk from `n` can be started one step earlier, at a tile next to `n`. */
  lemma ReachableStepBack(s: VecSet, v: Vec, n: Vec, u: Vec)
    requires v in s && Adjacent(v, n) && Reachable(s, n, u)
    ensures Reachable(s, v, u)
  {
    var p :| IsPath(s, p) && p[0] == n && p[|p| - 1] == u;
    var q := [v] + p;
    assert q[1..] == p;
    assert IsPath(s, q) && q[0] == v && q[|q| - 1] == u;
  }

  /** A walk to `u` can be extended one step further, to a tile next to `u`. */
  lemma ReachableStepOn(s: VecSet, v: Vec, u: Vec, n: Vec)
    requires Reachable(s, v, u) && n in s && Adjacent(u, n)
    ensures Reachable(s, v, n)
  {
    var p :| IsPath(s, p) && p[0] == v && p[|p| - 1] == u;
    var q := p + [n];
    assert IsPath(s, q) && q[0] == v && q[|q| - 1] == n;
  }

  lemma AllReachableStepBack(s: VecSet, v: Vec, n: Vec, x: VecSet)
    requires v in s && Adjacent(v, n) && AllReachable(s, n, x)
    ensures AllReachable(s, v, x)
  {
    forall u | u in x
      ensures Reachable(s, v, u)
    {
      ReachableStepBack(s, v, n, u);
    }
  }

  /** A closed set that holds the start of a walk holds its first `k + 1` steps. */
  lemma {:induction false} PathForwardIn(s: VecSet, r: VecSet, p: seq<Vec>, k: nat)
    requires IsPath(s, p) && Closed(r, s) && p[0] in r && k < |p|
    ensures p[k] in r
  {
    if k > 0 {
      PathForwardIn(s, r, p, k - 1);
      assert Adjacent(p[k - 1], p[k]) && p[k] in s;
    }
  }

  /** A closed set that holds the end of a walk holds every step from `k` on. */
  lemma {:induction false} PathBackwardIn(s: VecSet, r: VecSet, p: seq<Vec>, k: nat)
    requires IsPath(s, p) && Closed(r, s) && p[|p| - 1] in r && k < |p|
    ensures p[k] in r
    decreases |p| - k
  {
    if k < |p| - 1 {
      PathBackwardIn(s, r, p, k + 1);
      assert Adjacent(p[k], p[k + 1]) && p[k] in s;
      assert Adjacent(p[k + 1], p[k]);
    }
  }

  /** A component is closed: no step leaves it and stays in `s`. */
  lemma ComponentClosed(s: VecSet, v: Vec)
    ensures Closed(Component(s, v), s)
  {
    forall u, n | u in Component(s, v) && n in s && Adjacent(u, n)
      ensures n in Component(s, v)
    {
      ReachableStepOn(s, v, u, n);
    }
  }

  /**
   * A search started from an empty `found` ends with exactly the component of its
   * start tile.
   */
  lemma ExploredIsComponent(s: VecSet, v: Vec, r: VecSet)
    requires v in s && Explored(s, v, {}, r)
    ensures r == Component(s, v)
  {
    assert Closed(r, s);
    forall u | u in Component(s, v)
      ensures u in r
    {
      var p :| IsPath(s, p) && p[0] == v && p[|p| - 1] == u;
      PathForwardIn(s, r, p, |p| - 1);
    }
  }

  /** Every tile of a component has that same component. */
  lemma ComponentOfMember(s: VecSet, c: VecSet, v: Vec)
    requires IsComponent(s, c) && v in c
    ensures Component(s, v) == c
  {
    var w :| w in c && c == Component(s, w);
    ComponentWithin(s, w, v);
    ComponentCovers(s, w, v);
  }

  /** What a tile of the component of `w` reaches lies in that component. */
  lemma ComponentWithin(s: VecSet, w: Vec, v: Vec)
    requires v in Component(s, w)
    ensures Component(s, v) <= Component(s, w)
  {
    ComponentClosed(s, w);
    forall u | u in Component(s, v)
      ensures u in Component(s, w)
    {
      var p :| IsPath(s, p) && p[0] == v && p[|p| - 1] == u;
      PathForwardIn(s, Component(s, w), p, |p| - 1);
    }
  }

  /** A tile of the component of `w` reaches all of it. */
  lemma ComponentCovers(s: VecSet, w: Vec, v: Vec)
    requires v in Component(s, w)
    ensures Component(s, w) <= Component(s, v)
  {
    var r := Component(s, v);
    ComponentClosed(s, v);
    assert IsPath(s, [v]);
    assert v in r;
    var q :| IsPath(s, q) && q[0] == w && q[|q| - 1] == v;
    PathBackwardIn(s, r, q, 0);
    forall u | u in Component(s, w)
      ensures u in r
    {
      var p :| IsPath(s, p) && p[0] == w && p[|p| - 1] == u;
      PathForwardIn(s, r, p, |p| - 1);
    }
  }

  /** A set of at most one tile that holds `u` is `{u}`. */
  lemma SingletonOf(c: VecSet, u: Vec)
    requires u in c && |c| <= 1
    ensures c == {u}
  {
    assert |c - {u}| == |c| - 1;
  }

  /** A tile on its own forms a one-tile component exactly when it has no neighbour. */
  lemma SmallComponentIsolated(s: VecSet, c: VecSet, u: Vec)
    requires IsComponent(s, c) && u in c && |c| <= 1
    ensures Isolated(s, u)
  {
    SingletonOf(c, u);
    var w :| w in c && c == Component(s, w);
    ComponentClosed(s, w);
    ClosedSingletonIsolated(s, c, u);
  }

  /** A one-tile set closed under steps inside `s` is a tile with no neighbour in `s`. */
  lemma ClosedSingletonIsolated(s: VecSet, c: VecSet, u: Vec)
    requires c == {u} && Closed(c, s)
    ensures Isolated(s, u)
  {
    forall i | 0 <= i < 4
      ensures Neighbours(u)[i] !in s
    {
      var n := Neighbours(u)[i];
      assert Adjacent(u, n) && n != u;
      assert n !in c;
    }
  }

  /** A tile with a neighbour in `s` is not isolated. */
  lemma NotIsolated(s: VecSet, u: Vec, n: Vec)
    requires n in s && Adjacent(u, n)
    ensures !Isolated(s, u)
  {
    assert n in Neighbours(u);
  }

  /** In a component of two or more tiles every tile has a neighbour in `s`. */
  lemma LargeComponentNotIsolated(s: VecSet, c: VecSet, u: Vec)
    requires IsComponent(s, c) && u in c && |c| >= 2
    ensures !Isolated(s, u)
  {
    var w :| w in c && c == Component(s, w);
    if u == w {
      assert |c - {u}| == |c| - 1;
      var other :| other in c - {u};
      assert Reachable(s, w, other);
      var p :| IsPath(s, p) && p[0] == w && p[|p| - 1] == other;
      assert Adjacent(p[0], p[1]);
      NotIsolated(s, u, p[1]);
    } else {
      assert Reachable(s, w, u);
      var p :| IsPath(s, p) && p[0] == w && p[|p| - 1] == u;
      assert Adjacent(p[|p| - 2], p[|p| - 1]);
      NotIsolated(s, u, p[|p| - 2]);
    }
  }

  /**
   * `union` (game/board.go:92-96, board.go:63-67): every element of `b`, one at a time,
   * is inserted into `a`.
   */
  method Union(a: VecSet, b: VecSet) returns (r: VecSet)
    ensures r == a + b
  {
    r := a;
    var rest := b;
    while rest != {}
      invariant rest <= b
      invariant r == a + (b - rest)
      decreases |rest|
    {
      var elt :| elt in rest;
      r := r + {elt};
      rest := rest - {elt};
    }
  }

  /** One call of `findConnectedTiles` explored from `n`, seen from the caller at `v`. */
  lemma ExploreStep(s: VecSet, v: Vec, found: VecSet, r0: VecSet, n: Vec, r1: VecSet)
    requires v in s && v !in found && Adjacent(v, n)
    requires found + {v} <= r0 <= found + s
    requires AllReachable(s, v, r0 - found)
    requires ClosedFrom(r0, s, found + {v})
    requires Explored(s, n, r0, r1)
    ensures found + {v} <= r1 <= found + s
    ensures AllReachable(s, v, r1 - found)
    ensures ClosedFrom(r1, s, found + {v})
    ensures n in s ==> n in r1
  {
    AllReachableStepBack(s, v, n, r1 - r0);
    assert r1 - found == (r0 - found) + (r1 - r0);
  }

  /**
   * `findConnectedTiles` (game/board.go:143-152, board.go:106-115): when `v` is a tile of
   * `s` not yet in `found`, it is added and the search continues from its four
   * neighbours in turn, each call seeing what the previous ones found.
   */
  method FindConnectedTiles(s: VecSet, v: Vec, found: VecSet) returns (r: VecSet)
    ensures Explored(s, v, found, r)
    decreases |s - found|
  {
    r := found;
    if v !in found && v in s {
      r := r + {v};
      var ns := Neighbours(v);
      ghost var r0 := r;
      assert AllReachable(s, v, r - found) by {
        assert r - found == {v};
        assert IsPath(s, [v]);
      }
      SubsetCard(s - r, s - found);
      var r1 := FindConnectedTiles(s, ns[0], r);
      ExploreStep(s, v, found, r, ns[0], r1);
      SubsetCard(s - r1, s - r0);
      var r2 := FindConnectedTiles(s, ns[1], r1);
      ExploreStep(s, v, found, r1, ns[1], r2);
      SubsetCard(s - r2, s - r0);
      var r3 := FindConnectedTiles(s, ns[2], r2);
      ExploreStep(s, v, found, r2, ns[2], r3);
      SubsetCard(s - r3, s - r0);
      var r4 := FindConnectedTiles(s, ns[3], r3);
      ExploreStep(s, v, found, r3, ns[3], r4);
      r := r4;
      ExploreDone(s, v, found, r1, r2, r3, r4);
    }
  }

  /** After the four neighbours of `v` are explored, in turn, the call from `v` is complete. */
  lemma ExploreDone(s: VecSet, v: Vec, found: VecSet, r1: VecSet, r2: VecSet, r3: VecSet, r4: VecSet)
    requires v in s && v !in found && found + {v} <= r4 <= found + s
    requires AllReachable(s, v, r4 - found) && ClosedFrom(r4, s, found + {v})
    requires r1 <= r2 <= r3 <= r4
    requires Neighbours(v)[0] in s ==> Neighbours(v)[0] in r1
    requires Neighbours(v)[1] in s ==> Neighbours(v)[1] in r2
    requires Neighbours(v)[2] in s ==> Neighbours(v)[2] in r3
    requires Neighbours(v)[3] in s ==> Neighbours(v)[3] in r4
    ensures Explored(s, v, found, r4)
  {
    var ns := Neighbours(v);
    forall n | n in s && Adjacent(v, n)
      ensures n in r4
    {
      assert n == ns[0] || n == ns[1] || n == ns[2] || n == ns[3];
    }
  }

  /** No set appears twice in `cs`. */
  predicate NoDup(cs: seq<VecSet>) {
    forall i, j :: 0 <= i < j < |cs| ==> cs[i] != cs[j]
  }

  /** The components of `s`, one for each of its tiles. */
  ghost function ComponentsOf(s: VecSet): set<VecSet> {
    set v | v in s :: Component(s, v)
  }

  lemma ComponentsOfIff(s: VecSet, c: VecSet)
    ensures c in ComponentsOf(s) <==> IsComponent(s, c)
  {
    if c in ComponentsOf(s) {
      var v :| v in s && c == Component(s, v);
      assert IsPath(s, [v]);
    }
  }

  lemma UnionAllStep(cs: seq<VecSet>, i: nat)
    requires i < |cs|
    ensures UnionAll(cs[..i + 1]) == UnionAll(cs[..i]) + cs[i]
  {
    assert cs[..i + 1][..i] == cs[..i];
  }

  /** A tile of a union lies in one of the sets united. */
  lemma {:induction false} InUnionAll(cs: seq<VecSet>, x: Vec)
    requires x in UnionAll(cs)
    ensures exists i :: 0 <= i < |cs| && x in cs[i]
  {
    if x !in cs[|cs| - 1] {
      InUnionAll(cs[..|cs| - 1], x);
      var i :| 0 <= i < |cs| - 1 && x in cs[..|cs| - 1][i];
      assert x in cs[i];
    }
  }

  /** A list of components covering `s` lists every component of `s`. */
  lemma ComponentListed(s: VecSet, comps: seq<VecSet>, c: VecSet)
    requires UnionAll(comps) == s && forall i :: 0 <= i < |comps| ==> IsComponent(s, comps[i])
    requires IsComponent(s, c)
    ensures c in comps
  {
    var w :| w in c && c == Component(s, w);
    InUnionAll(comps, w);
    var i :| 0 <= i < |comps| && w in comps[i];
    ComponentOfMember(s, comps[i], w);
  }

  /** Disjoint components are distinct: none is empty. */
  lemma ComponentsDistinct(s: VecSet, comps: seq<VecSet>)
    requires PairwiseDisjoint(comps) && forall i :: 0 <= i < |comps| ==> IsComponent(s, comps[i])
    ensures NoDup(comps)
  {
    forall i, j | 0 <= i < j < |comps|
      ensures comps[i] != comps[j]
    {
      var w :| w in comps[i] && comps[i] == Component(s, w);
      assert comps[i] * comps[j] == {};
      assert w !in comps[i] * comps[j];
    }
  }

  /**
   * The state `findComponents` keeps: `c` is the union of the components found so far,
   * and they are disjoint components of `s`.
   */
  ghost predicate Covering(s: VecSet, comps: seq<VecSet>, c: VecSet) {
    && c == UnionAll(comps) && c <= s
    && Closed(c, s)
    && PairwiseDisjoint(comps)
    && (forall i :: 0 <= i < |comps| ==> IsComponent(s, comps[i]))
  }

  /** The component of a tile not yet covered overlaps none of those found before. */
  lemma CoveringGrows(s: VecSet, comps: seq<VecSet>, c: VecSet, v: Vec, comp: VecSet)
    requires Covering(s, comps, c) && v in s && v !in c && comp == Component(s, v)
    ensures Covering(s, comps + [comp], c + comp)
  {
    ComponentClosed(s, v);
    assert comp * c == {} by {
      forall x | x in comp * c
        ensures false
      {
        var p :| IsPath(s, p) && p[0] == v && p[|p| - 1] == x;
        PathBackwardIn(s, c, p, 0);
      }
    }
    assert (comps + [comp])[..|comps|] == comps;
    assert IsPath(s, [v]);
    assert v in comp;
  }

  /**
   * `findComponents` (game/board.go:154-170, board.go:117-133): every tile of `s` not yet
   * covered seeds a new component. The result partitions `s` into its 4-connected
   * components: they cover `s`, do not overlap, and each is the component of a seed.
   */
  method FindComponents(s: VecSet) returns (comps: seq<VecSet>)
    ensures UnionAll(comps) == s
    ensures PairwiseDisjoint(comps)
    ensures forall i :: 0 <= i < |comps| ==> IsComponent(s, comps[i])
    ensures forall c :: IsComponent(s, c) ==> c in comps
    ensures NoDup(comps)
  {
    comps := [];
    var c: VecSet := {};
    var rest := s;
    while rest != {}
      invariant rest <= s && s - rest <= c
      invariant Covering(s, comps, c)
      decreases |rest|
    {
      var v :| v in rest;
      rest := rest - {v};
      if v !in c {
        var comp := FindConnectedTiles(s, v, {});
        ExploredIsComponent(s, v, comp);
        CoveringGrows(s, comps, c, v, comp);
        comps := comps + [comp];
        c := Union(c, comp);
      }
    }
    forall c | IsComponent(s, c)
      ensures c in comps
    {
      ComponentListed(s, comps, c);
    }
    ComponentsDistinct(s, comps);
  }
}

=== FILE: vectors.dfy ===
/**
 * Integer 2-vectors shared by every copy of the engine: the JavaScript helpers
 * `vec`, `vAdd`, `vSub`, `vScale`, `vEquals` and the Go `Vec` methods `Add`, `Sub`,
 * `ScaleUp`, `ScaleDown` (and the free `Mult` the wasm code calls).
 */
module Vectors {

  datatype Vec = Vec(x: int, y: int)

  /** `vAdd(a, b)` in JavaScript, `a.Add(b)` in Go. */
  function Add(a: Vec, b: Vec): Vec {
    Vec(a.x + b.x, a.y + b.y)
  }

  /** `vSub(a, b)` in JavaScript, `a.Sub(b)` in Go. */
  function Sub(a: Vec, b: Vec): Vec {
    Vec(a.x - b.x, a.y - b.y)
  }

  /**
   * `vScale(a, c)` in JavaScript, `a.ScaleUp(c)` in Go: for a non-zero factor,
   * `ScaleDown` by the same factor gives back `a`, whatever the signs.
   */
  function Scale(a: Vec, c: int): (r: Vec)
    ensures c != 0 ==> ScaleDown(r, c) == a
  {
    if c == 0 then Vec(0, 0)
    else
      TruncDivOfMultiple(a.x, c);
      TruncDivOfMultiple(a.y, c);
      Vec(a.x * c, a.y * c)
  }

  /** Componentwise product (`Mult(tileSize, idx)` in the wasm client). */
  function Mult(a: Vec, b: Vec): Vec {
    Vec(a.x * b.x, a.y * b.y)
  }

  function Equals(a: Vec, b: Vec): bool {
    a.x == b.x && a.y == b.y
  }

  function Abs(n: int): nat {
    if n < 0 then -n else n
  }

  /**
   * Go's integer division, which truncates toward zero: the remainder has the sign
   * of the dividend and is smaller than the divisor in magnitude.
   */
  function TruncDiv(n: int, d: int): (q: int)
    requires d != 0
    ensures n >= 0 ==> 0 <= n - q * d < Abs(d)
    ensures n < 0 ==> 0 <= q * d - n < Abs(d)
  {
    if n >= 0 then
      if d > 0 then n / d else -(n / -d)
    else
      if d > 0 then -((-n) / d) else (-n) / (-d)
  }

  /**
   * `v.ScaleDown(a)`: each component divided by `a` with Go's truncating division, so
   * the quotient rounds toward zero: scaled back up it is no larger than `v` in
   * magnitude, and short of it by less than `a`.
   */
  function ScaleDown(v: Vec, a: int): (r: Vec)
    requires a != 0
    ensures Abs(r.x * a) <= Abs(v.x) && Abs(v.x - r.x * a) < Abs(a)
    ensures Abs(r.y * a) <= Abs(v.y) && Abs(v.y - r.y * a) < Abs(a)
  {
    TruncTowardZero(v.x, a);
    TruncTowardZero(v.y, a);
    Vec(TruncDiv(v.x, a), TruncDiv(v.y, a))
  }

  /** `ScaleUp(-1)` negates, so stepping by `d` and then by `ScaleUp(d, -1)` returns. */
  lemma NegateUndoesStep(p: Vec, d: Vec)
    ensures Add(Add(p, d), Scale(d, -1)) == p
  {
  }

  /** Truncating division rounds toward zero: the quotient scaled back is no larger than `n` in magnitude. */
  lemma TruncTowardZero(n: int, d: int)
    requires d != 0
    ensures Abs(TruncDiv(n, d) * d) <= Abs(n)
  {
    var q := TruncDiv(n, d);
    if q != 0 {
      MultiplyAtLeast(q, d);
    }
  }

  /** An exact multiple divides back exactly, whatever the signs. */
  lemma {:induction false} TruncDivOfMultiple(v: int, a: int)
    requires a != 0
    ensures TruncDiv(v * a, a) == v
  {
    var q := TruncDiv(v * a, a);
    assert v * a - q * a == (v - q) * a;
    if v != q {
      MultiplyAtLeast(v - q, a);
      assert false;
    }
  }

  lemma MultiplyAtLeast(k: int, a: int)
    requires k != 0
    ensures Abs(k * a) >= Abs(a)
  {
    var kk: nat, aa: nat := Abs(k), Abs(a);
    MultiplyNatAtLeast(kk, aa);
    if k > 0 && a >= 0 {
      assert k * a == kk * aa;
    } else if k > 0 {
      assert k * a == -(kk * aa);
    } else if a >= 0 {
      assert k * a == -(kk * aa);
    } else {
      assert k * a == kk * aa;
    }
  }

  lemma {:induction false} MultiplyNatAtLeast(k: nat, a: nat)
    requires k >= 1
    ensures k * a >= a
  {
    if k > 1 {
      MultiplyNatAtLeast(k - 1, a);
      assert k * a == (k - 1) * a + a;
    }
  }
}

=== FILE: wasm_actions.dfy ===
/**
 * The whole-state actions of the Go/WASM client built on the zone moves of WasmZones:
 * marking invalid tiles (wasm/game.go `markInvalidTiles`, `markAllTilesValid`), sending
 * every board tile back (`sendAllTilesToTray`), shuffling the tray (`shuffleTiles`) and the
 * typing cursor (wasm/highlight.go).
 */
module WasmActions {
  import opened Vectors
  import opened Wrappers
  import opened WasmZones

  // ---------------------------------------------------------------- invalid markers

  /**
   * Every coordinate `markInvalidTiles` reads is on the board: it reads the coordinates in
   * order and stops after the first one whose cell is empty. (A coordinate off the board
   * makes Go's slice indexing panic.)
   */
  predicate Readable(board: Cells, cs: seq<Vec>)
    requires Rect(board)
  {
    cs == [] || (InCoords(board, cs[0]) && (Get(board, cs[0]).Some? ==> Readable(board, cs[1..])))
  }

  /** How many leading coordinates hold a tile: the ones `markInvalidTiles` marks. */
  function LeadingTiles(board: Cells, cs: seq<Vec>): (k: nat)
    requires Rect(board) && Readable(board, cs)
    ensures k <= |cs|
    ensures forall j :: 0 <= j < k ==> InCoords(board, cs[j]) && Get(board, cs[j]).Some?
    ensures k < |cs| ==> InCoords(board, cs[k]) && Get(board, cs[k]).None?
  {
    if cs == [] || Get(board, cs[0]).None? then 0
    else 1 + LeadingTiles(board, cs[1..])
  }

  /** Set the marker of one tile; no tile moves. */
  function Mark(s: Zones, i: nat, invalid: bool): (r: Zones)
    requires Valid(s) && i < |s.tiles|
    ensures Valid(r) && r.board == s.board && r.tray == s.tray
    ensures r.tiles == s.tiles[i := s.tiles[i].(invalid := invalid)]
  {
    var r := s.(tiles := s.tiles[i := s.tiles[i].(invalid := invalid)]);
    forall j | 0 <= j < |r.tiles| ensures Placed(r, j) {
      assert Placed(s, j);
    }
    forall y, x | 0 <= y < |r.board| && 0 <= x < |r.board[y]| ensures BoardOwned(r, y, x) {
      assert BoardOwned(s, y, x);
    }
    forall x | 0 <= x < |r.tray[0]| ensures TrayOwned(r, x) {
      assert TrayOwned(s, x);
    }
    r
  }

  /** `markInvalidTiles`: mark the tile at each coordinate in turn, returning at the first empty cell. */
  function MarkInvalid(s: Zones, cs: seq<Vec>): (r: Zones)
    requires Valid(s) && Readable(s.board, cs)
    ensures Valid(r) && r.board == s.board && r.tray == s.tray && |r.tiles| == |s.tiles|
    decreases |cs|
  {
    if cs == [] then s
    else match Get(s.board, cs[0])
      case None => s
      case Some(i) =>
        assert BoardOwned(s, cs[0].y, cs[0].x);
        MarkInvalid(Mark(s, i, true), cs[1..])
  }

  /**
   * The effect of `markInvalidTiles`: a tile ends up marked exactly when it was marked
   * already or it is a board tile at one of the coordinates before the first empty one;
   * nothing else about any tile changes.
   */
  lemma {:induction false} MarkInvalidEffect(s: Zones, cs: seq<Vec>)
    requires Valid(s) && Readable(s.board, cs)
    ensures var r := MarkInvalid(s, cs); var k := LeadingTiles(s.board, cs);
      forall i :: 0 <= i < |s.tiles| ==>
        r.tiles[i] == s.tiles[i].(invalid := s.tiles[i].invalid || (s.tiles[i].zone == ZoneBoard && s.tiles[i].idx in cs[..k]))
    decreases |cs|
  {
    if cs != [] && Get(s.board, cs[0]).Some? {
      var i0 := Get(s.board, cs[0]).value;
      assert BoardOwned(s, cs[0].y, cs[0].x);
      var s1 := Mark(s, i0, true);
      MarkInvalidEffect(s1, cs[1..]);
      var k := LeadingTiles(s.board, cs);
      assert cs[..k] == [cs[0]] + cs[1..][..k - 1];
      forall i | 0 <= i < |s.tiles|
        ensures MarkInvalid(s, cs).tiles[i] ==
          s.tiles[i].(invalid := s.tiles[i].invalid || (s.tiles[i].zone == ZoneBoard && s.tiles[i].idx in cs[..k]))
      {
        if i != i0 && s.tiles[i].zone == ZoneBoard {
          assert Placed(s, i);
          assert s.tiles[i].idx != cs[0];
        }
      }
    }
  }

  /** `markAllTilesValid`: clear every tile's marker. */
  function MarkAllValid(s: Zones): (r: Zones)
    requires Valid(s)
    ensures Valid(r) && r.board == s.board && r.tray == s.tray && |r.tiles| == |s.tiles|
    ensures forall i :: 0 <= i < |s.tiles| ==> !r.tiles[i].invalid
    ensures forall i :: 0 <= i < |s.tiles| ==> r.tiles[i].(invalid := s.tiles[i].invalid) == s.tiles[i]
  {
    var r := s.(tiles := seq(|s.tiles|, i requires 0 <= i < |s.tiles| => s.tiles[i].(invalid := false)));
    forall j | 0 <= j < |r.tiles| ensures Placed(r, j) {
      assert Placed(s, j);
    }
    forall y, x | 0 <= y < |r.board| && 0 <= x < |r.board[y]| ensures BoardOwned(r, y, x) {
      assert BoardOwned(s, y, x);
    }
    forall x | 0 <= x < |r.tray[0]| ensures TrayOwned(r, x) {
      assert TrayOwned(s, x);
    }
    r
  }

  /** `markAllTilesValid` undoes `markInvalidTiles` completely. */
  lemma MarkAllValidUndoesMarkInvalid(s: Zones, cs: seq<Vec>)
    requires Valid(s) && Readable(s.board, cs)
    ensures MarkAllValid(MarkInvalid(s, cs)) == MarkAllValid(s)
  {
    MarkInvalidEffect(s, cs);
    var a := MarkAllValid(MarkInvalid(s, cs));
    var b := MarkAllValid(s);
    assert a.tiles == b.tiles;
  }

  // ---------------------------------------------------------------- sendAllTilesToTray

  /** The loop of `sendAllTilesToTray` from tile `k` on: each board tile goes to the tray. */
  function SendBoardTiles(s: Zones, k: nat): (r: Zones)
    requires Valid(s) && k <= |s.tiles|
    ensures Valid(r) && SameShape(s, r) && SameLetters(s.tiles, r.tiles)
    decreases |s.tiles| - k
  {
    if k == |s.tiles| then s
    else
      var s1 := if s.tiles[k].zone == ZoneBoard then SendToTray(s, k) else s;
      var r := SendBoardTiles(s1, k + 1);
      SameLettersTrans(s.tiles, s1.tiles, r.tiles);
      r
  }

  /**
   * After the loop no tile is on the board, every former board tile (from `k` on) is on the
   * tray, and every tile that was not on the board is exactly where it was.
   */
  lemma {:induction false} SendBoardTilesEffect(s: Zones, k: nat)
    requires Valid(s) && k <= |s.tiles|
    requires forall i :: 0 <= i < k ==> s.tiles[i].zone != ZoneBoard
    ensures var r := SendBoardTiles(s, k);
      && (forall i :: 0 <= i < |s.tiles| ==> r.tiles[i].zone != ZoneBoard)
      && (forall i :: 0 <= i < |s.tiles| && s.tiles[i].zone == ZoneBoard ==> r.tiles[i].zone == ZoneTray)
      && (forall i :: 0 <= i < |s.tiles| && s.tiles[i].zone != ZoneBoard ==> r.tiles[i] == s.tiles[i])
    decreases |s.tiles| - k
  {
    if k == |s.tiles| {
      assert SendBoardTiles(s, k) == s;
    } else if s.tiles[k].zone == ZoneBoard {
      var s1 := SendToTray(s, k);
      assert SendBoardTiles(s, k) == SendBoardTiles(s1, k + 1);
      SendBoardTilesStep(s, s1, k);
    } else {
      assert SendBoardTiles(s, k) == SendBoardTiles(s, k + 1);
      SendBoardTilesEffect(s, k + 1);
    }
  }

  /** The step of `SendBoardTilesEffect` where tile `k` is on the board; `s1` has sent it to the tray. */
  lemma {:induction false} SendBoardTilesStep(s: Zones, s1: Zones, k: nat)
    requires Valid(s) && k < |s.tiles| && s.tiles[k].zone == ZoneBoard
    requires forall i :: 0 <= i < k ==> s.tiles[i].zone != ZoneBoard
    requires Valid(s1) && |s1.tiles| == |s.tiles|
    requires s1.tiles[k].zone == ZoneTray
    requires forall i :: 0 <= i < |s.tiles| && i != k ==> s1.tiles[i] == s.tiles[i]
    ensures var r := SendBoardTiles(s1, k + 1);
      && (forall i :: 0 <= i < |s.tiles| ==> r.tiles[i].zone != ZoneBoard)
      && (forall i :: 0 <= i < |s.tiles| && s.tiles[i].zone == ZoneBoard ==> r.tiles[i].zone == ZoneTray)
      && (forall i :: 0 <= i < |s.tiles| && s.tiles[i].zone != ZoneBoard ==> r.tiles[i] == s.tiles[i])
    decreases |s.tiles| - k, 0
  {
    SendBoardTilesEffect(s1, k + 1);
    var r := SendBoardTiles(s1, k + 1);
    assert r.tiles[k] == s1.tiles[k];
  }

  /** With no tile on the board, every board cell is empty. */
  lemma BoardEmptyWithoutBoardTiles(s: Zones)
    requires Valid(s)
    requires forall i :: 0 <= i < |s.tiles| ==> s.tiles[i].zone != ZoneBoard
    ensures forall y, x :: 0 <= y < |s.board| && 0 <= x < |s.board[y]| ==> s.board[y][x] == None
  {
    forall y, x | 0 <= y < |s.board| && 0 <= x < |s.board[y]| ensures s.board[y][x] == None {
      assert BoardOwned(s, y, x);
    }
  }

  /** The tile moves of `sendAllTilesToTray`: every board tile to the tray, then all markers cleared. */
  function SendAllToTray(s: Zones): (r: Zones)
    requires Valid(s)
    ensures Valid(r) && SameShape(s, r) && |r.tiles| == |s.tiles|
  {
    MarkAllValid(SendBoardTiles(s, 0))
  }

  /**
   * After `sendAllTilesToTray` the board is empty, every tile is valid, former board tiles
   * are on the tray and the tiles that were not on the board have not moved.
   */
  lemma SendAllToTrayEffect(s: Zones)
    requires Valid(s)
    ensures var r := SendAllToTray(s);
      && (forall y, x :: 0 <= y < |r.board| && 0 <= x < |r.board[y]| ==> r.board[y][x] == None)
      && (forall i :: 0 <= i < |s.tiles| ==> !r.tiles[i].invalid)
      && (forall i :: 0 <= i < |s.tiles| && s.tiles[i].zone == ZoneBoard ==> r.tiles[i].zone == ZoneTray)
      && (forall i :: 0 <= i < |s.tiles| && s.tiles[i].zone != ZoneBoard ==> r.tiles[i] == s.tiles[i].(invalid := false))
  {
    SendBoardTilesEffect(s, 0);
    var m := SendBoardTiles(s, 0);
    var r := SendAllToTray(s);
    assert forall i :: 0 <= i < |s.tiles| ==> r.tiles[i].zone == m.tiles[i].zone;
    BoardEmptyWithoutBoardTiles(r);
  }

  // ---------------------------------------------------------------- shuffleTiles

  /** No tile is listed twice. */
  predicate Distinct(ts: seq<nat>) {
    forall a, b :: 0 <= a < b < |ts| ==> ts[a] != ts[b]
  }

  /** The tray tiles from tile `k` on, in `mgr.tiles` order: the list `shuffleTiles` collects. */
  function TrayTiles(tiles: seq<Tile>, k: nat): (ts: seq<nat>)
    requires k <= |tiles|
    ensures forall j :: 0 <= j < |ts| ==> k <= ts[j] < |tiles| && tiles[ts[j]].zone == ZoneTray
    ensures forall i :: k <= i < |tiles| && tiles[i].zone == ZoneTray ==> i in ts
    decreases |tiles| - k
  {
    if k == |tiles| then []
    else (if tiles[k].zone == ZoneTray then [k] else []) + TrayTiles(tiles, k + 1)
  }

  lemma {:induction false} TrayTilesDistinct(tiles: seq<Tile>, k: nat)
    requires k <= |tiles|
    ensures Distinct(TrayTiles(tiles, k))
    decreases |tiles| - k
  {
    if k < |tiles| {
      TrayTilesDistinct(tiles, k + 1);
      var rest := TrayTiles(tiles, k + 1);
      if tiles[k].zone == ZoneTray {
        PrependSmaller(k, rest);
        assert TrayTiles(tiles, k) == [k] + rest;
      } else {
        assert TrayTiles(tiles, k) == rest;
      }
    }
  }

  /** A list of distinct entries, all above `k`, stays distinct with `k` in front. */
  lemma PrependSmaller(k: nat, rest: seq<nat>)
    requires Distinct(rest) && forall j :: 0 <= j < |rest| ==> k < rest[j]
    ensures Distinct([k] + rest)
  {
    var ts := [k] + rest;
    forall a, b | 0 <= a < b < |ts| ensures ts[a] != ts[b] {
      assert ts[b] == rest[b - 1];
      if a > 0 {
        assert ts[a] == rest[a - 1];
      }
    }
  }

  /** Every entry is below `n`. */
  predicate Below(ts: seq<nat>, n: nat) {
    forall j :: 0 <= j < |ts| ==> ts[j] < n
  }

  /** One call of the swap function `rand.Shuffle` is given. */
  function Swap(ts: seq<nat>, i: nat, j: nat): (r: seq<nat>)
    requires i < |ts| && j < |ts|
    ensures |r| == |ts| && multiset(r) == multiset(ts)
    ensures Distinct(ts) ==> Distinct(r)
    ensures forall n :: Below(ts, n) ==> Below(r, n)
  {
    SwapPermutes(ts, i, j);
    ts[i := ts[j]][j := ts[i]]
  }

  lemma SwapPermutes(ts: seq<nat>, i: nat, j: nat)
    requires i < |ts| && j < |ts|
    ensures multiset(ts[i := ts[j]][j := ts[i]]) == multiset(ts)
  {
    var t1 := ts[i := ts[j]];
    assert multiset(t1) == multiset(ts) - multiset{ts[i]} + multiset{ts[j]};
    assert t1[j] == ts[j];
    assert multiset(t1[j := ts[i]]) == multiset(t1) - multiset{ts[j]} + multiset{ts[i]};
  }

  /**
   * `rand.Shuffle` as the sequence of swaps it makes; the random choice of indices is an
   * input. Only their range is assumed, and the result is a permutation whatever they are.
   */
  function ApplySwaps(ts: seq<nat>, swaps: seq<(nat, nat)>): (r: seq<nat>)
    requires forall q :: 0 <= q < |swaps| ==> swaps[q].0 < |ts| && swaps[q].1 < |ts|
    ensures |r| == |ts| && multiset(r) == multiset(ts)
    ensures Distinct(ts) ==> Distinct(r)
    ensures forall n :: Below(ts, n) ==> Below(r, n)
    decreases |swaps|
  {
    if swaps == [] then ts
    else ApplySwaps(Swap(ts, swaps[0].0, swaps[0].1), swaps[1..])
  }

  /** The first loop of `shuffleTiles` from tile `k` on: every tray tile is picked up. */
  function PickUpTray(s: Zones, k: nat): (r: Zones)
    requires Valid(s) && k <= |s.tiles|
    ensures Valid(r) && SameShape(s, r) && |r.tray[0]| == |s.tray[0]| && SameLetters(s.tiles, r.tiles)
    ensures |r.tiles| == |s.tiles|
    decreases |s.tiles| - k
  {
    if k == |s.tiles| then s
    else
      var s1 := if s.tiles[k].zone == ZoneTray then PickUp(s, k) else s;
      var r := PickUpTray(s1, k + 1);
      SameLettersTrans(s.tiles, s1.tiles, r.tiles);
      r
  }

  /** Picking up the tray tiles leaves the board alone and takes every tray tile off the tray. */
  lemma {:induction false} PickUpTrayEffect(s: Zones, k: nat)
    requires Valid(s) && k <= |s.tiles|
    ensures var r := PickUpTray(s, k);
      && r.board == s.board
      && forall i :: 0 <= i < |s.tiles| ==>
           r.tiles[i] == if k <= i && s.tiles[i].zone == ZoneTray then s.tiles[i].(zone := ZoneNone) else s.tiles[i]
    decreases |s.tiles| - k
  {
    if k == |s.tiles| {
      assert PickUpTray(s, k) == s;
    } else if s.tiles[k].zone == ZoneTray {
      var s1 := PickUp(s, k);
      assert PickUpTray(s, k) == PickUpTray(s1, k + 1);
      PickUpTrayStep(s, s1, k);
    } else {
      assert PickUpTray(s, k) == PickUpTray(s, k + 1);
      PickUpTrayEffect(s, k + 1);
    }
  }

  lemma {:induction false} PickUpTrayStep(s: Zones, s1: Zones, k: nat)
    requires Valid(s) && k < |s.tiles| && s.tiles[k].zone == ZoneTray
    requires Valid(s1) && s1.board == s.board && s1.tiles == s.tiles[k := s.tiles[k].(zone := ZoneNone)]
    ensures var r := PickUpTray(s1, k + 1);
      && r.board == s.board
      && forall i :: 0 <= i < |s.tiles| ==>
           r.tiles[i] == if k <= i && s.tiles[i].zone == ZoneTray then s.tiles[i].(zone := ZoneNone) else s.tiles[i]
    decreases |s.tiles| - k, 0
  {
    PickUpTrayEffect(s1, k + 1);
  }

  /** With no tile on the tray, every tray slot is empty. */
  lemma TrayEmptyWithoutTrayTiles(s: Zones)
    requires Valid(s)
    requires forall i :: 0 <= i < |s.tiles| ==> s.tiles[i].zone != ZoneTray
    ensures forall x :: 0 <= x < |s.tray[0]| ==> s.tray[0][x] == None
  {
    forall x | 0 <= x < |s.tray[0]| ensures s.tray[0][x] == None {
      assert TrayOwned(s, x);
    }
  }

  /** The last loop of `shuffleTiles` from entry `k` on: each tile of `order` goes to the tray. */
  function SendEach(s: Zones, order: seq<nat>, k: nat): (r: Zones)
    requires Valid(s) && k <= |order|
    requires forall j :: 0 <= j < |order| ==> order[j] < |s.tiles|
    ensures Valid(r) && SameShape(s, r) && SameLetters(s.tiles, r.tiles)
    decreases |order| - k
  {
    if k == |order| then s
    else
      var s1 := SendToTray(s, order[k]);
      var r := SendEach(s1, order, k + 1);
      SameLettersTrans(s.tiles, s1.tiles, r.tiles);
      r
  }

  /** The tray row is filled up to slot `k` and empty after it. */
  predicate FilledTo(row: seq<Option<nat>>, k: nat) {
    k <= |row| && (forall x :: 0 <= x < k ==> row[x].Some?) && (forall x :: k <= x < |row| ==> row[x].None?)
  }

  lemma FirstNilOfFilled(row: seq<Option<nat>>, k: nat)
    requires FilledTo(row, k)
    ensures FirstNil(row) == k
  {
    assert k < |row| ==> row[k].None?;
    assert FirstNil(row) < |row| ==> row[FirstNil(row)].None?;
  }

  /**
   * `r` is `s` after sending `order[k..]` to the tray: the board is the same, the tray is
   * filled exactly up to `|order|`, tile `order[j]` is in slot `j` and no other tile moved.
   */
  predicate SentFrom(s: Zones, r: Zones, order: seq<nat>, k: nat) {
    && |r.tiles| == |s.tiles| && r.board == s.board
    && |r.tray| == 1 && FilledTo(r.tray[0], |order|)
    && (forall j :: k <= j < |order| ==>
          order[j] < |s.tiles| && r.tiles[order[j]] == s.tiles[order[j]].(zone := ZoneTray, idx := Vec(j, 0)))
    && (forall i :: 0 <= i < |s.tiles| && (forall j :: k <= j < |order| ==> order[j] != i) ==> r.tiles[i] == s.tiles[i])
  }

  /**
   * Sending the untracked tiles of `order` to a tray filled up to slot `k` puts the tile
   * listed at position `j` into slot `j`, and no other tile moves.
   */
  lemma {:induction false} SendEachEffect(s: Zones, order: seq<nat>, k: nat)
    requires Valid(s) && k <= |order| && Distinct(order)
    requires forall j :: 0 <= j < |order| ==> order[j] < |s.tiles|
    requires forall j :: k <= j < |order| ==> s.tiles[order[j]].zone == ZoneNone
    requires FilledTo(s.tray[0], k)
    ensures SentFrom(s, SendEach(s, order, k), order, k)
    decreases |order| - k
  {
    if k == |order| {
      assert SendEach(s, order, k) == s;
    } else {
      var t := order[k];
      var s1 := SendToTray(s, t);
      assert SendEach(s, order, k) == SendEach(s1, order, k + 1);
      PickUpKeepsTray(s, t);
      PickUpKeepsBoard(s, t);
      FirstNilOfFilled(s.tray[0], k);
      assert s1.tiles == s.tiles[t := s.tiles[t].(zone := ZoneTray, idx := Vec(k, 0))];
      SendOneFills(s, s1, t, k);
      forall j | k + 1 <= j < |order| ensures s1.tiles[order[j]].zone == ZoneNone {
        assert order[k] != order[j];
      }
      SendEachEffect(s1, order, k + 1);
      SendEachStep(s, s1, SendEach(s1, order, k + 1), order, k);
    }
  }

  /** The board is unchanged by picking up a tile that is not on the board. */
  lemma PickUpKeepsBoard(s: Zones, t: nat)
    requires Valid(s) && t < |s.tiles| && s.tiles[t].zone != ZoneBoard
    ensures PickUp(s, t).board == s.board
  {
  }

  /** Sending an untracked tile into the first empty slot `k` fills the row up to `k + 1`. */
  lemma SendOneFills(s: Zones, s1: Zones, t: nat, k: nat)
    requires Valid(s) && Valid(s1) && t < |s.tiles| && |s1.tiles| == |s.tiles| && |s1.tray| == 1
    requires s.tiles[t].zone == ZoneNone && FilledTo(s.tray[0], k)
    requires s1.tiles == s.tiles[t := s.tiles[t].(zone := ZoneTray, idx := Vec(k, 0))]
    requires |s1.tray[0]| == if k < |s.tray[0]| then |s.tray[0]| else |s.tray[0]| + 1
    ensures FilledTo(s1.tray[0], k + 1)
  {
    assert Placed(s1, t);
    forall x | 0 <= x < k ensures s1.tray[0][x].Some? {
      assert TrayOwned(s, x);
      assert Placed(s1, s.tray[0][x].value);
    }
    forall x | k + 1 <= x < |s1.tray[0]| ensures s1.tray[0][x].None? {
      assert TrayOwned(s1, x);
      assert s1.tray[0][x].Some? ==> Placed(s, s1.tray[0][x].value);
    }
  }

  /** The induction step of `SendEachEffect`: what the rest of the loop does, seen from `s`. */
  lemma SendEachStep(s: Zones, s1: Zones, r: Zones, order: seq<nat>, k: nat)
    requires k < |order| && Distinct(order) && |s1.tiles| == |s.tiles| && s1.board == s.board
    requires forall j :: 0 <= j < |order| ==> order[j] < |s.tiles|
    requires s1.tiles == s.tiles[order[k] := s.tiles[order[k]].(zone := ZoneTray, idx := Vec(k, 0))]
    requires SentFrom(s1, r, order, k + 1)
    ensures SentFrom(s, r, order, k)
  {
    forall j | k <= j < |order|
      ensures r.tiles[order[j]] == s.tiles[order[j]].(zone := ZoneTray, idx := Vec(j, 0))
    {
      if j == k {
        forall q | k + 1 <= q < |order| ensures order[q] != order[k] {
          assert order[k] != order[q];
        }
      } else {
        assert order[k] != order[j];
      }
    }
  }

  /**
   * What `shuffleTiles` promises of `r`, shuffled from `s` into `order`: the board is
   * untouched, the tile at position `j` of `order` is in tray slot `j`, exactly the former
   * tray tiles are on the tray, every other tile stays where it was, and no tile is marked.
   */
  predicate Shuffled(s: Zones, r: Zones, order: seq<nat>) {
    && |r.tiles| == |s.tiles| && r.board == s.board && Below(order, |s.tiles|)
    && (forall j :: 0 <= j < |order| ==> r.tiles[order[j]].zone == ZoneTray && r.tiles[order[j]].idx == Vec(j, 0))
    && (forall i :: 0 <= i < |s.tiles| ==> (r.tiles[i].zone == ZoneTray <==> s.tiles[i].zone == ZoneTray))
    && (forall i :: 0 <= i < |s.tiles| && s.tiles[i].zone != ZoneTray ==> r.tiles[i] == s.tiles[i].(invalid := false))
    && (forall i :: 0 <= i < |s.tiles| ==> !r.tiles[i].invalid)
  }

  /**
   * `shuffleTiles`: pick up every tray tile, shuffle them with the given swaps, send them
   * back to the tray in the new order and clear every marker. The result is valid and is
   * `Shuffled` into the order the swaps produce.
   */
  function Shuffle(s: Zones, swaps: seq<(nat, nat)>): (r: Zones)
    requires Valid(s)
    requires var n := |TrayTiles(s.tiles, 0)|; forall q :: 0 <= q < |swaps| ==> swaps[q].0 < n && swaps[q].1 < n
    ensures Valid(r) && Shuffled(s, r, ApplySwaps(TrayTiles(s.tiles, 0), swaps))
  {
    ShuffleStart(s, swaps);
    ShuffleFrom(s, PickUpTray(s, 0), TrayTiles(s.tiles, 0), ApplySwaps(TrayTiles(s.tiles, 0), swaps))
  }

  /**
   * The state after the first loop of `shuffleTiles`: `p` is `s` with the tray tiles `ts`
   * picked up, and `order` is a permutation of `ts`.
   */
  ghost predicate ShuffleInputs(s: Zones, p: Zones, ts: seq<nat>, order: seq<nat>) {
    && Valid(p) && |p.tiles| == |s.tiles| && p.board == s.board
    && (forall i :: 0 <= i < |s.tiles| ==>
          p.tiles[i] == if s.tiles[i].zone == ZoneTray then s.tiles[i].(zone := ZoneNone) else s.tiles[i])
    && (forall j :: 0 <= j < |ts| ==> ts[j] < |s.tiles| && s.tiles[ts[j]].zone == ZoneTray)
    && (forall i :: 0 <= i < |s.tiles| && s.tiles[i].zone == ZoneTray ==> i in ts)
    && multiset(order) == multiset(ts) && Distinct(ts) && Distinct(order)
    && (forall n :: Below(ts, n) ==> Below(order, n))
  }

  /** The first loop of `shuffleTiles` and the shuffle of the collected list. */
  lemma {:induction false} ShuffleStart(s: Zones, swaps: seq<(nat, nat)>)
    requires Valid(s)
    requires var n := |TrayTiles(s.tiles, 0)|; forall q :: 0 <= q < |swaps| ==> swaps[q].0 < n && swaps[q].1 < n
    ensures ShuffleInputs(s, PickUpTray(s, 0), TrayTiles(s.tiles, 0), ApplySwaps(TrayTiles(s.tiles, 0), swaps))
  {
    TrayTilesDistinct(s.tiles, 0);
    PickUpTrayEffect(s, 0);
  }

  /** The last loop of `shuffleTiles` and the final unmarking, once the tray tiles are picked up. */
  function ShuffleFrom(s: Zones, p: Zones, ts: seq<nat>, order: seq<nat>): (r: Zones)
    requires ShuffleInputs(s, p, ts, order)
    ensures Valid(r) && Shuffled(s, r, order)
  {
    ShuffleReady(s, p, ts, order);
    SendEachEffect(p, order, 0);
    ShuffleFinish(s, p, SendEach(p, order, 0), ts, order);
    MarkAllValid(SendEach(p, order, 0))
  }

  /** After the tray tiles are picked up, the shuffled list can be sent back slot by slot. */
  lemma {:induction false} ShuffleReady(s: Zones, p: Zones, ts: seq<nat>, order: seq<nat>)
    requires ShuffleInputs(s, p, ts, order)
    ensures Below(order, |p.tiles|) && FilledTo(p.tray[0], 0)
    ensures forall j :: 0 <= j < |order| ==> p.tiles[order[j]].zone == ZoneNone
  {
    assert Below(ts, |p.tiles|);
    TrayEmptyWithoutTrayTiles(p);
    forall j | 0 <= j < |order| ensures p.tiles[order[j]].zone == ZoneNone {
      assert order[j] in multiset(ts);
    }
  }

  /** The last step of `ShuffleFrom`: from the sent state to the final, unmarked one. */
  lemma {:induction false} ShuffleFinish(s: Zones, p: Zones, m: Zones, ts: seq<nat>, order: seq<nat>)
    requires Valid(m) && ShuffleInputs(s, p, ts, order) && Below(order, |s.tiles|)
    requires SentFrom(p, m, order, 0)
    ensures Shuffled(s, MarkAllValid(m), order)
  {
    var r := MarkAllValid(m);
    forall i | 0 <= i < |s.tiles| ensures (r.tiles[i].zone == ZoneTray <==> s.tiles[i].zone == ZoneTray) {
      if s.tiles[i].zone == ZoneTray {
        assert i in multiset(order);
        var j :| 0 <= j < |order| && order[j] == i;
      } else {
        assert i !in multiset(ts);
        assert forall j :: 0 <= j < |order| ==> order[j] != i;
      }
    }
    forall i | 0 <= i < |s.tiles| && s.tiles[i].zone != ZoneTray ensures r.tiles[i] == s.tiles[i].(invalid := false) {
      assert i !in multiset(ts);
      assert forall j :: 0 <= j < |order| ==> order[j] != i;
    }
  }
}

=== FILE: wasm_input.dfy ===
/**
 * The typing cursor (wasm/highlight.go), the mouse and keyboard handlers (wasm/input.go,
 * copied in wasm/handle.go) and the state effects of incoming socket messages
 * (`handleSocketMsg` in wasm/handle.go) of the Go/WASM client, as functions of the whole
 * client state: the zones, the highlight and the current move.
 *
 * The class in wasm_manager.dfy performs them step by step on the fields of `mgr` and is
 * proved equal to them.
 */
module WasmInput {
  import opened Vectors
  import opened Wrappers
  import opened WasmZones
  import opened WasmActions
  import Msg

  /** The board cell typing goes to, and the direction typing advances in. */
  datatype Highlight = Highlight(active: bool, idx: Vec, dir: Vec)

  /** The mouse gesture in progress; `tile` is the tile being dragged, if any. */
  datatype Move = Move(
    active: bool, onTile: bool, tile: Option<nat>,
    startZone: Zone, startIdx: Vec, startClick: Vec, hasMoved: bool)

  /** `&Move{}`: no gesture. */
  const NoMove := Move(false, false, None, ZoneNone, Vec(0, 0), Vec(0, 0), false)

  /** The state of `mgr` apart from the drawing fields. */
  datatype Client = Client(z: Zones, h: Highlight, m: Move)

  /** The two directions typing can take: right and down. */
  predicate UnitDir(d: Vec) {
    d == Vec(1, 0) || d == Vec(0, 1)
  }

  /** The highlight, when shown, is on the board, and it points right or down. */
  predicate CursorOk(board: Cells, h: Highlight)
    requires |board| > 0
  {
    (h.active ==> InCoords(board, h.idx)) && UnitDir(h.dir)
  }

  /** A move that holds a tile names a tile of the manager. */
  predicate MoveOk(s: Zones, m: Move) {
    m.onTile ==> m.tile.Some? && m.tile.value < |s.tiles|
  }

  /** What every handler keeps. */
  predicate Ready(c: Client) {
    Valid(c.z) && CursorOk(c.z.board, c.h) && MoveOk(c.z, c.m)
  }

  // ---------------------------------------------------------------- the highlight

  /** `moveHighlight`: step by `d` when the new cell is on the board, otherwise stay. */
  function MoveHighlight(board: Cells, h: Highlight, d: Vec): (r: Highlight)
    requires |board| > 0
    ensures r.active == h.active && r.dir == h.dir
    ensures CursorOk(board, h) ==> CursorOk(board, r)
    ensures r.idx == Add(h.idx, d) || (r.idx == h.idx && !InCoords(board, Add(h.idx, d)))
  {
    var next := Add(h.idx, d);
    if InCoords(board, next) then h.(idx := next) else h
  }

  /** A step that stayed on the board is undone by the step against it. */
  lemma MoveHighlightBack(board: Cells, h: Highlight, d: Vec)
    requires |board| > 0 && InCoords(board, h.idx) && InCoords(board, Add(h.idx, d))
    ensures MoveHighlight(board, MoveHighlight(board, h, d), Scale(d, -1)) == h
  {
    NegateUndoesStep(h.idx, d);
  }

  /** `toggleWordDir`: swap the components of the direction. */
  function ToggleDir(h: Highlight): (r: Highlight)
    ensures r.active == h.active && r.idx == h.idx
    ensures UnitDir(h.dir) ==> UnitDir(r.dir) && r.dir != h.dir
  {
    h.(dir := Vec(h.dir.y, h.dir.x))
  }

  lemma ToggleTwice(h: Highlight)
    ensures ToggleDir(ToggleDir(h)) == h
  {
  }

  /** `highlightCoords`: show the highlight at `c`, keeping the direction. */
  function HighlightCoords(h: Highlight, c: Vec): (r: Highlight)
    ensures r.active && r.idx == c && r.dir == h.dir
  {
    h.(active := true, idx := c)
  }

  /** `unhighlight`: hide the highlight and reset it to `(-1, -1)` pointing right. */
  function Unhighlight(): (r: Highlight)
    ensures !r.active && r.dir == Vec(1, 0) && r.idx == Vec(-1, -1)
  {
    Highlight(false, Vec(-1, -1), Vec(1, 0))
  }

  /** The first tray tile from `k` on whose letter is `v`, in `mgr.tiles` order. */
  function FirstTrayTile(tiles: seq<Tile>, v: string, k: nat): (r: Option<nat>)
    requires k <= |tiles|
    ensures r.Some? ==> k <= r.value < |tiles| && tiles[r.value].zone == ZoneTray && tiles[r.value].value == v
    ensures r.Some? ==> forall j :: k <= j < r.value ==> !(tiles[j].zone == ZoneTray && tiles[j].value == v)
    ensures r.None? ==> forall j :: k <= j < |tiles| ==> !(tiles[j].zone == ZoneTray && tiles[j].value == v)
    decreases |tiles| - k
  {
    if k == |tiles| then None
    else if tiles[k].zone == ZoneTray && tiles[k].value == v then Some(k)
    else FirstTrayTile(tiles, v, k + 1)
  }

  /**
   * `findForHighlight(v)`: when the highlighted cell already holds a `v`, only advance;
   * otherwise move the first tray tile holding `v` there (the occupant, if any, goes to the
   * tray) and advance; with no such tile do nothing.
   */
  function FindForHighlight(c: Client, v: string): (r: Client)
    requires Ready(c) && c.h.active
    ensures Ready(r) && r.m == c.m && SameShape(c.z, r.z) && SameLetters(c.z.tiles, r.z.tiles)
    ensures r.h.active && r.h.dir == c.h.dir
    ensures r.h == c.h || r.h == MoveHighlight(r.z.board, c.h, c.h.dir)
    ensures FirstTrayTile(c.z.tiles, v, 0).Some? ==> r.h == MoveHighlight(r.z.board, c.h, c.h.dir)
  {
    InCoordsInRow(c.z.board, c.h.idx);
    assert BoardOwned(c.z, c.h.idx.y, c.h.idx.x);
    var prev := Get(c.z.board, c.h.idx);
    if prev.Some? && c.z.tiles[prev.value].value == v then
      c.(h := MoveHighlight(c.z.board, c.h, c.h.dir))
    else
      match FirstTrayTile(c.z.tiles, v, 0)
      case None => c
      case Some(i) =>
        var z := AddToBoard(c.z, i, c.h.idx);
        c.(z := z, h := MoveHighlight(z.board, c.h, c.h.dir))
  }

  /**
   * What typing `v` achieves: unless no tray tile holds `v`, the cell the highlight was on
   * now holds a `v`; when it had to be fetched, it is the first tray tile holding `v`. With
   * no such tile and no `v` in the cell, nothing changes.
   */
  lemma FindForHighlightEffect(c: Client, v: string)
    requires Ready(c) && c.h.active
    ensures InRow(c.z.board, c.h.idx)
    ensures var r := FindForHighlight(c, v); var prev := Get(c.z.board, c.h.idx); var first := FirstTrayTile(c.z.tiles, v, 0);
      && (prev.Some? && prev.value < |c.z.tiles| && c.z.tiles[prev.value].value == v ==>
            r.z == c.z && r.h == MoveHighlight(c.z.board, c.h, c.h.dir))
      && (!(prev.Some? && prev.value < |c.z.tiles| && c.z.tiles[prev.value].value == v) && first.None? ==> r == c)
      && (!(prev.Some? && prev.value < |c.z.tiles| && c.z.tiles[prev.value].value == v) && first.Some? ==>
            InRow(r.z.board, c.h.idx) && Get(r.z.board, c.h.idx) == first
            && r.z.tiles[first.value].zone == ZoneBoard && r.z.tiles[first.value].idx == c.h.idx
            && r.h == MoveHighlight(r.z.board, c.h, c.h.dir))
  {
    InCoordsInRow(c.z.board, c.h.idx);
    assert BoardOwned(c.z, c.h.idx.y, c.h.idx.x);
    var prev := Get(c.z.board, c.h.idx);
    var first := FirstTrayTile(c.z.tiles, v, 0);
    if !(prev.Some? && c.z.tiles[prev.value].value == v) && first.Some? {
      var r := FindForHighlight(c, v);
      assert Placed(r.z, first.value);
    }
  }

  /**
   * `backspaceHighlight`: send the tile in the highlighted cell, if any, to the tray, then
   * step the highlight once against its direction.
   */
  function BackspaceHighlight(c: Client): (r: Client)
    requires Ready(c) && c.h.active
    ensures Ready(r) && r.m == c.m && SameShape(c.z, r.z) && SameLetters(c.z.tiles, r.z.tiles)
    ensures r.h == MoveHighlight(c.z.board, c.h, Scale(c.h.dir, -1))
  {
    InCoordsInRow(c.z.board, c.h.idx);
    assert BoardOwned(c.z, c.h.idx.y, c.h.idx.x);
    var prev := Get(c.z.board, c.h.idx);
    var z := if prev.Some? then SendToTray(c.z, prev.value) else c.z;
    c.(z := z, h := MoveHighlight(z.board, c.h, Scale(c.h.dir, -1)))
  }

  /** After a backspace the cell the highlight was on is empty, and its former tile is on the tray. */
  lemma BackspaceEmptiesCell(c: Client)
    requires Ready(c) && c.h.active
    ensures InRow(c.z.board, c.h.idx)
    ensures var r := BackspaceHighlight(c); var prev := Get(c.z.board, c.h.idx);
      && InRow(r.z.board, c.h.idx) && Get(r.z.board, c.h.idx) == None
      && (prev.Some? ==> prev.value < |r.z.tiles| && r.z.tiles[prev.value].zone == ZoneTray)
  {
    InCoordsInRow(c.z.board, c.h.idx);
    assert BoardOwned(c.z, c.h.idx.y, c.h.idx.x);
    var prev := Get(c.z.board, c.h.idx);
    if prev.Some? {
      var p := PickUp(c.z, prev.value);
      assert p.board[c.h.idx.y][c.h.idx.x] == None;
    }
  }

  // ---------------------------------------------------------------- the mouse

  /** The tile is held by the mouse: off every grid, in the moving zone. */
  function Lift(s: Zones, t: nat): (r: Zones)
    requires Valid(s) && t < |s.tiles| && s.tiles[t].zone == ZoneNone
    ensures Valid(r) && r.board == s.board && r.tray == s.tray
    ensures r.tiles == s.tiles[t := s.tiles[t].(zone := ZoneMoving)]
  {
    var r := s.(tiles := s.tiles[t := s.tiles[t].(zone := ZoneMoving)]);
    forall i | 0 <= i < |r.tiles| ensures Placed(r, i) {
      assert Placed(s, i);
    }
    forall y, x | 0 <= y < |r.board| && 0 <= x < |r.board[y]| ensures BoardOwned(r, y, x) {
      assert BoardOwned(s, y, x);
    }
    forall x | 0 <= x < |r.tray[0]| ensures TrayOwned(r, x) {
      assert TrayOwned(s, x);
    }
    r
  }

  /**
   * `clickOnTile`: pick the tile up and hold it. The start zone is read after the pick-up,
   * so it is always `ZoneNone`.
   */
  function ClickOnTile(c: Client, t: nat): (r: Client)
    requires Ready(c) && t < |c.z.tiles|
    ensures Ready(r) && r.h == c.h && SameShape(c.z, r.z) && |r.z.tiles| == |c.z.tiles|
    ensures r.z.tiles[t].zone == ZoneMoving && r.m.onTile && r.m.tile == Some(t)
    ensures r.m.startZone == ZoneNone && r.m.startIdx == c.z.tiles[t].idx
  {
    var p := PickUp(c.z, t);
    c.(z := Lift(p, t), m := c.m.(onTile := true, tile := Some(t), startZone := p.tiles[t].zone, startIdx := p.tiles[t].idx))
  }

  /**
   * The mouse-down listener: start a gesture at `l`, and when `hit` names the tile under the
   * mouse (the first in `mgr.tiles` order, found by `onTile`), take it.
   */
  function MouseDown(c: Client, l: Vec, hit: Option<nat>): (r: Client)
    requires Ready(c) && (hit.Some? ==> hit.value < |c.z.tiles|)
    ensures Ready(r) && r.h == c.h && r.m.active && r.m.startClick == l && !r.m.hasMoved
    ensures r.m.onTile == hit.Some? && (hit.None? ==> r.z == c.z)
  {
    var c1 := c.(m := NoMove.(active := true, startClick := l));
    if hit.None? then c1 else ClickOnTile(c1, hit.value)
  }

  /** The mouse-move listener: during a gesture, record that the mouse moved. */
  function MouseMove(c: Client): (r: Client)
    ensures r.z == c.z && r.h == c.h
    ensures c.m.active ==> r.m == c.m.(hasMoved := true)
    ensures !c.m.active ==> r == c
  {
    if !c.m.active then c else c.(m := c.m.(hasMoved := true))
  }

  /**
   * Where `releaseTile` puts the held tile `t`: onto the board cell under `l`, else onto the
   * tray cell under `l`, else into the first free tray slot.
   */
  function Drop(s: Zones, t: nat, l: Vec): (r: Zones)
    requires Valid(s) && t < |s.tiles|
    ensures Valid(r) && SameShape(s, r) && |r.tiles| == |s.tiles|
    ensures r.tiles[t].zone in {ZoneBoard, ZoneTray}
    ensures InCanvas(s.board, BoardLoc, TileSize, l) ==>
      r.tiles[t] == s.tiles[t].(zone := ZoneBoard, idx := Coords(BoardLoc, TileSize, l))
    ensures !InCanvas(s.board, BoardLoc, TileSize, l) && InCanvas(s.tray, TrayLoc, TileSize, l) ==>
      InRow(s.tray, Coords(TrayLoc, TileSize, l))
    ensures (!InCanvas(s.board, BoardLoc, TileSize, l) && InCanvas(s.tray, TrayLoc, TileSize, l) &&
             Get(s.tray, Coords(TrayLoc, TileSize, l)) == None) ==>
      r.tiles[t] == s.tiles[t].(zone := ZoneTray, idx := Coords(TrayLoc, TileSize, l))
    ensures !InCanvas(s.board, BoardLoc, TileSize, l) && !InCanvas(s.tray, TrayLoc, TileSize, l) ==>
      r.tiles[t] == s.tiles[t].(zone := ZoneTray, idx := Vec(FirstNil(PickUp(s, t).tray[0]), 0))
  {
    if InCanvas(s.board, BoardLoc, TileSize, l) then
      CoordsOfInCanvas(s.board, BoardLoc, TileSize, l);
      AddToBoard(s, t, Coords(BoardLoc, TileSize, l))
    else if InCanvas(s.tray, TrayLoc, TileSize, l) then
      CoordsOfInCanvas(s.tray, TrayLoc, TileSize, l);
      AddToTray(s, t, Coords(TrayLoc, TileSize, l))
    else
      SendToTray(s, t)
  }

  /**
   * `releaseTile`: drop the held tile; a board drop also shows the highlight on the drop
   * cell when none is shown. Every invalid marker is then cleared.
   */
  function ReleaseTile(c: Client, l: Vec): (r: Client)
    requires Ready(c) && c.m.onTile
    ensures Ready(r) && r.m == c.m && SameShape(c.z, r.z) && |r.z.tiles| == |c.z.tiles|
    ensures r.z.tiles[c.m.tile.value].zone in {ZoneBoard, ZoneTray}
    ensures forall i :: 0 <= i < |r.z.tiles| ==> !r.z.tiles[i].invalid
    ensures c.h.active ==> r.h == c.h
    ensures InCanvas(c.z.board, BoardLoc, TileSize, l) ==>
      r.z.tiles[c.m.tile.value].zone == ZoneBoard && r.z.tiles[c.m.tile.value].idx == Coords(BoardLoc, TileSize, l)
    ensures InCanvas(c.z.board, BoardLoc, TileSize, l) && !c.h.active ==>
      r.h.active && r.h.idx == Coords(BoardLoc, TileSize, l) && r.h.dir == c.h.dir
    ensures !InCanvas(c.z.board, BoardLoc, TileSize, l) ==> r.h == c.h
  {
    var z := Drop(c.z, c.m.tile.value, l);
    var h := if InCanvas(c.z.board, BoardLoc, TileSize, l) && !c.h.active
      then HighlightAt(c.z.board, c.h, l) else c.h;
    c.(z := MarkAllValid(z), h := h)
  }

  /** The highlight shown on the board cell under `l`, which is inside the board. */
  function HighlightAt(board: Cells, h: Highlight, l: Vec): (r: Highlight)
    requires |board| > 0 && InCanvas(board, BoardLoc, TileSize, l) && UnitDir(h.dir)
    ensures CursorOk(board, r) && r == HighlightCoords(h, Coords(BoardLoc, TileSize, l))
  {
    CoordsOfInCanvas(board, BoardLoc, TileSize, l);
    HighlightCoords(h, Coords(BoardLoc, TileSize, l))
  }

  /**
   * `releaseUpdateHighlight`: an unmoved click on the board shows the highlight on the
   * clicked cell, or turns it when it is already there; a release off the board hides it.
   */
  function ReleaseUpdateHighlight(c: Client, l: Vec): (r: Client)
    requires Ready(c)
    ensures Ready(r) && r.z == c.z && r.m == c.m
    ensures !InCanvas(c.z.board, BoardLoc, TileSize, l) ==> r.h == Unhighlight()
  {
    if InCanvas(c.z.board, BoardLoc, TileSize, l) then
      var co := Coords(BoardLoc, TileSize, l);
      CoordsOfInCanvas(c.z.board, BoardLoc, TileSize, l);
      if c.m.startClick == l && !c.m.hasMoved then
        if c.h.active && c.h.idx == co then c.(h := ToggleDir(c.h)) else c.(h := HighlightCoords(c.h, co))
      else c
    else c.(h := Unhighlight())
  }

  /**
   * An unmoved click on a board cell leaves the highlight on that cell: shown there, or
   * already there and turned.
   */
  lemma ClickHighlightsCell(c: Client, l: Vec)
    requires Ready(c) && InCanvas(c.z.board, BoardLoc, TileSize, l)
    requires c.m.startClick == l && !c.m.hasMoved
    ensures var r := ReleaseUpdateHighlight(c, l); var co := Coords(BoardLoc, TileSize, l);
      && r.h.active && r.h.idx == co
      && (r.h.dir == c.h.dir <==> !(c.h.active && c.h.idx == co))
  {
    var co := Coords(BoardLoc, TileSize, l);
    if c.h.active && c.h.idx == co {
      assert UnitDir(c.h.dir);
    }
  }

  /** The mouse-up listener: release the held tile, update the highlight, end the gesture. */
  function MouseUp(c: Client, l: Vec): (r: Client)
    requires Ready(c)
    ensures Ready(r)
    ensures !c.m.active ==> r == c
    ensures c.m.active ==> r.m == NoMove
  {
    if !c.m.active then c
    else
      var c1 := if c.m.onTile then ReleaseTile(c, l) else c;
      var c2 := ReleaseUpdateHighlight(c1, l);
      c2.(m := NoMove)
  }

  /**
   * A gesture that holds a tile always lands it on a grid, clears every marker, and keeps
   * every tile; no tile is left held.
   */
  lemma MouseUpLandsTile(c: Client, l: Vec)
    requires Ready(c) && c.m.active && c.m.onTile
    ensures var r := MouseUp(c, l); var t := c.m.tile.value;
      && |r.z.tiles| == |c.z.tiles| && SameShape(c.z, r.z)
      && r.z.tiles[t].zone in {ZoneBoard, ZoneTray}
      && (forall i :: 0 <= i < |r.z.tiles| ==> !r.z.tiles[i].invalid)
  {
  }

  /**
   * Pressing and releasing the mouse button, without moving it, on a board tile while no
   * highlight is shown puts the tile back, shows the highlight there, and then turns it
   * down: the release first shows the highlight, and the click handling then finds it
   * already on the clicked cell.
   */
  lemma ClickOnTileWithoutHighlightTurns(c: Client, l: Vec, t: nat)
    requires Ready(c) && !c.h.active && t < |c.z.tiles|
    requires InCanvas(c.z.board, BoardLoc, TileSize, l)
    ensures var r := MouseUp(MouseDown(c, l, Some(t)), l);
      && r.h.active && r.h.idx == Coords(BoardLoc, TileSize, l)
      && r.h.dir == Vec(c.h.dir.y, c.h.dir.x)
      && r.z.tiles[t].zone == ZoneBoard && r.z.tiles[t].idx == Coords(BoardLoc, TileSize, l)
  {
    var d := MouseDown(c, l, Some(t));
    assert d.z.board == PickUp(c.z, t).board;
  }

  // ---------------------------------------------------------------- the keyboard

  /** The direction an arrow key names. */
  function ArrowDir(key: string): (r: Option<Vec>)
    ensures r.Some? ==> r.value in {Vec(0, -1), Vec(0, 1), Vec(-1, 0), Vec(1, 0)}
  {
    if key == "ArrowUp" then Some(Vec(0, -1))
    else if key == "ArrowDown" then Some(Vec(0, 1))
    else if key == "ArrowLeft" then Some(Vec(-1, 0))
    else if key == "ArrowRight" then Some(Vec(1, 0))
    else None
  }

  /**
   * A one-byte key that `unicode.IsLetter` accepts. A key of one character outside ASCII is
   * longer than one byte in Go, so the `len(k) == 1` test already rejects it.
   */
  predicate IsLetterKey(key: string) {
    |key| == 1 && ('a' <= key[0] <= 'z' || 'A' <= key[0] <= 'Z')
  }

  function Upper(ch: char): (r: char)
    ensures 'a' <= ch <= 'z' ==> 'A' <= r <= 'Z' && r as int == ch as int - 32
    ensures !('a' <= ch <= 'z') ==> r == ch
  {
    if 'a' <= ch <= 'z' then (ch as int - 32) as char else ch
  }

  /**
   * The key-down listener of wasm/input.go: nothing happens while no highlight is shown;
   * arrows shift the board with Ctrl held and move the highlight otherwise; space and
   * Shift turn it; Backspace and Delete erase; a letter is fetched from the tray in upper
   * case. (The copy in wasm/handle.go shifts the board on every arrow: it is this function
   * with `ctrl` true.)
   */
  function KeyDown(c: Client, key: string, ctrl: bool): (r: Client)
    requires Ready(c)
    ensures Ready(r) && r.m == c.m && SameShape(c.z, r.z) && |r.z.tiles| == |c.z.tiles|
    ensures !c.h.active ==> r == c
    ensures c.h.active && ArrowDir(key).Some? && ctrl ==> r.h == c.h && r.z == ShiftBoard(c.z, ArrowDir(key).value)
    ensures c.h.active && ArrowDir(key).Some? && !ctrl ==> r.z == c.z && r.h == MoveHighlight(c.z.board, c.h, ArrowDir(key).value)
    ensures c.h.active && (key == " " || key == "Shift") ==> r.z == c.z && r.h == ToggleDir(c.h)
    ensures c.h.active && (key == "Backspace" || key == "Delete") ==> r == BackspaceHighlight(c)
    ensures c.h.active && ArrowDir(key).None? && key !in {" ", "Shift", "Backspace", "Delete"} && !IsLetterKey(key) ==> r == c
  {
    if !c.h.active then c
    else if ArrowDir(key).Some? then
      var d := ArrowDir(key).value;
      if ctrl then c.(z := ShiftBoard(c.z, d)) else c.(h := MoveHighlight(c.z.board, c.h, d))
    else if key == " " || key == "Shift" then c.(h := ToggleDir(c.h))
    else if key == "Backspace" || key == "Delete" then BackspaceHighlight(c)
    else if IsLetterKey(key) then FindForHighlight(c, [Upper(key[0])])
    else c
  }

  /** A lower-case and an upper-case letter key do the same. */
  lemma KeyCaseInsensitive(c: Client, ch: char, ctrl: bool)
    requires Ready(c) && 'a' <= ch <= 'z'
    ensures KeyDown(c, [ch], ctrl) == KeyDown(c, [Upper(ch)], ctrl)
  {
    if c.h.active {
      KeyDownLetter(c, [ch], ctrl);
      KeyDownLetter(c, [Upper(ch)], ctrl);
      assert [Upper([ch][0])] == [Upper([Upper(ch)][0])];
    }
  }

  /** With a highlight shown, a letter key looks for its upper-case letter. */
  lemma KeyDownLetter(c: Client, key: string, ctrl: bool)
    requires Ready(c) && c.h.active && IsLetterKey(key)
    ensures KeyDown(c, key, ctrl) == FindForHighlight(c, [Upper(key[0])])
  {
    assert ArrowDir(key).None?;
    assert key != " " && key != "Shift" && key != "Backspace" && key != "Delete";
  }

  // ---------------------------------------------------------------- whole-state buttons

  /** The `sendAllTilesToTray` button: every board tile to the tray, highlight hidden, markers cleared. */
  function SendAllTilesToTray(c: Client): (r: Client)
    requires Ready(c)
    ensures Ready(r) && r.m == c.m && r.h == Unhighlight() && |r.z.tiles| == |c.z.tiles|
    ensures r.z == SendAllToTray(c.z)
  {
    c.(z := SendAllToTray(c.z), h := Unhighlight())
  }

  /** The `shuffleTiles` button, with the swaps `rand.Shuffle` makes given. */
  function ShuffleTiles(c: Client, swaps: seq<(nat, nat)>): (r: Client)
    requires Ready(c)
    requires var n := |TrayTiles(c.z.tiles, 0)|; forall q :: 0 <= q < |swaps| ==> swaps[q].0 < n && swaps[q].1 < n
    ensures Ready(r) && r.m == c.m && r.h == c.h
    ensures Shuffled(c.z, r.z, ApplySwaps(TrayTiles(c.z.tiles, 0), swaps))
  {
    c.(z := Shuffle(c.z, swaps))
  }

  // ---------------------------------------------------------------- socket messages

  /**
   * `resetGameManager(boardSize, tileCnt)`: an empty board of `boardSize`, an empty tray of
   * `tileCnt` slots in one row, no tiles, no gesture and a hidden highlight pointing right.
   */
  function Reset(boardSize: Vec, tileCnt: int): (r: Client)
    requires boardSize.y > 0
    ensures Ready(r) && r.z.tiles == [] && r.m == NoMove && !r.h.active
    ensures IdxSize(r.z.board) == Vec(Count(boardSize.x), boardSize.y)
    ensures |r.z.tray| == 1 && |r.z.tray[0]| == Count(tileCnt)
    ensures forall y, x :: 0 <= y < |r.z.board| && 0 <= x < |r.z.board[y]| ==> r.z.board[y][x] == None
    ensures forall x :: 0 <= x < |r.z.tray[0]| ==> r.z.tray[0][x] == None
  {
    var z := Zones(EmptyCells(boardSize), EmptyCells(Vec(tileCnt, 1)), []);
    Client(z, Highlight(false, Vec(0, 0), Vec(1, 0)), NoMove)
  }

  /** The exported fields of a received tile; the rest start at their zero values. */
  datatype TileData = TileData(value: string, points: int)

  /**
   * A payload as `json.Unmarshal` decodes it into the type the message's case expects;
   * `Garbled` stands for a decoding error.
   */
  datatype Payload = TileList(tiles: seq<TileData>) | OneTile(tile: TileData) | CoordList(coords: seq<Vec>) | GameInfo | Garbled

  /** A received tile: untracked, at index `(0, 0)`, not marked. */
  function NewTile(d: TileData): Tile {
    Tile(d.value, d.points, ZoneNone, Vec(0, 0), false)
  }

  /** Append a received tile to `mgr.tiles` and send it to the tray. */
  function Receive(s: Zones, d: TileData): (r: Zones)
    requires Valid(s)
    ensures Valid(r) && SameShape(s, r) && |r.tiles| == |s.tiles| + 1
    ensures r.board == s.board
    ensures forall i :: 0 <= i < |s.tiles| ==> r.tiles[i] == s.tiles[i]
    ensures r.tiles[|s.tiles|] == NewTile(d).(zone := ZoneTray, idx := Vec(FirstNil(s.tray[0]), 0))
  {
    var s1 := Append(s, d);
    PickUpKeepsTray(s1, |s.tiles|);
    PickUpKeepsBoard(s1, |s.tiles|);
    SendToTray(s1, |s.tiles|)
  }

  /** The untracked new tile appended to `mgr.tiles`, which keeps the invariant. */
  function Append(s: Zones, d: TileData): (r: Zones)
    requires Valid(s)
    ensures Valid(r) && r == s.(tiles := s.tiles + [NewTile(d)])
  {
    var s1 := s.(tiles := s.tiles + [NewTile(d)]);
    assert Valid(s1) by {
      forall i | 0 <= i < |s1.tiles| ensures Placed(s1, i) {
        if i < |s.tiles| {
          assert Placed(s, i);
        }
      }
      forall y, x | 0 <= y < |s1.board| && 0 <= x < |s1.board[y]| ensures BoardOwned(s1, y, x) {
        assert BoardOwned(s, y, x);
      }
      forall x | 0 <= x < |s1.tray[0]| ensures TrayOwned(s1, x) {
        assert TrayOwned(s, x);
      }
    }
    s1
  }

  /** The loop of the `Start` case: receive each tile in turn. */
  function ReceiveAll(s: Zones, ds: seq<TileData>): (r: Zones)
    requires Valid(s)
    ensures Valid(r) && SameShape(s, r) && |r.tiles| == |s.tiles| + |ds|
    decreases |ds|
  {
    if ds == [] then s else ReceiveAll(Receive(s, ds[0]), ds[1..])
  }

  /**
   * `r` is the state after receiving the first `k` tiles of `ds` into an empty manager:
   * tile `j` is the `j`th received tile in tray slot `j`, the board is empty, and the tray
   * is filled up to `k` and as wide as needed, at least `w`.
   */
  predicate Dealt(r: Zones, ds: seq<TileData>, k: nat, w: nat) {
    && k <= |ds| && |r.tiles| == k && |r.tray| == 1
    && (forall j :: 0 <= j < k ==> r.tiles[j] == NewTile(ds[j]).(zone := ZoneTray, idx := Vec(j, 0)))
    && (forall y, x :: 0 <= y < |r.board| && 0 <= x < |r.board[y]| ==> r.board[y][x] == None)
    && FilledTo(r.tray[0], k) && |r.tray[0]| == if k < w then w else k
  }

  /** Receiving the rest of `ds` keeps dealing tile `j` into slot `j`. */
  lemma {:induction false} ReceiveAllDeals(s: Zones, ds: seq<TileData>, k: nat, w: nat)
    requires Valid(s) && k <= |ds| && Dealt(s, ds, k, w)
    ensures Dealt(ReceiveAll(s, ds[k..]), ds, |ds|, w)
    decreases |ds| - k
  {
    if k < |ds| {
      assert ds[k..][0] == ds[k] && ds[k..][1..] == ds[k + 1..];
      var r := Receive(s, ds[k]);
      FirstNilOfFilled(s.tray[0], k);
      ReceiveStep(s, r, ds, k, w);
      ReceiveAllDeals(r, ds, k + 1, w);
    } else {
      assert ds[k..] == [];
    }
  }

  lemma ReceiveStep(s: Zones, r: Zones, ds: seq<TileData>, k: nat, w: nat)
    requires Valid(s) && Valid(r) && k < |ds| && Dealt(s, ds, k, w) && SameShape(s, r)
    requires FirstNil(s.tray[0]) == k && r.board == s.board && |r.tiles| == k + 1
    requires forall i :: 0 <= i < k ==> r.tiles[i] == s.tiles[i]
    requires r.tiles[k] == NewTile(ds[k]).(zone := ZoneTray, idx := Vec(k, 0))
    requires |r.tray[0]| == if k < |s.tray[0]| then |s.tray[0]| else |s.tray[0]| + 1
    ensures Dealt(r, ds, k + 1, w)
  {
    assert Placed(r, k);
    forall x | 0 <= x < k ensures r.tray[0][x].Some? {
      assert TrayOwned(s, x);
      assert Placed(r, s.tray[0][x].value);
    }
    forall x | k + 1 <= x < |r.tray[0]| ensures r.tray[0][x].None? {
      assert TrayOwned(r, x);
    }
  }

  /** The payload decodes into the type the case of `t` expects (types without a payload always do). */
  predicate Fits(t: Msg.Byte, data: Payload) {
    && (t == Msg.Start ==> data.TileList?)
    && (t == Msg.AddTile ==> data.OneTile?)
    && (t == Msg.Invalid ==> data.CoordList?)
    && (t == Msg.GameInfo ==> data.GameInfo?)
  }

  /**
   * `handleSocketMsg(t, data)`: the new client state and the returned code, 1 exactly when
   * a payload the case decodes cannot be decoded. `Start` resets the manager to a 16×16
   * board and a 16-slot tray (before decoding) and receives every tile; `AddTile` receives
   * one; `Invalid` marks the listed cells. Every other type leaves the state alone.
   */
  function HandleSocketMsg(c: Client, t: Msg.Byte, data: Payload): (r: (Client, int))
    requires Ready(c)
    requires t == Msg.Invalid && data.CoordList? ==> Readable(c.z.board, data.coords)
    ensures Ready(r.0)
    ensures r.1 in {0, 1} && (r.1 == 1 <==> !Fits(t, data))
  {
    if t == Msg.Start then
      var c0 := Reset(Vec(16, 16), 16);
      if data.TileList? then (c0.(z := ReceiveAll(c0.z, data.tiles)), 0) else (c0, 1)
    else if t == Msg.AddTile then
      if data.OneTile? then (c.(z := Receive(c.z, data.tile)), 0) else (c, 1)
    else if t == Msg.Invalid then
      if data.CoordList? then (c.(z := MarkInvalid(c.z, data.coords)), 0) else (c, 1)
    else if t == Msg.GameInfo then
      if data.GameInfo? then (c, 0) else (c, 1)
    else (c, 0)
  }

  /**
   * A `Start` message deals the received tiles into tray slots `0, 1, …` in order, onto an
   * empty 16×16 board and a tray of 16 slots that grows only when more tiles arrive.
   */
  lemma StartDeals(c: Client, ds: seq<TileData>)
    requires Ready(c)
    ensures var r := HandleSocketMsg(c, Msg.Start, TileList(ds)).0;
      && Dealt(r.z, ds, |ds|, 16) && IdxSize(r.z.board) == Vec(16, 16)
      && !r.h.active && r.m == NoMove
  {
    var c0 := Reset(Vec(16, 16), 16);
    assert Dealt(c0.z, ds, 0, 16);
    ReceiveAllDeals(c0.z, ds, 0, 16);
    assert ds[0..] == ds;
  }
}

=== FILE: wasm_manager.dfy ===
/**
 * The game manager `mgr` of the Go/WASM client (wasm/game.go, wasm/grid.go,
 * wasm/highlight.go, wasm/input.go, wasm/handle.go) as an object whose methods update its
 * fields in place, loop by loop as the source does. Every method is proved to leave the
 * manager in the state the corresponding function of WasmZones, WasmActions or WasmInput
 * computes from the state before the call, so every property proved about those functions
 * holds of the manager.
 */
module WasmManager {
  import opened Vectors
  import opened Wrappers
  import opened WasmZones
  import opened WasmActions
  import opened WasmInput
  import Msg

  /** `newInnerGrid`: `size.y` rows, each grown one empty cell at a time to `size.x` cells. */
  method NewInnerGrid(size: Vec) returns (b: Cells)
    ensures b == EmptyCells(size)
  {
    b := [];
    var j := 0;
    while j < size.y
      invariant 0 <= j == |b| <= Count(size.y)
      invariant forall y :: 0 <= y < j ==> b[y] == seq(Count(size.x), _ => None)
    {
      b := b + [[]];
      var i := 0;
      while i < size.x
        invariant 0 <= i <= Count(size.x) && |b| == j + 1
        invariant forall y :: 0 <= y < j ==> b[y] == seq(Count(size.x), _ => None)
        invariant b[j] == seq(i, _ => None)
      {
        b := b[j := b[j] + [None]];
        i := i + 1;
      }
      j := j + 1;
    }
  }

  /** The only empty slot of a row whose earlier slots are all taken is the first empty one. */
  lemma FirstNilAt(row: seq<Option<nat>>, i: nat)
    requires i < |row| && row[i].None? && forall x :: 0 <= x < i ==> row[x].Some?
    ensures FirstNil(row) == i
  {
  }

  /** A tray row with every slot taken has its first empty slot just past its end. */
  lemma FirstNilFull(row: seq<Option<nat>>)
    requires forall x :: 0 <= x < |row| ==> row[x].Some?
    ensures FirstNil(row) == |row|
  {
  }

  /** The tray tiles from `k` on depend only on the zones from `k` on. */
  lemma {:induction false} TrayTilesFrame(a: seq<Tile>, b: seq<Tile>, k: nat)
    requires |a| == |b| && k <= |a|
    requires forall j :: k <= j < |a| ==> a[j].zone == b[j].zone
    ensures TrayTiles(a, k) == TrayTiles(b, k)
    decreases |a| - k
  {
    if k < |a| {
      TrayTilesFrame(a, b, k + 1);
    }
  }

  /** `Shuffle` is the last loop of `shuffleTiles` and the unmarking, after the pick-up loop. */
  lemma ShuffleUnfolds(s: Zones, swaps: seq<(nat, nat)>)
    requires Valid(s)
    requires var n := |TrayTiles(s.tiles, 0)|; forall q :: 0 <= q < |swaps| ==> swaps[q].0 < n && swaps[q].1 < n
    ensures ShuffleInputs(s, PickUpTray(s, 0), TrayTiles(s.tiles, 0), ApplySwaps(TrayTiles(s.tiles, 0), swaps))
    ensures Shuffle(s, swaps) == MarkAllValid(SendEach(PickUpTray(s, 0), ApplySwaps(TrayTiles(s.tiles, 0), swaps), 0))
  {
    ShuffleStart(s, swaps);
  }

  // The single steps of the loops below, each the unfolding of its recursive function.

  /** Every entry of the work list names a tile and a board cell. */
  predicate OnBoard(s: Zones, ws: seq<(nat, Vec)>)
    requires Rect(s.board)
  {
    forall j :: 0 <= j < |ws| ==> ws[j].0 < |s.tiles| && InCoords(s.board, ws[j].1)
  }

  lemma MoveAllNext(s: Zones, ws: seq<(nat, Vec)>, k: nat, r: Zones)
    requires Valid(s) && k < |ws| && OnBoard(s, ws)
    requires r == WasmZones.AddToBoard(s, ws[k].0, ws[k].1)
    ensures Valid(r) && OnBoard(r, ws)
    ensures MoveAll(s, ws, k) == MoveAll(r, ws, k + 1)
  {
    assert IdxSize(r.board) == IdxSize(s.board);
  }

  lemma SendBoardTilesNext(s: Zones, k: nat, r: Zones)
    requires Valid(s) && k < |s.tiles|
    requires r == if s.tiles[k].zone == ZoneBoard then WasmZones.SendToTray(s, k) else s
    ensures Valid(r) && |r.tiles| == |s.tiles|
    ensures SendBoardTiles(s, k) == SendBoardTiles(r, k + 1)
  {
  }

  predicate PickingUp(s: Zones, i: nat, target: Zones)
  {
    Valid(s) && i <= |s.tiles| && PickUpTray(s, i) == target
  }

  predicate Listed(ts: seq<nat>, tiles: seq<Tile>, i: nat, full: seq<nat>)
  {
    i <= |tiles| && ts + TrayTiles(tiles, i) == full
  }

  lemma PickUpTrayNext(s: Zones, k: nat, r: Zones)
    requires Valid(s) && k < |s.tiles|
    requires r == if s.tiles[k].zone == ZoneTray then WasmZones.PickUp(s, k) else s
    ensures Valid(r) && |r.tiles| == |s.tiles|
    ensures PickUpTray(s, k) == PickUpTray(r, k + 1)
  {
  }

  lemma SendEachNext(s: Zones, order: seq<nat>, k: nat, r: Zones)
    requires Valid(s) && k < |order| && Below(order, |s.tiles|)
    requires r == WasmZones.SendToTray(s, order[k])
    ensures Valid(r) && |r.tiles| == |s.tiles|
    ensures SendEach(s, order, k) == SendEach(r, order, k + 1)
  {
  }

  lemma ReceiveAllNext(s: Zones, ds: seq<TileData>, k: nat, r: Zones)
    requires Valid(s) && k < |ds|
    requires r == WasmInput.Receive(s, ds[k])
    ensures Valid(r) && ReceiveAll(s, ds[k..]) == ReceiveAll(r, ds[k + 1..])
  {
    assert ds[k..][0] == ds[k] && ds[k..][1..] == ds[k + 1..];
  }

  /** `rand.Shuffle` calling its swap function on the listed tiles, once per given pair. */
  method SwapAll(ts: seq<nat>, swaps: seq<(nat, nat)>) returns (r: seq<nat>)
    requires forall q :: 0 <= q < |swaps| ==> swaps[q].0 < |ts| && swaps[q].1 < |ts|
    ensures r == ApplySwaps(ts, swaps)
  {
    r := ts;
    var q := 0;
    while q < |swaps|
      invariant 0 <= q <= |swaps| && |r| == |ts|
      invariant ApplySwaps(r, swaps[q..]) == ApplySwaps(ts, swaps)
    {
      var a, b := swaps[q].0, swaps[q].1;
      assert swaps[q..][0] == swaps[q] && swaps[q..][1..] == swaps[q + 1..];
      r := r[a := r[b]][b := r[a]];
      q := q + 1;
    }
    assert swaps[q..] == [];
  }

  lemma Regroup(a: seq<nat>, b: seq<nat>, c: seq<nat>, ab: seq<nat>, whole: seq<nat>)
    requires ab == a + b && a + (b + c) == whole
    ensures ab + c == whole
  {
  }

  /** `mgr`: the grids, the tiles it tracks, the typing highlight and the gesture in progress. */
  class GameManager {
    var board: Cells
    var tray: Cells
    var tiles: seq<Tile>
    var highlight: Highlight
    var move: Move

    /** The zones as a value. */
    function Placement(): Zones
      reads this
    {
      Zones(board, tray, tiles)
    }

    /** The whole state as a value. */
    function State(): Client
      reads this
    {
      Client(Placement(), highlight, move)
    }

    /** A manager as `resetGameManager(boardSize, tileCnt)` leaves it. */
    constructor (boardSize: Vec, tileCnt: int)
      requires boardSize.y > 0
      ensures State() == Reset(boardSize, tileCnt)
    {
      board, tray, tiles, highlight, move := [], [], [], WasmInput.Unhighlight(), NoMove;
      new;
      ResetManager(boardSize, tileCnt);
    }

    /** `resetGameManager`: fresh empty grids, no tiles, no gesture, a hidden highlight. */
    method ResetManager(boardSize: Vec, tileCnt: int)
      requires boardSize.y > 0
      modifies this
      ensures State() == Reset(boardSize, tileCnt)
    {
      var b := NewInnerGrid(boardSize);
      var t := NewInnerGrid(Vec(tileCnt, 1));
      board, tray, tiles := b, t, [];
      move := NoMove;
      highlight := Highlight(false, Vec(0, 0), Vec(1, 0));
    }

    // -------------------------------------------------------------- tile moves

    /** `pickUp`. */
    method PickUp(t: nat)
      requires Valid(Placement()) && t < |tiles|
      modifies this
      ensures State() == old(State()).(z := WasmZones.PickUp(old(Placement()), t))
    {
      var tile := tiles[t];
      assert Placed(Placement(), t);
      if tile.zone == ZoneTray {
        tray := Set(tray, tile.idx, None);
      } else if tile.zone == ZoneBoard {
        board := Set(board, tile.idx, None);
      }
      tiles := tiles[t := tile.(zone := ZoneNone)];
    }

    /** `Grid.AddTile` on the grid of `zone`. */
    method AddTile(zone: Zone, t: nat, idx: Vec)
      requires Valid(Placement()) && t < |tiles| && (zone == ZoneBoard || zone == ZoneTray)
      requires InRow(GridOf(Placement(), zone), idx)
      modifies this
      ensures State() == old(State()).(z := WasmZones.AddTile(old(Placement()), zone, t, idx))
    {
      PickUp(t);
      if zone == ZoneBoard {
        board := Set(board, idx, Some(t));
      } else {
        tray := Set(tray, idx, Some(t));
      }
      tiles := tiles[t := tiles[t].(zone := zone, idx := idx)];
    }

    /**
     * `sendToTray`: scan the tray row by row for an empty slot; with none, append a slot to
     * row 0 and use it.
     */
    method SendToTray(t: nat)
      requires Valid(Placement()) && t < |tiles|
      modifies this
      ensures State() == old(State()).(z := WasmZones.SendToTray(old(Placement()), t))
      decreases 2
    {
      PickUp(t);
      ghost var p := Placement();
      ghost var c := State();
      var size := IdxSize(tray);
      var j := 0;
      while j < size.y
        invariant 0 <= j <= size.y == 1 && State() == c
        invariant j > 0 ==> forall x :: 0 <= x < |tray[0]| ==> tray[0][x].Some?
      {
        var i := 0;
        while i < size.x
          invariant 0 <= i <= size.x == |tray[0]| && j == 0 && State() == c
          invariant forall x :: 0 <= x < i ==> tray[0][x].Some?
        {
          if Get(tray, Vec(i, j)) == None {
            FirstNilAt(tray[0], i);
            AddToTray(t, Vec(i, j));
            return;
          }
          i := i + 1;
        }
        j := j + 1;
      }
      FirstNilFull(tray[0]);
      tray := tray[0 := tray[0] + [None]];
      assert Placement() == Grow(p);
      AddToTray(t, Vec(|tray[0]| - 1, 0));
    }

    /** `addToBoard`: a tile already in the cell goes to the tray first. */
    method AddToBoard(t: nat, idx: Vec)
      requires Valid(Placement()) && t < |tiles| && InCoords(board, idx)
      modifies this
      ensures State() == old(State()).(z := WasmZones.AddToBoard(old(Placement()), t, idx))
    {
      InCoordsInRow(board, idx);
      var prev := Get(board, idx);
      if prev.Some? {
        assert BoardOwned(Placement(), idx.y, idx.x);
        PickUpKeepsTray(Placement(), prev.value);
        SendToTray(prev.value);
      }
      AddTile(ZoneBoard, t, idx);
    }

    /** `addToTray`, as intended: an occupied slot sends the tile to the first free slot instead. */
    method AddToTray(t: nat, idx: Vec)
      requires Valid(Placement()) && t < |tiles| && InRow(tray, idx)
      modifies this
      ensures State() == old(State()).(z := WasmZones.AddToTray(old(Placement()), t, idx))
      decreases if Get(tray, idx).Some? then 3 else 0
    {
      if Get(tray, idx).Some? {
        SendToTray(t);
      } else {
        AddTile(ZoneTray, t, idx);
      }
    }

    /**
     * `ShiftBoard`: collect every board tile with its shifted index, returning untouched as
     * soon as one would leave the board; then add each to the board in order.
     */
    method ShiftBoard(d: Vec)
      requires Valid(Placement())
      modifies this
      ensures State() == old(State()).(z := WasmZones.ShiftBoard(old(Placement()), d))
    {
      var toMove: seq<(nat, Vec)> := [];
      var i := 0;
      while i < |tiles|
        invariant 0 <= i <= |tiles| && toMove == ToMove(tiles[..i], d)
        invariant forall j :: 0 <= j < i && tiles[j].zone == ZoneBoard ==> InCoords(board, Add(tiles[j].idx, d))
      {
        if tiles[i].zone == ZoneBoard {
          var next := Add(tiles[i].idx, d);
          if !InCoords(board, next) {
            assert Blocked(Placement(), d);
            return;
          }
          toMove := toMove + [(i, next)];
        }
        assert tiles[..i + 1][..i] == tiles[..i];
        i := i + 1;
      }
      assert tiles[..i] == tiles;
      assert !Blocked(Placement(), d);
      assert OnBoard(Placement(), toMove);
      MoveEach(toMove);
    }

    /** The second loop of `ShiftBoard`: each entry of the work list in order through `addToBoard`. */
    method MoveEach(ws: seq<(nat, Vec)>)
      requires Valid(Placement()) && OnBoard(Placement(), ws)
      modifies this
      ensures State() == old(State()).(z := MoveAll(old(Placement()), ws, 0))
    {
      ghost var c0 := State();
      var k := 0;
      while k < |ws|
        invariant 0 <= k <= |ws| && Valid(Placement()) && OnBoard(Placement(), ws)
        invariant MoveAll(Placement(), ws, k) == MoveAll(c0.z, ws, 0)
        invariant highlight == c0.h && move == c0.m
      {
        ghost var before := Placement();
        AddToBoard(ws[k].0, ws[k].1);
        MoveAllNext(before, ws, k, Placement());
        k := k + 1;
      }
    }

    // -------------------------------------------------------------- markers

    /** `markInvalidTiles`: mark the tile at each coordinate, returning at the first empty cell. */
    method MarkInvalidTiles(cs: seq<Vec>)
      requires Valid(Placement()) && Readable(board, cs)
      modifies this
      ensures State() == old(State()).(z := MarkInvalid(old(Placement()), cs))
    {
      ghost var c0 := State();
      var k := 0;
      while k < |cs|
        invariant 0 <= k <= |cs| && Valid(Placement()) && Readable(board, cs[k..])
        invariant MarkInvalid(Placement(), cs[k..]) == MarkInvalid(c0.z, cs)
        invariant highlight == c0.h && move == c0.m
      {
        var c := cs[k];
        InCoordsInRow(board, c);
        var t := Get(board, c);
        if t.None? {
          return;
        }
        assert BoardOwned(Placement(), c.y, c.x);
        tiles := tiles[t.value := tiles[t.value].(invalid := true)];
        assert cs[k..][1..] == cs[k + 1..];
        k := k + 1;
      }
    }

    /** `markAllTilesValid`. */
    method MarkAllTilesValid()
      requires Valid(Placement())
      modifies this
      ensures State() == old(State()).(z := MarkAllValid(old(Placement())))
    {
      ghost var c0 := State();
      var i := 0;
      while i < |tiles|
        invariant 0 <= i <= |tiles| == |c0.z.tiles|
        invariant board == c0.z.board && tray == c0.z.tray && highlight == c0.h && move == c0.m
        invariant forall j :: 0 <= j < i ==> tiles[j] == c0.z.tiles[j].(invalid := false)
        invariant forall j :: i <= j < |tiles| ==> tiles[j] == c0.z.tiles[j]
      {
        tiles := tiles[i := tiles[i].(invalid := false)];
        i := i + 1;
      }
      assert tiles == MarkAllValid(c0.z).tiles;
    }

    // -------------------------------------------------------------- buttons

    /** The `sendAllTilesToTray` button. */
    method SendAllTilesToTray()
      requires Ready(State())
      modifies this
      ensures State() == WasmInput.SendAllTilesToTray(old(State()))
    {
      SendBoardTilesToTray();
      Unhighlight();
      MarkAllTilesValid();
    }

    /** The loop of `sendAllTilesToTray`: each board tile, in `mgr.tiles` order, to the tray. */
    method SendBoardTilesToTray()
      requires Valid(Placement())
      modifies this
      ensures State() == old(State()).(z := SendBoardTiles(old(Placement()), 0))
    {
      ghost var target := SendBoardTiles(Placement(), 0);
      ghost var c0 := State();
      var i := 0;
      while i < |tiles|
        invariant 0 <= i <= |tiles| && Valid(Placement())
        invariant SendBoardTiles(Placement(), i) == target
        invariant highlight == c0.h && move == c0.m
      {
        SendBoardTile(i);
        i := i + 1;
      }
    }

    /** One turn of that loop: tile `i` goes to the tray when it is on the board. */
    method SendBoardTile(i: nat)
      requires Valid(Placement()) && i < |tiles|
      modifies this
      ensures Valid(Placement()) && |tiles| == old(|tiles|) && highlight == old(highlight) && move == old(move)
      ensures SendBoardTiles(old(Placement()), i) == SendBoardTiles(Placement(), i + 1)
    {
      ghost var before := Placement();
      if tiles[i].zone == ZoneBoard {
        SendToTray(i);
      }
      SendBoardTilesNext(before, i, Placement());
    }

    /** The `shuffleTiles` button, with the swaps `rand.Shuffle` makes given. */
    method ShuffleTiles(swaps: seq<(nat, nat)>)
      requires Ready(State())
      requires var n := |TrayTiles(tiles, 0)|; forall q :: 0 <= q < |swaps| ==> swaps[q].0 < n && swaps[q].1 < n
      modifies this
      ensures State() == WasmInput.ShuffleTiles(old(State()), swaps)
    {
      ghost var s0 := Placement();
      ShuffleUnfolds(s0, swaps);
      var ts := PickUpTrayTiles();
      ts := SwapAll(ts, swaps);
      assert Below(ts, |tiles|);
      SendEachToTray(ts);
      MarkAllTilesValid();
    }

    /** The first loop of `shuffleTiles`: pick up every tray tile and list it, in `mgr.tiles` order. */
    method PickUpTrayTiles() returns (ts: seq<nat>)
      requires Valid(Placement())
      modifies this
      ensures State() == old(State()).(z := PickUpTray(old(Placement()), 0))
      ensures ts == TrayTiles(old(tiles), 0)
    {
      ghost var c0 := State();
      ts := [];
      var i := 0;
      while i < |tiles|
        invariant 0 <= i <= |tiles| == |c0.z.tiles| && Valid(Placement())
        invariant PickingUp(Placement(), i, PickUpTray(c0.z, 0))
        invariant Listed(ts, tiles, i, TrayTiles(c0.z.tiles, 0))
        invariant highlight == c0.h && move == c0.m
      {
        ts := PickUpFromTray(i, ts, c0.z);
        i := i + 1;
      }
    }

    /**
     * One turn of that loop: tile `i` is picked up and added to the list `ts` when it is on
     * the tray. The loop's invariant, relative to the state `s0` it started from, is kept.
     */
    method PickUpFromTray(i: nat, ts: seq<nat>, ghost s0: Zones) returns (ts': seq<nat>)
      requires Valid(Placement()) && Valid(s0) && i < |tiles| == |s0.tiles|
      requires PickingUp(Placement(), i, PickUpTray(s0, 0))
      requires Listed(ts, tiles, i, TrayTiles(s0.tiles, 0))
      modifies this
      ensures Valid(Placement()) && |tiles| == |s0.tiles| && highlight == old(highlight) && move == old(move)
      ensures PickingUp(Placement(), i + 1, PickUpTray(s0, 0))
      ensures Listed(ts', tiles, i + 1, TrayTiles(s0.tiles, 0))
    {
      ghost var before := Placement();
      var got: seq<nat> := [];
      if tiles[i].zone == ZoneTray {
        PickUp(i);
        got := [i];
      }
      ts' := ts + got;
      TrayTilesFrame(before.tiles, tiles, i + 1);
      PickUpTrayNext(before, i, Placement());
      Regroup(ts, got, TrayTiles(tiles, i + 1), ts', TrayTiles(s0.tiles, 0));
    }

    /** The last loop of `shuffleTiles`: send each listed tile to the tray in order. */
    method SendEachToTray(ts: seq<nat>)
      requires Valid(Placement()) && Below(ts, |tiles|)
      modifies this
      ensures State() == old(State()).(z := SendEach(old(Placement()), ts, 0))
    {
      ghost var c0 := State();
      var k := 0;
      while k < |ts|
        invariant 0 <= k <= |ts| && Valid(Placement()) && |tiles| == |c0.z.tiles|
        invariant SendEach(Placement(), ts, k) == SendEach(c0.z, ts, 0)
        invariant highlight == c0.h && move == c0.m
      {
        ghost var before := Placement();
        SendToTray(ts[k]);
        SendEachNext(before, ts, k, Placement());
        k := k + 1;
      }
    }

    // -------------------------------------------------------------- the highlight

    /** `moveHighlight`. */
    method MoveHighlight(d: Vec)
      requires |board| > 0
      modifies this
      ensures State() == old(State()).(h := WasmInput.MoveHighlight(old(board), old(highlight), d))
    {
      var next := Add(highlight.idx, d);
      if InCoords(board, next) {
        highlight := highlight.(idx := next);
      }
    }

    /** `toggleWordDir`. */
    method ToggleWordDir()
      modifies this
      ensures State() == old(State()).(h := ToggleDir(old(highlight)))
    {
      highlight := highlight.(dir := Vec(highlight.dir.y, highlight.dir.x));
    }

    /** `highlightCoords`. */
    method HighlightCoords(c: Vec)
      modifies this
      ensures State() == old(State()).(h := WasmInput.HighlightCoords(old(highlight), c))
    {
      highlight := highlight.(active := true, idx := c);
    }

    /** `unhighlight`. */
    method Unhighlight()
      modifies this
      ensures State() == old(State()).(h := WasmInput.Unhighlight())
    {
      highlight := Highlight(false, Vec(-1, -1), Vec(1, 0));
    }

    /** `findForHighlight(v)`: search `mgr.tiles` in order for a tray tile holding `v`. */
    method FindForHighlight(v: string)
      requires Ready(State()) && highlight.active
      modifies this
      ensures State() == WasmInput.FindForHighlight(old(State()), v)
    {
      InCoordsInRow(board, highlight.idx);
      assert BoardOwned(Placement(), highlight.idx.y, highlight.idx.x);
      var prev := Get(board, highlight.idx);
      if prev.Some? && tiles[prev.value].value == v {
        MoveHighlight(highlight.dir);
        return;
      }
      ghost var c0 := State();
      var i := 0;
      while i < |tiles|
        invariant 0 <= i <= |tiles| && State() == c0
        invariant FirstTrayTile(tiles, v, i) == FirstTrayTile(tiles, v, 0)
      {
        if tiles[i].zone == ZoneTray && tiles[i].value == v {
          AddToBoard(i, highlight.idx);
          MoveHighlight(highlight.dir);
          return;
        }
        i := i + 1;
      }
    }

    /** `backspaceHighlight`. */
    method BackspaceHighlight()
      requires Ready(State()) && highlight.active
      modifies this
      ensures State() == WasmInput.BackspaceHighlight(old(State()))
    {
      InCoordsInRow(board, highlight.idx);
      var prev := Get(board, highlight.idx);
      if prev.Some? {
        assert BoardOwned(Placement(), highlight.idx.y, highlight.idx.x);
        SendToTray(prev.value);
      }
      MoveHighlight(Scale(highlight.dir, -1));
    }

    // -------------------------------------------------------------- the mouse

    /** `clickOnTile`: pick the tile up and hold it. */
    method ClickOnTile(t: nat)
      requires Ready(State()) && t < |tiles|
      modifies this
      ensures State() == WasmInput.ClickOnTile(old(State()), t)
    {
      PickUp(t);
      move := move.(onTile := true, tile := Some(t), startZone := tiles[t].zone, startIdx := tiles[t].idx);
      tiles := tiles[t := tiles[t].(zone := ZoneMoving)];
    }

    /** The mouse-down listener; `hit` is the tile `onTile` finds under the mouse. */
    method MouseDown(l: Vec, hit: Option<nat>)
      requires Ready(State()) && (hit.Some? ==> hit.value < |tiles|)
      modifies this
      ensures State() == WasmInput.MouseDown(old(State()), l, hit)
    {
      move := NoMove.(active := true, startClick := l);
      if hit.Some? {
        ClickOnTile(hit.value);
      }
    }

    /** `moveTile`. */
    method MoveTile()
      modifies this
      ensures State() == old(State()).(m := old(move).(hasMoved := true))
    {
      move := move.(hasMoved := true);
    }

    /** The mouse-move listener. */
    method MouseMove()
      modifies this
      ensures State() == WasmInput.MouseMove(old(State()))
    {
      if !move.active {
        return;
      }
      MoveTile();
    }

    /** `releaseTile`. */
    method ReleaseTile(l: Vec)
      requires Ready(State()) && move.onTile
      modifies this
      ensures State() == WasmInput.ReleaseTile(old(State()), l)
    {
      var t := move.tile.value;
      if InCanvas(board, BoardLoc, TileSize, l) {
        var co := Coords(BoardLoc, TileSize, l);
        CoordsOfInCanvas(board, BoardLoc, TileSize, l);
        AddToBoard(t, co);
        if !highlight.active {
          HighlightCoords(co);
        }
      } else if InCanvas(tray, TrayLoc, TileSize, l) {
        var co := Coords(TrayLoc, TileSize, l);
        CoordsOfInCanvas(tray, TrayLoc, TileSize, l);
        InCoordsInRow(tray, co);
        AddToTray(t, co);
      } else {
        SendToTray(t);
      }
      MarkAllTilesValid();
    }

    /** `releaseUpdateHighlight`. */
    method ReleaseUpdateHighlight(l: Vec)
      requires Ready(State())
      modifies this
      ensures State() == WasmInput.ReleaseUpdateHighlight(old(State()), l)
    {
      if InCanvas(board, BoardLoc, TileSize, l) {
        var co := Coords(BoardLoc, TileSize, l);
        if move.startClick == l && !move.hasMoved {
          if highlight.active && highlight.idx == co {
            ToggleWordDir();
          } else {
            HighlightCoords(co);
          }
        }
      } else {
        Unhighlight();
      }
    }

    /** The mouse-up listener. */
    method MouseUp(l: Vec)
      requires Ready(State())
      modifies this
      ensures State() == WasmInput.MouseUp(old(State()), l)
    {
      if !move.active {
        return;
      }
      if move.onTile {
        ReleaseTile(l);
      }
      ReleaseUpdateHighlight(l);
      move := NoMove;
    }

    // -------------------------------------------------------------- the keyboard

    /** The key-down listener; `ctrl` is whether Ctrl is held. */
    method KeyDown(key: string, ctrl: bool)
      requires Ready(State())
      modifies this
      ensures State() == WasmInput.KeyDown(old(State()), key, ctrl)
    {
      if !highlight.active {
        return;
      }
      var d := ArrowDir(key);
      if d.Some? {
        if ctrl {
          ShiftBoard(d.value);
        } else {
          MoveHighlight(d.value);
        }
      } else if key == " " || key == "Shift" {
        ToggleWordDir();
      } else if key == "Backspace" || key == "Delete" {
        BackspaceHighlight();
      } else if IsLetterKey(key) {
        FindForHighlight([Upper(key[0])]);
      }
    }

    // -------------------------------------------------------------- socket messages

    /** Append a received tile to `mgr.tiles` and send it to the tray. */
    method Receive(d: TileData)
      requires Valid(Placement())
      modifies this
      ensures State() == old(State()).(z := WasmInput.Receive(old(Placement()), d))
    {
      tiles := tiles + [NewTile(d)];
      assert Placement() == Append(old(Placement()), d);
      PickUpKeepsTray(Placement(), |tiles| - 1);
      PickUpKeepsBoard(Placement(), |tiles| - 1);
      SendToTray(|tiles| - 1);
    }

    /** `handleSocketMsg(t, data)`, returning its code. */
    method HandleSocketMsg(t: Msg.Byte, data: Payload) returns (code: int)
      requires Ready(State())
      requires t == Msg.Invalid && data.CoordList? ==> Readable(board, data.coords)
      modifies this
      ensures (State(), code) == WasmInput.HandleSocketMsg(old(State()), t, data)
    {
      if t == Msg.Start {
        ResetManager(Vec(16, 16), 16);
        if !data.TileList? {
          return 1;
        }
        ghost var c0 := State();
        var ds := data.tiles;
        var k := 0;
        while k < |ds|
          invariant 0 <= k <= |ds| && Valid(Placement())
          invariant ReceiveAll(Placement(), ds[k..]) == ReceiveAll(c0.z, ds)
          invariant highlight == c0.h && move == c0.m
        {
          ghost var before := Placement();
          Receive(ds[k]);
          ReceiveAllNext(before, ds, k, Placement());
          k := k + 1;
        }
        assert ds[k..] == [];
        return 0;
      } else if t == Msg.AddTile {
        if !data.OneTile? {
          return 1;
        }
        Receive(data.tile);
      } else if t == Msg.Invalid {
        if !data.CoordList? {
          return 1;
        }
        MarkInvalidTiles(data.coords);
      } else if t == Msg.GameInfo {
        if !data.GameInfo? {
          return 1;
        }
      }
      return 0;
    }
  }
}

=== FILE: wasm_zones.dfy ===
/**
 * The tile zones of the Go/WASM client (wasm/grid.go, wasm/game.go): the board and the
 * tray are matrices of optional tiles indexed `cells[idx.y][idx.x]`, and every tile
 * records its zone and its index. A tile is named by its position in the manager's
 * tile list `mgr.tiles`, to which every tile is appended exactly once.
 *
 * This module states the operations as functions of the whole zone state; the class in
 * wasm_manager.dfy performs them step by step and is proved equal to them.
 */
module WasmZones {
  import opened Vectors
  import opened Wrappers

  datatype Zone = ZoneNone | ZoneTray | ZoneBoard | ZoneMoving

  /** A tile as the client tracks it; its canvas location and drag offset are drawing state. */
  datatype Tile = Tile(value: string, points: int, zone: Zone, idx: Vec, invalid: bool)

  type Cells = seq<seq<Option<nat>>>

  datatype Zones = Zones(board: Cells, tray: Cells, tiles: seq<Tile>)

  /** The canvas geometry `resetGameManager` fixes: cell size and where the grids are drawn. */
  const TileSize := Vec(35, 35)
  const BoardLoc := Vec(10, 10)
  const TrayLoc := Vec(10, 600)

  function GridLoc(z: Zone): Vec {
    if z == ZoneBoard then BoardLoc else TrayLoc
  }

  // ---------------------------------------------------------------- Grid accessors

  /** Every row as long as the first, and at least one row. */
  predicate Rect(g: Cells) {
    |g| > 0 && forall y :: 0 <= y < |g| ==> |g[y]| == |g[0]|
  }

  /** `IdxSize`: the width is the length of row 0, the height the number of rows. */
  function IdxSize(g: Cells): (size: Vec)
    requires |g| > 0
    ensures size.x >= 0 && size.y >= 1
  {
    Vec(|g[0]|, |g|)
  }

  /** `InCoords`: both indices in range of `IdxSize`. */
  predicate InCoords(g: Cells, idx: Vec)
    requires |g| > 0
  {
    0 <= idx.x < IdxSize(g).x && 0 <= idx.y < IdxSize(g).y
  }

  /** The cell exists, so `Get` and `Set` do not panic. */
  predicate InRow(g: Cells, idx: Vec) {
    0 <= idx.y < |g| && 0 <= idx.x < |g[idx.y]|
  }

  lemma InCoordsInRow(g: Cells, idx: Vec)
    requires Rect(g)
    ensures InCoords(g, idx) <==> InRow(g, idx)
  {
  }

  function Get(g: Cells, idx: Vec): Option<nat>
    requires InRow(g, idx)
  {
    g[idx.y][idx.x]
  }

  /** `Set`: afterwards `Get(idx)` is the new entry and no other cell and no shape changed. */
  function Set(g: Cells, idx: Vec, t: Option<nat>): (r: Cells)
    requires InRow(g, idx)
    ensures |r| == |g| && forall y :: 0 <= y < |g| ==> |r[y]| == |g[y]|
    ensures InRow(r, idx) && Get(r, idx) == t
    ensures forall y, x :: 0 <= y < |g| && 0 <= x < |g[y]| && Vec(x, y) != idx ==> r[y][x] == g[y][x]
  {
    g[idx.y := g[idx.y][idx.x := t]]
  }

  /** A count a Go loop `for i := 0; i < n; i++` runs: `n`, or none when `n` is negative. */
  function Count(n: int): (c: nat)
    ensures n >= 0 ==> c == n
    ensures n < 0 ==> c == 0
  {
    if n < 0 then 0 else n
  }

  /** `newInnerGrid(size)` as a value: `size.y` rows of `size.x` empty cells. */
  function EmptyCells(size: Vec): (g: Cells)
    ensures |g| == Count(size.y) && forall y :: 0 <= y < |g| ==> g[y] == seq(Count(size.x), _ => None)
  {
    seq(Count(size.y), _ => seq(Count(size.x), _ => None))
  }

  /** `inTarget`: strictly inside the rectangle from `start` to `end`. */
  predicate InTarget(l: Vec, start: Vec, end: Vec) {
    l.x > start.x && l.x < end.x && l.y > start.y && l.y < end.y
  }

  /** `CanvasEnd`: the far corner of a grid drawn at `loc` with cells of `tileSize`. */
  function CanvasEnd(g: Cells, loc: Vec, tileSize: Vec): Vec
    requires |g| > 0
  {
    Add(loc, Mult(tileSize, IdxSize(g)))
  }

  predicate InCanvas(g: Cells, loc: Vec, tileSize: Vec, l: Vec)
    requires |g| > 0
  {
    InTarget(l, loc, CanvasEnd(g, loc, tileSize))
  }

  /**
   * `coords`: the cell under canvas point `l`, by Go's truncating division. For a point
   * right of and below `loc` it is the cell whose square holds the point.
   */
  function Coords(loc: Vec, tileSize: Vec, l: Vec): (r: Vec)
    requires tileSize.x != 0 && tileSize.y != 0
    ensures tileSize.x > 0 && l.x >= loc.x ==> r.x * tileSize.x <= l.x - loc.x < r.x * tileSize.x + tileSize.x
    ensures tileSize.y > 0 && l.y >= loc.y ==> r.y * tileSize.y <= l.y - loc.y < r.y * tileSize.y + tileSize.y
  {
    Vec(TruncDiv(l.x - loc.x, tileSize.x), TruncDiv(l.y - loc.y, tileSize.y))
  }

  lemma DivBelow(n: int, d: int, k: int)
    requires d > 0 && 0 <= n < k * d
    ensures 0 <= n / d < k
  {
    assert (n / d) * d <= n;
    MulCancel(n / d, k, d);
  }

  lemma MulCancel(a: int, b: int, d: int)
    requires d > 0 && a * d < b * d
    ensures a < b
  {
    assert b * d - a * d == (b - a) * d;
  }

  /** A point strictly inside a grid's canvas lies over one of its cells. */
  lemma {:induction false} CoordsOfInCanvas(g: Cells, loc: Vec, tileSize: Vec, l: Vec)
    requires |g| > 0 && tileSize.x > 0 && tileSize.y > 0
    requires InCanvas(g, loc, tileSize, l)
    ensures InCoords(g, Coords(loc, tileSize, l))
  {
    var size := IdxSize(g);
    assert l.x - loc.x < size.x * tileSize.x;
    assert l.y - loc.y < size.y * tileSize.y;
    DivBelow(l.x - loc.x, tileSize.x, size.x);
    DivBelow(l.y - loc.y, tileSize.y, size.y);
  }

  // ---------------------------------------------------------------- consistency

  function GridOf(s: Zones, z: Zone): Cells
    requires z == ZoneBoard || z == ZoneTray
  {
    if z == ZoneBoard then s.board else s.tray
  }

  /** Tile `i` sits in the cell its zone and index name (tiles off the grids sit nowhere). */
  predicate Placed(s: Zones, i: nat)
    requires i < |s.tiles|
  {
    var t := s.tiles[i];
    (t.zone == ZoneBoard ==> InRow(s.board, t.idx) && Get(s.board, t.idx) == Some(i)) &&
    (t.zone == ZoneTray ==> InRow(s.tray, t.idx) && Get(s.tray, t.idx) == Some(i))
  }

  /** The tile in a cell records that zone and that index. */
  predicate Owns(s: Zones, z: Zone, c: Option<nat>, p: Vec) {
    c.Some? ==> c.value < |s.tiles| && s.tiles[c.value].zone == z && s.tiles[c.value].idx == p
  }

  /** The tile in board cell `(x, y)`, if any, records the board and that index. */
  predicate BoardOwned(s: Zones, y: int, x: int)
    requires 0 <= y < |s.board| && 0 <= x < |s.board[y]|
  {
    Owns(s, ZoneBoard, s.board[y][x], Vec(x, y))
  }

  /** The tile in tray slot `x`, if any, records the tray and that slot. */
  predicate TrayOwned(s: Zones, x: int)
    requires |s.tray| > 0 && 0 <= x < |s.tray[0]|
  {
    Owns(s, ZoneTray, s.tray[0][x], Vec(x, 0))
  }

  /**
   * The client's invariant: a rectangular board, a tray of one row, every tile in the
   * cell it records and every occupied cell holding a tile that records it. It makes the
   * grids a function of the tiles, so no tile is in two cells and no cell is stale.
   */
  predicate Valid(s: Zones) {
    && Rect(s.board)
    && |s.tray| == 1
    && (forall i :: 0 <= i < |s.tiles| ==> Placed(s, i))
    && (forall y, x :: 0 <= y < |s.board| && 0 <= x < |s.board[y]| ==> BoardOwned(s, y, x))
    && (forall x :: 0 <= x < |s.tray[0]| ==> TrayOwned(s, x))
  }

  /** Only where tiles are changes; letters, points and markers stay. */
  predicate SameLetters(a: seq<Tile>, b: seq<Tile>) {
    |a| == |b| &&
    forall i :: 0 <= i < |a| ==> a[i].value == b[i].value && a[i].points == b[i].points && a[i].invalid == b[i].invalid
  }

  /** Same board shape, and a tray row that has only grown. */
  predicate SameShape(a: Zones, b: Zones) {
    |a.board| == |b.board| && (forall y :: 0 <= y < |a.board| ==> |a.board[y]| == |b.board[y]|) &&
    |a.tray| == |b.tray| == 1 && |a.tray[0]| <= |b.tray[0]|
  }

  lemma SameLettersTrans(a: seq<Tile>, b: seq<Tile>, c: seq<Tile>)
    requires SameLetters(a, b) && SameLetters(b, c)
    ensures SameLetters(a, c)
  {
  }

  /** Two board tiles never share an index. */
  lemma BoardIndexInjective(s: Zones, i: nat, j: nat)
    requires Valid(s) && i < |s.tiles| && j < |s.tiles|
    requires s.tiles[i].zone == ZoneBoard && s.tiles[j].zone == ZoneBoard
    requires s.tiles[i].idx == s.tiles[j].idx
    ensures i == j
  {
    assert Placed(s, i) && Placed(s, j);
  }

  // ---------------------------------------------------------------- tile moves

  /** The cell a tile on the board or the tray occupies, emptied. */
  function ClearCell(s: Zones, t: nat): Zones
    requires Valid(s) && t < |s.tiles|
  {
    var tile := s.tiles[t];
    assert Placed(s, t);
    if tile.zone == ZoneTray then s.(tray := Set(s.tray, tile.idx, None))
    else if tile.zone == ZoneBoard then s.(board := Set(s.board, tile.idx, None))
    else s
  }

  /** `pickUp`: clear the cell of the tile's zone (board or tray), then mark it untracked. */
  function PickUp(s: Zones, t: nat): (r: Zones)
    requires Valid(s) && t < |s.tiles|
    ensures Valid(r) && SameShape(s, r) && |r.tray[0]| == |s.tray[0]|
    ensures SameLetters(s.tiles, r.tiles)
    ensures r.tiles == s.tiles[t := s.tiles[t].(zone := ZoneNone)]
    ensures s.tiles[t].zone != ZoneBoard ==> r.board == s.board
    ensures s.tiles[t].zone != ZoneTray ==> r.tray == s.tray
  {
    PickUpValid(s, t);
    var s1 := ClearCell(s, t);
    s1.(tiles := s1.tiles[t := s.tiles[t].(zone := ZoneNone)])
  }

  /** Picking a tile up empties exactly the cell that held it. */
  lemma PickUpCells(s: Zones, t: nat)
    requires Valid(s) && t < |s.tiles|
    ensures var r := PickUp(s, t);
      && (forall y, x :: 0 <= y < |s.board| && 0 <= x < |s.board[y]| ==>
            r.board[y][x] == if s.board[y][x] == Some(t) then None else s.board[y][x])
      && (forall x :: 0 <= x < |s.tray[0]| ==>
            r.tray[0][x] == if s.tray[0][x] == Some(t) then None else s.tray[0][x])
  {
    PickUpValid(s, t);
  }

  lemma PickUpValid(s: Zones, t: nat)
    requires Valid(s) && t < |s.tiles|
    ensures var s1 := ClearCell(s, t); var r := s1.(tiles := s1.tiles[t := s.tiles[t].(zone := ZoneNone)]);
      && Valid(r)
      && (forall y, x :: 0 <= y < |s.board| && 0 <= x < |s.board[y]| ==>
            r.board[y][x] == if s.board[y][x] == Some(t) then None else s.board[y][x])
      && (forall x :: 0 <= x < |s.tray[0]| ==>
            r.tray[0][x] == if s.tray[0][x] == Some(t) then None else s.tray[0][x])
  {
    var s1 := ClearCell(s, t);
    var r := s1.(tiles := s1.tiles[t := s.tiles[t].(zone := ZoneNone)]);
    assert Placed(s, t);
    forall i | 0 <= i < |r.tiles| ensures Placed(r, i) {
      assert Placed(s, i);
    }
    forall y, x | 0 <= y < |s.board| && 0 <= x < |s.board[y]|
      ensures r.board[y][x] == if s.board[y][x] == Some(t) then None else s.board[y][x]
      ensures BoardOwned(r, y, x)
    {
      assert BoardOwned(s, y, x);
    }
    forall x | 0 <= x < |s.tray[0]|
      ensures r.tray[0][x] == if s.tray[0][x] == Some(t) then None else s.tray[0][x]
      ensures TrayOwned(r, x)
    {
      assert TrayOwned(s, x);
    }
  }

  /** The second half of `Grid.AddTile`: write the tile into the cell and record zone and index. */
  function Put(s: Zones, z: Zone, t: nat, idx: Vec): (r: Zones)
    requires t < |s.tiles| && (z == ZoneBoard || z == ZoneTray) && InRow(GridOf(s, z), idx)
    ensures r.tiles == s.tiles[t := s.tiles[t].(zone := z, idx := idx)]
    ensures InRow(GridOf(r, z), idx) && Get(GridOf(r, z), idx) == Some(t)
    ensures |s.tray| == 1 && Rect(s.board) ==> SameShape(s, r) && |r.tray[0]| == |s.tray[0]|
    ensures SameLetters(s.tiles, r.tiles)
    ensures z == ZoneTray ==> r.board == s.board
    ensures z == ZoneBoard ==> r.tray == s.tray
    ensures Valid(s) && s.tiles[t].zone == ZoneNone && Get(GridOf(s, z), idx) == None ==> Valid(r)
  {
    var s1 := if z == ZoneBoard then s.(board := Set(s.board, idx, Some(t))) else s.(tray := Set(s.tray, idx, Some(t)));
    var r := s1.(tiles := s1.tiles[t := s1.tiles[t].(zone := z, idx := idx)]);
    PutValid(s, z, t, idx, s1, r);
    r
  }

  lemma PutValid(s: Zones, z: Zone, t: nat, idx: Vec, s1: Zones, r: Zones)
    requires t < |s.tiles| && (z == ZoneBoard || z == ZoneTray) && InRow(GridOf(s, z), idx)
    requires s1 == if z == ZoneBoard then s.(board := Set(s.board, idx, Some(t))) else s.(tray := Set(s.tray, idx, Some(t)))
    requires r == s1.(tiles := s1.tiles[t := s1.tiles[t].(zone := z, idx := idx)])
    ensures Valid(s) && s.tiles[t].zone == ZoneNone && Get(GridOf(s, z), idx) == None ==> Valid(r)
  {
    if !(Valid(s) && s.tiles[t].zone == ZoneNone && Get(GridOf(s, z), idx) == None) {
      return;
    }
    forall i | 0 <= i < |r.tiles| ensures Placed(r, i) {
      assert Placed(s, i);
    }
    if z == ZoneBoard {
      forall y, x | 0 <= y < |r.board| && 0 <= x < |r.board[y]|
        ensures BoardOwned(r, y, x)
      {
        if Vec(x, y) != idx {
          assert BoardOwned(s, y, x);
        }
      }
      forall x | 0 <= x < |r.tray[0]| ensures TrayOwned(r, x) {
        assert TrayOwned(s, x);
      }
    } else {
      forall y, x | 0 <= y < |r.board| && 0 <= x < |r.board[y]|
        ensures BoardOwned(r, y, x)
      {
        assert BoardOwned(s, y, x);
      }
      forall x | 0 <= x < |r.tray[0]| ensures TrayOwned(r, x) {
        if Vec(x, 0) != idx {
          assert TrayOwned(s, x);
        }
      }
    }
  }

  /**
   * `Grid.AddTile`: pick the tile up, then put it into the cell. The cell's previous
   * occupant is overwritten, so the invariant survives only when the cell was empty or
   * already held this tile; every caller first makes sure of that.
   */
  function AddTile(s: Zones, z: Zone, t: nat, idx: Vec): (r: Zones)
    requires Valid(s) && t < |s.tiles| && (z == ZoneBoard || z == ZoneTray)
    requires InRow(GridOf(s, z), idx)
    ensures SameShape(s, r) && |r.tray[0]| == |s.tray[0]| && SameLetters(s.tiles, r.tiles)
    ensures r.tiles == s.tiles[t := s.tiles[t].(zone := z, idx := idx)]
    ensures InRow(GridOf(r, z), idx) && Get(GridOf(r, z), idx) == Some(t)
    ensures Get(GridOf(s, z), idx) in {None, Some(t)} ==> Valid(r)
  {
    var s1 := PickUp(s, t);
    PickUpCells(s, t);
    assert Get(GridOf(s, z), idx) in {None, Some(t)} ==> Get(GridOf(s1, z), idx) == None;
    Put(s1, z, t, idx)
  }

  /** The first empty slot of a tray row, or the row's length when every slot is taken. */
  function FirstNil(row: seq<Option<nat>>): (k: nat)
    ensures k <= |row|
    ensures forall j :: 0 <= j < k ==> row[j].Some?
    ensures k < |row| ==> row[k].None?
  {
    if row == [] then 0
    else if row[0].None? then 0
    else 1 + FirstNil(row[1..])
  }

  /** Append one empty slot to the tray row. */
  function Grow(s: Zones): (r: Zones)
    requires Valid(s)
    ensures Valid(r) && SameShape(s, r) && r.tiles == s.tiles && r.board == s.board
    ensures r.tray[0] == s.tray[0] + [None]
  {
    var r := s.(tray := [s.tray[0] + [None]]);
    forall i | 0 <= i < |r.tiles| ensures Placed(r, i) {
      assert Placed(s, i);
    }
    forall y, x | 0 <= y < |r.board| && 0 <= x < |r.board[y]| ensures BoardOwned(r, y, x) {
      assert BoardOwned(s, y, x);
    }
    forall x | 0 <= x < |r.tray[0]| ensures TrayOwned(r, x) {
      if x < |s.tray[0]| {
        assert TrayOwned(s, x);
      }
    }
    r
  }

  /**
   * `sendToTray`: pick the tile up, then add it at the first empty slot of the tray, or
   * append a slot to the tray row when all are taken. It never fails and keeps the
   * invariant.
   */
  function SendToTray(s: Zones, t: nat): (r: Zones)
    requires Valid(s) && t < |s.tiles|
    ensures Valid(r) && SameShape(s, r) && SameLetters(s.tiles, r.tiles)
    ensures var row := PickUp(s, t).tray[0]; var k := FirstNil(row);
      && r.tiles == s.tiles[t := s.tiles[t].(zone := ZoneTray, idx := Vec(k, 0))]
      && |r.tray[0]| == if k < |row| then |row| else |row| + 1
    ensures r.board == PickUp(s, t).board
  {
    var s1 := PickUp(s, t);
    var row := s1.tray[0];
    var k := FirstNil(row);
    var s2 := if k < |row| then s1 else Grow(s1);
    AddTile(s2, ZoneTray, t, Vec(k, 0))
  }

  /** The tray row is unchanged by picking up a tile that is not on the tray. */
  lemma PickUpKeepsTray(s: Zones, t: nat)
    requires Valid(s) && t < |s.tiles| && s.tiles[t].zone != ZoneTray
    ensures PickUp(s, t).tray == s.tray
  {
    var r := PickUp(s, t);
    forall x | 0 <= x < |s.tray[0]| ensures r.tray[0][x] == s.tray[0][x] {
      assert TrayOwned(s, x);
    }
    assert r.tray[0] == s.tray[0];
  }

  /**
   * `addToBoard`: a tile already in the target cell is sent to the tray first, so the
   * placed tile never overwrites another; every other tile stays where it was.
   */
  function AddToBoard(s: Zones, t: nat, idx: Vec): (r: Zones)
    requires Valid(s) && t < |s.tiles| && InCoords(s.board, idx)
    ensures Valid(r) && SameShape(s, r) && SameLetters(s.tiles, r.tiles)
    ensures r.tiles[t] == s.tiles[t].(zone := ZoneBoard, idx := idx)
  {
    InCoordsInRow(s.board, idx);
    var prev := Get(s.board, idx);
    if prev.Some? then
      assert BoardOwned(s, idx.y, idx.x);
      PickUpKeepsTray(s, prev.value);
      var s1 := SendToTray(s, prev.value);
      assert Get(s1.board, idx) == None;
      AddTile(s1, ZoneBoard, t, idx)
    else
      AddTile(s, ZoneBoard, t, idx)
  }
  /**
   * What `AddToBoard` does besides placing `t`: the previous occupant of the cell, if another
   * tile, goes to the first free tray slot, no other tile moves, and the tray grows by at most
   * the one slot that occupant may need.
   */
  lemma AddToBoardEffect(s: Zones, t: nat, idx: Vec)
    requires Valid(s) && t < |s.tiles| && InCoords(s.board, idx)
    ensures InRow(s.board, idx) && (Get(s.board, idx).Some? ==> Get(s.board, idx).value < |s.tiles|)
    ensures var r := AddToBoard(s, t, idx); var prev := Get(s.board, idx);
      && (prev.Some? && prev.value != t ==>
           r.tiles[prev.value] == s.tiles[prev.value].(zone := ZoneTray, idx := Vec(FirstNil(s.tray[0]), 0)))
      && (forall i :: 0 <= i < |s.tiles| && i != t && Some(i) != prev ==> r.tiles[i] == s.tiles[i])
      && |r.tray[0]| <= |s.tray[0]| + 1
  {
    InCoordsInRow(s.board, idx);
    var prev := Get(s.board, idx);
    assert BoardOwned(s, idx.y, idx.x);
    if prev.Some? {
      PickUpKeepsTray(s, prev.value);
    }
  }


  /**
   * `addToTray` as intended: the tile goes to the requested slot when it is free and
   * otherwise to the first free slot, like `sendToTray`.
   */
  function AddToTray(s: Zones, t: nat, idx: Vec): (r: Zones)
    requires Valid(s) && t < |s.tiles| && InRow(s.tray, idx)
    ensures Valid(r) && SameShape(s, r) && SameLetters(s.tiles, r.tiles)
    ensures r.tiles[t].zone == ZoneTray
    ensures Get(s.tray, idx) == None ==> r.tiles[t] == s.tiles[t].(zone := ZoneTray, idx := idx) && |r.tray[0]| == |s.tray[0]|
    ensures Get(s.tray, idx) != None ==>
      r.tiles[t] == s.tiles[t].(zone := ZoneTray, idx := Vec(FirstNil(PickUp(s, t).tray[0]), 0))
    ensures forall i :: 0 <= i < |s.tiles| && i != t ==> r.tiles[i] == s.tiles[i]
  {
    if Get(s.tray, idx).Some? then SendToTray(s, t) else AddTile(s, ZoneTray, t, idx)
  }

  /**
   * `addToTray` as written: when the slot is taken it sends the tile itself to the tray
   * and then adds it at the requested slot all the same, overwriting the occupant.
   */
  function AddToTrayAsWritten(s: Zones, t: nat, idx: Vec): (r: Zones)
    requires Valid(s) && t < |s.tiles| && InRow(s.tray, idx)
    ensures Get(s.tray, idx) == None ==> r == AddToTray(s, t, idx)
    ensures |r.tiles| == |s.tiles| && SameShape(s, r)
  {
    var s1 := if Get(s.tray, idx).Some? then SendToTray(s, t) else s;
    AddTile(s1, ZoneTray, t, idx)
  }

  /**
   * Dropping a tile onto a tray slot that holds another tile breaks the invariant: the
   * occupant still records that slot, but the slot now holds the dropped tile, so the
   * occupant is lost from every grid.
   */
  lemma AddToTrayAsWrittenLosesOccupant(s: Zones, t: nat, idx: Vec)
    requires Valid(s) && t < |s.tiles| && InRow(s.tray, idx)
    requires Get(s.tray, idx).Some? && Get(s.tray, idx).value != t
    ensures Get(s.tray, idx).value < |s.tiles|
    ensures var r := AddToTrayAsWritten(s, t, idx); var p := Get(s.tray, idx).value;
      && r.tiles[p].zone == ZoneTray && r.tiles[p].idx == idx
      && Get(r.tray, idx) == Some(t)
      && !Valid(r)
  {
    var p := Get(s.tray, idx).value;
    assert TrayOwned(s, idx.x);
    var s1 := SendToTray(s, t);
    assert s1.tiles[p] == s.tiles[p];
    var r := AddTile(s1, ZoneTray, t, idx);
    assert r.tiles[p] == s.tiles[p];
    Unplaced(r, p, t);
  }

  /** A tile that records a cell holding another tile is not placed. */
  lemma Unplaced(r: Zones, p: nat, t: nat)
    requires p < |r.tiles| && p != t && r.tiles[p].zone == ZoneTray
    requires InRow(r.tray, r.tiles[p].idx) && Get(r.tray, r.tiles[p].idx) == Some(t)
    ensures !Valid(r)
  {
    assert !Placed(r, p);
  }

  // ---------------------------------------------------------------- ShiftBoard

  /** The work list of `ShiftBoard`: each board tile, in tile order, with its index moved by `d`. */
  function ToMove(tiles: seq<Tile>, d: Vec): (ws: seq<(nat, Vec)>)
    ensures forall j :: 0 <= j < |ws| ==>
      ws[j].0 < |tiles| && tiles[ws[j].0].zone == ZoneBoard && ws[j].1 == Add(tiles[ws[j].0].idx, d)
    ensures forall i :: 0 <= i < |tiles| && tiles[i].zone == ZoneBoard ==> (i, Add(tiles[i].idx, d)) in ws
  {
    if tiles == [] then []
    else
      var n := |tiles| - 1;
      var front := ToMove(tiles[..n], d);
      assert forall i :: 0 <= i < n ==> tiles[..n][i] == tiles[i];
      front + (if tiles[n].zone == ZoneBoard then [(n, Add(tiles[n].idx, d))] else [])
  }

  /** The work list follows tile order, so no tile is in it twice. */
  lemma {:induction false} ToMoveOrdered(tiles: seq<Tile>, d: Vec, j: nat, j': nat)
    requires j < j' < |ToMove(tiles, d)|
    ensures ToMove(tiles, d)[j].0 < ToMove(tiles, d)[j'].0
  {
    var n := |tiles| - 1;
    var front := ToMove(tiles[..n], d);
    var ws := ToMove(tiles, d);
    assert ws == front + (if tiles[n].zone == ZoneBoard then [(n, Add(tiles[n].idx, d))] else []);
    assert |tiles[..n]| == n;
    assert ws[j] == front[j] && front[j].0 < n;
    if j' < |front| {
      ToMoveOrdered(tiles[..n], d, j, j');
    }
  }

  /** Entries before `k` name earlier tiles than entry `k`, entries after it later ones. */
  lemma ToMoveBefore(tiles: seq<Tile>, d: Vec, k: nat)
    requires k < |ToMove(tiles, d)|
    ensures var ws := ToMove(tiles, d);
      forall j :: 0 <= j < |ws| ==> (j < k ==> ws[j].0 < ws[k].0) && (j > k ==> ws[j].0 > ws[k].0)
  {
    var ws := ToMove(tiles, d);
    forall j | 0 <= j < |ws| ensures (j < k ==> ws[j].0 < ws[k].0) && (j > k ==> ws[j].0 > ws[k].0) {
      if j < k {
        ToMoveOrdered(tiles, d, j, k);
      } else if j > k {
        ToMoveOrdered(tiles, d, k, j);
      }
    }
  }

  /** Some board tile would leave the board, so `ShiftBoard` returns before moving anything. */
  predicate Blocked(s: Zones, d: Vec)
    requires |s.board| > 0
  {
    exists i :: 0 <= i < |s.tiles| && s.tiles[i].zone == ZoneBoard && !InCoords(s.board, Add(s.tiles[i].idx, d))
  }

  /** The work list from entry `k` on, applied in order with `addToBoard`. */
  function MoveAll(s: Zones, ws: seq<(nat, Vec)>, k: nat): (r: Zones)
    requires Valid(s) && k <= |ws|
    requires forall j :: k <= j < |ws| ==> ws[j].0 < |s.tiles| && InCoords(s.board, ws[j].1)
    ensures Valid(r) && SameShape(s, r) && SameLetters(s.tiles, r.tiles)
    decreases |ws| - k
  {
    if k == |ws| then s
    else
      var s1 := AddToBoard(s, ws[k].0, ws[k].1);
      assert IdxSize(s1.board) == IdxSize(s.board);
      assert forall j :: k + 1 <= j < |ws| ==> InCoords(s.board, ws[j].1) == InCoords(s1.board, ws[j].1);
      var r := MoveAll(s1, ws, k + 1);
      SameLettersTrans(s.tiles, s1.tiles, r.tiles);
      r
  }

  /** `ShiftBoard`: all or nothing, then every board tile in tile order through `addToBoard`. */
  function ShiftBoard(s: Zones, d: Vec): (r: Zones)
    requires Valid(s)
    ensures Valid(r) && SameShape(s, r) && SameLetters(s.tiles, r.tiles)
  {
    if Blocked(s, d) then s
    else MoveAll(s, ToMove(s.tiles, d), 0)
  }

  /** The board after a shift by `d`: each cell holds what the cell `d` behind it held. */
  function Translate(b: Cells, d: Vec): (r: Cells)
    requires Rect(b)
    ensures |r| == |b| && forall y :: 0 <= y < |b| ==> |r[y]| == |b[y]|
  {
    seq(|b|, y requires 0 <= y < |b| => seq(|b[y]|, x =>
      var src := Sub(Vec(x, y), d);
      if InCoords(b, src) then b[src.y][src.x] else None))
  }

  /** A tile after the shift: board tiles move by `d`, all others stay. */
  function Shifted(t: Tile, d: Vec): Tile {
    if t.zone == ZoneBoard then t.(zone := ZoneBoard, idx := Add(t.idx, d)) else t
  }

  /** The new tray row keeps every old slot and adds only empty ones. */
  predicate TrayExtended(old_row: seq<Option<nat>>, row: seq<Option<nat>>) {
    |old_row| <= |row| && row[..|old_row|] == old_row && forall x :: |old_row| <= x < |row| ==> row[x].None?
  }

  /** No original tray tile's slot: a slot a displaced board tile may borrow. */
  predicate FreshSlot(row: seq<Option<nat>>, x: int) {
    !(0 <= x < |row| && row[x].Some?)
  }

  /** An unprocessed board tile: still where it started, or parked on a borrowed tray slot. */
  predicate Waiting(s0: Zones, s: Zones, i: nat)
    requires i < |s0.tiles| && i < |s.tiles| && |s0.tray| == 1
  {
    s.tiles[i] == s0.tiles[i] || (s.tiles[i].zone == ZoneTray && FreshSlot(s0.tray[0], s.tiles[i].idx.x))
  }

  /** The state after the first `k` entries of the work list. */
  predicate Shifting(s0: Zones, s: Zones, ws: seq<(nat, Vec)>, k: nat)
    requires Valid(s0) && k <= |ws|
  {
    && Valid(s) && SameShape(s0, s) && SameLetters(s0.tiles, s.tiles)
    && (forall j :: 0 <= j < |ws| ==> ws[j].0 < |s0.tiles|)
    && (forall j :: 0 <= j < k ==> s.tiles[ws[j].0].zone == ZoneBoard && s.tiles[ws[j].0].idx == ws[j].1)
    && (forall j :: k <= j < |ws| ==> Waiting(s0, s, ws[j].0))
    && (forall i :: 0 <= i < |s0.tiles| && s0.tiles[i].zone != ZoneBoard ==> s.tiles[i] == s0.tiles[i])
  }

  lemma BoardIndexDistinct(s: Zones, i: nat, j: nat)
    requires Valid(s) && i < |s.tiles| && j < |s.tiles| && i != j
    requires s.tiles[i].zone == ZoneBoard && s.tiles[j].zone == ZoneBoard
    ensures s.tiles[i].idx != s.tiles[j].idx
  {
    assert Placed(s, i) && Placed(s, j);
  }

  /** Tiles that have not moved keep their tray slots occupied. */
  lemma TraySlotsKept(s0: Zones, s: Zones)
    requires Valid(s0) && Valid(s) && SameShape(s0, s) && |s.tiles| == |s0.tiles|
    requires forall i :: 0 <= i < |s0.tiles| && s0.tiles[i].zone != ZoneBoard ==> s.tiles[i] == s0.tiles[i]
    ensures forall x :: 0 <= x < |s0.tray[0]| && s0.tray[0][x].Some? ==> s.tray[0][x] == s0.tray[0][x]
  {
    forall x | 0 <= x < |s0.tray[0]| && s0.tray[0][x].Some? ensures s.tray[0][x] == s0.tray[0][x] {
      assert TrayOwned(s0, x);
      assert Placed(s, s0.tray[0][x].value);
    }
  }

  /** The first empty tray slot is never one an original tray tile still holds. */
  lemma FirstNilFresh(s0: Zones, s: Zones)
    requires Valid(s0) && Valid(s) && SameShape(s0, s) && |s.tiles| == |s0.tiles|
    requires forall i :: 0 <= i < |s0.tiles| && s0.tiles[i].zone != ZoneBoard ==> s.tiles[i] == s0.tiles[i]
    ensures FreshSlot(s0.tray[0], FirstNil(s.tray[0]))
  {
    TraySlotsKept(s0, s);
  }

  /**
   * A tile that `addToBoard` displaces during the shift is a board tile that has not been
   * processed yet: processed tiles sit on distinct targets, so none of them is in the way.
   */
  lemma DisplacedIsWaiting(s0: Zones, d: Vec, ws: seq<(nat, Vec)>, s: Zones, k: nat, p: nat)
    requires Valid(s0) && ws == ToMove(s0.tiles, d) && k < |ws| && Shifting(s0, s, ws, k)
    requires p < |s.tiles| && p != ws[k].0
    requires s.tiles[p].zone == ZoneBoard && s.tiles[p].idx == ws[k].1
    ensures s0.tiles[p].zone == ZoneBoard && s.tiles[p] == s0.tiles[p]
    ensures forall j :: 0 <= j <= k ==> ws[j].0 != p
  {
    var t := ws[k].0;
    assert s0.tiles[p].zone == ZoneBoard;
    forall j | 0 <= j < k ensures ws[j].0 != p {
      if ws[j].0 != t {
        BoardIndexDistinct(s0, ws[j].0, t);
      }
    }
    assert (p, Add(s0.tiles[p].idx, d)) in ws;
    var j :| 0 <= j < |ws| && ws[j] == (p, Add(s0.tiles[p].idx, d));
    assert j > k;
    assert Waiting(s0, s, p);
  }

  /** Only the placed tile `ws[k].0` and the displaced occupant `prev` change in one step. */
  lemma StepFrame(s0: Zones, s: Zones, r: Zones, ws: seq<(nat, Vec)>, k: nat, prev: Option<nat>)
    requires k < |ws| && |s.tiles| == |s0.tiles| && |r.tiles| == |s0.tiles|
    requires forall j :: 0 <= j < |ws| ==> ws[j].0 < |s0.tiles|
    requires forall j :: 0 <= j < |ws| ==> (j < k ==> ws[j].0 < ws[k].0) && (j > k ==> ws[j].0 > ws[k].0)
    requires forall j :: 0 <= j < k ==> s.tiles[ws[j].0].zone == ZoneBoard && s.tiles[ws[j].0].idx == ws[j].1
    requires forall i :: 0 <= i < |s0.tiles| && s0.tiles[i].zone != ZoneBoard ==> s.tiles[i] == s0.tiles[i]
    requires s0.tiles[ws[k].0].zone == ZoneBoard
    requires prev.Some? ==> prev.value < |s0.tiles| && s0.tiles[prev.value].zone == ZoneBoard
    requires prev.Some? ==> forall j :: 0 <= j < k ==> ws[j].0 != prev.value
    requires forall i :: 0 <= i < |s.tiles| && i != ws[k].0 && Some(i) != prev ==> r.tiles[i] == s.tiles[i]
    requires r.tiles[ws[k].0].zone == ZoneBoard && r.tiles[ws[k].0].idx == ws[k].1
    ensures forall j :: 0 <= j < k + 1 ==> r.tiles[ws[j].0].zone == ZoneBoard && r.tiles[ws[j].0].idx == ws[j].1
    ensures forall i :: 0 <= i < |s0.tiles| && s0.tiles[i].zone != ZoneBoard ==> r.tiles[i] == s0.tiles[i]
  {
    forall j | 0 <= j < k + 1
      ensures r.tiles[ws[j].0].zone == ZoneBoard && r.tiles[ws[j].0].idx == ws[j].1
    {
      if j < k {
        assert ws[j].0 < ws[k].0;
      }
    }
  }

  /** Unprocessed tiles stay waiting: only the displaced one moves, onto a borrowed slot. */
  lemma WaitingAfterStep(s0: Zones, s: Zones, r: Zones, ws: seq<(nat, Vec)>, k: nat, prev: Option<nat>)
    requires k < |ws| && |s0.tray| == 1 && |s.tiles| == |s0.tiles| && |r.tiles| == |s0.tiles|
    requires forall j :: 0 <= j < |ws| ==> ws[j].0 < |s0.tiles|
    requires forall j :: 0 <= j < |ws| ==> (j > k ==> ws[j].0 > ws[k].0)
    requires forall j :: k <= j < |ws| ==> Waiting(s0, s, ws[j].0)
    requires forall i :: 0 <= i < |s.tiles| && i != ws[k].0 && Some(i) != prev ==> r.tiles[i] == s.tiles[i]
    requires prev.Some? && prev.value != ws[k].0 ==> prev.value < |s0.tiles| && Waiting(s0, r, prev.value)
    ensures forall j :: k + 1 <= j < |ws| ==> Waiting(s0, r, ws[j].0)
  {
    forall j | k + 1 <= j < |ws| ensures Waiting(s0, r, ws[j].0) {
      assert ws[j].0 != ws[k].0;
      if Some(ws[j].0) != prev {
        assert Waiting(s0, s, ws[j].0);
      }
    }
  }

  /**
   * One step of the shift keeps the loop's invariant. `r` is the state after placing `ws[k].0`
   * at `ws[k].1`, described by what `AddToBoard` and `AddToBoardEffect` promise.
   */
  lemma ShiftStep(s0: Zones, d: Vec, ws: seq<(nat, Vec)>, s: Zones, k: nat, r: Zones)
    requires Valid(s0) && ws == ToMove(s0.tiles, d) && !Blocked(s0, d)
    requires k < |ws| && Shifting(s0, s, ws, k)
    requires ws[k].0 < |s.tiles| && InCoords(s.board, ws[k].1) && InRow(s.board, ws[k].1)
    requires Get(s.board, ws[k].1).Some? ==> Get(s.board, ws[k].1).value < |s.tiles|
    requires Valid(r) && SameShape(s, r) && SameLetters(s.tiles, r.tiles)
    requires r.tiles[ws[k].0] == s.tiles[ws[k].0].(zone := ZoneBoard, idx := ws[k].1)
    requires var prev := Get(s.board, ws[k].1);
      && (prev.Some? && prev.value != ws[k].0 ==>
           r.tiles[prev.value] == s.tiles[prev.value].(zone := ZoneTray, idx := Vec(FirstNil(s.tray[0]), 0)))
      && (forall i :: 0 <= i < |s.tiles| && i != ws[k].0 && Some(i) != prev ==> r.tiles[i] == s.tiles[i])
    ensures Shifting(s0, r, ws, k + 1)
  {
    var t, l := ws[k].0, ws[k].1;
    var prev := Get(s.board, l);
    SameLettersTrans(s0.tiles, s.tiles, r.tiles);
    ToMoveBefore(s0.tiles, d, k);
    if prev.Some? {
      assert BoardOwned(s, l.y, l.x);
    }
    if prev.Some? && prev.value != t {
      DisplacedIsWaiting(s0, d, ws, s, k, prev.value);
      FirstNilFresh(s0, s);
      assert Waiting(s0, r, prev.value);
    }
    WaitingAfterStep(s0, s, r, ws, k, prev);
    StepFrame(s0, s, r, ws, k, prev);
  }

  /** Every target of the work list is on any board of the same size. */
  lemma WorkFits(s0: Zones, d: Vec, s: Zones)
    requires |s0.board| > 0 && !Blocked(s0, d)
    requires |s.board| == |s0.board| && |s.board[0]| == |s0.board[0]| && |s.tiles| == |s0.tiles|
    ensures var ws := ToMove(s0.tiles, d);
      forall j :: 0 <= j < |ws| ==> ws[j].0 < |s.tiles| && InCoords(s.board, ws[j].1)
  {
  }

  /** Running the rest of the work list from any intermediate state finishes the shift. */
  lemma {:induction false} ShiftRest(s0: Zones, d: Vec, ws: seq<(nat, Vec)>, s: Zones, k: nat)
    requires Valid(s0) && ws == ToMove(s0.tiles, d) && !Blocked(s0, d)
    requires k <= |ws| && Shifting(s0, s, ws, k)
    requires forall j :: k <= j < |ws| ==> ws[j].0 < |s.tiles| && InCoords(s.board, ws[j].1)
    ensures Shifting(s0, MoveAll(s, ws, k), ws, |ws|)
    decreases |ws| - k
  {
    if k < |ws| {
      var r := AddToBoard(s, ws[k].0, ws[k].1);
      AddToBoardEffect(s, ws[k].0, ws[k].1);
      ShiftStep(s0, d, ws, s, k, r);
      WorkFits(s0, d, r);
      ShiftRest(s0, d, ws, r, k + 1);
    }
  }

  /** When the whole work list has run, every tile is where `Shifted` puts it. */
  lemma ShiftDone(s0: Zones, d: Vec, ws: seq<(nat, Vec)>, r: Zones)
    requires Valid(s0) && ws == ToMove(s0.tiles, d) && Shifting(s0, r, ws, |ws|)
    ensures forall i :: 0 <= i < |s0.tiles| ==> r.tiles[i] == Shifted(s0.tiles[i], d)
  {
    forall i | 0 <= i < |s0.tiles| ensures r.tiles[i] == Shifted(s0.tiles[i], d) {
      if s0.tiles[i].zone == ZoneBoard {
        assert (i, Add(s0.tiles[i].idx, d)) in ws;
        var j :| 0 <= j < |ws| && ws[j] == (i, Add(s0.tiles[i].idx, d));
      }
    }
  }

  /** Running the whole work list moves every board tile by `d` and no other tile. */
  lemma ShiftTiles(s: Zones, d: Vec)
    requires Valid(s) && !Blocked(s, d)
    ensures var r := ShiftBoard(s, d);
      forall i :: 0 <= i < |s.tiles| ==> r.tiles[i] == Shifted(s.tiles[i], d)
  {
    var ws := ToMove(s.tiles, d);
    assert Shifting(s, s, ws, 0);
    WorkFits(s, d, s);
    ShiftRest(s, d, ws, s, 0);
    ShiftDone(s, d, ws, ShiftBoard(s, d));
  }

  /** Every board cell after the shift holds the tile its translate held before. */
  lemma BoardCellsKept(s: Zones, r: Zones, d: Vec)
    requires Valid(s) && Valid(r) && SameShape(s, r) && |r.tiles| == |s.tiles|
    requires forall i :: 0 <= i < |s.tiles| ==> r.tiles[i] == Shifted(s.tiles[i], d)
    ensures forall y, x :: 0 <= y < |s.board| && 0 <= x < |s.board[y]| && s.board[y][x].Some? ==>
      var dst := Add(Vec(x, y), d); InRow(r.board, dst) && Get(r.board, dst) == s.board[y][x]
  {
    forall y, x | 0 <= y < |s.board| && 0 <= x < |s.board[y]| && s.board[y][x].Some?
      ensures var dst := Add(Vec(x, y), d); InRow(r.board, dst) && Get(r.board, dst) == s.board[y][x]
    {
      assert BoardOwned(s, y, x);
      assert Placed(r, s.board[y][x].value);
    }
  }

  /** Every tile on the board after the shift came from the cell `d` behind. */
  lemma BoardCellsCameFrom(s: Zones, r: Zones, d: Vec)
    requires Valid(s) && Valid(r) && SameShape(s, r) && |r.tiles| == |s.tiles|
    requires forall i :: 0 <= i < |s.tiles| ==> r.tiles[i] == Shifted(s.tiles[i], d)
    ensures forall y, x :: 0 <= y < |r.board| && 0 <= x < |r.board[y]| && r.board[y][x].Some? ==>
      var src := Sub(Vec(x, y), d); InCoords(s.board, src) && s.board[src.y][src.x] == r.board[y][x]
  {
    forall y, x | 0 <= y < |r.board| && 0 <= x < |r.board[y]| && r.board[y][x].Some?
      ensures var src := Sub(Vec(x, y), d); InCoords(s.board, src) && s.board[src.y][src.x] == r.board[y][x]
    {
      assert BoardOwned(r, y, x);
      assert Placed(s, r.board[y][x].value);
    }
  }

  /** The board is a function of the tiles, so moving every board tile translates it. */
  lemma BoardFollowsTiles(s: Zones, r: Zones, d: Vec)
    requires Valid(s) && Valid(r) && SameShape(s, r) && |r.tiles| == |s.tiles|
    requires forall i :: 0 <= i < |s.tiles| ==> r.tiles[i] == Shifted(s.tiles[i], d)
    ensures r.board == Translate(s.board, d)
  {
    BoardCellsKept(s, r, d);
    BoardCellsCameFrom(s, r, d);
    var tb := Translate(s.board, d);
    forall y | 0 <= y < |r.board| ensures r.board[y] == tb[y] {
      forall x | 0 <= x < |r.board[y]| ensures r.board[y][x] == tb[y][x] {
        var src := Sub(Vec(x, y), d);
        if InCoords(s.board, src) && s.board[src.y][src.x].Some? {
          assert Add(Vec(src.x, src.y), d) == Vec(x, y);
        }
      }
    }
  }

  /** Tiles that keep their tray slots keep the tray row; any new slots are empty. */
  lemma TrayFollowsTiles(s: Zones, r: Zones)
    requires Valid(s) && Valid(r) && SameShape(s, r) && |r.tiles| == |s.tiles|
    requires forall i :: 0 <= i < |s.tiles| ==>
      (r.tiles[i].zone == ZoneTray <==> s.tiles[i].zone == ZoneTray) &&
      (s.tiles[i].zone == ZoneTray ==> r.tiles[i].idx == s.tiles[i].idx)
    ensures TrayExtended(s.tray[0], r.tray[0])
  {
    forall x | 0 <= x < |r.tray[0]| ensures x < |s.tray[0]| ==> r.tray[0][x] == s.tray[0][x]
      ensures x >= |s.tray[0]| ==> r.tray[0][x].None?
    {
      assert TrayOwned(r, x);
      if r.tray[0][x].Some? {
        assert Placed(s, r.tray[0][x].value);
      }
      if x < |s.tray[0]| {
        assert TrayOwned(s, x);
        if s.tray[0][x].Some? {
          assert Placed(r, s.tray[0][x].value);
        }
      }
    }
    assert r.tray[0][..|s.tray[0]|] == s.tray[0];
  }

  /**
   * The effect of `ShiftBoard`: when some board tile would leave the board nothing changes;
   * otherwise every board tile ends one step `d` further on, the board is the old board
   * translated by `d`, no other tile moves, and the tray keeps its slots (it may have grown
   * by empty slots lent to tiles displaced along the way).
   */
  lemma ShiftBoardEffect(s: Zones, d: Vec)
    requires Valid(s)
    ensures var r := ShiftBoard(s, d);
      && (Blocked(s, d) ==> r == s)
      && (!Blocked(s, d) ==>
           && (forall i :: 0 <= i < |s.tiles| ==> r.tiles[i] == Shifted(s.tiles[i], d))
           && r.board == Translate(s.board, d)
           && TrayExtended(s.tray[0], r.tray[0]))
  {
    if !Blocked(s, d) {
      ShiftTiles(s, d);
      var r := ShiftBoard(s, d);
      BoardFollowsTiles(s, r, d);
      TrayFollowsTiles(s, r);
    }
  }
}

=== FILE: words.dfy ===
/**
 * Reading words off a component of a board (game/board.go, board.go): maximal runs of
 * tiles down a column or along a row, the letters they spell, and the sets of tiles that
 * lie in dictionary words and in non-words. The dictionary (`globalDict`, loaded from a
 * word list) is the parameter `dict`; `verifyWord(w)` is `w in dict`.
 */
module Words {
  import opened Vectors
  import opened VecSets

  /** The occupied cells of a board with their letters: `b.value(v)` for each tile `v`. */
  type Letters = map<Vec, string>

  /** The two directions words are read in, `{1, 0}` and `{0, 1}`, in the source's order. */
  const Dirs: seq<Vec> := [Vec(1, 0), Vec(0, 1)]

  predicate IsDir(d: Vec) {
    d == Vec(1, 0) || d == Vec(0, 1)
  }

  /** The tiles of `comp` from `v` on in direction `d`, up to the first gap. */
  function Run(comp: VecSet, v: Vec, d: Vec): (r: seq<Vec>)
    requires IsDir(d)
    ensures forall i :: 0 <= i < |r| ==> r[i] in comp
    decreases |comp|
  {
    if v in comp then [v] + Run(comp - {v}, Add(v, d), d) else []
  }

  /** The letters of a list of tiles, concatenated. */
  function Spell(letters: Letters, ws: seq<Vec>): string
    requires forall i :: 0 <= i < |ws| ==> ws[i] in letters
  {
    if ws == [] then "" else Spell(letters, ws[..|ws| - 1]) + letters[ws[|ws| - 1]]
  }

  /** The tiles of the word that starts at `v`: `v` and the run after it. */
  function RunTiles(comp: VecSet, v: Vec, d: Vec): VecSet
    requires IsDir(d)
  {
    {v} + set w | w in Run(comp - {v}, Add(v, d), d)
  }

  /** The word that starts at `v`: its letter followed by the letters of the run after it. */
  function WordAt(letters: Letters, comp: VecSet, v: Vec, d: Vec): (w: string)
    requires IsDir(d) && v in letters && comp <= letters.Keys
    ensures letters[v] <= w
    ensures Add(v, d) !in comp ==> w == letters[v]
  {
    letters[v] + Spell(letters, Run(comp - {v}, Add(v, d), d))
  }

  /** `v` starts a run of two or more tiles of `comp` in direction `d`. */
  predicate StartsRun(comp: VecSet, v: Vec, d: Vec) {
    v in comp && Sub(v, d) !in comp && Add(v, d) in comp
  }

  /**
   * `u` lies in the word that starts at `v` in direction `d`, and that word is (`ok`) or is
   * not (`!ok`) in the dictionary.
   */
  ghost predicate InWord(letters: Letters, dict: set<string>, comp: VecSet, u: Vec, v: Vec, d: Vec, ok: bool)
    requires comp <= letters.Keys
  {
    IsDir(d) && StartsRun(comp, v, d) && u in RunTiles(comp, v, d) &&
    ((WordAt(letters, comp, v, d) in dict) == ok)
  }

  /** The tiles lying in some word started at one of the pairs `(v, d)` with verdict `ok`. */
  ghost function WordTilesFrom(letters: Letters, dict: set<string>, comp: VecSet, pairs: set<(Vec, Vec)>, ok: bool): VecSet
    requires comp <= letters.Keys
  {
    set u | u in comp && exists p :: p in pairs && InWord(letters, dict, comp, u, p.0, p.1, ok)
  }

  /**
   * The tiles of `comp` lying in some dictionary word (`ok`) or some non-word (`!ok`) of
   * `comp`, reading every maximal run of two or more tiles in either direction.
   */
  ghost function WordTiles(letters: Letters, dict: set<string>, comp: VecSet, ok: bool): VecSet
    requires comp <= letters.Keys
  {
    set u | u in comp && exists v, d :: InWord(letters, dict, comp, u, v, d, ok)
  }

  /** `u` lies in some dictionary word (`ok`) or some non-word (`!ok`) of `comp`. */
  ghost predicate InSomeWord(letters: Letters, dict: set<string>, comp: VecSet, u: Vec, ok: bool)
    requires comp <= letters.Keys
  {
    exists v, d :: InWord(letters, dict, comp, u, v, d, ok)
  }

  /** `valid` and `invalid` are the tiles of the dictionary words and of the non-words of `comp`. */
  ghost predicate Checked(letters: Letters, dict: set<string>, comp: VecSet, valid: VecSet, invalid: VecSet)
    requires comp <= letters.Keys
  {
    && (forall u {:trigger InSomeWord(letters, dict, comp, u, true)} ::
          u in valid <==> u in comp && InSomeWord(letters, dict, comp, u, true))
    && (forall u {:trigger InSomeWord(letters, dict, comp, u, false)} ::
          u in invalid <==> u in comp && InSomeWord(letters, dict, comp, u, false))
  }

  lemma CheckedByTiles(letters: Letters, dict: set<string>, comp: VecSet, valid: VecSet, invalid: VecSet)
    requires comp <= letters.Keys
    requires valid == WordTiles(letters, dict, comp, true) && invalid == WordTiles(letters, dict, comp, false)
    ensures Checked(letters, dict, comp, valid, invalid)
  {
    forall u ensures u in valid <==> u in comp && InSomeWord(letters, dict, comp, u, true) {
    }
    forall u ensures u in invalid <==> u in comp && InSomeWord(letters, dict, comp, u, false) {
    }
  }

  /** Word tiles are tiles of the component. */
  lemma CheckedWithin(letters: Letters, dict: set<string>, comp: VecSet, valid: VecSet, invalid: VecSet)
    requires comp <= letters.Keys && Checked(letters, dict, comp, valid, invalid)
    ensures valid <= comp && invalid <= comp
  {
    forall u | u in valid ensures u in comp {
      assert InSomeWord(letters, dict, comp, u, true);
    }
    forall u | u in invalid ensures u in comp {
      assert InSomeWord(letters, dict, comp, u, false);
    }
  }

  /** A check of a component's words has one outcome: the tiles in valid and in invalid words. */
  lemma CheckedUnique(letters: Letters, dict: set<string>, comp: VecSet,
                      valid: VecSet, invalid: VecSet, valid': VecSet, invalid': VecSet)
    requires comp <= letters.Keys
    requires Checked(letters, dict, comp, valid, invalid) && Checked(letters, dict, comp, valid', invalid')
    ensures valid == valid' && invalid == invalid'
  {
    forall u
      ensures (u in valid <==> u in valid') && (u in invalid <==> u in invalid')
    {
      ghost var inValid := InSomeWord(letters, dict, comp, u, true);
      ghost var inInvalid := InSomeWord(letters, dict, comp, u, false);
    }
  }

  /** The tiles of the valid words and of the invalid words of `comp`, as a pair. */
  ghost function WordSets(letters: Letters, dict: set<string>, comp: VecSet): (r: (VecSet, VecSet))
    requires comp <= letters.Keys
    ensures Checked(letters, dict, comp, r.0, r.1)
    ensures r.0 <= comp && r.1 <= comp
  {
    CheckedByTiles(letters, dict, comp, WordTiles(letters, dict, comp, true), WordTiles(letters, dict, comp, false));
    var valid, invalid :| Checked(letters, dict, comp, valid, invalid);
    CheckedWithin(letters, dict, comp, valid, invalid);
    (valid, invalid)
  }

  lemma SpellAppend(letters: Letters, ws: seq<Vec>, w: Vec)
    requires forall i :: 0 <= i < |ws| ==> ws[i] in letters
    requires w in letters
    ensures Spell(letters, ws + [w]) == Spell(letters, ws) + letters[w]
  {
    assert (ws + [w])[..|ws|] == ws;
  }

  lemma AppendAssoc(a: string, b: string, c: string)
    ensures (a + b) + c == a + (b + c)
  {
  }

  /** The state of `followWord`'s loop: `walked` is the part of the run already read. */
  ghost predicate Walking(comp: VecSet, v: Vec, d: Vec, walked: seq<Vec>, result: VecSet, next: Vec)
    requires IsDir(d)
  {
    && result == {v} + (set w | w in walked)
    && (forall w :: w in result ==> w.x + w.y < next.x + next.y)
    && (forall i :: 0 <= i < |walked| ==> walked[i] in comp)
    && Run(comp - {v}, Add(v, d), d) == walked + Run(comp - result, next, d)
  }

  lemma WalkStep(comp: VecSet, v: Vec, d: Vec, walked: seq<Vec>, result: VecSet, next: Vec)
    requires IsDir(d) && Walking(comp, v, d, walked, result, next) && next in comp
    ensures Walking(comp, v, d, walked + [next], result + {next}, Add(next, d))
    ensures |comp - (result + {next})| < |comp - result|
  {
    var result', next' := result + {next}, Add(next, d);
    assert next !in result;
    assert (comp - result) - {next} == comp - result';
    SubsetCard(comp - result', comp - result);
    var rest := Run(comp - result', next', d);
    assert Run(comp - result, next, d) == [next] + rest;
    assert walked + ([next] + rest) == (walked + [next]) + rest;
    assert (set w | w in walked + [next]) == (set w | w in walked) + {next};
    forall w | w in result'
      ensures w.x + w.y < next'.x + next'.y
    {
      if w != next {
        assert w in result;
      }
    }
    forall i | 0 <= i < |walked + [next]|
      ensures (walked + [next])[i] in comp
    {
      if i < |walked| {
        assert (walked + [next])[i] == walked[i];
      }
    }
  }

  /**
   * The loop of `followWord` (game/board.go:181-187, board.go:143-149): from `v`, each
   * further tile of `comp` in direction `d` is added and its letter appended.
   */
  method ReadRun(letters: Letters, comp: VecSet, v: Vec, d: Vec) returns (result: VecSet, word: string)
    requires IsDir(d) && v in letters && comp <= letters.Keys
    ensures result == RunTiles(comp, v, d)
    ensures word == WordAt(letters, comp, v, d)
  {
    var next := Add(v, d);
    result := {v};
    word := letters[v];
    ghost var walked: seq<Vec> := [];
    assert (set w | w in walked) == {};
    while next in comp
      invariant Walking(comp, v, d, walked, result, next)
      invariant word == letters[v] + Spell(letters, walked)
      decreases |comp - result|
    {
      WalkStep(comp, v, d, walked, result, next);
      SpellAppend(letters, walked, next);
      AppendAssoc(letters[v], Spell(letters, walked), letters[next]);
      result := result + {next};
      word := word + letters[next];
      walked := walked + [next];
      next := Add(next, d);
    }
    assert Run(comp - result, next, d) == [];
    assert Run(comp - {v}, Add(v, d), d) == walked;
  }

  /**
   * `followWord` (game/board.go:172-189, board.go:135-152): when `v + d` is not in `comp`
   * there is no word and the answer is `(true, {})`; otherwise the tiles are `v` and the
   * maximal run after it, and the verdict is the dictionary's on the letters they spell.
   */
  method FollowWord(letters: Letters, dict: set<string>, v: Vec, comp: VecSet, d: Vec)
    returns (isWord: bool, result: VecSet)
    requires IsDir(d) && v in letters && comp <= letters.Keys
    ensures Add(v, d) !in comp ==> isWord && result == {}
    ensures Add(v, d) in comp ==>
      result == RunTiles(comp, v, d) && isWord == (WordAt(letters, comp, v, d) in dict)
  {
    result := {};
    var next := Add(v, d);
    if next !in comp {
      return true, result;
    }
    var word;
    result, word := ReadRun(letters, comp, v, d);
    isWord := word in dict;
  }

  /** Adding a pair that starts no word with the verdict `ok` adds no tile. */
  lemma WordTilesFromSame(letters: Letters, dict: set<string>, comp: VecSet, pairs: set<(Vec, Vec)>,
                          v: Vec, d: Vec, ok: bool)
    requires comp <= letters.Keys && IsDir(d)
    requires !StartsRun(comp, v, d) || (WordAt(letters, comp, v, d) in dict) != ok
    ensures WordTilesFrom(letters, dict, comp, pairs + {(v, d)}, ok) == WordTilesFrom(letters, dict, comp, pairs, ok)
  {
    forall u | u in WordTilesFrom(letters, dict, comp, pairs + {(v, d)}, ok)
      ensures u in WordTilesFrom(letters, dict, comp, pairs, ok)
    {
      var p :| p in pairs + {(v, d)} && InWord(letters, dict, comp, u, p.0, p.1, ok);
      assert p in pairs;
    }
  }

  /** Adding a pair that starts a word with the verdict `ok` adds the tiles of that word. */
  lemma WordTilesFromAdds(letters: Letters, dict: set<string>, comp: VecSet, pairs: set<(Vec, Vec)>,
                          v: Vec, d: Vec, ok: bool)
    requires comp <= letters.Keys && IsDir(d)
    requires StartsRun(comp, v, d) && (WordAt(letters, comp, v, d) in dict) == ok
    ensures WordTilesFrom(letters, dict, comp, pairs + {(v, d)}, ok) ==
      WordTilesFrom(letters, dict, comp, pairs, ok) + RunTiles(comp, v, d)
  {
    var lhs := WordTilesFrom(letters, dict, comp, pairs + {(v, d)}, ok);
    forall u | u in lhs
      ensures u in WordTilesFrom(letters, dict, comp, pairs, ok) + RunTiles(comp, v, d)
    {
      var p :| p in pairs + {(v, d)} && InWord(letters, dict, comp, u, p.0, p.1, ok);
    }
    forall u | u in RunTiles(comp, v, d)
      ensures u in lhs
    {
      assert u in comp;
      assert InWord(letters, dict, comp, u, v, d, ok);
      assert (v, d) in pairs + {(v, d)};
    }
  }

  /** One direction of the inner loop of `findValidScorableComponents`. */
  method CheckFrom(letters: Letters, dict: set<string>, comp: VecSet, v: Vec, direction: Vec,
                   ghost pairs: set<(Vec, Vec)>, valid: VecSet, invalid: VecSet, allValid: bool)
    returns (valid': VecSet, invalid': VecSet, allValid': bool)
    requires comp <= letters.Keys && v in comp && IsDir(direction)
    requires valid == WordTilesFrom(letters, dict, comp, pairs, true)
    requires invalid == WordTilesFrom(letters, dict, comp, pairs, false)
    requires allValid <==> invalid == {}
    ensures valid' == WordTilesFrom(letters, dict, comp, pairs + {(v, direction)}, true)
    ensures invalid' == WordTilesFrom(letters, dict, comp, pairs + {(v, direction)}, false)
    ensures allValid' <==> invalid' == {}
  {
    valid', invalid', allValid' := valid, invalid, allValid;
    if Add(v, Scale(direction, -1)) !in comp {
      var isWord, wordSet := FollowWord(letters, dict, v, comp, direction);
      if Add(v, direction) !in comp {
        WordTilesFromSame(letters, dict, comp, pairs, v, direction, true);
      } else if isWord {
        WordTilesFromAdds(letters, dict, comp, pairs, v, direction, true);
      } else {
        WordTilesFromSame(letters, dict, comp, pairs, v, direction, true);
        WordTilesFromAdds(letters, dict, comp, pairs, v, direction, false);
      }
      if !isWord {
        invalid' := Union(invalid', wordSet);
        allValid' := false;
      } else {
        valid' := Union(valid', wordSet);
      }
      if isWord {
        WordTilesFromSame(letters, dict, comp, pairs, v, direction, false);
      }
    } else {
      WordTilesFromSame(letters, dict, comp, pairs, v, direction, true);
      WordTilesFromSame(letters, dict, comp, pairs, v, direction, false);
    }
  }

  /** Every pair with a tile of `comp` and a direction: the words of `comp` in full. */
  lemma WordTilesFromAll(letters: Letters, dict: set<string>, comp: VecSet, pairs: set<(Vec, Vec)>, ok: bool)
    requires comp <= letters.Keys
    requires forall w, d :: w in comp && IsDir(d) ==> (w, d) in pairs
    ensures WordTilesFrom(letters, dict, comp, pairs, ok) == WordTiles(letters, dict, comp, ok)
  {
    forall u | u in WordTiles(letters, dict, comp, ok)
      ensures u in WordTilesFrom(letters, dict, comp, pairs, ok)
    {
      var v, d :| InWord(letters, dict, comp, u, v, d, ok);
      assert (v, d) in pairs;
    }
  }

  /**
   * The word check of `findValidScorableComponents` (game/board.go:223-238,
   * board.go:166-182): every tile of `comp`, in the set's iteration order, in both
   * directions, follows a word when it has no tile of `comp` before it. `valid` and
   * `invalid` are the tiles of the dictionary words and of the non-words of `comp`;
   * `allValid` (board.go's `isAllValid`) says that there was no non-word.
   */
  method CheckWords(letters: Letters, dict: set<string>, comp: VecSet)
    returns (valid: VecSet, invalid: VecSet, allValid: bool)
    requires comp <= letters.Keys
    ensures Checked(letters, dict, comp, valid, invalid)
    ensures allValid <==> invalid == {}
  {
    valid, invalid, allValid := {}, {}, true;
    ghost var pairs: set<(Vec, Vec)> := {};
    var rest := comp;
    while rest != {}
      invariant rest <= comp
      invariant forall w, d :: w in comp - rest && IsDir(d) ==> (w, d) in pairs
      invariant valid == WordTilesFrom(letters, dict, comp, pairs, true)
      invariant invalid == WordTilesFrom(letters, dict, comp, pairs, false)
      invariant allValid <==> invalid == {}
      decreases |rest|
    {
      var v :| v in rest;
      for k := 0 to |Dirs|
        invariant forall j :: 0 <= j < k ==> (v, Dirs[j]) in pairs
        invariant forall w, d :: w in comp - rest && IsDir(d) ==> (w, d) in pairs
        invariant valid == WordTilesFrom(letters, dict, comp, pairs, true)
        invariant invalid == WordTilesFrom(letters, dict, comp, pairs, false)
        invariant allValid <==> invalid == {}
      {
        valid, invalid, allValid := CheckFrom(letters, dict, comp, v, Dirs[k], pairs, valid, invalid, allValid);
        pairs := pairs + {(v, Dirs[k])};
      }
      assert forall d :: IsDir(d) ==> (v, d) in pairs by {
        assert (v, Dirs[0]) in pairs && (v, Dirs[1]) in pairs;
      }
      rest := rest - {v};
    }
    WordTilesFromAll(letters, dict, comp, pairs, true);
    WordTilesFromAll(letters, dict, comp, pairs, false);
    CheckedByTiles(letters, dict, comp, valid, invalid);
  }
}

=== FILE: wrappers.dfy ===
/** Option, used for the source's null / nil / "no such entry" results. */
module Wrappers {
  datatype Option<+T> = None | Some(value: T)
}
